=== FILE: README.md ===
# personal_agent core, modelled in Dafny

This project models the core of `personal_agent`, a Telegram assistant that
keeps a per-chat conversation store and answers questions about a Notion
workspace with the help of an LLM. It also proves properties of that model.
One Dafny module stands for each core source file:

- **Conversation context.**
  - `ConversationStore` is the SQLite conversation table, modelled as an in-memory append-only table.
  - `ContextModels` covers the formatting and slicing of a conversation context.
  - `ContextManager` covers the session clustering of `get_smart_context`, the chat-scoped anchor lookup and the guards of `get_llm_context`.
  - `ContextTool` is the `context_manager` tool with its mode dispatch and count clamping.
- **Telegram.**
  - `MarkdownFormatter` splits long replies into Telegram-sized chunks.
  - `MessageExtractor` validates incoming updates and applies the chat and user allow-lists.
- **Registries.**
  - `AgentRegistry` holds the specialists.
  - `ToolRegistry` holds the tools and the decisions of `initialize_tools`.
  - `PromptInjection` holds the prompt injectors.
  - `WebRegistry` holds the debug-UI subsections.
  - `AgentBase` covers the agent context and its child traces.
- **Notion pipeline.**
  - `NotionClient` covers the page and database titles, block-to-text extraction, cursor pagination and the recursive page content.
  - `NotionTraversal` walks the workspace graph.
  - `NotionIndexer` makes the reindex decision, keeps the indexing statistics and builds the summaries and topics.
  - `NotionPromptInjector` formats the workspace context for the system prompt.
  - `NotionSearch`, `NotionReader` and `NotionWriter` are the three Notion tools.
  - `NotionIntelligence` is the multi-query search engine, with de-duplication, re-ranking and answer parsing.
  - `NotionSpecialist` routes structured queries to that engine.
- **Debug web UI.**
  - `LogViewer` is the bounded log buffer and its level filter.
  - `ConfigViewer` masks secrets in the displayed configuration.
  - `WebsocketManager` keeps the connection and subscription tables.
  - `DebugTrace` records request traces.
  - `SvgGenerator` lays out the sequence diagram.
- **Configuration and logging.**
  - `ConfigSchema` covers the validators and the integer field bounds.
  - `LoggingSetup` parses the verbosity flags and picks the console level.

Shared modules model Python's own behaviour:
- `Wrappers` provides Option and Result.
- `Strs` covers `join`, `split`, `strip` (with Python's full set of white-space characters), `find`, `rfind`, slicing and ASCII `lower`.
- `PyValues` models JSON-like dynamic values and dictionary lookup.
- `OrderedMaps` models an insertion-ordered `dict`.
- `Sorting` models the stable `sorted` with a key.
- `ToolResults` models `ToolResult`.

State that the source updates in place is modelled as classes whose methods
state the whole new state. Examples are the conversation table, the
registries, the log buffer, the websocket tables, the trace and the traverser.
Loops are methods with invariants, each proved against a specification
function about which the properties are proved as lemmas. Purely
computational code is modelled as functions and lemmas.

External services are inputs of the model:
- the LLM;
- the embedding model and vector store;
- the Notion API;
- the clock;
- fresh ids;
- the content hash;
- websocket delivery.

Each of them is a function value or a map handed to the operation that uses
it. Where an external call can raise, its result is an `Option` or a `Result`,
and the branch the source takes on the exception is modelled.

## Model

| member | source | states |
|---|---|---|
| AgentBase.NewAgentContext | src/agent/base.py:16-36 | a new context has an empty history and metadata and no parent trace, and keeps the chat, user and session ids it was given |
| AgentBase.WithChildTrace | src/agent/base.py:42-52 | the child's parent trace is the parent's trace id; ids, history and metadata are carried over; with a fresh id the child's trace differs from its parent's |
| AgentBase.NewAgent | src/agent/base.py:81-102 | a missing tool list becomes the empty list, a given one is kept; name and description are kept |
| AgentRegistry.DescriptionLine | src/agent/registry.py:75-76 | a bullet starts with "- **name**: " and ends with the agent's description |
| AgentRegistry.DescriptionLines | src/agent/registry.py:74-76 | one bullet per registered agent, in registration order |
| AgentRegistry.AgentRegistry.constructor | src/agent/registry.py:18-20 | a new registry holds no agent |
| AgentRegistry.AgentRegistry.Len | src/agent/registry.py:100-102 | the length is zero exactly when no agent is registered |
| AgentRegistry.AgentRegistry.Register | src/agent/registry.py:22-36 | a taken name fails with the duplicate error and changes nothing; otherwise the agent is added last, is then found under its name, and the count grows by one |
| AgentRegistry.AgentRegistry.Get | src/agent/registry.py:38-47 | None exactly when the name is not registered; a found agent carries that name |
| AgentRegistry.AgentRegistry.ListAgents | src/agent/registry.py:49-55 | one name per agent, each of them registered, in registration order (the i-th name is the i-th registered one) and, in a valid registry, each once |
| AgentRegistry.AgentRegistry.GetAll | src/agent/registry.py:57-63 | one agent per entry, each the one found under its own name, in registration order (the i-th agent is the i-th registered one) and no name twice |
| AgentRegistry.AgentRegistry.GetAgentDescriptions | src/agent/registry.py:65-78 | the fixed "No specialists available." text when empty, otherwise the bullets joined by newlines, the first agent's bullet first |
| AgentRegistry.AgentRegistry.Unregister | src/agent/registry.py:80-93 | true exactly when the name was present; afterwards it is absent, the count drops by one only if something was removed, and every other name keeps its agent |
| AgentRegistry.AgentRegistry.Clear | src/agent/registry.py:95-98 | the registry ends empty |
| ConfigSchema.MakeContextConfig | src/config/config_schema.py:180-206 | accepted exactly when every field, after defaulting to 5, 60, 25 and 20, lies within its bounds; omitted fields take those defaults |
| ConfigSchema.MakeNotionIntelligenceConfig | src/config/config_schema.py:226-262 | accepted exactly when the three counts, defaulting to 3, 10 and 3, lie within 1..5, 1..20 and 1..10; the switches default to on |
| ConfigSchema.MakeNotionWorkspaceConfig | src/config/config_schema.py:68-89 | accepted exactly when the depth, default 10, lies within 1..50; the id lists default to empty |
| ConfigSchema.MakeNotionConfig | src/config/config_schema.py:92-115 | accepted exactly when the default result count, 5 when omitted, lies within 1..20 |
| ConfigSchema.ValidateLanguageCode | src/config/config_schema.py:168-177 | accepted exactly when the code is two letters, and then returned lower-cased; otherwise the invalid-code error naming the value |
| ConfigSchema.Validate | src/config/config_schema.py:349-364 | a webhook without a URL is rejected first; the configuration passes exactly when the provider is one of the three known ones and its own section is present; an unknown provider is named in its error |
| ConfigViewer.MaskSecret | src/web/subsections/config_viewer.py:49-54 | a string longer than four keeps its first four characters and stars the rest, same length; another truthy value becomes "***"; a falsy value is kept |
| ConfigViewer.Mask | src/web/subsections/config_viewer.py:39-62 | dictionaries and lists keep their length and kind; every other value is unchanged |
| ConfigViewer.MaskField | src/web/subsections/config_viewer.py:41-57 | the key is kept; a secret-named key gets the masked value, any other key the recursively masked one |
| ConfigViewer.ConfigToDisplayDict | src/web/subsections/config_viewer.py:24-64 | no configuration shows as an empty dictionary; otherwise the masked configuration |
| ConfigViewer.MaskKeepsShape | src/web/subsections/config_viewer.py:39-62 | masking keeps every dictionary's keys in order, every list's length, and every value under a non-secret key recursively |
| ConfigViewer.MaskSecretTwice | src/web/subsections/config_viewer.py:49-54 | masking a masked secret changes nothing |
| ConfigViewer.MaskIdempotent | src/web/subsections/config_viewer.py:39-62 | masking the display of a configuration again gives the same display |
| ContextModels.RoleLabel | src/context/models.py:40 | "User" exactly for the role "user", "Assistant" for every other role |
| ContextModels.HistoryLine | src/context/models.py:40-41 | a line starts with the speaker label and ": " and the rest of it is exactly the message text |
| ContextModels.HistoryLines | src/context/models.py:38-41 | one history line per message, in message order |
| ContextModels.CollectLines | src/context/models.py:38-41 | the formatting loop yields the history lines of all messages |
| ContextModels.FormatHistory | src/context/models.py:38-42 | the lines joined by newlines; no message gives "", one message gives its line alone |
| ContextModels.FormatForLlm | src/context/models.py:31-42 | the context's messages formatted one per line, "" for an empty context |
| ContextModels.SliceFrom | src/context/models.py:56 | Python's `s[start:]`: a negative start counts from the end and every start is clamped to the sequence |
| ContextModels.RecentMessages | src/context/models.py:44-56 | a positive limit (the context's own when None) keeps exactly the last min(limit, length) messages; limit 0 keeps all, because `[-0:]` is the whole list; a negative limit drops that many from the front |
| ConversationStore.ToMessage | src/context/conversation_db.py:118-129 | a read row keeps chat, user, text, role, time and Telegram id, and has no raw JSON and no reply id |
| ConversationStore.ToMessages | src/context/conversation_db.py:117-131 | one message per fetched row, in row order |
| ConversationStore.ChatRows | src/context/conversation_db.py:110 | exactly the stored rows of the chat, never more rows than stored |
| ConversationStore.InsertByTime | src/context/conversation_db.py:111 | inserting adds one row to the length |
| ConversationStore.InsertByTimeAddsOne | src/context/conversation_db.py:111 | inserting adds exactly the one row and keeps all others |
| ConversationStore.InsertByTimeLowerBound | src/context/conversation_db.py:111 | nothing after an insertion into a time-ordered list is earlier than both the inserted row and the first row |
| ConversationStore.InsertByTimeSorted | src/context/conversation_db.py:111 | inserting into a time-ordered list keeps it in time order |
| ConversationStore.SortByTime | src/context/conversation_db.py:111 | `ORDER BY timestamp ASC`: ascending times and the same rows |
| ConversationStore.Limit | src/context/conversation_db.py:112 | `LIMIT n`: the first min(n, length) rows; a negative limit keeps every row, as SQLite does |
| ConversationStore.FindById | src/context/context_manager.py:110-123 | a found row belongs to the chat and carries the Telegram id, and is the first stored row that does; None exactly when no stored row of the chat has it |
| ConversationStore.FindByIdAppend | src/context/context_manager.py:110-123 | storing a new row never changes a lookup that already succeeds; otherwise the lookup finds the new row exactly when it matches |
| ConversationStore.QueriesChatScoped | src/context/conversation_db.py:107-113 | the recent, full and clustering reads return rows of the queried chat only |
| ConversationStore.AllQueryComplete | src/context/conversation_db.py:133-153 | the full read is in ascending time and holds exactly the chat's rows, each once |
| ConversationStore.RecentQueryEarliest | src/context/conversation_db.py:89-131 | the "recent" read returns at most `limit` rows, ascending, and they are the EARLIEST of the chat: a prefix of the full read, no later than any row left out |
| ConversationStore.ClusteringQueryNewestFirst | src/context/context_manager.py:150-152 | the clustering read is newest first and holds at most `limit` rows |
| ConversationStore.ReverseSorted | src/context/context_manager.py:150-152 | reversing an ascending list gives a newest-first one |
| ConversationStore.LimitNewestFirst | src/context/context_manager.py:150-152 | a prefix of a newest-first list is newest first |
| ConversationStore.SortSortedIdentity | src/context/conversation_db.py:111 | a list already in time order is left unchanged by the stable sort |
| ConversationStore.InsertLast | src/context/conversation_db.py:111 | a row no earlier than all others goes last |
| ConversationStore.ClusteringReversesSaveOrder | src/context/context_manager.py:150-152 | messages saved in time order come back from the clustering read in reverse save order |
| ConversationStore.LimitReverse | src/context/conversation_db.py:111 | the first `limit` rows of the reversed list are the last rows, from the end, and never more than there are |
| ConversationStore.ConversationDB.constructor | src/context/conversation_db.py:14-22 | a new store is empty and not yet initialised |
| ConversationStore.ConversationDB.Initialize | src/context/conversation_db.py:24-55 | afterwards the store is initialised and its rows unchanged; a second call changes nothing |
| ConversationStore.ConversationDB.SaveMessage | src/context/conversation_db.py:57-87 | exactly one row is appended, stamped with the save time, and the store is initialised |
| ConversationStore.ConversationDB.GetRecentMessages | src/context/conversation_db.py:89-131 | the messages of the "recent" read; the rows are unchanged |
| ConversationStore.ConversationDB.GetAllMessages | src/context/conversation_db.py:133-172 | the messages of the full read; the rows are unchanged |
| ConversationStore.ConversationDB.MessagesForClustering | src/context/context_manager.py:150-152 | at most `limit` messages, all of the chat, timestamps non-increasing |
| ConversationStore.ConversationDB.MessageById | src/context/context_manager.py:110-123 | a found message belongs to the chat and has the id, and is the message of the first stored row of that chat with that id (its text, role, user and time included); None exactly when no stored row matches |
| ConversationStore.SavedMessageFound | src/context/context_manager.py:110-123 | right after a message with a Telegram id is saved into a chat where no earlier message has that id, the lookup returns exactly that message with its text, and a chat with no stored messages still finds nothing |
| ContextManager.Session | src/context/context_manager.py:162-180 | the kept messages are a prefix of the newest-first fetch |
| ContextManager.SessionChainAndStop | src/context/context_manager.py:165-180 | every kept message lies within the threshold of the one kept before it (of the reference time for the first), a gap equal to the threshold included, and when the scan stops early the next gap exceeds the threshold |
| ContextManager.SessionLongest | src/context/context_manager.py:165-180 | every prefix of the fetch that forms such a chain is no longer than the session: the session is the longest one |
| ContextManager.InclusiveThreshold | src/context/context_manager.py:174 | a message exactly the threshold before the cursor is kept (the comparison is strict) |
| ContextManager.CursorAdvances | src/context/context_manager.py:180 | the cursor moves to each kept message: messages 50 minutes apart under a 60-minute threshold are all kept, although the oldest lies 100 minutes back |
| ContextManager.WithReplyContext | src/main.py:130-142 | without a replied-to message the text is unchanged; with one, the text is followed by the reply-context marker and ends with the quoted message text |
| ContextManager.ScanSession | src/context/context_manager.py:162-180 | the scanning loop keeps exactly the session |
| ContextManager.ConversationContextManager.constructor | src/context/context_manager.py:13-38 | the store, limits and LLM are kept; the threshold is converted from minutes |
| ContextManager.ConversationContextManager.GetContext | src/context/context_manager.py:40-64 | the context holds the store's "recent" read under the given limit, else the default one, and records that limit; the rows are unchanged |
| ContextManager.ConversationContextManager.SaveMessage | src/context/context_manager.py:66-90 | (corrected, see Findings) the store is passed the five values it takes and exactly one row is appended; `raw_json` and `reply_to_message_id` are not stored |
| ContextManager.BindPositional | src/context/conversation_db.py:57-64 | positional arguments bind exactly when there are at least as many as the parameters without default and no more than the parameters; otherwise a TypeError |
| ContextManager.SaveMessageAsWritten | src/context/context_manager.py:88-90 | as written, the save raises a TypeError and leaves the stored rows unchanged |
| ContextManager.SaveAsWrittenLosesMessage | src/context/context_manager.py:88-90 | the seven arguments are refused where five would bind, so a message saved into an empty store is not returned by the next read |
| ContextManager.ConversationContextManager.GetRecentMessages | src/context/context_manager.py:92-108 | the store's "recent" read under the given limit, else the default one; the rows are unchanged |
| ContextManager.ConversationContextManager.GetMessageById | src/context/context_manager.py:110-123 | a found message belongs to the chat and has the id, and is the message of the first stored row of that chat with that id (its text, role, user and time included); None exactly when no stored row of the chat has it |
| ContextManager.ConversationContextManager.ReplyAnchoredText | src/main.py:130-142 | no reply id, or id 0, leaves the text unchanged; otherwise the text gets the replied-to message when the chat has it |
| ContextManager.ConversationContextManager.GetSmartContext | src/context/context_manager.py:125-190 | the context is the session of the newest-first fetch at the reference time, reversed to oldest first; the count is its length and also its recent limit (10 for an empty fetch); at most the lookback limit of messages, all of the chat |
| ContextManager.ConversationContextManager.GetLlmContext | src/context/context_manager.py:192-256 | no LLM fails before any read; no stored message gives the fixed sentence and 0; otherwise the LLM reply about the formatted history, or the fallback sentence when the reply is empty, with the number of messages read |
| ContextManager.Summarize | src/context/context_manager.py:219-256 | after the read: no messages give the fixed sentence and count 0; otherwise the LLM's reply about the "Label: text" history, or the fallback sentence when the reply is empty, with the number of messages |
| ContextTool.ClampCount | src/tools/context_manager.py:67-79 | rejected exactly when the count is not an int (a bool passes, as in Python) or is below 1; otherwise the count, capped at the maximum |
| ContextTool.ModeDispatch | src/tools/context_manager.py:56-60 | only the exact string "smart" selects smart mode; no mode means recent mode |
| ContextTool.RecentResult | src/tools/context_manager.py:62-110 | recent mode succeeds exactly when the count is valid and the store does not fail; a failure carries no data and an error; a success is a "recent" report without session flag whose count is the number of its lines and, for a non-negative maximum, never exceeds it |
| ContextTool.SmartResult | src/tools/context_manager.py:112-156 | smart mode succeeds exactly when the store does not fail; a failure carries no data and an error; a success is a "smart" report whose count is the number of its lines, whose session flag says whether that count is positive, and which never exceeds a non-negative lookback limit |
| ContextTool.ContextManagerTool.constructor | src/tools/context_manager.py:12-38 | the context manager and limits are kept and the tool is named "get_conversation_history" |
| ContextTool.ContextManagerTool.Execute | src/tools/context_manager.py:40-60 | "smart" gives exactly the smart-mode result over the stored messages and any other mode exactly the recent-mode result, so a valid call on a working store succeeds; a success in smart mode reports mode "smart", any other success mode "recent"; the store is not changed |
| ContextTool.ContextManagerTool.ExecuteRecent | src/tools/context_manager.py:62-110 | an invalid count fails with its error before any read; a store failure gives the prefixed error; otherwise the count, lines and message of the "recent" read under the clamped count; the result is the recent-mode result of the stored messages |
| ContextTool.ContextManagerTool.ExecuteSmart | src/tools/context_manager.py:112-156 | a failure gives the prefixed error; an empty session is a success reported as idle with no lines; otherwise the session's count, its history lines and the "Retrieved N message(s)" message; the result is the smart-mode result of the stored messages |
| MarkdownFormatter.MarkdownToTelegramHtml | src/telegram/markdown_formatter.py:12-32 | None and "" come back unchanged; any other text goes through the conversion |
| MarkdownFormatter.BoundarySplit | src/telegram/markdown_formatter.py:139-156 | the split lies in 1..max_length; a split before the limit lies past half of it and ends at a newline, sentence end or space |
| MarkdownFormatter.BoundarySplitPrefersNewline | src/telegram/markdown_formatter.py:141-144 | when a newline lies past the half mark, the split comes right after the last newline in the window |
| MarkdownFormatter.AfterLast | src/telegram/markdown_formatter.py:146-156 | a split after the last occurrence of a boundary exists exactly when that occurrence starts past half the limit; it is then the end of that occurrence, within the limit |
| MarkdownFormatter.SentenceSplit | src/telegram/markdown_formatter.py:146-151 | the sentence loop finds no split exactly when no sentence end occurs past half the limit; a split it finds lies past the half, within the limit, right after one of the sentence ends |
| MarkdownFormatter.SentenceOrSpaceSplit | src/telegram/markdown_formatter.py:146-156 | the sentence and space fall-backs give a split in 1..max_length, and one before the limit lies past half of it at a boundary |
| MarkdownFormatter.SplitPointAsWritten | src/telegram/markdown_formatter.py:158-165 | the tag guard as written never moves the split past the boundary split |
| MarkdownFormatter.SplitPointAgrees | src/telegram/markdown_formatter.py:158-165 | the corrected split point equals the one as written wherever that one is positive, and keeps the boundary split where it is 0 |
| MarkdownFormatter.AsWrittenStalls | src/telegram/markdown_formatter.py:158-168 | a remainder that opens with an unclosed '<' gets split point 0: the appended chunk is empty and the remainder unchanged, so the loop never ends |
| MarkdownFormatter.AsWrittenStallsAtDefaultLimit | src/telegram/markdown_formatter.py:111-168 | "<" followed by 4096 letters stalls at the default limit of 4096 |
| MarkdownFormatter.SplitPoint | src/telegram/markdown_formatter.py:158-165 | the corrected split is at least 1 and at most the boundary split, so every step makes progress |
| MarkdownFormatter.SplitPointTag | src/telegram/markdown_formatter.py:158-165 | when the corrected split moves back, it lands on a '<' with no '<' or '>' between it and the boundary split |
| MarkdownFormatter.UnclosedTag | src/telegram/markdown_formatter.py:160-163 | a '<' with no later '<' and no '>' before the boundary, as found by the two searches, is a tag left open at the boundary |
| MarkdownFormatter.ChunksStep | src/telegram/markdown_formatter.py:167-168 | each step of the loop appends the text before the split point and continues with the text from it |
| MarkdownFormatter.ChunksReassemble | src/telegram/markdown_formatter.py:130-170 | the chunks joined give back the text, each fits the limit, and none is empty for a non-empty text |
| MarkdownFormatter.SplitMessageForTelegram | src/telegram/markdown_formatter.py:111-170 | text within the limit is one chunk; otherwise the chunks rejoin to the text, each fits the limit and none is empty |
| MessageExtractor.Extract | src/telegram/message_extractor.py:37-115 | a JSON null message, or a null chat or sender inside a message, raises AttributeError, and nothing else raises; an absent message gives None; otherwise empty text, a missing or zero chat or user id, a chat outside a non-empty allow-list, or a user outside a non-empty allow-list give None, and nothing else does; a result copies the fields and is a command exactly when the text starts with "/" |
| ToolRegistry.ConfiguredNames | src/tools/registry.py:46-112 | the history tool exactly when a context manager is given; the Notion search tool exactly when Notion has an API key and its imports succeed; both calendar tools exactly when a credentials file, or an e-mail and key pair, is configured; no other name and no name twice |
| ToolRegistry.RegisterAllSnoc | src/tools/registry.py:16-23 | registering one more name files one more tool on top of the earlier ones |
| ToolRegistry.RegisterAllFromEmpty | src/tools/registry.py:16-23 | distinct names registered into an empty registry are listed in registration order, each with its own tool |
| ToolRegistry.InitializeFromEmpty | src/tools/registry.py:46-112 | on a fresh registry exactly the configured names are registered, in order; with nothing configured the registry stays empty |
| ToolRegistry.ToolRegistry.constructor | src/tools/registry.py:12-14 | a new registry holds no tool |
| ToolRegistry.ToolRegistry.RegisterTool | src/tools/registry.py:16-23 | the tool is filed under its name, replacing an earlier one in place; the size grows only for a new name |
| ToolRegistry.ToolRegistry.GetTool | src/tools/registry.py:25-35 | None exactly when no tool has the name |
| ToolRegistry.ToolRegistry.GetAllTools | src/tools/registry.py:37-44 | one tool per registered name, each registered, no name twice |
| ToolRegistry.ToolRegistry.RegisterNamed | src/tools/registry.py:57-112 | one registration step of the initialisation |
| ToolRegistry.ToolRegistry.RegisterContextTool | src/tools/registry.py:56-63 | the history tool is registered exactly when a context manager is given |
| ToolRegistry.ToolRegistry.RegisterSearchTool | src/tools/registry.py:65-91 | the Notion search tool is registered after the earlier tools exactly when Notion has an API key and its imports succeed |
| ToolRegistry.ToolRegistry.RegisterCalendarTools | src/tools/registry.py:93-112 | the calendar reader and then the writer are registered after the earlier tools exactly when calendar credentials are configured |
| ToolRegistry.ToolRegistry.InitializeTools | src/tools/registry.py:46-112 | the registry ends as the old one with the configured names registered in order |
| PromptInjection.NewInjector | src/agent/prompt_injection.py:24-34 | the priority defaults to 100; name and context are kept |
| PromptInjection.Contributions | src/agent/prompt_injection.py:99-110 | no more texts are collected than there are injectors |
| PromptInjection.ContributionsExact | src/agent/prompt_injection.py:99-110 | every non-empty text of a contributing injector is collected, nothing else, and no collected text is empty |
| PromptInjection.ContributionsSnoc | src/agent/prompt_injection.py:99-110 | one more injector adds its text at the end exactly when it contributes |
| PromptInjection.CollectionOrder | src/agent/prompt_injection.py:97 | the injectors are visited by ascending priority, all of them, and equal priorities keep registration order |
| PromptInjection.PromptInjectionRegistry.constructor | src/agent/prompt_injection.py:72-74 | a new registry holds no injector |
| PromptInjection.PromptInjectionRegistry.Register | src/agent/prompt_injection.py:76-84 | exactly one injector is appended |
| PromptInjection.PromptInjectionRegistry.CollectAllContext | src/agent/prompt_injection.py:86-112 | the contributions in priority order joined by blank lines; "" exactly when nothing contributes |
| PromptInjection.PromptInjectionRegistry.GetInjectors | src/agent/prompt_injection.py:114-116 | a copy equal to the registered injectors |
| PromptInjection.PromptInjectionRegistry.Clear | src/agent/prompt_injection.py:118-120 | no injector remains |
| NotionPromptInjector.TopicText | src/notion/prompt_injector.py:77 | at most the first five topics joined by ", ", or "various topics" when there are none |
| NotionPromptInjector.WorkspaceLineShape | src/notion/prompt_injector.py:73-78 | a line reads "- name: count pages covering topics", with "Unknown" and 0 as defaults |
| NotionPromptInjector.SectionLines | src/notion/prompt_injector.py:62-78 | the heading and a blank line, then the summary block, then the workspace block |
| NotionPromptInjector.SummaryLines | src/notion/prompt_injector.py:66-68 | the summary and a blank line, or nothing without a summary |
| NotionPromptInjector.WorkspaceBlock | src/notion/prompt_injector.py:70-78 | the workspace heading and one line per workspace, or nothing without workspaces |
| NotionPromptInjector.ContextText | src/notion/prompt_injector.py:42-88 | a missing or unreadable file, or one with neither summary nor workspaces, gives None; otherwise the section lines joined, starting with the heading |
| NotionPromptInjector.GetContext | src/notion/prompt_injector.py:42-88 | building the lines one by one gives the context text |
| NotionPromptInjector.MakeInjector | src/notion/prompt_injector.py:32-40 | named "notion" with priority 50; an empty or missing path falls back to the default file |
| NotionTraversal.BuildPath | src/notion/traversal.py:216-229 | the title alone under an empty parent path; otherwise the parent path, " > " and exactly the title |
| NotionTraversal.DatabasePath | src/notion/traversal.py:171 | a database's breadcrumb is its title in square brackets, below the parent path; never empty |
| NotionTraversal.Page | src/notion/traversal.py:70-142 | (corrected, see Findings: a child database is walked) the visited set only grows; a page beyond the depth limit or already visited leaves everything unchanged; an excluded page is only counted as skipped |
| NotionTraversal.Children | src/notion/traversal.py:133-138 | walking a child list only adds to the visited set |
| NotionTraversal.Database | src/notion/traversal.py:144-163 | an already visited database leaves everything unchanged; the visited set only grows |
| NotionTraversal.Entries | src/notion/traversal.py:176-214 | walking the query results only adds to the visited set |
| NotionTraversal.Roots | src/notion/traversal.py:54-60 | the root loop only adds to the visited set |
| NotionTraversal.Databases | src/notion/traversal.py:62-68 | the database loop only adds to the visited set |
| NotionTraversal.PageGrows | src/notion/traversal.py:70-142 | walking a page keeps the earlier yields and yields only fresh, non-excluded ids, each once and marked visited |
| NotionTraversal.ChildrenGrows | src/notion/traversal.py:133-138 | the same for a list of child pages |
| NotionTraversal.DatabaseGrows | src/notion/traversal.py:144-214 | the same for a database |
| NotionTraversal.EntriesGrows | src/notion/traversal.py:176-210 | the same for the entries of a database, excluded and visited entries never yielded |
| NotionTraversal.RootsGrows | src/notion/traversal.py:54-60 | the same for the root pages |
| NotionTraversal.DatabasesGrows | src/notion/traversal.py:62-68 | the same for the configured databases |
| NotionTraversal.TraverseYieldsDistinct | src/notion/traversal.py:44-68 | a whole traversal yields no id twice and never an excluded id, whether root, child page or database entry |
| NotionTraversal.PagePaths | src/notion/traversal.py:116-138 | everything a page walk yields lies below the path it was reached from |
| NotionTraversal.ChildrenPaths | src/notion/traversal.py:135-138 | everything the children yield lies below their parent's path |
| NotionTraversal.DatabasePaths | src/notion/traversal.py:167-210 | everything a database yields lies below its bracketed title, and so below the path it was reached from |
| NotionTraversal.EntriesPaths | src/notion/traversal.py:191-210 | every entry, and everything below it, lies below the database's path |
| NotionTraversal.PageYieldedFirst | src/notion/traversal.py:112-138 | a fetched page is yielded before its descendants, with the path built from its parent's path and its title, and everything after it in its subtree lies below that path |
| NotionTraversal.PageAsWritten | src/notion/traversal.py:87-109 | the source's order; for an id that is not a database it agrees with the corrected walk |
| NotionTraversal.AsWrittenDatabaseYieldsNothing | src/notion/traversal.py:103-108 | as written, a database reached as a page yields nothing and is not even counted as skipped; it is only marked visited |
| NotionTraversal.PageExpandsDatabase | src/notion/traversal.py:106-108 | with `is_database` consulted first, a database reached as a page is walked like a configured one: its first new entry is yielded first, below the bracketed title |
| NotionTraversal.ChildDatabaseExample | src/notion/traversal.py:103-108 | a root "R" whose child is a database with entry "E": the source's order loses "E", the corrected order yields it as "Root > [Tasks] > Entry" |
| NotionTraversal.WorkspaceTraverser.constructor | src/notion/traversal.py:14-34 | a new traverser has visited nothing, yielded nothing and fresh counters |
| NotionTraversal.WorkspaceTraverser.CountSkipped | src/notion/traversal.py:36-42 | exactly one more skipped page is counted |
| NotionTraversal.WorkspaceTraverser.Traverse | src/notion/traversal.py:44-68 | (corrected, see Findings) whatever earlier calls left behind, the new state is the traversal of the workspace under the configuration |
| NotionTraversal.WorkspaceTraverser.EmitPage | src/notion/traversal.py:118-131 | one yield of a page with the progress updates around it |
| NotionTraversal.WorkspaceTraverser.EmitEntry | src/notion/traversal.py:194-203 | one yield of a database entry with the progress updates around it, the depth untouched |
| NotionTraversal.WorkspaceTraverser.TraversePage | src/notion/traversal.py:70-142 | the state after walking a page is the corrected page walk of the state before |
| NotionTraversal.WorkspaceTraverser.TraverseChildren | src/notion/traversal.py:133-138 | the state after the child loop is the children walk of the state before |
| NotionTraversal.WorkspaceTraverser.TraverseDatabase | src/notion/traversal.py:144-214 | the state after walking a database is the database walk of the state before |
| NotionClient.ByNameFirst | src/notion/client.py:58-66 | found exactly when one of the preferred names is a non-empty title property, and then it is the text of the first such name |
| NotionClient.AnyTitleFirst | src/notion/client.py:69-73 | found exactly when some property is a non-empty title, and then it is the text of the first such property |
| NotionClient.PageTitle | src/notion/client.py:45-75 | the first of "title", "Title", "Name", "name" that is a non-empty title property; failing that the first non-empty title property of any name; failing that "Untitled" |
| NotionClient.NamedTitleIsTitleProperty | src/notion/client.py:58-63 | a name the preferred loop accepts is itself one of the page's title properties |
| NotionClient.DatabaseTitle | src/notion/client.py:263-276 | an empty or missing title array gives "Untitled Database"; otherwise the plain text of the array |
| NotionClient.ExtractBlockContent | src/notion/client.py:113-165 | a code block is fenced with its language; any other block with rich text gives that text; without rich text, a child page gives "[Page: title]" and an image its caption form or "[Image]" |
| NotionClient.ContentNonEmptyIffKnown | src/notion/client.py:141-165 | without rich text, the content is non-empty exactly for the block types the extractor knows |
| NotionClient.Fetched | src/notion/client.py:87-111 | the results start with the first response's; a response without `has_more` is the last one read |
| NotionClient.FetchedStops | src/notion/client.py:107-108 | the loop stops at the first response without `has_more`; later responses are never read |
| NotionClient.FetchedConcat | src/notion/client.py:90-109 | while every response has more, the results are all responses' results concatenated in order |
| NotionClient.FetchBlocks | src/notion/client.py:77-111 | fails exactly when the listing of the id raises |
| NotionClient.CollectPages | src/notion/client.py:90-109 | the cursor loop collects the fetched results |
| NotionClient.GetBlocks | src/notion/client.py:77-111 | every block of every response, converted, or the failure of the listing |
| NotionClient.ConvertBlocks | src/notion/client.py:96-105 | the loop converts every raw block, in order, one block each |
| NotionClient.QueryDatabase | src/notion/client.py:220-248 | the entries of every response of the query, in order |
| NotionClient.ChildIds | src/notion/client.py:208-218 | no more ids than blocks |
| NotionClient.ChildIdsMembers | src/notion/client.py:208-218 | exactly the ids of the child page and child database blocks are listed |
| NotionClient.ChildIdsAppend | src/notion/client.py:211-216 | the ids follow block order |
| NotionClient.GetChildPages | src/notion/client.py:198-218 | a failing listing fails with the page id; otherwise the child ids of the page's blocks |
| NotionClient.CollectChildIds | src/notion/client.py:211-216 | the loop collects exactly the child ids, in block order |
| NotionClient.BlockLines | src/notion/client.py:180-193 | a depth beyond 10 appends nothing |
| NotionClient.BlockLinesIndented | src/notion/client.py:180-193 | every appended line is indented by two spaces per level, for a level between the starting one and 10 |
| NotionClient.LinesOfIndented | src/notion/client.py:185-193 | the same for the loop over a block list |
| NotionClient.OwnLineIndented | src/notion/client.py:186-189 | a block's own line, when there is one, is its non-empty content indented by two spaces per level of its depth |
| NotionClient.TopLevelLines | src/notion/client.py:185-189 | without children, the lines are exactly the non-empty contents of the page's blocks, unindented |
| NotionClient.PageContent | src/notion/client.py:167-196 | succeeds exactly when every listing succeeds, and then the lines joined by newlines |
| NotionClient.GetPageContent | src/notion/client.py:167-196 | the page content, or the failure of a listing |
| NotionClient.LinesOfStep | src/notion/client.py:185-193 | one step of the block loop: a failing child listing aborts, otherwise its lines follow the block's own line |
| NotionClient.ProcessBlocks | src/notion/client.py:180-193 | the parts so far followed by the lines of the block, or the failure |
| NotionClient.ProcessBlockList | src/notion/client.py:185-193 | the parts so far followed by the lines of the blocks, or the failure |
| NotionClient.ProcessBlock | src/notion/client.py:186-193 | one block appends its own indented line when its content is non-empty, then its children's lines; a failing child listing aborts with that failure |
| NotionIndexer.Truncate | src/notion/indexer.py:208-210 | content up to 8000 characters is kept; longer content becomes its first 8000 characters and "...", so never more than 8003 |
| NotionIndexer.GenerateSummary | src/notion/indexer.py:196-222 | an empty reply or a failed call gives "Page about {title}"; otherwise the stripped reply to the truncated content |
| NotionIndexer.StorePage | src/notion/indexer.py:246-283 | the page's entry is added or replaced; every other page's entry is unchanged |
| NotionIndexer.StoredPageIsCurrent | src/notion/indexer.py:228-283 | a page just stored is not due for reindexing while its hash stays the same, and is due as soon as the hash differs |
| NotionIndexer.IndexPageResult | src/notion/indexer.py:142-194 | a page whose content cannot be read fails; without force an unchanged page gives None; an indexed page carries its id, title, path, workspace, content hash and summary; None only without force |
| NotionIndexer.Preview | src/notion/indexer.py:353 | a summary of at most 100 characters is kept; a longer one is cut to 100 and marked "..." |
| NotionIndexer.FirstSegment | src/notion/indexer.py:396-398 | the first segment of a path is a prefix of it holding no " > ", and it is the whole path or is followed by " > " |
| NotionIndexer.TopicSet | src/notion/indexer.py:394-399 | exactly the non-empty first segments of the pages' paths |
| NotionIndexer.TopicSetSnoc | src/notion/indexer.py:396-399 | one more page adds its first segment when it is non-empty |
| NotionIndexer.ExtractTopics | src/notion/indexer.py:384-401 | distinct topics, each a first segment of some path, min(10, number of topics) of them |
| NotionIndexer.CollectTopics | src/notion/indexer.py:396-400 | the loop gathers exactly the non-empty first path segments of the pages |
| NotionIndexer.ListTopics | src/notion/indexer.py:401 | listing a set and cutting at 10 gives distinct members of the set, min(10, its size) of them |
| NotionIndexer.WorkspaceReply | src/notion/indexer.py:367-372 | a failed call gives "A Notion workspace containing N pages."; otherwise the stripped reply |
| NotionIndexer.GenerateWorkspaceSummary | src/notion/indexer.py:320-382 | no pages gives count 0, no topics and the "Empty workspace" text; otherwise the count of pages, the reply about at most the first 50 page descriptions, and at most 10 distinct topics taken from the pages |
| NotionIndexer.NonEmptySummaries | src/notion/indexer.py:424-426 | exactly the non-empty workspace summaries |
| NotionIndexer.OverallSummary | src/notion/indexer.py:423-438 | with no workspace the fixed sentence; otherwise the page total and workspace count, followed by the non-empty summaries joined by spaces |
| NotionIndexer.NotionIndexer.constructor | src/notion/indexer.py:38-62 | the environment and the stored entries are kept and no LLM call has been made |
| NotionIndexer.NotionIndexer.IndexPage | src/notion/indexer.py:142-194 | the result of indexing the page; an indexed page is stored and nothing else changes the store; an unchanged page makes no LLM call |
| NotionIndexer.NotionIndexer.IndexWorkspace | src/notion/indexer.py:77-140 | indexed, skipped and failed add up to the number of traversed pages; one error per failure; no page skipped under force; every indexed page is in the store under the workspace name and not due for reindexing |
| NotionIndexer.NotionIndexer.IndexAll | src/notion/indexer.py:105-128 | over pages with distinct ids, the three counts add up to the number of pages, one error line per failure, none skipped under force, and every indexed page stays stored with its hash |
| NotionIndexer.NotionIndexer.IndexOne | src/notion/indexer.py:106-128 | one page adds exactly one to the counts, an error line with a failure, and an indexed page whose stored hash is current, without disturbing the pages indexed before it |
| NotionSearch.FetchPageContent | src/tools/notion_search.py:166-194 | a page is found exactly when the client knows its title and content; it carries the asked id, that title and content; without an index entry the path is the title and the summary is empty, otherwise both come from the stored metadata (path falling back to the title, summary to "") |
| NotionSearch.HitLines | src/tools/notion_search.py:200-211 | a hit gives the bold numbered path (falling back to the title, then "Untitled"), its summary line only when the summary is non-empty, the "Page ID" line and a blank line: four lines with a summary, three without |
| NotionSearch.ResultsLines | src/tools/notion_search.py:200-211 | no hits give no lines; the lines of the hits follow one another in hit order |
| NotionSearch.ResultsLinesCount | src/tools/notion_search.py:200-211 | every hit contributes three or four lines, so the listing has between 3 and 4 lines per hit |
| NotionSearch.AppendHitLines | src/tools/notion_search.py:207-211 | one loop iteration appends exactly the lines of that hit |
| NotionSearch.FormatSearchResults | src/tools/notion_search.py:196-213 | the text is the "Found N matching page(s)" header and the lines of every hit, numbered from 1, joined by newlines; it starts with the header |
| NotionSearch.PageLines | src/tools/notion_search.py:215-233 | the title heading, the path and a blank line; the summary block only when the summary is non-empty; then the content heading and the content: eight lines with a summary, five without |
| NotionSearch.FormatPageContent | src/tools/notion_search.py:215-235 | the text is the page lines joined by newlines and starts with the title heading |
| NotionSearch.NotionSearchTool.constructor | src/tools/notion_search.py:18-46 | the tool keeps the page source, the index and the default result count it is given |
| NotionSearch.NotionSearchTool.Execute | src/tools/notion_search.py:48-140 | a non-empty page_id wins and no search is made: the page is returned when it can be fetched, otherwise the call fails with the "Failed to fetch page <id>" prefix; without page_id or query the call fails with the "Either 'query' or 'page_id'" error; a search happens exactly when there is no page_id and the query is non-empty; no hits succeed with an empty result list and the "No matching pages" message; an index failure fails with the "Search failed" prefix; a fetched page_id succeeds with the page and its formatted text; once hits are found, a truthy read_page whose best hit's page can be fetched succeeds with that page, the other hits and the page's formatted text, and in every other case (read_page falsy, the best hit without a page id, or the fetch failing) the call succeeds with all the hits, their count and the formatted result list; conversely, page-and-matches data only ever comes from that case |
| NotionSearch.NotionSearchTool.ReportHits | src/tools/notion_search.py:111-140 | for a non-empty hit list: the best hit's page, the other hits and the page text when read_page is truthy and the page can be fetched; otherwise all hits, their count and the formatted result list |
| NotionReader.RemoveHyphens | src/tools/notion_reader.py:59 | the result has no hyphen, keeps only characters of the input, and is the input itself when the input has no hyphen |
| NotionReader.NoCharNoContains | src/tools/notion_reader.py:59 | a character that does not occur as a one-character substring is not an element of the string, which links the split on "/" and "?" to the absence of those characters |
| NotionReader.NormalizePageId | src/tools/notion_reader.py:56-59 | an id that does not start with "http" is kept; a URL becomes the part before "?" of its last "/" segment with the hyphens removed, so it holds no "/", "?" or "-" |
| NotionReader.PlainTexts | src/tools/notion_reader.py:72 | one text per rich-text item, "" where plain_text is missing |
| NotionReader.BlockLine | src/tools/notion_reader.py:68-80 | a block gives a line exactly when it is a paragraph, heading_1 or heading_2 with non-empty rich text; the texts are joined by spaces, after "# " or "## " for the headings |
| NotionReader.ContentLines | src/tools/notion_reader.py:66-80 | at most one line per block, in block order |
| NotionReader.ContentLinesFromBlocks | src/tools/notion_reader.py:66-80 | every line comes from some block of the page, and blocks none of which renders give no content |
| NotionReader.NotionReaderTool.constructor | src/tools/notion_reader.py:14-25 | the tool keeps the API it is given |
| NotionReader.NotionReaderTool.ExtractContent | src/tools/notion_reader.py:66-80 | the loop over the blocks collects exactly the content lines |
| NotionReader.NotionReaderTool.Execute | src/tools/notion_reader.py:27-97 | a missing page_id fails with "Missing required parameter: page_id" and a non-string one with "page_id must be a string", both before any API call; otherwise the API is called; a success reports the normalised id and the content lines joined by newlines; an id the API does not know gives no success; a string id whose normalised form has a title and blocks, with a readable title, succeeds with that id, the title, the joined content lines and the "Successfully read" message naming the id, and every other string id fails with the "Failed to read" prefix |
| NotionWriter.Paragraphs | src/tools/notion_writer.py:88-107 | only pieces that are not blank are kept, verbatim and in order, never more than there are pieces |
| NotionWriter.ParagraphsKeepText | src/tools/notion_writer.py:88-107 | every non-blank piece of the content is kept |
| NotionWriter.BlankContentHasNoParagraphs | src/tools/notion_writer.py:86-110 | content made only of blank pieces gives no paragraph, so nothing is appended |
| NotionWriter.NotionWriterTool.constructor | src/tools/notion_writer.py:14-25 | the tool keeps the API it is given |
| NotionWriter.NotionWriterTool.BuildChildren | src/tools/notion_writer.py:89-107 | the loop collects exactly the non-blank paragraphs |
| NotionWriter.NotionWriterTool.WriteContent | src/tools/notion_writer.py:83-126 | once the page exists, empty content or content of blank paragraphs appends nothing; otherwise exactly the non-blank paragraphs are appended to the new page; a failed append fails the call with the "Failed to write to Notion" prefix; a success reports the new page id and the title; truthy non-string content fails with that prefix and appends nothing; any other content succeeds with the page id, the title and the success message unless its append fails |
| NotionWriter.NotionWriterTool.Execute | src/tools/notion_writer.py:27-126 | a missing parent_id, then a missing title, fails with its "Missing required parameter" error before any page is created; a non-string parent_id raises; a created page has the normalised parent and the title; paragraphs are appended only when the content is non-empty and has a non-blank paragraph, and then they are exactly those paragraphs; a failed create or append fails the call; a success reports the new page id and the title; a string parent with a title always creates under the normalised parent; a failed create gives the "Failed to write to Notion" prefix and appends nothing; after a create, truthy non-string content fails with that prefix, and otherwise the call succeeds with the new page id, the title and the success message unless the append fails |
| NotionIntelligence.SlicePrefix | src/agent/specialists/notion_intelligence.py:201 | Python's `s[:n]`: the first n elements for n ≥ 0, and for a negative n everything but the last -n elements |
| NotionIntelligence.SlicePrefixLength | src/agent/specialists/notion_intelligence.py:201-226 | a prefix slice is never longer than the list, nor longer than n when n ≥ 0, which bounds the number of queries issued |
| NotionIntelligence.IdSet | src/agent/specialists/notion_intelligence.py:198-245 | the set of seen ids holds exactly the page ids of the results gathered so far |
| NotionIntelligence.IdSetSnoc | src/agent/specialists/notion_intelligence.py:210-220 | appending a result adds exactly its page id to the seen ids |
| NotionIntelligence.AddHitsProperties | src/agent/specialists/notion_intelligence.py:206-220 | adding one query's hits keeps the earlier results in front and unchanged, keeps the page ids present and pairwise distinct, adds only results built from those hits, and leaves every hit with a page id represented |
| NotionIntelligence.AddHitProperties | src/agent/specialists/notion_intelligence.py:210-220 | one hit keeps the page ids unique and the earlier results in front, adds at most a result built from that hit, and leaves its page id present |
| NotionIntelligence.AddHitsPrefix | src/agent/specialists/notion_intelligence.py:206-220 | adding hits keeps the earlier results in front and unchanged and the page ids present and pairwise distinct |
| NotionIntelligence.AddHitsFromHits | src/agent/specialists/notion_intelligence.py:206-220 | every result added was built from one of the hits |
| NotionIntelligence.AddHitsCovers | src/agent/specialists/notion_intelligence.py:206-220 | every hit with a page id is represented afterwards |
| NotionIntelligence.RunQueriesProperties | src/agent/specialists/notion_intelligence.py:201-222 | running a list of queries, skipping those whose search raises, keeps the earlier results in front, keeps ids unique, and represents every page any successful query found |
| NotionIntelligence.SearchesProperties | src/agent/specialists/notion_intelligence.py:185-249 | the merged results have present, pairwise-distinct page ids in first-seen order; the primary results come first, and every page a primary query found is among the results |
| NotionIntelligence.VectorRanked | src/agent/specialists/notion_intelligence.py:107-119 | one ranked result per raw result, in order, with the vector score as relevance; none when a vector score is outside [0, 1], which the result model refuses (also lines 314-325) |
| NotionIntelligence.RankingFor | src/agent/specialists/notion_intelligence.py:290-294 | the ranking entry found for a page id is one of the reply's entries for that id, the last one when the id repeats; none when no entry names the id |
| NotionIntelligence.LlmRanked | src/agent/specialists/notion_intelligence.py:292-309 | one ranked result per raw result, in order, with the LLM's relevance and reasoning where it gave them and the vector score otherwise; none only when some relevance is outside [0, 1] |
| NotionIntelligence.RerankProperties | src/agent/specialists/notion_intelligence.py:251-325 | re-ranking returns one result per input, in input order, with ids and vector scores kept; inputs the LLM did not score keep their vector score as relevance; an unparsable reply scores every result by its vector score |
| NotionIntelligence.Shortlist | src/agent/specialists/notion_intelligence.py:121-129 | the pages to read are ranked results, sorted by relevance from highest to lowest, min(n, number of results) of them |
| NotionIntelligence.SortedPrefix | src/agent/specialists/notion_intelligence.py:121-129 | a prefix of the relevance-sorted results is ordered from highest to lowest relevance and holds only ranked results |
| NotionIntelligence.ShortlistMostRelevant | src/agent/specialists/notion_intelligence.py:121-129 | no ranked result left out of the pages read is more relevant than one that is read |
| NotionIntelligence.CitationList | src/agent/specialists/notion_intelligence.py:561-571 | one citation per object in the list; entries that are not objects are dropped |
| NotionIntelligence.AllStrings | src/agent/specialists/notion_intelligence.py:578 | a list of follow-up suggestions is accepted only as a list of strings, one per entry |
| NotionIntelligence.ParseSynthesis | src/agent/specialists/notion_intelligence.py:528-580 | the answer is the stripped text before the first "---METADATA---" and pages_analyzed is the count given; the confidence lies in [0, 1]; with a citation list there is one citation per object entry |
| NotionIntelligence.Confidence | src/agent/specialists/notion_models.py:72-74 | an accepted confidence lies in [0, 1]; a float is accepted exactly when it lies there, unchanged |
| NotionIntelligence.DecimalValue | src/agent/specialists/notion_models.py:72-74 | a number string in plain decimal notation has a non-negative value |
| NotionIntelligence.NumericStringConfidence | src/agent/specialists/notion_models.py:72-74 | the string "0.8" is coerced to the confidence 0.8 |
| NotionIntelligence.NonScoreStringRefused | src/agent/specialists/notion_models.py:72-74 | the number string "2", outside the range, and the text "high" are refused |
| NotionIntelligence.ParseWithoutMarker | src/agent/specialists/notion_intelligence.py:541-580 | without the marker the whole stripped text is the answer, with confidence 0.7, no citations, no gaps and no suggestions |
| NotionIntelligence.NonObjectCitationsDropped | src/agent/specialists/notion_intelligence.py:562-563 | a citation list without objects gives no citation |
| NotionIntelligence.RawParts | src/agent/specialists/notion_intelligence.py:504-511 | each result is listed with its numbered title and its path, then its content cut to 1000 characters or else its summary when either is non-empty |
| NotionIntelligence.FormatRawResults | src/agent/specialists/notion_intelligence.py:484-526 | no results give "No results found." with confidence 0 and no pages; otherwise the header and the parts of every result, one citation per result in order, pages_analyzed equal to the number of results, confidence 0.6; the answer equals the function form used by the engine |
| NotionIntelligence.FormatRawList | src/agent/specialists/notion_intelligence.py:504-519 | the loop over the results yields the parts of every result in order and exactly one citation per result, at the same position |
| NotionIntelligence.FormatRawResult | src/agent/specialists/notion_intelligence.py:505-519 | one result gives its numbered heading, its path and its content cut to 1000 characters or else its summary, and a citation whose excerpt is the summary cut to 200 characters |
| NotionIntelligence.FallbackParts | src/agent/specialists/notion_intelligence.py:440-458 | the plain-search answer starts with its introduction, names the best hit and its path, and lists other matches only when there is more than one hit |
| NotionIntelligence.SimpleSearchFallback | src/agent/specialists/notion_intelligence.py:410-482 | a failing search gives confidence 0, no citation and no pages; no hits give the "couldn't find" answer naming the question; otherwise the best hit is the single citation, with confidence 0.7 and one page analysed |
| NotionIntelligence.NotionIntelligenceEngine.constructor | src/agent/specialists/notion_intelligence.py:40-58 | an empty workspace context is replaced by the fixed "No workspace summary available." sentence and a missing configuration by the defaults |
| NotionIntelligence.NotionIntelligenceEngine.AddHitsLoop | src/agent/specialists/notion_intelligence.py:206-220 | the loop over one query's hits computes the same results as the specification, with the seen ids always the ids gathered |
| NotionIntelligence.NotionIntelligenceEngine.RunQueriesLoop | src/agent/specialists/notion_intelligence.py:201-222 | the loop over the queries computes the same results as the specification and issues one search per query |
| NotionIntelligence.NotionIntelligenceEngine.ExecuteSearches | src/agent/specialists/notion_intelligence.py:185-249 | the results are those of the specification and have distinct ids; at most max_queries primary and two fallback searches are made, the fallback ones only when the primary ones found fewer than three pages and fallback queries exist |
| NotionIntelligence.NotionIntelligenceEngine.FetchRelevantContent | src/agent/specialists/notion_intelligence.py:327-349 | one result per input, in order: with the page content when the page can be read, unchanged otherwise; equal to `Enriched` |
| NotionIntelligence.Enriched | src/agent/specialists/notion_intelligence.py:327-349 | one result per input; only the content of a result changes, and it becomes the page's content when the page can be read |
| NotionIntelligence.NotionIntelligenceEngine.Plan | src/agent/specialists/notion_intelligence.py:82-93 | without query expansion the question is the only query; with it the LLM's strategy, or the question itself when the reply does not parse; none when the call raises (also lines 145-183) |
| NotionIntelligence.NotionIntelligenceEngine.ProcessQuery | src/agent/specialists/notion_intelligence.py:60-143 | the answer is the plain search for a disabled engine or a raising intent call, the parsed no-results reply (or the plain search) when the searches found nothing, and otherwise the synthesis (or raw listing) of the relevance shortlist of the ranked pages, or the plain search when the ranking fails; the LLM calls are exactly those, in order, and the pages read exactly the shortlist |
| NotionIntelligence.NotionIntelligenceEngine.SearchAndAnswer | src/agent/specialists/notion_intelligence.py:97-138 | after a planned strategy, the answer, the calls after the intent call and the pages read are those of `process_query` |
| NotionIntelligence.NotionIntelligenceEngine.CallsProperties | src/agent/specialists/notion_intelligence.py:60-138 | no LLM call for a disabled engine; the intent call exactly when the engine and query expansion are on, and alone when it raises; re-ranking only when enabled and more than one page was found; synthesis only when enabled; the no-results call exactly when the searches found nothing; at most three calls |
| NotionIntelligence.NotionIntelligenceEngine.FetchedBounded | src/agent/specialists/notion_intelligence.py:123-128 | no page is read by a disabled engine; never more pages than were found, nor than min(fetch_top_n, max_pages_to_analyze) |
| NotionIntelligence.NotionIntelligenceEngine.AnswerFallback | src/agent/specialists/notion_intelligence.py:78-142 | a disabled engine, and an intent call that raises, answer by the plain search |
| NotionIntelligence.NotionIntelligenceEngine.AnswerFound | src/agent/specialists/notion_intelligence.py:104-138 | once pages are found: the re-rank call exactly when it is enabled and more than one page was found, then the synthesis call when ranking succeeded and synthesis is enabled; the answer is the shortlist answer of the ranking, or the plain search when ranking fails; the pages read are the shortlist of the ranking |
| NotionIntelligence.NotionIntelligenceEngine.PlanStrategy | src/agent/specialists/notion_intelligence.py:83-95 | the direct strategy without query expansion; with it, the intent analysis, falling back to the direct strategy on an unparsed reply, and no strategy only when the call raised |
| NotionIntelligence.NotionIntelligenceEngine.AnswerNoResults | src/agent/specialists/notion_intelligence.py:386-408 | with no page found, the answer is the parsed reply to the no-results prompt, or the plain search when that reply raised or cannot be parsed |
| NotionIntelligence.NotionIntelligenceEngine.RankFound | src/agent/specialists/notion_intelligence.py:104-121 | exactly one re-rank call, made only when re-ranking is enabled and more than one page was found; the LLM ranking then, the vector ranking otherwise; one ranked result per page |
| NotionIntelligence.NotionIntelligenceEngine.AnswerShortlist | src/agent/specialists/notion_intelligence.py:123-138 | exactly the relevance shortlist of min(fetch_top_n, max_pages_to_analyze) pages is read, enriched with page content; the answer is the parsed synthesis reply about those pages (the plain search when it raises or is refused) when synthesis is enabled, else those pages listed raw; one synthesis call exactly when synthesis is enabled |
| NotionIntelligence.NotionIntelligenceEngine.ShortlistAnswerPages | src/agent/specialists/notion_intelligence.py:123-138 | unless the answer is the plain search, pages_analyzed is the number of pages read; listed raw, the answer cites exactly the pages read, in relevance order |
| NotionSpecialist.ParseNotionQuery | src/agent/specialists/notion_specialist.py:101-119 | the parsed message is a query exactly when it is a JSON object with "user_question" or "search_term", and then it is that object |
| NotionSpecialist.UserQuestion | src/agent/specialists/notion_specialist.py:139-141 | the question is "user_question" when non-empty, otherwise "search_term" |
| NotionSpecialist.ParseScope | src/agent/specialists/notion_specialist.py:157-163 | "exploratory" and "comprehensive" select their scope; any other value is PRECISE |
| NotionSpecialist.MergeHint | src/agent/specialists/notion_specialist.py:165-169 | no time filter leaves the hint unchanged; a time filter alone gives "Time filter: X"; both give "hint. Time filter: X" |
| NotionSpecialist.NotionContextText | src/agent/specialists/notion_specialist.py:240-242 | an empty workspace context is replaced by a non-empty default sentence; a non-empty one is kept |
| NotionSpecialist.NotionSpecialistAgent.constructor | src/agent/specialists/notion_specialist.py:28-67 | the agent keeps the engine (present only for a Notion search tool) and the workspace context |
| NotionSpecialist.NotionSpecialistAgent.ProcessWithIntelligenceAsWritten | src/agent/specialists/notion_specialist.py:121-216 | as written, a question with a trace in the context metadata goes to base processing, so the engine answers only when there is no trace |
| NotionSpecialist.NotionSpecialistAgent.ProcessWithIntelligence | src/agent/specialists/notion_specialist.py:121-216 | (corrected, see Findings) an empty question fails without calling the engine; otherwise the response text and structured data are the engine's answer for the question, the merged hint (none when empty), the parsed scope and the page limit, with the context's trace id |
| NotionSpecialist.NotionSpecialistAgent.Process | src/agent/specialists/notion_specialist.py:69-99 | (corrected, see Findings) an unstructured message, or an agent without an engine, goes to base processing unchanged; a structured query with a question is answered by the engine's answer |
| NotionSpecialist.TraceSkipsEngine | src/agent/specialists/notion_specialist.py:171-173 | a question with a trace in the metadata does not reach the engine as written and does in the corrected method |
| LogViewer.LevelRank | src/web/subsections/log_viewer.py:55-57 | DEBUG ranks 10 and CRITICAL 50 in the standard ladder; a name ranks 0 exactly when it is not one of the five level names |
| LogViewer.Newest | src/web/subsections/log_viewer.py:17 | what a deque with maxlen n holds: the newest entries, in emit order, at most n of them, and everything while there are no more than n |
| LogViewer.NewestAppend | src/web/subsections/log_viewer.py:17-31 | appending to a full buffer evicts its oldest entry: keeping the newest n after one more append is the same as keeping the newest n of the whole history |
| LogViewer.ReplayKeepsNewest | src/web/subsections/log_viewer.py:15-31 | after any sequence of emits the buffer holds the newest max_entries entries of the whole history in emit order, never more than max_entries |
| LogViewer.Filtered | src/web/subsections/log_viewer.py:57 | the filter never yields more entries than it is given |
| LogViewer.FilteredMembers | src/web/subsections/log_viewer.py:57 | an entry is kept exactly when it is in the buffer and its level ranks at least the minimum |
| LogViewer.FilteredAppend | src/web/subsections/log_viewer.py:57 | the filter keeps the order: filtering a concatenation is concatenating the filtered parts |
| LogViewer.FilteredZero | src/web/subsections/log_viewer.py:55-57 | a minimum rank of 0, as for an unknown level name, keeps every entry |
| LogViewer.LogsAtLevel | src/web/subsections/log_viewer.py:51-58 | no level, "" or "ALL" returns every entry in order, and so does an unknown level; otherwise exactly the entries whose rank is at least the level's |
| LogViewer.WebLogHandler.constructor | src/web/subsections/log_viewer.py:15-18 | a new handler has an empty buffer of the given capacity |
| LogViewer.WebLogHandler.Emit | src/web/subsections/log_viewer.py:20-31 | the buffer becomes the newest max_entries entries of the old buffer followed by the new entry, so it never exceeds its capacity |
| LogViewer.WebLogHandler.GetLogs | src/web/subsections/log_viewer.py:51-58 | the logs at a level are read from the buffer, which is not changed |
| LogViewer.LogViewerSubsection.constructor | src/web/subsections/log_viewer.py:82-89 | the subsection keeps the handler it is given |
| LogViewer.LogViewerSubsection.HandleAction | src/web/subsections/log_viewer.py:156-163 | "clear" empties the buffer and answers success with an empty list; any other action answers "Unknown action: <action>" and leaves the buffer unchanged (src/web/base.py:79-95) |
| WebsocketManager.RemoveAll | src/web/websocket_manager.py:27-35 | the removed sockets are in neither the connection set nor any subscription set; every other socket keeps its memberships, and the subsections stay |
| WebsocketManager.RemoveAllTwice | src/web/websocket_manager.py:67-83 | disconnecting sockets one after another is disconnecting them all at once |
| WebsocketManager.RemoveNothing | src/web/websocket_manager.py:67-68 | disconnecting no socket changes nothing |
| WebsocketManager.Subscribed | src/web/websocket_manager.py:37-42 | the socket joins the subsection's set, which is created when absent; no other membership and no other subsection changes |
| WebsocketManager.Members | src/web/websocket_manager.py:57-66 | the set of the listed sockets |
| WebsocketManager.Failed | src/web/websocket_manager.py:59-81 | the failed sockets are exactly the targets the send fails for |
| WebsocketManager.ConnectionManager.constructor | src/web/websocket_manager.py:15-19 | both tables start empty |
| WebsocketManager.ConnectionManager.Connect | src/web/websocket_manager.py:21-25 | the socket joins the connection set and the subscriptions are unchanged |
| WebsocketManager.ConnectionManager.Disconnect | src/web/websocket_manager.py:27-35 | afterwards the socket is in neither the connection set nor any subscription set, and nothing else changes |
| WebsocketManager.ConnectionManager.Subscribe | src/web/websocket_manager.py:37-42 | the new tables are the old ones with the socket subscribed to the subsection |
| WebsocketManager.ConnectionManager.Unsubscribe | src/web/websocket_manager.py:44-47 | an unknown subsection is left alone; otherwise only that subsection loses the socket |
| WebsocketManager.ConnectionManager.SendAll | src/web/websocket_manager.py:56-81 | every target is tried once, and the failures collected are exactly the targets the send fails for |
| WebsocketManager.ConnectionManager.DisconnectEach | src/web/websocket_manager.py:67-83 | the clean-up loop disconnects exactly the collected sockets |
| WebsocketManager.ConnectionManager.BroadcastToSubsection | src/web/websocket_manager.py:49-68 | an unknown subsection sends nothing and changes nothing; otherwise exactly the subscribers the send fails for are disconnected |
| WebsocketManager.ConnectionManager.BroadcastAll | src/web/websocket_manager.py:70-83 | exactly the connections the send fails for are disconnected |
| WebsocketManager.ConnectionManager.DisconnectAllConnections | src/web/websocket_manager.py:85-93 | both tables end empty |
| WebsocketManager.ConnectionManager.ConnectionCount | src/web/websocket_manager.py:95-98 | the count is the size of the connection set |
| DebugTrace.ParseType | src/debug/trace.py:10-16 | a value read back as an event type is that type's string value |
| DebugTrace.ParseTypeValue | src/debug/trace.py:10-16 | every event type's value reads back as that type, so the five values are distinct |
| DebugTrace.EventToRecord | src/debug/trace.py:32-43 | the record carries the event type's value, the source, the target and the trace id of the event |
| DebugTrace.EventToSvg | src/debug/trace.py:111-121 | the diagram event carries the type's value, the source, the target and the summary, with the time offset from the start of the trace |
| DebugTrace.MetadataOrEmpty | src/debug/trace.py:85 | missing metadata becomes an empty dictionary; given metadata is kept |
| DebugTrace.RequestTrace.constructor | src/debug/trace.py:47-53 | a new trace has its id and start time, no end time and no events |
| DebugTrace.RequestTrace.AddEvent | src/debug/trace.py:55-88 | exactly one event is appended at the end, earlier events are unchanged, the event carries the trace's id and the given fields, and it is returned |
| DebugTrace.RequestTrace.Complete | src/debug/trace.py:90-92 | the end time is set to now and the events are unchanged |
| DebugTrace.RequestTrace.DurationMs | src/debug/trace.py:94-98 | the duration runs to the end time, or to now while the trace is open |
| DebugTrace.RequestTrace.EventRecords | src/debug/trace.py:130 | one record per event, in event order |
| DebugTrace.RequestTrace.ToDict | src/debug/trace.py:124-133 | event_count is the number of events, and every event is serialised in order with its trace id |
| DebugTrace.RequestTrace.ToSvgData | src/debug/trace.py:100-122 | one diagram event per event, in the same order, with the type's string value |
| SvgGenerator.AddActor | src/debug/svg_generator.py:137-140 | a new non-empty actor joins the end; an empty or known actor changes nothing |
| SvgGenerator.ActorsStartWithDefaults | src/debug/svg_generator.py:131-134 | the actors always begin with "telegram" and "dispatcher" |
| SvgGenerator.ActorsDistinct | src/debug/svg_generator.py:136-140 | no actor appears twice and none is empty |
| SvgGenerator.ActorsCoverEvents | src/debug/svg_generator.py:136-140 | every non-empty source and target of an event is an actor |
| SvgGenerator.ActorsFromEvents | src/debug/svg_generator.py:125-142 | every actor is a default one or the source or target of some event |
| SvgGenerator.ActorsPrefix | src/debug/svg_generator.py:136-140 | later events never reorder the actors already found, so actors appear in order of first appearance |
| SvgGenerator.ExtractActors | src/debug/svg_generator.py:125-142 | the loop computes exactly the actors of the events |
| SvgGenerator.IndexOf | src/debug/svg_generator.py:191-196 | `list.index`: the first position of the actor, or none when it is absent |
| SvgGenerator.SourceLane | src/debug/svg_generator.py:190-193 | a known source takes its own lane; an unknown source takes lane 0 |
| SvgGenerator.TargetLane | src/debug/svg_generator.py:195-198 | a known target takes its own lane; an unknown target takes min(source lane + 1, number of actors - 1) |
| SvgGenerator.LanesInRange | src/debug/svg_generator.py:190-201 | with at least one actor, both lanes of every arrow exist |
| SvgGenerator.Label | src/debug/svg_generator.py:229 | a summary of at most 40 characters is kept; a longer one becomes its first 40 characters and "..." |
| SvgGenerator.Marker | src/debug/svg_generator.py:213-219 | "request", "response", "tool_call" and "delegation" get the green, blue, orange and purple arrowheads; every other type the plain "arrowhead" |
| SvgGenerator.LaneWidth | src/debug/svg_generator.py:65 | the inner width floor-divided by the number of actors, or by 1 when there is none |
| SvgGenerator.DrawEvent | src/debug/svg_generator.py:174-244 | an arrow between the source and target lanes, at its row's height, with its type's marker and its truncated label |
| SvgGenerator.TracePrefix | src/debug/svg_generator.py:248 | the first eight characters of the trace id |
| SvgGenerator.DrawEvents | src/debug/svg_generator.py:76-77 | one arrow per event, in order, each between lanes that exist |
| SvgGenerator.Generate | src/debug/svg_generator.py:47-83 | no events give the placeholder; otherwise the actors are those of the events, the height is (events + 3) rows plus two margins, the lane width is that of the actor count, and there is one arrow per event, in order, between lanes that exist |
| LoggingSetup.FlagLevel | src/utils/logging.py:89-95 | "-v", "-vv" and "-vvv" set verbosity 1, 2 and 3, one less than their length; nothing else is a flag |
| LoggingSetup.Verbosity | src/utils/logging.py:78-96 | the verbosity is at most 3 |
| LoggingSetup.NoFlagQuiet | src/utils/logging.py:88 | without a flag the verbosity is 0 |
| LoggingSetup.LastFlagWins | src/utils/logging.py:89-95 | the last flag sets the verbosity; arguments after it that are not flags change nothing |
| LoggingSetup.ParseVerbosity | src/utils/logging.py:78-96 | the loop over the arguments computes exactly the verbosity they ask for |
| LoggingSetup.ConsoleLevel | src/utils/logging.py:25-32 | verbosity 0 shows WARNING, 1 INFO, anything else DEBUG |
| LoggingSetup.ConsoleLevelMonotone | src/utils/logging.py:25-32 | more verbosity never raises the console level, so it never shows fewer records |
| WebRegistry.MetadataOf | src/web/base.py:97-104 | the metadata carries the subsection's name and priority |
| WebRegistry.ByPriority | src/web/registry.py:56 | sorted by ascending priority, a permutation of the input, with the entries of each priority in their original order |
| WebRegistry.SubsectionRegistry.constructor | src/web/registry.py:40-41 | a new registry is empty |
| WebRegistry.SubsectionRegistry.Register | src/web/registry.py:43-48 | a new name goes last and an existing name keeps its place with the instance replaced, so the count is unchanged; get then finds the new instance and every other name is unaffected |
| WebRegistry.SubsectionRegistry.Get | src/web/registry.py:50-52 | none exactly when the name was never registered |
| WebRegistry.SubsectionRegistry.GetAll | src/web/registry.py:54-56 | one instance per name, sorted by ascending priority, a permutation of the registered instances, with ties in registration order |
| WebRegistry.SubsectionRegistry.GetMetadataList | src/web/registry.py:58-60 | one metadata entry per subsection, in `get_all` order |
| OrderedMaps.Put | src/web/registry.py:47 | a dict assignment: a new key goes last, an existing key keeps its place with the value replaced |
| OrderedMaps.PutGet | src/web/registry.py:47-52 | after an assignment the key maps to the new value and every other key to its old one |
| OrderedMaps.PutSize | src/web/registry.py:47 | an assignment adds one entry for a new key and none for an existing key |
| Sorting.SortBy | src/web/registry.py:56 | `sorted` with a key: ordered by key and a permutation of the input |
| Sorting.SortStable | src/web/registry.py:56 | the sort is stable: the entries with any one key keep their relative order |

## Left out

- The Telegram, Notion, LLM, embedding and vector-store clients, SQLite, the file system, the clock, `uuid` and `hashlib` are not modelled. Each appears as an input value: a map, a function value or a parameter.
- Concurrency and `asyncio` are not modelled, because every modelled coroutine runs to completion between awaits that touch no shared model state.
- ContextManager.ConversationContextManager.SaveMessage: models the corrected call, which passes the store its five values. As written, src/context/context_manager.py:88-90 passes seven positional arguments to the five-parameter `save_message` of src/context/conversation_db.py:57-64, which raises a TypeError and stores nothing (see Findings). `raw_json` and `reply_to_message_id` are dropped because the table has no columns for them.
- ConversationStore.ConversationDB.MessagesForClustering models `get_messages_for_clustering`, and ConversationStore.ConversationDB.MessageById models `get_message_by_id`. The manager calls both, but src/context/conversation_db.py does not define them. They are modelled as a newest-first chat read and a chat-scoped lookup, which is what the manager relies on. When several stored messages of a chat share a Telegram id, the lookup returns the first one stored.
- ConversationStore: rows with equal timestamps come back in insertion order. SQLite leaves their order unspecified.
- ConversationStore: timestamps are integers, not the ISO-8601 strings the table stores. Those strings sort in time order.
- MarkdownFormatter.SplitMessageForTelegram requires max_length ≥ 1. With 0 the source loops forever, since every chunk is empty.
- MarkdownFormatter.MarkdownToTelegramHtml models only the empty-input guard. The regular-expression rewriting is an input.
- ToolRegistry.ToolRegistry.InitializeTools takes the configuration and the context manager, as src/tools/registry.py:46-48 declares. The extra argument passed at src/main.py:304 is not modelled.
- The calendar tools and the rest of the tool implementations outside the Notion tools and the context tool are not part of this model.
- NotionClient.ExtractBlockContent has no counterpart for the second `code` branch at src/notion/client.py:149-154. Code blocks already return at lines 127-132, so that branch can never be reached.
- Strs.Lower and the `isalpha` checks are ASCII-only. Python's are Unicode-aware.
- NotionTraversal: `is_database` is modelled as membership of the workspace's database map. A `KeyError` on a malformed block (missing `id` or `type`) is not modelled.
- NotionClient.Fetched: a `has_more` flag on the last page the API returned is read as the end of the listing.
- NotionTraversal: a database query that raises part-way is modelled by `DatabaseInfo.complete`. When it is false, the walk counts one skipped item after the entries it did get.
- Exception messages are modelled by their fixed prefixes. The text of the caught exception is not modelled.
- NotionIndexer: the SHA-256 content hash is an input function. `delete_stale_pages`, `get_index_stats` and the JSON file write of `save_workspace_info` are not modelled, only the overall summary text it writes.
- ConfigSchema: pydantic validation is modelled as the bounds of the integer fields and the named validators, and a failure reports only the field it concerns. Float fields and the timezone validator are not part of this model.
- NotionSpecialist: a query's text fields that are not strings are read as absent. A non-integer `max_pages_to_analyze` reads as the default 5.
- NotionIntelligence.Confidence: a numeric string is coerced only in plain decimal notation: digits with an optional fractional part. Pydantic's other float spellings (a sign, an exponent, surrounding white space, "inf", "nan") are refused, where pydantic would coerce them.
- NotionIntelligence: the JSON extraction of LLM replies (`_extract_json`) is an input function. The prompt texts, the `metadata` field of a raw search result and the reader's page `properties` are not modelled.
- NotionSpecialist: the base specialist's own pydantic-ai processing appears only as the question it would be handed. The timezone line of `get_system_prompt` is not modelled.
- DebugTrace: times are whole milliseconds from an input clock. Durations are not formatted as floats.
- SvgGenerator: the SVG text is not modelled. This covers styles, floating-point lane coordinates and `html.escape`.
- WebsocketManager: the websocket accept and close handshakes and the JSON encoding of messages are not modelled. Delivery is an input predicate.
- LogViewer: the asynchronous broadcast callback of `emit` and its `handleError` path are not modelled.
- ConfigViewer: `model_dump` and its exception path are not modelled. The configuration arrives already dumped.
- LoggingSetup: the creation of the handlers and the log file is not modelled.
- NotionWriter: a title that is not a string is passed on unchanged. The success message formats only string titles.
- The rate-limiting sleeps and the progress callbacks of the traversal and the indexer are not modelled.

## Findings

| source | as written | input that shows it | evidently intended | confidence | as-written member | corrected member |
|---|---|---|---|---|---|---|
| src/telegram/markdown_formatter.py:158-168 | When the text before the split point ends inside an unclosed tag, the split point moves back to that tag's `<`. If the `<` is the first character of the remaining text, the split point becomes 0, an empty chunk is appended and the remaining text never shrinks, so the loop never ends. | A reply of "<" followed by 4096 letters at the default limit of 4096. | Split before the tag only when that leaves a non-empty chunk, otherwise keep the split point, so every chunk is non-empty and the chunks reassemble the text. | not executed | `MarkdownFormatter.SplitPointAsWritten`, `MarkdownFormatter.AsWrittenStalls`, `MarkdownFormatter.AsWrittenStallsAtDefaultLimit` | `MarkdownFormatter.SplitPoint`, `MarkdownFormatter.SplitMessageForTelegram`, `MarkdownFormatter.ChunksReassemble` |
| src/notion/traversal.py:103-108 | `_traverse_page` marks the id as visited and only then hands a database id to `_traverse_database`. That method returns at once for a visited id (lines 159-161), so a child database is never walked and its entries are never yielded. | Root page "R" with child database "D" holding entry "E": the walk yields "R" only. | Walk the database, yielding its entries. | not executed | `NotionTraversal.PageAsWritten`, `NotionTraversal.AsWrittenDatabaseYieldsNothing`, `NotionTraversal.ChildDatabaseExample` | `NotionTraversal.Page`, `NotionTraversal.PageExpandsDatabase` |
| src/agent/specialists/notion_specialist.py:171-173 | With a trace in the context metadata, the specialist calls `set_trace` on the intelligence engine, which has no such method. The AttributeError is caught and the query falls back to base processing. | Query {"user_question": "q"} with context metadata {"trace": "t"}. | Answer with the intelligence engine whether or not a trace is present. | not executed | `NotionSpecialist.NotionSpecialistAgent.ProcessWithIntelligenceAsWritten`, `NotionSpecialist.TraceSkipsEngine` | `NotionSpecialist.NotionSpecialistAgent.ProcessWithIntelligence` |
| src/context/context_manager.py:88-90 | The manager's `save_message` passes seven positional arguments (adding `raw_json` and `reply_to_message_id`) to the store's `save_message` of src/context/conversation_db.py:57-64, which takes five. Every call raises a TypeError before anything is stored, so the bot's message handlers end in their error reply. | Any call, e.g. saving "hello" as a user message in chat 1 of an empty store: the next read of chat 1 returns nothing. | Pass the five values the store takes, so the message is stored. | not executed | `ContextManager.SaveMessageAsWritten`, `ContextManager.SaveAsWrittenLosesMessage` | `ContextManager.ConversationContextManager.SaveMessage` |

=== FILE: agent_base.dfy ===
/** The agent context passed between the dispatcher and the specialists, the
    structured agent result, and the fields every agent is built with
    (src/agent/base.py). Trace ids come from `uuid.uuid4()`; the model takes
    the fresh id as a parameter. */
module AgentBase {
  import opened Wrappers
  import opened PyValues

  datatype AgentContext = AgentContext(
    chat_id: int,
    user_id: int,
    session_id: string,
    message_history: seq<seq<(string, string)>>,
    metadata: seq<(string, Value)>,
    parent_trace_id: Option<string>,
    trace_id: string)

  /** `AgentContext(chat_id, user_id, session_id)` with every default. */
  function NewAgentContext(chat_id: int, user_id: int, session_id: string, fresh_id: string): (c: AgentContext)
    ensures c.message_history == [] && c.metadata == []
    ensures c.parent_trace_id.None?
    ensures c.chat_id == chat_id && c.user_id == user_id && c.session_id == session_id
  {
    AgentContext(chat_id, user_id, session_id, [], [], None, fresh_id)
  }

  /** `AgentContext.with_child_trace`: the child points back at its parent's
      trace, carries copies of the history and metadata, and has its own id. */
  function WithChildTrace(ctx: AgentContext, fresh_id: string): (child: AgentContext)
    ensures child.parent_trace_id == Some(ctx.trace_id)
    ensures child.chat_id == ctx.chat_id && child.user_id == ctx.user_id
    ensures child.session_id == ctx.session_id
    ensures child.message_history == ctx.message_history && child.metadata == ctx.metadata
    ensures fresh_id != ctx.trace_id ==> child.trace_id != child.parent_trace_id.value
  {
    AgentContext(ctx.chat_id, ctx.user_id, ctx.session_id, ctx.message_history,
                 ctx.metadata, Some(ctx.trace_id), fresh_id)
  }

  datatype AgentResult = AgentResult(
    success: bool,
    response_text: string,
    structured_data: Option<seq<(string, Value)>>,
    agent_name: string,
    trace_id: string,
    tool_calls_made: seq<string>)

  /** What the registry and the dispatcher see of an agent: its name, its
      description, its base prompt and the names of its tools. */
  datatype Agent = Agent(name: string, description: string, system_prompt: string, tools: seq<string>)

  /** `BaseAgent.__init__`: a missing tool list becomes the empty list. */
  function NewAgent(name: string, description: string, system_prompt: string, tools: Option<seq<string>>): (a: Agent)
    ensures tools.None? ==> a.tools == []
    ensures tools.Some? ==> a.tools == tools.value
    ensures a.name == name && a.description == description
  {
    Agent(name, description, system_prompt, tools.GetOr([]))
  }
}

=== FILE: agent_registry.dfy ===
/** The registry of specialist agents the dispatcher consults
    (src/agent/registry.py): an insertion-ordered dictionary from name to
    agent that refuses a second agent under the same name. */
module AgentRegistry {
  import opened Wrappers
  import opened Strs
  import opened AgentBase
  import OrderedMaps

  const NoSpecialistsText: string := "No specialists available."

  function DuplicateError(name: string): string {
    "Agent '" + name + "' is already registered"
  }

  /** One markdown bullet per agent: "- **name**: description". */
  function DescriptionLine(entry: (string, Agent)): (r: string)
    ensures StartsWith(r, "- **" + entry.0 + "**: ")
    ensures EndsWith(r, entry.1.description)
  {
    var prefix := "- **" + entry.0 + "**: ";
    assert (prefix + entry.1.description)[..|prefix|] == prefix;
    assert (prefix + entry.1.description)[|prefix|..] == entry.1.description;
    prefix + entry.1.description
  }

  function DescriptionLines(entries: seq<(string, Agent)>): (r: seq<string>)
    ensures |r| == |entries|
    ensures forall i :: 0 <= i < |entries| ==> r[i] == DescriptionLine(entries[i])
  {
    if entries == [] then [] else [DescriptionLine(entries[0])] + DescriptionLines(entries[1..])
  }

  class AgentRegistry {
    var agents: seq<(string, Agent)>

    /** Names are distinct and every agent is filed under its own name. */
    ghost predicate Valid()
      reads this
    {
      OrderedMaps.DistinctKeys(agents) &&
      forall i :: 0 <= i < |agents| ==> agents[i].1.name == agents[i].0
    }

    constructor()
      ensures Valid() && agents == []
    {
      agents := [];
    }

    /** `name in registry` */
    predicate Contains(name: string)
      reads this
    {
      OrderedMaps.HasKey(agents, name)
    }

    /** `len(registry)` */
    function Len(): (n: nat)
      reads this
      ensures n == 0 <==> agents == []
    {
      |agents|
    }

    /** `register`: a new name is added last; a name already present is an
        error that leaves the registry as it was. */
    method Register(agent: Agent) returns (r: Result<(), string>)
      requires Valid()
      modifies this
      ensures Valid()
      ensures r.Failure? <==> old(Contains(agent.name))
      ensures r.Failure? ==> r.error == DuplicateError(agent.name) && agents == old(agents)
      ensures r.Success? ==> agents == old(agents) + [(agent.name, agent)]
      ensures r.Success? ==> Get(agent.name) == Some(agent) && Len() == old(Len()) + 1
    {
      if OrderedMaps.HasKey(agents, agent.name) {
        return Failure(DuplicateError(agent.name));
      }
      OrderedMaps.PutGet(agents, agent.name, agent, agent.name);
      agents := agents + [(agent.name, agent)];
      r := Success(());
    }

    /** `get`: the agent registered under the name, or None. */
    function Get(name: string): (r: Option<Agent>)
      requires Valid()
      reads this
      ensures r.None? <==> !Contains(name)
      ensures r.Some? ==> r.value.name == name
    {
      OrderedMaps.Get(agents, name)
    }

    /** `list_agents` and `get_all`: names and agents in registration order. */
    function ListAgents(): (names: seq<string>)
      reads this
      ensures |names| == Len()
      ensures forall i :: 0 <= i < |names| ==> Contains(names[i])
      ensures forall i :: 0 <= i < |names| ==> names[i] == agents[i].0
      ensures Valid() ==> forall i, j :: 0 <= i < j < |names| ==> names[i] != names[j]
    {
      OrderedMaps.Keys(agents)
    }

    function GetAll(): (all: seq<Agent>)
      requires Valid()
      reads this
      ensures |all| == Len()
      ensures forall i :: 0 <= i < |all| ==> Get(all[i].name) == Some(all[i])
      ensures forall i :: 0 <= i < |all| ==> all[i] == agents[i].1
      ensures forall i, j :: 0 <= i < j < |all| ==> all[i].name != all[j].name
    {
      var all := OrderedMaps.Values(agents);
      forall i | 0 <= i < |all| ensures OrderedMaps.Get(agents, all[i].name) == Some(all[i]) {
        var g := OrderedMaps.Get(agents, all[i].name);
        var j :| 0 <= j < |agents| && agents[j] == (all[i].name, g.value);
        assert agents[j].0 == agents[i].0;
      }
      all
    }

    /** `get_agent_descriptions`: the bullet list in registration order, or
        a fixed sentence when nothing is registered. */
    method GetAgentDescriptions() returns (text: string)
      ensures agents == [] ==> text == NoSpecialistsText
      ensures agents != [] ==> text == Join(DescriptionLines(agents), "\n")
      ensures agents != [] ==> StartsWith(text, DescriptionLine(agents[0]))
    {
      if agents == [] {
        return NoSpecialistsText;
      }
      var lines: seq<string> := [];
      var i := 0;
      while i < |agents|
        invariant 0 <= i <= |agents|
        invariant lines == DescriptionLines(agents[..i])
      {
        lines := lines + ["- **" + agents[i].0 + "**: " + agents[i].1.description];
        i := i + 1;
      }
      assert agents[..i] == agents;
      text := Join(lines, "\n");
    }

    /** `unregister`: True and the name removed exactly when it was
        present; otherwise False and nothing changes. */
    method Unregister(name: string) returns (removed: bool)
      requires Valid()
      modifies this
      ensures Valid()
      ensures removed <==> old(Contains(name))
      ensures !Contains(name)
      ensures agents == OrderedMaps.Remove(old(agents), name)
      ensures Len() == if removed then old(Len()) - 1 else old(Len())
      ensures forall other :: other != name ==> Get(other) == old(Get(other))
    {
      removed := OrderedMaps.HasKey(agents, name);
      ghost var before := agents;
      forall other ensures other != name ==> OrderedMaps.Get(OrderedMaps.Remove(before, name), other) == OrderedMaps.Get(before, other) {
        OrderedMaps.RemoveGet(before, name, other);
      }
      OrderedMaps.RemoveGet(before, name, name);
      agents := OrderedMaps.Remove(agents, name);
    }

    /** `clear` */
    method Clear()
      modifies this
      ensures Valid() && Len() == 0
    {
      agents := [];
    }
  }
}

=== FILE: config_schema.dfy ===
/** The configuration schema (src/config/config_schema.py): the records the
    application is configured with, the bounds pydantic enforces on their
    integer fields, the language-code validator and the cross-field check
    `AppConfig.validate`. Floating-point fields and the zoneinfo timezone
    check are not part of this model. */
module ConfigSchema {
  import opened Wrappers
  import opened Strs

  datatype TelegramConfig = TelegramConfig(
    bot_token: string,
    mode: string,
    webhook_url: Option<string>,
    require_mention: bool,
    bot_username: Option<string>)

  datatype OllamaConfig = OllamaConfig(base_url: string, model: string, max_tokens: int)
  datatype OpenAIConfig = OpenAIConfig(api_key: string, model: string, max_tokens: int)
  datatype GeminiConfig = GeminiConfig(api_key: string, model: string, max_tokens: int)

  datatype LLMConfig = LLMConfig(
    provider: string,
    ollama: Option<OllamaConfig>,
    openai: Option<OpenAIConfig>,
    gemini: Option<GeminiConfig>)

  datatype NotionWorkspaceConfig = NotionWorkspaceConfig(
    name: string,
    root_page_ids: seq<string>,
    database_ids: seq<string>,
    exclude_page_ids: seq<string>,
    max_depth: int)

  datatype NotionConfig = NotionConfig(
    api_key: string,
    workspaces: seq<NotionWorkspaceConfig>,
    index_collection: string,
    search_results_default: int)

  datatype GoogleCalendarConfig = GoogleCalendarConfig(
    credentials_path: Option<string>,
    service_account_email: Option<string>,
    service_account_key: Option<string>)

  datatype ToolsConfig = ToolsConfig(
    notion: Option<NotionConfig>,
    google_calendar: Option<GoogleCalendarConfig>)

  datatype ContextConfig = ContextConfig(
    max_history: int,
    time_gap_threshold_minutes: int,
    lookback_limit: int,
    message_limit: int)

  datatype NotionIntelligenceConfig = NotionIntelligenceConfig(
    enabled: bool,
    query_expansion: bool,
    llm_reranking: bool,
    answer_synthesis: bool,
    max_queries: int,
    rerank_top_n: int,
    fetch_top_n: int)

  datatype AppConfig = AppConfig(
    telegram: TelegramConfig,
    allowed_conversations: seq<int>,
    allowed_users: seq<int>,
    llm: LLMConfig,
    tools: ToolsConfig)

  /** `Field(ge=lo, le=hi)` */
  predicate InRange(v: int, lo: int, hi: int) {
    lo <= v <= hi
  }

  /** The pydantic message is not modelled; only that validation failed. */
  const FieldError: string := "value out of range"

  /** `ContextConfig(...)`: omitted fields take their defaults (5, 60, 25,
      20) and every field must lie in its bounds. */
  function MakeContextConfig(max_history: Option<int>, time_gap_threshold_minutes: Option<int>,
                             lookback_limit: Option<int>, message_limit: Option<int>): (r: Result<ContextConfig, string>)
    ensures r.Success? <==>
      InRange(max_history.GetOr(5), 1, 50) && InRange(time_gap_threshold_minutes.GetOr(60), 15, 180) &&
      InRange(lookback_limit.GetOr(25), 10, 100) && InRange(message_limit.GetOr(20), 1, 100)
    ensures r.Success? ==>
      r.value == ContextConfig(max_history.GetOr(5), time_gap_threshold_minutes.GetOr(60),
                               lookback_limit.GetOr(25), message_limit.GetOr(20))
    ensures max_history.None? && time_gap_threshold_minutes.None? && lookback_limit.None? && message_limit.None? ==> r.Success?
  {
    var c := ContextConfig(max_history.GetOr(5), time_gap_threshold_minutes.GetOr(60),
                           lookback_limit.GetOr(25), message_limit.GetOr(20));
    if InRange(c.max_history, 1, 50) && InRange(c.time_gap_threshold_minutes, 15, 180) &&
       InRange(c.lookback_limit, 10, 100) && InRange(c.message_limit, 1, 100)
    then Success(c) else Failure(FieldError)
  }

  /** `NotionIntelligenceConfig(...)`: switches default to on, and the counts
      default to 3, 10 and 3 within 1..5, 1..20 and 1..10. */
  function MakeNotionIntelligenceConfig(enabled: Option<bool>, query_expansion: Option<bool>,
                                        llm_reranking: Option<bool>, answer_synthesis: Option<bool>,
                                        max_queries: Option<int>, rerank_top_n: Option<int>,
                                        fetch_top_n: Option<int>): (r: Result<NotionIntelligenceConfig, string>)
    ensures r.Success? <==>
      InRange(max_queries.GetOr(3), 1, 5) && InRange(rerank_top_n.GetOr(10), 1, 20) && InRange(fetch_top_n.GetOr(3), 1, 10)
    ensures r.Success? ==>
      r.value.enabled == enabled.GetOr(true) && r.value.query_expansion == query_expansion.GetOr(true) &&
      r.value.llm_reranking == llm_reranking.GetOr(true) && r.value.answer_synthesis == answer_synthesis.GetOr(true) &&
      r.value.max_queries == max_queries.GetOr(3) && r.value.rerank_top_n == rerank_top_n.GetOr(10) &&
      r.value.fetch_top_n == fetch_top_n.GetOr(3)
  {
    var c := NotionIntelligenceConfig(enabled.GetOr(true), query_expansion.GetOr(true), llm_reranking.GetOr(true),
                                      answer_synthesis.GetOr(true), max_queries.GetOr(3), rerank_top_n.GetOr(10),
                                      fetch_top_n.GetOr(3));
    if InRange(c.max_queries, 1, 5) && InRange(c.rerank_top_n, 1, 20) && InRange(c.fetch_top_n, 1, 10)
    then Success(c) else Failure(FieldError)
  }

  /** `NotionWorkspaceConfig(...)`: the lists default to empty and the depth
      to 10, within 1..50. */
  function MakeNotionWorkspaceConfig(name: string, root_page_ids: Option<seq<string>>, database_ids: Option<seq<string>>,
                                     exclude_page_ids: Option<seq<string>>, max_depth: Option<int>): (r: Result<NotionWorkspaceConfig, string>)
    ensures r.Success? <==> InRange(max_depth.GetOr(10), 1, 50)
    ensures r.Success? ==>
      r.value.name == name && r.value.max_depth == max_depth.GetOr(10) &&
      r.value.root_page_ids == root_page_ids.GetOr([]) && r.value.database_ids == database_ids.GetOr([]) &&
      r.value.exclude_page_ids == exclude_page_ids.GetOr([])
  {
    var depth := max_depth.GetOr(10);
    if InRange(depth, 1, 50)
    then Success(NotionWorkspaceConfig(name, root_page_ids.GetOr([]), database_ids.GetOr([]), exclude_page_ids.GetOr([]), depth))
    else Failure(FieldError)
  }

  /** `NotionConfig(...)`: the default result count is 5, within 1..20. */
  function MakeNotionConfig(api_key: string, workspaces: Option<seq<NotionWorkspaceConfig>>,
                            index_collection: Option<string>, search_results_default: Option<int>): (r: Result<NotionConfig, string>)
    ensures r.Success? <==> InRange(search_results_default.GetOr(5), 1, 20)
    ensures r.Success? ==>
      r.value.api_key == api_key && r.value.workspaces == workspaces.GetOr([]) &&
      r.value.index_collection == index_collection.GetOr("notion_pages") &&
      r.value.search_results_default == search_results_default.GetOr(5)
  {
    var n := search_results_default.GetOr(5);
    if InRange(n, 1, 20)
    then Success(NotionConfig(api_key, workspaces.GetOr([]), index_collection.GetOr("notion_pages"), n))
    else Failure(FieldError)
  }

  function LanguageError(v: string): string {
    "Invalid language code: '" + v + "'. Must be a 2-letter ISO 639-1 code (e.g., 'en', 'zh', 'es')"
  }

  /** `AgentPreferencesConfig.validate_language_code`: exactly two letters,
      stored in lower case. Only the shape of an ISO 639-1 code is checked,
      not membership of the list of codes. */
  function ValidateLanguageCode(v: string): (r: Result<string, string>)
    ensures r.Success? <==> |v| == 2 && AllAlpha(v)
    ensures r.Success? ==> |r.value| == 2 && forall i :: 0 <= i < 2 ==> IsLower(r.value[i]) && r.value[i] == LowerChar(v[i])
    ensures r.Failure? ==> r.error == LanguageError(v)
  {
    if v == "" || |v| != 2 || !AllAlpha(v) then Failure(LanguageError(v)) else Success(Lower(v))
  }

  const WebhookMode: string := "webhook"
  const WebhookError: string := "webhook_url is required when mode is 'webhook'"

  function UnknownProviderError(p: string): string {
    "Unknown LLM provider: " + p
  }

  function MissingProviderError(p: string): string {
    p + " configuration is required when provider is '" + p + "'"
  }

  predicate KnownProvider(p: string) {
    p == "ollama" || p == "openai" || p == "gemini"
  }

  /** Whether the sub-configuration of a known provider is present. */
  predicate HasProviderConfig(llm: LLMConfig)
    requires KnownProvider(llm.provider)
  {
    if llm.provider == "ollama" then llm.ollama.Some?
    else if llm.provider == "openai" then llm.openai.Some?
    else llm.gemini.Some?
  }

  /** `AppConfig.validate`: a webhook without a URL is rejected first, then
      an unknown provider (compared case-sensitively), then a known provider
      whose sub-configuration is missing. */
  function Validate(c: AppConfig): (r: Result<(), string>)
    ensures c.telegram.mode == WebhookMode && c.telegram.webhook_url.GetOr("") == "" ==> r == Failure(WebhookError)
    ensures r.Success? <==>
      !(c.telegram.mode == WebhookMode && c.telegram.webhook_url.GetOr("") == "") &&
      KnownProvider(c.llm.provider) && HasProviderConfig(c.llm)
    ensures r.Failure? && r.error != WebhookError && !KnownProvider(c.llm.provider) ==>
      r.error == UnknownProviderError(c.llm.provider)
  {
    if c.telegram.mode == WebhookMode && c.telegram.webhook_url.GetOr("") == "" then Failure(WebhookError)
    else if !KnownProvider(c.llm.provider) then Failure(UnknownProviderError(c.llm.provider))
    else if !HasProviderConfig(c.llm) then Failure(MissingProviderError(c.llm.provider))
    else Success(())
  }
}

=== FILE: config_viewer.dfy ===
/** The configuration viewer (src/web/subsections/config_viewer.py): the
    application configuration, dumped to a dictionary, is shown with every
    secret-looking field masked.

    The dump itself (`model_dump`, `dict`, `dict(config)`) is an input: the
    configuration arrives as a value. */
module ConfigViewer {
  import opened Wrappers
  import opened Strs
  import opened PyValues

  const SecretWords: seq<string> := ["token", "key", "secret", "password", "credential"]
  const Hidden := "***"

  /** A key whose lower-cased form contains one of the secret words. */
  predicate IsSecretKey(key: string) {
    exists w :: w in SecretWords && Contains(Lower(key), w)
  }

  /** The masked value of a secret-named field: a string longer than 4 keeps
      its first 4 characters and stars the rest; any other truthy value is
      "***"; a falsy one is kept. */
  function MaskSecret(value: Value): (r: Value)
    ensures value.PStr? && |value.s| > 4 ==>
      r.PStr? && |r.s| == |value.s| && r.s[..4] == value.s[..4] &&
      forall i :: 4 <= i < |r.s| ==> r.s[i] == '*'
    ensures !(value.PStr? && |value.s| > 4) && Truthy(value) ==> r == PStr(Hidden)
    ensures !Truthy(value) ==> r == value
  {
    if value.PStr? && |value.s| > 4 then
      var stars := Repeat('*', |value.s| - 4);
      var s := value.s[..4] + stars;
      assert forall i :: 4 <= i < |s| ==> s[i] == stars[i - 4];
      PStr(s)
    else if Truthy(value) then PStr(Hidden)
    else value
  }

  /** `mask_secrets`: dictionaries and lists are walked; a secret-named
      field is masked and not walked; anything else is kept. */
  function Mask(v: Value): (r: Value)
    ensures v.PDict? ==> r.PDict? && |r.entries| == |v.entries|
    ensures v.PList? ==> r.PList? && |r.items| == |v.items|
    ensures !v.PDict? && !v.PList? ==> r == v
    decreases v, 1
  {
    match v
    case PDict(entries) =>
      PDict(seq(|entries|, i requires 0 <= i < |entries| => MaskField(entries[i].0, entries[i].1, v)))
    case PList(items) =>
      PList(seq(|items|, i requires 0 <= i < |items| => Mask(items[i])))
    case _ => v
  }

  /** One field of a dictionary `parent`. */
  function MaskField(key: string, value: Value, ghost parent: Value): (r: (string, Value))
    requires value < parent
    ensures r.0 == key
    ensures IsSecretKey(key) ==> r.1 == MaskSecret(value)
    decreases parent, 0
  {
    if IsSecretKey(key) then (key, MaskSecret(value)) else (key, Mask(value))
  }

  /** `config_to_display_dict`: no configuration shows as `{}`. */
  function ConfigToDisplayDict(config: Option<Value>): (r: Value)
    ensures config.None? ==> r == PDict([])
    ensures config.Some? ==> r == Mask(config.value)
  {
    if config.None? then PDict([]) else Mask(config.value)
  }

  /** The shape masking keeps: dictionaries keep their keys in order, lists
      their lengths, scalars their values, at every level below a field
      that is not secret-named. */
  predicate SameShape(v: Value, r: Value)
    decreases v
  {
    match v
    case PDict(entries) =>
      r.PDict? && |r.entries| == |entries| &&
      forall i :: 0 <= i < |entries| ==>
        r.entries[i].0 == entries[i].0 &&
        (!IsSecretKey(entries[i].0) ==> SameShape(entries[i].1, r.entries[i].1))
    case PList(items) =>
      r.PList? && |r.items| == |items| &&
      forall i :: 0 <= i < |items| ==> SameShape(items[i], r.items[i])
    case _ => r == v
  }

  lemma {:induction false} MaskKeepsShape(v: Value)
    ensures SameShape(v, Mask(v))
    decreases v
  {
    match v
    case PDict(entries) =>
      forall i | 0 <= i < |entries|
        ensures Mask(v).entries[i].0 == entries[i].0
        ensures !IsSecretKey(entries[i].0) ==> SameShape(entries[i].1, Mask(v).entries[i].1)
      {
        assert entries[i] in entries;
        assert Mask(v).entries[i] == MaskField(entries[i].0, entries[i].1, v);
        if !IsSecretKey(entries[i].0) {
          MaskKeepsShape(entries[i].1);
        }
      }
    case PList(items) =>
      forall i | 0 <= i < |items| ensures SameShape(items[i], Mask(v).items[i]) {
        assert items[i] in items;
        MaskKeepsShape(items[i]);
      }
    case _ =>
  }

  /** A masked secret is masked again to itself. */
  lemma MaskSecretTwice(value: Value)
    ensures MaskSecret(MaskSecret(value)) == MaskSecret(value)
  {
    if value.PStr? && |value.s| > 4 {
      var r := MaskSecret(value).s;
      var rr := MaskSecret(MaskSecret(value)).s;
      assert |rr| == |r|;
      assert forall i :: 0 <= i < |r| ==> rr[i] == r[i] by {
        forall i | 0 <= i < |r| ensures rr[i] == r[i] {
          if i < 4 {
            assert rr[..4][i] == r[..4][i];
          }
        }
      }
    }
  }

  /** Masking is idempotent: the display of a displayed configuration is
      the same display. */
  lemma {:induction false} MaskIdempotent(v: Value)
    ensures Mask(Mask(v)) == Mask(v)
    decreases v
  {
    match v
    case PDict(entries) =>
      var m := Mask(v);
      var mm := Mask(m);
      forall i | 0 <= i < |entries| ensures mm.entries[i] == m.entries[i] {
        assert entries[i] in entries;
        var key := entries[i].0;
        assert m.entries[i] == MaskField(key, entries[i].1, v);
        assert m.entries[i] in m.entries;
        assert mm.entries[i] == MaskField(key, m.entries[i].1, m);
        if IsSecretKey(key) {
          MaskSecretTwice(entries[i].1);
        } else {
          MaskIdempotent(entries[i].1);
          assert m.entries[i].1 == Mask(entries[i].1);
          assert mm.entries[i].1 == Mask(m.entries[i].1);
        }
      }
      assert mm.entries == m.entries;
    case PList(items) =>
      var m := Mask(v);
      var mm := Mask(m);
      forall i | 0 <= i < |items| ensures mm.items[i] == m.items[i] {
        assert items[i] in items;
        assert m.items[i] in m.items;
        MaskIdempotent(items[i]);
        assert m.items[i] == Mask(items[i]);
        assert mm.items[i] == Mask(m.items[i]);
      }
      assert mm.items == m.items;
    case _ =>
  }
}

=== FILE: context_manager.dfy ===
/** The conversation context manager of src/context/context_manager.py:
    default-limit selection over the message store, the chat-scoped reply
    lookup, the LLM summary guards and the time-gap session clusterer. */
module ContextManager {
  import opened Wrappers
  import opened Strs
  import opened ContextModels
  import opened ConversationStore

  const MicrosPerMinute: int := 60_000_000
  const LlmMissingText: string := "LLM not initialized in Context Manager"
  const NoContextText: string := "No previous conversation context found."
  const NoSummaryText: string := "Could not generate context summary."

  /** The positional parameters of the store's `save_message` after
      `self`; the first four have no default. */
  const StoreSaveParameters: seq<string> := ["chat_id", "user_id", "message_text", "role", "message_id"]
  const StoreSaveRequired: nat := 4
  /** The positional arguments the manager's `save_message` passes to it. */
  const ManagerSaveArguments: seq<string> :=
    ["chat_id", "user_id", "message", "role", "message_id", "raw_json", "reply_to_message_id"]
  const TypeErrorPrefix: string := "TypeError: "

  /** Python's binding of `argc` positional arguments to positional
      parameters `params`, the first `required` of them without default:
      too few or too many raise TypeError before the body runs. */
  function BindPositional(params: seq<string>, required: nat, argc: nat): (r: Result<(), string>)
    ensures r.Success? <==> required <= argc <= |params|
    ensures r.Failure? ==> StartsWith(r.error, TypeErrorPrefix)
  {
    if argc < required then Failure(TypeErrorPrefix + "missing required positional arguments")
    else if argc > |params| then Failure(TypeErrorPrefix + "too many positional arguments")
    else Success(())
  }

  /** The manager's `save_message` as written, on the store's rows: the
      store is called with all seven arguments, so the call raises and no
      row is stored. */
  function SaveMessageAsWritten(rows: seq<Row>, chat_id: int, user_id: int, message: string, role: string,
                                message_id: Option<int>, raw_json: Option<string>,
                                reply_to_message_id: Option<int>, now: int): (r: (Result<(), string>, seq<Row>))
    ensures r.0.Failure? && StartsWith(r.0.error, TypeErrorPrefix)
    ensures r.1 == rows
  {
    match BindPositional(StoreSaveParameters, StoreSaveRequired, |ManagerSaveArguments|)
    case Failure(e) => (Failure(e), rows)
    case Success(_) => (Success(()), rows + [Row(chat_id, user_id, message, role, now, message_id)])
  }

  /** The arity mismatch: the seven arguments are refused and the five the
      store takes are accepted; so a message saved as written into an
      empty store is not found by the next read. */
  lemma SaveAsWrittenLosesMessage()
    ensures BindPositional(StoreSaveParameters, StoreSaveRequired, |ManagerSaveArguments|).Failure?
    ensures BindPositional(StoreSaveParameters, StoreSaveRequired, 5).Success?
    ensures var saved := SaveMessageAsWritten([], 1, 2, "hello", "user", Some(3), None, None, 0);
      saved.0.Failure? && RecentQuery(saved.1, 1, 10) == []
  {
    var saved := SaveMessageAsWritten([], 1, 2, "hello", "user", Some(3), None, None, 0);
    assert saved.1 == [];
    assert AllQuery([], 1) == [];
  }

  /** The reference time of the scan: the given one, else the clock. */
  function ReferenceTime(current_timestamp: Option<int>, now: int): int {
    current_timestamp.GetOr(now)
  }

  /** The newest-first scan of `get_smart_context`: a message is kept while
      its gap to the previously kept one (to `cursor` for the first) is at
      most `threshold`; the first larger gap ends the scan. */
  function Session(newestFirst: seq<Message>, cursor: int, threshold: int): (kept: seq<Message>)
    ensures |kept| <= |newestFirst| && kept == newestFirst[..|kept|]
  {
    if newestFirst == [] || cursor - newestFirst[0].timestamp > threshold then []
    else [newestFirst[0]] + Session(newestFirst[1..], newestFirst[0].timestamp, threshold)
  }

  /** The time each message of `p` is measured against: `cursor` for the
      first, the message before it for the others. */
  function PrevTime(p: seq<Message>, cursor: int, i: nat): int
    requires i <= |p|
  {
    if i == 0 then cursor else p[i - 1].timestamp
  }

  /** Every message of `p` lies within `threshold` of the one before it. */
  predicate WithinChain(p: seq<Message>, cursor: int, threshold: int) {
    forall i :: 0 <= i < |p| ==> PrevTime(p, cursor, i) - p[i].timestamp <= threshold
  }

  /** The kept messages form a chain whose every gap is within the threshold
      (a gap equal to it included), and if the scan stopped early, the next
      message's gap to the last kept one (or to the cursor) exceeds it. */
  lemma {:induction false} SessionChainAndStop(s: seq<Message>, cursor: int, threshold: int)
    ensures var kept := Session(s, cursor, threshold);
      WithinChain(kept, cursor, threshold) &&
      (|kept| < |s| ==> PrevTime(s, cursor, |kept|) - s[|kept|].timestamp > threshold)
  {
    var kept := Session(s, cursor, threshold);
    if s != [] && cursor - s[0].timestamp <= threshold {
      var rest := Session(s[1..], s[0].timestamp, threshold);
      SessionChainAndStop(s[1..], s[0].timestamp, threshold);
      assert kept == [s[0]] + rest;
      forall i | 0 <= i < |kept| ensures PrevTime(kept, cursor, i) - kept[i].timestamp <= threshold {
        if i > 0 {
          assert kept[i] == rest[i - 1];
          assert PrevTime(kept, cursor, i) == PrevTime(rest, s[0].timestamp, i - 1);
        }
      }
      if |kept| < |s| {
        assert s[|kept|] == s[1..][|rest|];
        assert PrevTime(s, cursor, |kept|) == PrevTime(s[1..], s[0].timestamp, |rest|);
      }
    }
  }

  /** The session is the LONGEST prefix of the fetch that forms such a
      chain: no older message is ever returned past the first large gap. */
  lemma {:induction false} SessionLongest(s: seq<Message>, cursor: int, threshold: int, k: nat)
    requires k <= |s| && WithinChain(s[..k], cursor, threshold)
    ensures k <= |Session(s, cursor, threshold)|
  {
    if k > 0 {
      assert s[..k][0] == s[0];
      assert PrevTime(s[..k], cursor, 0) - s[..k][0].timestamp <= threshold;
      var t := s[1..];
      var u := s[..k][1..];
      assert u == t[..k - 1];
      forall i | 0 <= i < |u|
        ensures PrevTime(u, s[0].timestamp, i) - u[i].timestamp <= threshold
      {
        assert u[i] == s[..k][i + 1];
        assert PrevTime(u, s[0].timestamp, i) == PrevTime(s[..k], cursor, i + 1);
      }
      SessionLongest(t, s[0].timestamp, threshold, k - 1);
    }
  }

  /** A message exactly `threshold` before the cursor is kept. */
  lemma InclusiveThreshold(m: Message, rest: seq<Message>, cursor: int, threshold: int)
    requires cursor - m.timestamp == threshold
    ensures Session([m] + rest, cursor, threshold)[0] == m
  {
    assert ([m] + rest)[1..] == rest;
  }

  /** The cursor moves to each kept message: messages 50 minutes apart under
      a 60-minute threshold are all kept, although the oldest lies 100
      minutes before the reference time. */
  lemma CursorAdvances(a: Message, b: Message, c: Message, now: int)
    requires a.timestamp == now && b.timestamp == now - 50 * MicrosPerMinute
    requires c.timestamp == now - 100 * MicrosPerMinute
    ensures Session([a, b, c], now, 60 * MicrosPerMinute) == [a, b, c]
  {
    var t := 60 * MicrosPerMinute;
    assert [a, b, c][1..] == [b, c];
    assert [b, c][1..] == [c];
    assert [c][1..] == [];
    assert Session([c], b.timestamp, t) == [c];
    assert Session([b, c], a.timestamp, t) == [b, c];
  }

  /** The text sent to the agent for a reply (src/main.py): the replied-to
      message's text is quoted after the user's own text when it is found. */
  function WithReplyContext(text: string, replied: Option<Message>): (r: string)
    ensures replied.None? ==> r == text
    ensures replied.Some? ==> StartsWith(r, text + "\n\n[Context: User is replying to a previous message: '")
    ensures replied.Some? ==> EndsWith(r, replied.value.message_text + "']")
  {
    match replied
    case None => text
    case Some(m) => text + "\n\n[Context: User is replying to a previous message: '" + m.message_text + "']"
  }

  /** The scanning loop of `get_smart_context`, before the final reverse. */
  method ScanSession(messages: seq<Message>, ref: int, threshold: int) returns (session: seq<Message>)
    ensures session == Session(messages, ref, threshold)
  {
    session := [];
    var prev := ref;
    var i := 0;
    while i < |messages|
      invariant 0 <= i <= |messages|
      invariant session == messages[..i]
      invariant Session(messages, ref, threshold) == session + Session(messages[i..], prev, threshold)
    {
      var gap := prev - messages[i].timestamp;
      var tail := messages[i..];
      assert tail[0] == messages[i] && tail[1..] == messages[i + 1..];
      if gap > threshold {
        assert Session(tail, prev, threshold) == [];
        assert session + [] == session;
        break;
      }
      var next := Session(messages[i + 1..], messages[i].timestamp, threshold);
      assert Session(tail, prev, threshold) == [messages[i]] + next;
      AppendAssoc(session, [messages[i]], next);
      assert messages[..i + 1] == messages[..i] + [messages[i]];
      session := session + [messages[i]];
      prev := messages[i].timestamp;
      i := i + 1;
    }
    if i == |messages| {
      assert messages[i..] == [];
      assert session + [] == session;
    }
  }

  /** src/context/context_manager.py `ConversationContextManager`. The LLM is
      an oracle from the formatted history and the query to the reply text;
      the instruction template wrapped around them is fixed text. */
  class ConversationContextManager {
    const db: ConversationDB
    const default_limit: int
    /** `time_gap_threshold`, in microseconds */
    const time_gap_threshold: int
    const lookback_limit: int
    const llm: Option<(string, string) -> string>
    const message_limit: int

    constructor (db: ConversationDB, default_limit: int, time_gap_threshold_minutes: int,
                 lookback_limit: int, llm: Option<(string, string) -> string>, message_limit: int)
      ensures this.db == db && this.default_limit == default_limit
      ensures this.time_gap_threshold == time_gap_threshold_minutes * MicrosPerMinute
      ensures this.lookback_limit == lookback_limit && this.llm == llm
      ensures this.message_limit == message_limit
    {
      this.db := db;
      this.default_limit := default_limit;
      this.time_gap_threshold := time_gap_threshold_minutes * MicrosPerMinute;
      this.lookback_limit := lookback_limit;
      this.llm := llm;
      this.message_limit := message_limit;
    }

    /** `get_context`: the chat's recent messages under the given limit or
        `default_limit`, and that limit as the context's `recent_limit`. */
    method GetContext(chat_id: int, user_id: int, limit: Option<int>) returns (ctx: ConversationContext)
      modifies db
      ensures db.rows == old(db.rows) && db.initialized
      ensures ctx.chat_id == chat_id && ctx.user_id == user_id
      ensures ctx.recent_limit == limit.GetOr(default_limit)
      ensures ctx.messages == ToMessages(RecentQuery(db.rows, chat_id, limit.GetOr(default_limit)))
    {
      var n := limit.GetOr(default_limit);
      var messages := db.GetRecentMessages(chat_id, n);
      ctx := ConversationContext(chat_id, user_id, messages, n);
    }

    /** `save_message`, corrected to pass the store the five values it
        takes: one row is appended. `raw_json` and `reply_to_message_id`
        have no column in the table and are not stored. */
    method SaveMessage(chat_id: int, user_id: int, message: string, role: string,
                       message_id: Option<int>, raw_json: Option<string>,
                       reply_to_message_id: Option<int>, now: int)
      modifies db
      ensures db.rows == old(db.rows) + [Row(chat_id, user_id, message, role, now, message_id)]
    {
      db.SaveMessage(chat_id, user_id, message, role, message_id, now);
    }

    /** `get_recent_messages`: the store read under the given limit or
        `default_limit`. */
    method GetRecentMessages(chat_id: int, limit: Option<int>) returns (messages: seq<Message>)
      modifies db
      ensures db.rows == old(db.rows)
      ensures messages == ToMessages(RecentQuery(db.rows, chat_id, limit.GetOr(default_limit)))
    {
      messages := db.GetRecentMessages(chat_id, limit.GetOr(default_limit));
    }

    /** `get_message_by_id`: chat-scoped; an id never stored, or stored in
        another chat, gives None. */
    function GetMessageById(chat_id: int, message_id: int): (m: Option<Message>)
      reads db
      ensures m.Some? ==> m.value.chat_id == chat_id && m.value.message_id == Some(message_id)
      ensures m.None? <==> forall x :: x in db.rows ==> !(x.chat_id == chat_id && x.message_id == Some(message_id))
      ensures m.Some? ==>
        exists k :: 0 <= k < |db.rows| && db.rows[k].chat_id == chat_id && db.rows[k].message_id == Some(message_id) &&
          m.value == ToMessage(db.rows[k]) &&
          forall j :: 0 <= j < k ==> !(db.rows[j].chat_id == chat_id && db.rows[j].message_id == Some(message_id))
    {
      db.MessageById(chat_id, message_id)
    }

    /** The reply-context step of src/main.py: a non-zero reply id is looked
        up in the same chat and, when found, quoted after the text. */
    function ReplyAnchoredText(chat_id: int, text: string, reply_to_message_id: Option<int>): (r: string)
      reads db
      ensures reply_to_message_id.None? || reply_to_message_id == Some(0) ==> r == text
      ensures reply_to_message_id.Some? && reply_to_message_id != Some(0) ==>
        r == WithReplyContext(text, GetMessageById(chat_id, reply_to_message_id.value))
    {
      if reply_to_message_id.Some? && reply_to_message_id.value != 0 then
        WithReplyContext(text, GetMessageById(chat_id, reply_to_message_id.value))
      else text
    }

    /** `get_smart_context`: scans the newest-first lookback fetch with the
        cursor at the reference time, keeps the session and returns it
        oldest first, with its length as both `recent_limit` and the count. */
    method GetSmartContext(chat_id: int, user_id: int, current_timestamp: Option<int>, now: int)
      returns (ctx: ConversationContext, count: nat)
      ensures var fetched := db.MessagesForClustering(chat_id, lookback_limit);
        ctx.messages == Reverse(Session(fetched, ReferenceTime(current_timestamp, now), time_gap_threshold))
      ensures ctx.chat_id == chat_id && ctx.user_id == user_id
      ensures count == |ctx.messages|
      ensures ctx.recent_limit ==
        if db.MessagesForClustering(chat_id, lookback_limit) == [] then DefaultRecentLimit else count
      ensures lookback_limit >= 0 ==> count <= lookback_limit
      ensures forall j :: 0 <= j < |ctx.messages| ==> ctx.messages[j].chat_id == chat_id
    {
      var ref := ReferenceTime(current_timestamp, now);
      var messages := db.MessagesForClustering(chat_id, lookback_limit);
      if messages == [] {
        return ConversationContext(chat_id, user_id, [], DefaultRecentLimit), 0;
      }
      var session := ScanSession(messages, ref, time_gap_threshold);
      assert forall j :: 0 <= j < |session| ==> session[j].chat_id == chat_id;
      session := Reverse(session);
      ctx := ConversationContext(chat_id, user_id, session, |session|);
      count := |session|;
    }

    /** `get_llm_context`: without an LLM it fails before reading the store;
        with no stored messages it answers the fixed sentence and count 0
        without asking the LLM; otherwise it asks the LLM about the formatted
        history and falls back to a fixed sentence on an empty reply. */
    method GetLlmContext(chat_id: int, user_id: int, query: string, limit: Option<int>)
      returns (r: Result<(string, nat), string>)
      modifies db
      ensures db.rows == old(db.rows)
      ensures llm.None? ==> r == Failure(LlmMissingText) && unchanged(db)
      ensures llm.Some? && RecentQuery(db.rows, chat_id, limit.GetOr(message_limit)) == [] ==>
        r == Success((NoContextText, 0))
      ensures llm.Some? ==>
        var fetched := RecentQuery(db.rows, chat_id, limit.GetOr(message_limit));
        var reply := llm.value(Join(HistoryLines(ToMessages(fetched)), "\n"), query);
        fetched != [] ==> r == Success((if reply == "" then NoSummaryText else reply, |fetched|))
    {
      var n := limit.GetOr(message_limit);
      if llm.None? {
        return Failure(LlmMissingText);
      }
      var messages := db.GetRecentMessages(chat_id, n);
      r := Summarize(messages, llm.value, query);
    }
  }

  /** The part of `get_llm_context` after the read: the fixed sentence for
      no messages, else the LLM's reply about the formatted history, or
      the fallback sentence when that reply is empty. */
  method Summarize(messages: seq<Message>, ask: (string, string) -> string, query: string)
    returns (r: Result<(string, nat), string>)
    ensures messages == [] ==> r == Success((NoContextText, 0))
    ensures messages != [] ==>
      var reply := ask(Join(HistoryLines(messages), "\n"), query);
      r == Success((if reply == "" then NoSummaryText else reply, |messages|))
  {
    if messages == [] {
      return Success((NoContextText, 0));
    }
    var history_text := FormatHistory(messages);
    var reply := ask(history_text, query);
    r := Success((if reply != "" then reply else NoSummaryText, |messages|));
  }
}

=== FILE: context_models.dfy ===
/** The conversation records: a stored message and the context handed to the
    agent (src/context/models.py). Timestamps are whole microseconds since an
    arbitrary epoch, the resolution of Python's `datetime`. */
module ContextModels {
  import opened Wrappers
  import opened Strs

  datatype Message = Message(
    chat_id: int,
    user_id: int,
    message_text: string,
    role: string,
    timestamp: int,
    message_id: Option<int>,
    raw_json: Option<string>,
    reply_to_message_id: Option<int>)

  /** The dataclass default of `ConversationContext.recent_limit`. */
  const DefaultRecentLimit: int := 10

  datatype ConversationContext = ConversationContext(
    chat_id: int,
    user_id: int,
    messages: seq<Message>,
    recent_limit: int)

  /** "User" for the role "user", "Assistant" for every other role. */
  function RoleLabel(role: string): (r: string)
    ensures r == "User" <==> role == "user"
    ensures r != "User" ==> r == "Assistant"
  {
    if role == "user" then "User" else "Assistant"
  }

  /** One history line: the speaker label, a colon and the message text. */
  function HistoryLine(m: Message): (r: string)
    ensures StartsWith(r, RoleLabel(m.role) + ": ")
    ensures r[|RoleLabel(m.role)| + 2..] == m.message_text
  {
    RoleLabel(m.role) + ": " + m.message_text
  }

  /** The history lines of a message list, one per message and in order. */
  function HistoryLines(msgs: seq<Message>): (r: seq<string>)
    ensures |r| == |msgs|
    ensures forall i :: 0 <= i < |msgs| ==> r[i] == HistoryLine(msgs[i])
  {
    if msgs == [] then [] else [HistoryLine(msgs[0])] + HistoryLines(msgs[1..])
  }

  /** The formatting loop written out in `ConversationContext.format_for_llm`,
      `ConversationContextManager.get_llm_context` and both modes of the
      history tool: one "Label: text" line per message, in order. */
  method CollectLines(messages: seq<Message>) returns (formatted: seq<string>)
    ensures formatted == HistoryLines(messages)
  {
    formatted := [];
    var i := 0;
    while i < |messages|
      invariant 0 <= i <= |messages|
      invariant |formatted| == i
      invariant forall k :: 0 <= k < i ==> formatted[k] == HistoryLine(messages[k])
    {
      formatted := formatted + [RoleLabel(messages[i].role) + ": " + messages[i].message_text];
      i := i + 1;
    }
  }

  /** The lines joined by newlines. */
  method FormatHistory(messages: seq<Message>) returns (text: string)
    ensures text == Join(HistoryLines(messages), "\n")
    ensures messages == [] ==> text == ""
    ensures |messages| == 1 ==> text == HistoryLine(messages[0])
  {
    var formatted := CollectLines(messages);
    text := Join(formatted, "\n");
  }

  /** `ConversationContext.format_for_llm` */
  method FormatForLlm(ctx: ConversationContext) returns (text: string)
    ensures text == Join(HistoryLines(ctx.messages), "\n")
    ensures ctx.messages == [] ==> text == ""
  {
    text := FormatHistory(ctx.messages);
  }

  /** Python's `s[start:]` for any integer `start`: a negative start counts
      from the end and is clipped at 0, a large one gives the empty list. */
  function SliceFrom<T>(s: seq<T>, start: int): (r: seq<T>)
    ensures start >= 0 ==> r == s[if start < |s| then start else |s|..]
    ensures start < 0 ==> r == s[if -start < |s| then |s| + start else 0..]
  {
    if start >= 0 then s[if start < |s| then start else |s|..]
    else s[if -start < |s| then |s| + start else 0..]
  }

  /** `ConversationContext.get_recent_messages`: `limit` None falls back to
      `recent_limit`; the result is `messages[-limit:]` when the list is
      longer than the limit, else the whole list. */
  function RecentMessages(ctx: ConversationContext, limit: Option<int>): (r: seq<Message>)
    ensures var n := limit.GetOr(ctx.recent_limit);
      n >= 1 ==> |r| == (if n < |ctx.messages| then n else |ctx.messages|) &&
                 r == ctx.messages[|ctx.messages| - |r|..]
    ensures limit.GetOr(ctx.recent_limit) == 0 ==> r == ctx.messages
    ensures var n := limit.GetOr(ctx.recent_limit);
      n < 0 ==> r == ctx.messages[if -n < |ctx.messages| then -n else |ctx.messages|..]
  {
    var n := limit.GetOr(ctx.recent_limit);
    if |ctx.messages| > n then SliceFrom(ctx.messages, -n) else ctx.messages
  }
}

=== FILE: context_tool.dfy ===
/** The `get_conversation_history` tool of src/tools/context_manager.py: it
    validates and clamps the requested count, then reads either the recent
    messages or the current session through the context manager. */
module ContextTool {
  import opened Wrappers
  import opened Strs
  import opened PyValues
  import opened ToolResults
  import opened ContextModels
  import opened ConversationStore
  import opened ContextManager

  const ToolName: string := "get_conversation_history"
  const DefaultMaxHistory: int := 5
  const CountError: string := "Count must be a positive integer"
  const HistoryFailurePrefix: string := "Failed to retrieve conversation history: "
  const SmartFailurePrefix: string := "Failed to retrieve smart context: "
  const IdleSessionText: string := "No recent session messages found. The conversation may have been idle."

  /** The `data` dictionary of a successful call. */
  datatype HistoryData = HistoryData(
    count: nat,
    messages: seq<string>,
    mode: string,
    session_detected: Option<bool>)

  /** The validated and clamped count of recent mode: a value that is not an
      int (a bool passes as 0 or 1) or is below 1 is refused; a larger one
      is cut down to `max_history`. */
  function ClampCount(count: Value, max_history: int): (r: Option<int>)
    ensures r.None? <==> AsInt(count).None? || AsInt(count).value < 1
    ensures r.Some? ==> r.value <= max_history && (r.value == AsInt(count).value || r.value == max_history)
    ensures r.Some? && AsInt(count).value <= max_history ==> r.value == AsInt(count).value
    ensures r.Some? && AsInt(count).value > max_history ==> r.value == max_history
  {
    match AsInt(count)
    case None => None
    case Some(n) => if n < 1 then None else if n > max_history then Some(max_history) else Some(n)
  }

  /** The "count" argument with its default. */
  function CountArg(count: Option<Value>, max_history: int): Value {
    count.GetOr(PInt(max_history))
  }

  /** The mode dispatch: only the exact string "smart" selects smart mode;
      any other value, or none, selects recent mode. */
  predicate IsSmartMode(mode: Option<Value>) {
    mode.GetOr(PStr("recent")) == PStr("smart")
  }

  lemma ModeDispatch(mode: Option<Value>)
    ensures mode == None ==> !IsSmartMode(mode)
    ensures mode == Some(PStr("smart")) ==> IsSmartMode(mode)
    ensures IsSmartMode(mode) ==> mode == Some(PStr("smart"))
  {
  }

  /** The result of recent mode over the stored `rows`: the count refused,
      the store failing, or the chat's latest messages up to the clamped
      count, one history line each. */
  function RecentResult(rows: seq<Row>, chat_id: int, count: Option<Value>, max_history: int,
                        failure: Option<string>): (r: ToolResult<HistoryData>)
    ensures r.success <==> ClampCount(CountArg(count, max_history), max_history).Some? && failure.None?
    ensures !r.success ==> r.data.None? && r.error.Some?
    ensures r.success ==>
      r.data.Some? && r.data.value.mode == "recent" && r.data.value.session_detected.None? &&
      r.data.value.count == |r.data.value.messages|
    ensures r.success && max_history >= 0 ==> r.data.value.count <= max_history
  {
    match ClampCount(CountArg(count, max_history), max_history)
    case None => ErrorResult(CountError)
    case Some(n) =>
      if failure.Some? then ErrorResult(HistoryFailurePrefix + failure.value)
      else
        var fetched := ToMessages(RecentQuery(rows, chat_id, n));
        Ok(HistoryData(|fetched|, HistoryLines(fetched), "recent", None),
           Some("Retrieved " + NatToString(|fetched|) + " recent message(s):\n\n" + Join(HistoryLines(fetched), "\n")))
  }

  /** The result of smart mode over the stored `rows`: the store failing,
      or the current session oldest first; an empty session is an idle
      success. */
  function SmartResult(rows: seq<Row>, chat_id: int, lookback_limit: int, threshold: int, now: int,
                       failure: Option<string>): (r: ToolResult<HistoryData>)
    ensures r.success <==> failure.None?
    ensures !r.success ==> r.data.None? && r.error.Some?
    ensures r.success ==>
      r.data.Some? && r.data.value.mode == "smart" &&
      r.data.value.count == |r.data.value.messages| &&
      r.data.value.session_detected == Some(r.data.value.count > 0)
    ensures r.success && lookback_limit >= 0 ==> r.data.value.count <= lookback_limit
  {
    if failure.Some? then ErrorResult(SmartFailurePrefix + failure.value)
    else
      var fetched := ToMessages(ClusteringQuery(rows, chat_id, lookback_limit));
      var session := Reverse(Session(fetched, now, threshold));
      if session == [] then Ok(HistoryData(0, [], "smart", Some(false)), Some(IdleSessionText))
      else
        Ok(HistoryData(|session|, HistoryLines(session), "smart", Some(true)),
           Some("Retrieved " + NatToString(|session|) + " message(s) from current session:\n\n" +
                Join(HistoryLines(session), "\n")))
  }

  class ContextManagerTool {
    const context_manager: ConversationContextManager
    const max_history: int
    const time_gap_threshold_minutes: int
    const name: string

    constructor (context_manager: ConversationContextManager, max_history: int, time_gap_threshold_minutes: int)
      ensures this.context_manager == context_manager && this.max_history == max_history
      ensures this.time_gap_threshold_minutes == time_gap_threshold_minutes
      ensures name == ToolName
    {
      this.context_manager := context_manager;
      this.max_history := max_history;
      this.time_gap_threshold_minutes := time_gap_threshold_minutes;
      name := ToolName;
    }

    /** `execute`: "smart" goes to the session path, anything else to the
        recent path. `failure` is the exception the store raises, if any. */
    method Execute(context: ConversationContext, mode: Option<Value>, count: Option<Value>,
                   now: int, failure: Option<string>)
      returns (r: ToolResult<HistoryData>)
      modifies context_manager.db
      ensures context_manager.db.rows == old(context_manager.db.rows)
      ensures IsSmartMode(mode) ==> r.success ==> r.data.Some? && r.data.value.mode == "smart"
      ensures !IsSmartMode(mode) ==> r.success ==> r.data.Some? && r.data.value.mode == "recent"
      ensures r == if IsSmartMode(mode)
        then SmartResult(context_manager.db.rows, context.chat_id, context_manager.lookback_limit,
                         context_manager.time_gap_threshold, now, failure)
        else RecentResult(context_manager.db.rows, context.chat_id, count, max_history, failure)
    {
      if IsSmartMode(mode) {
        r := ExecuteSmart(context, now, failure);
      } else {
        r := ExecuteRecent(context, count, failure);
      }
    }

    /** `_execute_recent_mode` */
    method ExecuteRecent(context: ConversationContext, count: Option<Value>, failure: Option<string>)
      returns (r: ToolResult<HistoryData>)
      modifies context_manager.db
      ensures context_manager.db.rows == old(context_manager.db.rows)
      ensures ClampCount(CountArg(count, max_history), max_history).None? ==>
        r == ErrorResult(CountError) && unchanged(context_manager.db)
      ensures ClampCount(CountArg(count, max_history), max_history).Some? && failure.Some? ==>
        r == ErrorResult(HistoryFailurePrefix + failure.value)
      ensures ClampCount(CountArg(count, max_history), max_history).Some? && failure.None? ==>
        var n := ClampCount(CountArg(count, max_history), max_history).value;
        var fetched := ToMessages(RecentQuery(context_manager.db.rows, context.chat_id, n));
        r.success && r.data.Some? && r.error == None &&
        r.data.value == HistoryData(|fetched|, HistoryLines(fetched), "recent", None) &&
        r.message == Some("Retrieved " + NatToString(|fetched|) + " recent message(s):\n\n" +
                          Join(HistoryLines(fetched), "\n"))
      ensures r == RecentResult(context_manager.db.rows, context.chat_id, count, max_history, failure)
    {
      var c := ClampCount(CountArg(count, max_history), max_history);
      if c.None? {
        return ErrorResult(CountError);
      }
      var n := c.value;
      if failure.Some? {
        return ErrorResult(HistoryFailurePrefix + failure.value);
      }
      var messages := context_manager.GetRecentMessages(context.chat_id, Some(n));
      var formatted := CollectLines(messages);
      var history_text := Join(formatted, "\n");
      r := Ok(HistoryData(|messages|, formatted, "recent", None),
              Some("Retrieved " + NatToString(|messages|) + " recent message(s):\n\n" + history_text));
    }

    /** `_execute_smart_mode`: an empty session is still a success, reported
        as idle with no messages and `session_detected` False. */
    method ExecuteSmart(context: ConversationContext, now: int, failure: Option<string>)
      returns (r: ToolResult<HistoryData>)
      ensures failure.Some? ==> r == ErrorResult(SmartFailurePrefix + failure.value)
      ensures failure.None? ==>
        var fetched := context_manager.db.MessagesForClustering(context.chat_id, context_manager.lookback_limit);
        var session := Reverse(Session(fetched, now, context_manager.time_gap_threshold));
        r.success && r.data.Some? && r.error == None &&
        (session == [] ==> r.data.value == HistoryData(0, [], "smart", Some(false)) &&
                           r.message == Some(IdleSessionText)) &&
        (session != [] ==> r.data.value == HistoryData(|session|, HistoryLines(session), "smart", Some(true)) &&
                           r.message == Some("Retrieved " + NatToString(|session|) +
                                             " message(s) from current session:\n\n" +
                                             Join(HistoryLines(session), "\n")))
      ensures r == SmartResult(context_manager.db.rows, context.chat_id, context_manager.lookback_limit,
                               context_manager.time_gap_threshold, now, failure)
    {
      if failure.Some? {
        return ErrorResult(SmartFailurePrefix + failure.value);
      }
      var smart_context, session_count := context_manager.GetSmartContext(context.chat_id, context.user_id, None, now);
      var formatted := CollectLines(smart_context.messages);
      var history_text := Join(formatted, "\n");
      if session_count == 0 {
        return Ok(HistoryData(0, [], "smart", Some(false)), Some(IdleSessionText));
      }
      r := Ok(HistoryData(session_count, formatted, "smart", Some(true)),
              Some("Retrieved " + NatToString(session_count) + " message(s) from current session:\n\n" + history_text));
    }
  }
}

=== FILE: conversation_store.dfy ===
/** The message store of src/context/conversation_db.py: one append-only
    table of messages, read back per chat in timestamp order.

    The SQL reads are modelled as list operations: `WHERE chat_id = ?` is a
    filter, `ORDER BY timestamp ASC` a stable sort (ties come back in insertion
    order, the order of the `(chat_id, timestamp)` index), and `LIMIT n` a
    prefix, where a negative `n` is no bound at all, as in SQLite. The saved
    timestamps are ISO-8601 strings of one fixed format, whose text order is
    their time order, so they are modelled as the integer times they name. */
module ConversationStore {
  import opened Wrappers
  import opened Strs
  import opened ContextModels

  /** One row of the `messages` table. */
  datatype Row = Row(
    chat_id: int,
    user_id: int,
    message_text: string,
    role: string,
    timestamp: int,
    message_id: Option<int>)

  /** A row read back as a `Message`: the table has no `raw_json` or
      `reply_to_message_id` column, so both come back as None. */
  function ToMessage(r: Row): (m: Message)
    ensures m.chat_id == r.chat_id && m.user_id == r.user_id
    ensures m.message_text == r.message_text && m.role == r.role
    ensures m.timestamp == r.timestamp && m.message_id == r.message_id
    ensures m.raw_json == None && m.reply_to_message_id == None
  {
    Message(r.chat_id, r.user_id, r.message_text, r.role, r.timestamp, r.message_id, None, None)
  }

  function ToMessages(rs: seq<Row>): (ms: seq<Message>)
    ensures |ms| == |rs|
    ensures forall i :: 0 <= i < |rs| ==> ms[i] == ToMessage(rs[i])
  {
    if rs == [] then [] else [ToMessage(rs[0])] + ToMessages(rs[1..])
  }

  /** `WHERE chat_id = ?`: the rows of one chat, in table order. */
  function ChatRows(rows: seq<Row>, chat: int): (r: seq<Row>)
    ensures |r| <= |rows|
    ensures forall x :: x in r <==> x in rows && x.chat_id == chat
  {
    if rows == [] then []
    else if rows[0].chat_id == chat then [rows[0]] + ChatRows(rows[1..], chat)
    else ChatRows(rows[1..], chat)
  }

  predicate SortedByTime(s: seq<Row>) {
    forall i, j :: 0 <= i < j < |s| ==> s[i].timestamp <= s[j].timestamp
  }

  predicate NewestFirst(s: seq<Row>) {
    forall i, j :: 0 <= i < j < |s| ==> s[i].timestamp >= s[j].timestamp
  }

  /** Inserts `x` after every row that is not later than it. */
  function InsertByTime(x: Row, s: seq<Row>): (r: seq<Row>)
    ensures |r| == |s| + 1
  {
    if s == [] then [x]
    else if x.timestamp < s[0].timestamp then [x] + s
    else [s[0]] + InsertByTime(x, s[1..])
  }

  /** Insertion adds exactly the one row. */
  lemma {:induction false} InsertByTimeAddsOne(x: Row, s: seq<Row>)
    ensures multiset(InsertByTime(x, s)) == multiset(s) + multiset{x}
  {
    if s != [] && x.timestamp >= s[0].timestamp {
      InsertByTimeAddsOne(x, s[1..]);
      assert InsertByTime(x, s) == [s[0]] + InsertByTime(x, s[1..]);
      assert s == [s[0]] + s[1..];
    }
  }

  /** Nothing in the result of an insertion into a time-ordered list is
      earlier than both `x` and the first row. */
  lemma {:induction false} InsertByTimeLowerBound(x: Row, s: seq<Row>)
    requires SortedByTime(s)
    ensures forall i :: 0 <= i < |InsertByTime(x, s)| ==>
      x.timestamp <= InsertByTime(x, s)[i].timestamp || (s != [] && s[0].timestamp <= InsertByTime(x, s)[i].timestamp)
  {
    if s != [] && x.timestamp >= s[0].timestamp {
      var rest := InsertByTime(x, s[1..]);
      InsertByTimeLowerBound(x, s[1..]);
      var r := InsertByTime(x, s);
      assert r == [s[0]] + rest;
      forall i | 0 < i < |r| ensures s[0].timestamp <= r[i].timestamp {
        assert r[i] == rest[i - 1];
        if |s| > 1 { assert s[0].timestamp <= s[1].timestamp; }
      }
    }
  }

  /** Inserting into a time-ordered list keeps it in time order. */
  lemma {:induction false} InsertByTimeSorted(x: Row, s: seq<Row>)
    requires SortedByTime(s)
    ensures SortedByTime(InsertByTime(x, s))
  {
    if s != [] && x.timestamp >= s[0].timestamp {
      var rest := InsertByTime(x, s[1..]);
      InsertByTimeSorted(x, s[1..]);
      InsertByTimeLowerBound(x, s);
      var r := InsertByTime(x, s);
      assert r == [s[0]] + rest;
      forall i, j | 0 <= i < j < |r| ensures r[i].timestamp <= r[j].timestamp {
        if i > 0 {
          assert r[i] == rest[i - 1] && r[j] == rest[j - 1];
        }
      }
    }
  }

  /** `ORDER BY timestamp ASC`, stable: a row goes after the earlier rows
      that carry the same time. */
  function SortByTime(s: seq<Row>): (r: seq<Row>)
    ensures SortedByTime(r)
    ensures multiset(r) == multiset(s)
  {
    if s == [] then []
    else
      assert s == s[..|s| - 1] + [s[|s| - 1]];
      var sorted := SortByTime(s[..|s| - 1]);
      InsertByTimeSorted(s[|s| - 1], sorted);
      InsertByTimeAddsOne(s[|s| - 1], sorted);
      InsertByTime(s[|s| - 1], sorted)
  }

  /** `LIMIT n` */
  function Limit<T>(s: seq<T>, n: int): (r: seq<T>)
    ensures n < 0 ==> r == s
    ensures n >= 0 ==> |r| == (if n < |s| then n else |s|) && r == s[..|r|]
  {
    if n < 0 then s else Take(s, n)
  }

  /** The rows `get_all_messages` reads. */
  function AllQuery(rows: seq<Row>, chat: int): seq<Row> {
    SortByTime(ChatRows(rows, chat))
  }

  /** The rows `get_recent_messages` reads. */
  function RecentQuery(rows: seq<Row>, chat: int, limit: int): seq<Row> {
    Limit(AllQuery(rows, chat), limit)
  }

  /** The rows of the clustering read: the chat's messages newest first,
      the last-saved first among equal times, at most `limit` of them. */
  function ClusteringQuery(rows: seq<Row>, chat: int, limit: int): seq<Row> {
    Limit(Reverse(AllQuery(rows, chat)), limit)
  }

  /** The first stored row of `chat` whose Telegram id is `mid`. */
  function FindById(rows: seq<Row>, chat: int, mid: int): (r: Option<Row>)
    ensures r.Some? ==> r.value in rows && r.value.chat_id == chat && r.value.message_id == Some(mid)
    ensures r.None? ==> forall x :: x in rows ==> !(x.chat_id == chat && x.message_id == Some(mid))
    ensures r.Some? ==>
      exists k :: 0 <= k < |rows| && rows[k] == r.value &&
        forall j :: 0 <= j < k ==> !(rows[j].chat_id == chat && rows[j].message_id == Some(mid))
  {
    if rows == [] then None
    else if rows[0].chat_id == chat && rows[0].message_id == Some(mid) then Some(rows[0])
    else
      var r := FindById(rows[1..], chat, mid);
      if r.Some? then FirstMatchShift(rows, chat, mid, r.value); r else r
  }

  /** A first match in the tail, behind a head that does not match, is the
      first match of the whole list. */
  lemma FirstMatchShift(rows: seq<Row>, chat: int, mid: int, v: Row)
    requires rows != [] && !(rows[0].chat_id == chat && rows[0].message_id == Some(mid))
    requires
      exists k :: 0 <= k < |rows[1..]| && rows[1..][k] == v &&
        forall j :: 0 <= j < k ==> !(rows[1..][j].chat_id == chat && rows[1..][j].message_id == Some(mid))
    ensures
      exists k :: 0 <= k < |rows| && rows[k] == v &&
        forall j :: 0 <= j < k ==> !(rows[j].chat_id == chat && rows[j].message_id == Some(mid))
  {
    var k :| 0 <= k < |rows[1..]| && rows[1..][k] == v &&
      forall j :: 0 <= j < k ==> !(rows[1..][j].chat_id == chat && rows[1..][j].message_id == Some(mid));
    assert rows[k + 1] == v;
    forall j | 0 <= j < k + 1 ensures !(rows[j].chat_id == chat && rows[j].message_id == Some(mid)) {
      if j > 0 {
        assert rows[j] == rows[1..][j - 1];
      }
    }
  }

  /** Appending a row never changes a lookup that already succeeds, and
      finds the new row when nothing earlier matches. */
  lemma {:induction false} FindByIdAppend(rows: seq<Row>, row: Row, chat: int, mid: int)
    ensures FindById(rows, chat, mid).Some? ==> FindById(rows + [row], chat, mid) == FindById(rows, chat, mid)
    ensures FindById(rows, chat, mid).None? ==>
      FindById(rows + [row], chat, mid) ==
        if row.chat_id == chat && row.message_id == Some(mid) then Some(row) else None
    decreases |rows|
  {
    if rows == [] {
      assert [row][1..] == [];
    } else {
      assert (rows + [row])[1..] == rows[1..] + [row];
      FindByIdAppend(rows[1..], row, chat, mid);
    }
  }

  /** Both reads only ever return rows of the queried chat. */
  lemma QueriesChatScoped(rows: seq<Row>, chat: int, limit: int)
    ensures forall x :: x in RecentQuery(rows, chat, limit) ==> x.chat_id == chat
    ensures forall x :: x in AllQuery(rows, chat) ==> x.chat_id == chat
    ensures forall x :: x in ClusteringQuery(rows, chat, limit) ==> x.chat_id == chat
  {
    var all := AllQuery(rows, chat);
    assert forall x :: x in all ==> x in multiset(ChatRows(rows, chat));
    assert forall x :: x in RecentQuery(rows, chat, limit) ==> x in all;
    assert forall x :: x in ClusteringQuery(rows, chat, limit) ==> x in Reverse(all);
    assert forall x :: x in Reverse(all) ==> x in all;
  }

  /** `get_all_messages` returns every stored message of the chat (with its
      multiplicity) in ascending time order. */
  lemma AllQueryComplete(rows: seq<Row>, chat: int)
    ensures SortedByTime(AllQuery(rows, chat))
    ensures forall x :: x in AllQuery(rows, chat) <==> x in rows && x.chat_id == chat
    ensures |AllQuery(rows, chat)| == |ChatRows(rows, chat)|
  {
    var c := ChatRows(rows, chat);
    var all := AllQuery(rows, chat);
    assert |multiset(all)| == |multiset(c)|;
    assert forall x :: x in all <==> x in multiset(c);
  }

  /** `get_recent_messages` returns at most `limit` rows, ascending in time:
      the EARLIEST `limit` messages of the chat, since every message it leaves
      out is no earlier than every message it returns. */
  lemma RecentQueryEarliest(rows: seq<Row>, chat: int, limit: int)
    ensures var r := RecentQuery(rows, chat, limit);
      (limit >= 0 ==> |r| <= limit) &&
      SortedByTime(r) &&
      r == AllQuery(rows, chat)[..|r|] &&
      forall i, j :: 0 <= i < |r| <= j < |AllQuery(rows, chat)| ==>
        r[i].timestamp <= AllQuery(rows, chat)[j].timestamp
  {
    var all := AllQuery(rows, chat);
    var r := RecentQuery(rows, chat, limit);
    assert r == all[..|r|];
    assert forall i :: 0 <= i < |r| ==> r[i] == all[i];
  }

  /** The clustering read is newest first and holds at most `limit` rows. */
  lemma ClusteringQueryNewestFirst(rows: seq<Row>, chat: int, limit: int)
    ensures var r := ClusteringQuery(rows, chat, limit);
      NewestFirst(r) && (limit >= 0 ==> |r| <= limit)
  {
    var all := AllQuery(rows, chat);
    ReverseSorted(all);
    LimitNewestFirst(Reverse(all), limit);
  }

  lemma ReverseSorted(s: seq<Row>)
    requires SortedByTime(s)
    ensures NewestFirst(Reverse(s))
  {
    var rev := Reverse(s);
    forall i, j | 0 <= i < j < |rev| ensures rev[i].timestamp >= rev[j].timestamp {
      assert rev[i] == s[|s| - 1 - i] && rev[j] == s[|s| - 1 - j];
    }
  }

  lemma LimitNewestFirst(s: seq<Row>, limit: int)
    requires NewestFirst(s)
    ensures NewestFirst(Limit(s, limit))
  {
    var r := Limit(s, limit);
    assert forall i :: 0 <= i < |r| ==> r[i] == s[i];
  }

  /** A list already in time order is left as it is by the sort. */
  lemma {:induction false} SortSortedIdentity(s: seq<Row>)
    requires SortedByTime(s)
    ensures SortByTime(s) == s
  {
    if s != [] {
      var init, last := s[..|s| - 1], s[|s| - 1];
      assert s == init + [last];
      assert SortByTime(s) == InsertByTime(last, SortByTime(init));
      assert SortedByTime(init);
      SortSortedIdentity(init);
      assert forall i :: 0 <= i < |init| ==> init[i].timestamp <= last.timestamp;
      InsertLast(last, init);
    }
  }

  lemma {:induction false} InsertLast(x: Row, s: seq<Row>)
    requires SortedByTime(s)
    requires forall i :: 0 <= i < |s| ==> s[i].timestamp <= x.timestamp
    ensures InsertByTime(x, s) == s + [x]
  {
    if s != [] {
      InsertLast(x, s[1..]);
      assert [s[0]] + (s[1..] + [x]) == s + [x];
    }
  }

  /** Messages saved in time order come back from the clustering read in
      reverse save order: the last one saved first. */
  lemma ClusteringReversesSaveOrder(rows: seq<Row>, chat: int, limit: int)
    requires SortedByTime(ChatRows(rows, chat))
    ensures var c := ChatRows(rows, chat);
      var r := ClusteringQuery(rows, chat, limit);
      |r| <= |c| && forall i :: 0 <= i < |r| ==> r[i] == c[|c| - 1 - i]
  {
    var c := ChatRows(rows, chat);
    SortSortedIdentity(c);
    assert AllQuery(rows, chat) == c;
    LimitReverse(c, limit, ClusteringQuery(rows, chat, limit));
  }

  /** The first `limit` elements of the reversed list are the last ones,
      from the end. */
  lemma LimitReverse<T>(s: seq<T>, limit: int, r: seq<T>)
    requires r == Limit(Reverse(s), limit)
    ensures |r| <= |s|
    ensures forall i :: 0 <= i < |r| ==> r[i] == s[|s| - 1 - i]
  {
    LimitPrefix(Reverse(s), limit, r);
  }

  /** `LIMIT` keeps a prefix: at most as many elements, each in its place. */
  lemma LimitPrefix<T>(t: seq<T>, limit: int, r: seq<T>)
    requires r == Limit(t, limit)
    ensures |r| <= |t|
    ensures forall i :: 0 <= i < |r| ==> r[i] == t[i]
  {
  }

  /** src/context/conversation_db.py `ConversationDB`: the `messages` table
      and the `_initialized` flag. Schema creation and the file-system work
      of `initialize` are I/O and only the flag is kept. */
  class ConversationDB {
    var rows: seq<Row>
    var initialized: bool

    constructor ()
      ensures rows == [] && !initialized
    {
      rows := [];
      initialized := false;
    }

    /** `initialize`: once the flag is set, later calls do nothing. */
    method Initialize()
      modifies this
      ensures initialized && rows == old(rows)
      ensures old(initialized) ==> unchanged(this)
    {
      if initialized {
        return;
      }
      initialized := true;
    }

    /** `save_message`: appends one row stamped with the save time `now`;
        the earlier rows are untouched. */
    method SaveMessage(chat_id: int, user_id: int, message_text: string, role: string,
                       message_id: Option<int>, now: int)
      modifies this
      ensures initialized
      ensures rows == old(rows) + [Row(chat_id, user_id, message_text, role, now, message_id)]
    {
      Initialize();
      rows := rows + [Row(chat_id, user_id, message_text, role, now, message_id)];
    }

    /** The loop that turns fetched rows into `Message`s. */
    static method RowsToMessages(fetched: seq<Row>) returns (messages: seq<Message>)
      ensures messages == ToMessages(fetched)
    {
      messages := [];
      var i := 0;
      while i < |fetched|
        invariant 0 <= i <= |fetched|
        invariant |messages| == i
        invariant forall k :: 0 <= k < i ==> messages[k] == ToMessage(fetched[k])
      {
        messages := messages + [ToMessage(fetched[i])];
        i := i + 1;
      }
    }

    /** `get_recent_messages`: the chat's earliest `limit` messages,
        ascending in time. */
    method GetRecentMessages(chat_id: int, limit: int) returns (messages: seq<Message>)
      modifies this
      ensures initialized && rows == old(rows)
      ensures messages == ToMessages(RecentQuery(rows, chat_id, limit))
    {
      Initialize();
      messages := RowsToMessages(RecentQuery(rows, chat_id, limit));
    }

    /** `get_all_messages`: every message of the chat, ascending in time. */
    method GetAllMessages(chat_id: int) returns (messages: seq<Message>)
      modifies this
      ensures initialized && rows == old(rows)
      ensures messages == ToMessages(AllQuery(rows, chat_id))
    {
      Initialize();
      messages := RowsToMessages(AllQuery(rows, chat_id));
    }

    /** The newest-first read the session clusterer relies on. */
    function MessagesForClustering(chat_id: int, limit: int): (messages: seq<Message>)
      reads this
      ensures limit >= 0 ==> |messages| <= limit
      ensures forall i :: 0 <= i < |messages| ==> messages[i].chat_id == chat_id
      ensures forall i, j :: 0 <= i < j < |messages| ==> messages[i].timestamp >= messages[j].timestamp
    {
      QueriesChatScoped(rows, chat_id, limit);
      ClusteringQueryNewestFirst(rows, chat_id, limit);
      var q := ClusteringQuery(rows, chat_id, limit);
      assert forall i :: 0 <= i < |q| ==> q[i] in q;
      ToMessages(q)
    }

    /** The chat-scoped lookup of a message by its Telegram id. */
    function MessageById(chat_id: int, message_id: int): (m: Option<Message>)
      reads this
      ensures m.Some? ==> m.value.chat_id == chat_id && m.value.message_id == Some(message_id)
      ensures m.None? <==> forall x :: x in rows ==> !(x.chat_id == chat_id && x.message_id == Some(message_id))
      ensures m.Some? ==>
        exists k :: 0 <= k < |rows| && rows[k].chat_id == chat_id && rows[k].message_id == Some(message_id) &&
          m.value == ToMessage(rows[k]) &&
          forall j :: 0 <= j < k ==> !(rows[j].chat_id == chat_id && rows[j].message_id == Some(message_id))
    {
      match FindById(rows, chat_id, message_id)
      case Some(r) => Some(ToMessage(r))
      case None => None
    }
  }

  /** The store right after `SaveMessage` of a message with Telegram id
      `id` into chat `c` (the rows `SaveMessage` promises): when no earlier
      row of `c` has that id, the lookup returns exactly the saved message,
      its text included, and a chat with no stored rows still finds
      nothing. */
  lemma SavedMessageFound(db: ConversationDB, before: seq<Row>, c: int, u: int, text: string, role: string,
                          id: int, now: int)
    requires db.rows == before + [Row(c, u, text, role, now, Some(id))]
    requires forall x :: x in before ==> !(x.chat_id == c && x.message_id == Some(id))
    ensures db.MessageById(c, id) == Some(Message(c, u, text, role, now, Some(id), None, None))
    ensures db.MessageById(c, id).value.message_text == text
    ensures forall other :: other != c && (forall x :: x in before ==> x.chat_id != other) ==>
      db.MessageById(other, id).None?
  {
    FindByIdAppend(before, Row(c, u, text, role, now, Some(id)), c, id);
  }
}

=== FILE: debug_trace.dfy ===
/** Request traces of the multi-agent orchestration (src/debug/trace.py): a
    trace collects the events of one request (requests, responses, tool
    calls, delegations, errors) and serialises them for storage and for
    the sequence diagram.

    The clock is an input (`now`, whole milliseconds), and so is the fresh
    trace id; durations are given in milliseconds as they arrive. */
module DebugTrace {
  import opened Wrappers
  import opened PyValues

  datatype TraceEventType = Request | Response | ToolCall | Delegation | Error

  /** The enum's string value. */
  function TypeValue(t: TraceEventType): string {
    match t
    case Request => "request"
    case Response => "response"
    case ToolCall => "tool_call"
    case Delegation => "delegation"
    case Error => "error"
  }

  /** `TraceEventType(value)`: the member with that value, if any. */
  function ParseType(value: string): (r: Option<TraceEventType>)
    ensures r.Some? ==> TypeValue(r.value) == value
  {
    if value == "request" then Some(Request)
    else if value == "response" then Some(Response)
    else if value == "tool_call" then Some(ToolCall)
    else if value == "delegation" then Some(Delegation)
    else if value == "error" then Some(Error)
    else None
  }

  /** Every type's value reads back as that type, so the values are
      distinct. */
  lemma ParseTypeValue(t: TraceEventType)
    ensures ParseType(TypeValue(t)) == Some(t)
  {
  }

  datatype TraceEvent = TraceEvent(
    timestamp: int,
    event_type: TraceEventType,
    source: string,
    target: string,
    content_summary: string,
    duration_ms: Option<real>,
    trace_id: string,
    metadata: seq<(string, Value)>)

  /** `TraceEvent.to_dict` */
  datatype EventRecord = EventRecord(
    timestamp: int,
    event_type: string,
    source: string,
    target: string,
    content_summary: string,
    duration_ms: Option<real>,
    trace_id: string,
    metadata: seq<(string, Value)>)

  /** `RequestTrace.to_dict` */
  datatype TraceRecord = TraceRecord(
    trace_id: string,
    start_time: int,
    end_time: Option<int>,
    duration_ms: int,
    event_count: nat,
    events: seq<EventRecord>)

  /** One event of `to_svg_data`. */
  datatype SvgEvent = SvgEvent(
    etype: string,
    source: string,
    target: string,
    summary: string,
    time_offset_ms: int,
    duration_ms: Option<real>)

  /** `RequestTrace.to_svg_data` */
  datatype SvgData = SvgData(
    trace_id: string,
    start_time: int,
    end_time: Option<int>,
    duration_ms: int,
    events: seq<SvgEvent>)

  function EventToRecord(e: TraceEvent): (r: EventRecord)
    ensures ParseType(r.event_type) == Some(e.event_type)
    ensures r.source == e.source && r.target == e.target && r.trace_id == e.trace_id
  {
    EventRecord(e.timestamp, TypeValue(e.event_type), e.source, e.target, e.content_summary,
                e.duration_ms, e.trace_id, e.metadata)
  }

  function EventToSvg(e: TraceEvent, start_time: int): (r: SvgEvent)
    ensures ParseType(r.etype) == Some(e.event_type)
    ensures r.source == e.source && r.target == e.target && r.summary == e.content_summary
    ensures r.time_offset_ms == e.timestamp - start_time
  {
    SvgEvent(TypeValue(e.event_type), e.source, e.target, e.content_summary, e.timestamp - start_time, e.duration_ms)
  }

  /** `metadata or {}` */
  function MetadataOrEmpty(metadata: Option<seq<(string, Value)>>): (r: seq<(string, Value)>)
    ensures metadata.None? ==> r == []
    ensures metadata.Some? ==> r == metadata.value
  {
    metadata.GetOr([])
  }

  class RequestTrace {
    const trace_id: string
    const start_time: int
    var end_time: Option<int>
    var events: seq<TraceEvent>

    /** A new trace: no end time, no events. */
    constructor(trace_id: string, start_time: int)
      ensures this.trace_id == trace_id && this.start_time == start_time
      ensures end_time.None? && events == []
      ensures Valid()
    {
      this.trace_id := trace_id;
      this.start_time := start_time;
      end_time := None;
      events := [];
    }

    /** `add_event`: one event, stamped with this trace's id, appended at
        the end and returned. */
    method AddEvent(now: int, event_type: TraceEventType, source: string, target: string,
                    content_summary: string, duration_ms: Option<real>,
                    metadata: Option<seq<(string, Value)>>)
      returns (e: TraceEvent)
      requires Valid()
      modifies this
      ensures Valid()
      ensures events == old(events) + [e]
      ensures e == TraceEvent(now, event_type, source, target, content_summary, duration_ms,
                              trace_id, MetadataOrEmpty(metadata))
      ensures end_time == old(end_time)
    {
      e := TraceEvent(now, event_type, source, target, content_summary, duration_ms,
                      trace_id, MetadataOrEmpty(metadata));
      events := events + [e];
    }

    /** `complete` */
    method Complete(now: int)
      requires Valid()
      modifies this
      ensures Valid()
      ensures end_time == Some(now)
      ensures events == old(events)
    {
      end_time := Some(now);
    }

    /** `get_duration_ms`: up to the end time, or up to now while the trace
        is open. */
    function DurationMs(now: int): (d: int)
      reads this
      ensures end_time.Some? ==> d == end_time.value - start_time
      ensures end_time.None? ==> d == now - start_time
    {
      match end_time
      case Some(t) => t - start_time
      case None => now - start_time
    }

    /** The event records, in event order. */
    function EventRecords(): (r: seq<EventRecord>)
      reads this
      ensures |r| == |events|
      ensures forall i :: 0 <= i < |events| ==> r[i] == EventToRecord(events[i])
    {
      seq(|events|, i requires 0 <= i < |events| reads this => EventToRecord(events[i]))
    }

    /** `to_dict`: the count is the number of events, and every event is
        serialised in order. */
    function ToDict(now: int): (r: TraceRecord)
      reads this
      ensures r.trace_id == trace_id && r.end_time == end_time
      ensures r.event_count == |events| == |r.events|
      ensures forall i :: 0 <= i < |events| ==>
        r.events[i] == EventToRecord(events[i]) && r.events[i].trace_id == events[i].trace_id
    {
      TraceRecord(trace_id, start_time, end_time, DurationMs(now), |events|, EventRecords())
    }

    /** `to_svg_data`: one entry per event, in order, carrying the type's
        string value and the offset from the start of the trace. */
    function ToSvgData(now: int): (r: SvgData)
      reads this
      ensures r.trace_id == trace_id && r.end_time == end_time
      ensures |r.events| == |events|
      ensures forall i :: 0 <= i < |events| ==> r.events[i] == EventToSvg(events[i], start_time)
    {
      SvgData(trace_id, start_time, end_time, DurationMs(now),
              seq(|events|, i requires 0 <= i < |events| reads this => EventToSvg(events[i], start_time)))
    }

    /** Every event of the trace carries the trace's id. */
    ghost predicate Valid()
      reads this
    {
      forall i :: 0 <= i < |events| ==> events[i].trace_id == trace_id
    }
  }
}

=== FILE: log_viewer.dfy ===
/** The live log viewer (src/web/subsections/log_viewer.py): a logging
    handler keeps the newest records in a bounded buffer, the page reads
    them filtered by level, and its "clear" action empties the buffer.

    The formatting of a record (timestamp, message) happens before it
    reaches the buffer, so an entry is an input here; the websocket
    broadcast of each new entry is left out. */
module LogViewer {
  import opened Wrappers

  const DefaultMaxEntries: nat := 500
  const AllLevels := "ALL"

  /** One stored record. */
  datatype LogEntry = LogEntry(timestamp: string, level: string, logger_name: string, message: string)

  /** What `handle_action` answers. */
  datatype ActionReply =
    | Cleared(success: bool, logs: seq<LogEntry>)
    | UnknownAction(error: string)

  /** The rank of a level name for the filter; an unknown name ranks 0. */
  function LevelRank(level: string): (r: nat)
    ensures r == 0 <==> level !in {"DEBUG", "INFO", "WARNING", "ERROR", "CRITICAL"}
    ensures level == "DEBUG" ==> r == 10
    ensures level == "CRITICAL" ==> r == 50
  {
    if level == "DEBUG" then 10
    else if level == "INFO" then 20
    else if level == "WARNING" then 30
    else if level == "ERROR" then 40
    else if level == "CRITICAL" then 50
    else 0
  }

  /** What a deque with `maxlen = n` holds after the items `s` went in: the
      newest `n` of them, oldest first. */
  function Newest<T>(s: seq<T>, n: nat): (r: seq<T>)
    ensures |r| <= n && |r| <= |s|
    ensures |s| <= n ==> r == s
    ensures r == s[|s| - |r|..]
  {
    if |s| <= n then s else s[|s| - n..]
  }

  /** Appending to a full deque evicts its oldest entry: keeping the newest
      `n` after each append is the same as keeping the newest `n` at the
      end. */
  lemma NewestAppend<T>(s: seq<T>, e: T, n: nat)
    ensures Newest(Newest(s, n) + [e], n) == Newest(s + [e], n)
  {
    var t := Newest(s, n);
    if |s| > n {
      assert |t| == n;
      var u := s + [e];
      assert (t + [e])[|t + [e]| - n..] == u[|u| - n..];
    }
  }

  /** The buffer after emitting `es` one by one into `logs`. */
  function Replay<T>(logs: seq<T>, es: seq<T>, n: nat): seq<T>
    decreases |es|
  {
    if es == [] then logs
    else Newest(Replay(logs, es[..|es| - 1], n) + [es[|es| - 1]], n)
  }

  /** After any sequence of emits, the buffer holds the newest `n` entries
      of everything that went in, in emit order. */
  lemma {:induction false} ReplayKeepsNewest<T>(logs: seq<T>, es: seq<T>, n: nat)
    requires |logs| <= n
    ensures Replay(logs, es, n) == Newest(logs + es, n)
    ensures |Replay(logs, es, n)| <= n
    decreases |es|
  {
    if es != [] {
      var init := es[..|es| - 1];
      var e := es[|es| - 1];
      assert es == init + [e];
      ReplayKeepsNewest(logs, init, n);
      assert Replay(logs, es, n) == Newest(Replay(logs, init, n) + [e], n);
      NewestAppend(logs + init, e, n);
      assert logs + init + [e] == logs + es;
    }
  }

  /** The entries whose level ranks at least `min`. */
  function Filtered(logs: seq<LogEntry>, min: nat): (r: seq<LogEntry>)
    ensures |r| <= |logs|
    decreases |logs|
  {
    if logs == [] then []
    else
      var e := logs[|logs| - 1];
      Filtered(logs[..|logs| - 1], min) + (if LevelRank(e.level) >= min then [e] else [])
  }

  /** The filter keeps exactly the entries of high enough rank. */
  lemma {:induction false} FilteredMembers(logs: seq<LogEntry>, min: nat)
    ensures forall e :: e in Filtered(logs, min) <==> e in logs && LevelRank(e.level) >= min
    decreases |logs|
  {
    if logs != [] {
      var init := logs[..|logs| - 1];
      FilteredMembers(init, min);
      assert logs == init + [logs[|logs| - 1]];
    }
  }

  /** The filter keeps the order: it distributes over concatenation. */
  lemma {:induction false} FilteredAppend(a: seq<LogEntry>, b: seq<LogEntry>, min: nat)
    ensures Filtered(a + b, min) == Filtered(a, min) + Filtered(b, min)
    decreases |b|
  {
    if b != [] {
      var init := b[..|b| - 1];
      FilteredAppend(a, init, min);
      assert (a + b)[..|a + b| - 1] == a + init;
      assert (a + b)[|a + b| - 1] == b[|b| - 1];
    } else {
      assert a + b == a;
    }
  }

  /** A minimum rank of 0 keeps everything. */
  lemma {:induction false} FilteredZero(logs: seq<LogEntry>)
    ensures Filtered(logs, 0) == logs
    decreases |logs|
  {
    if logs != [] {
      FilteredZero(logs[..|logs| - 1]);
    }
  }

  /** `get_logs(level)` on the entries `logs`. */
  function LogsAtLevel(logs: seq<LogEntry>, level: Option<string>): (r: seq<LogEntry>)
    ensures level.None? || level == Some("") || level == Some(AllLevels) ==> r == logs
    ensures level.Some? && LevelRank(level.value) == 0 ==> r == logs
    ensures level.Some? && level.value != "" && level.value != AllLevels ==>
      forall e :: e in r <==> e in logs && LevelRank(e.level) >= LevelRank(level.value)
  {
    if level.None? || level.value == "" || level.value == AllLevels then logs
    else
      FilteredMembers(logs, LevelRank(level.value));
      FilteredZero(logs);
      Filtered(logs, LevelRank(level.value))
  }

  class WebLogHandler {
    const max_entries: nat
    var logs: seq<LogEntry>

    ghost predicate Valid()
      reads this
    {
      |logs| <= max_entries
    }

    constructor(max_entries: nat)
      ensures this.max_entries == max_entries && logs == [] && Valid()
    {
      this.max_entries := max_entries;
      logs := [];
    }

    /** `emit`: append; a full buffer drops its oldest entry. */
    method Emit(e: LogEntry)
      requires Valid()
      modifies this
      ensures Valid()
      ensures logs == Newest(old(logs) + [e], max_entries)
    {
      logs := logs + [e];
      if |logs| > max_entries {
        logs := logs[1..];
      }
    }

    /** `get_logs`: the buffer is read, never changed. */
    function GetLogs(level: Option<string>): (r: seq<LogEntry>)
      reads this
      ensures r == LogsAtLevel(logs, level)
    {
      if level.None? || level.value == "" || level.value == AllLevels then logs
      else Filtered(logs, LevelRank(level.value))
    }
  }

  class LogViewerSubsection {
    const handler: WebLogHandler

    constructor(handler: WebLogHandler)
      ensures this.handler == handler
    {
      this.handler := handler;
    }

    /** `handle_action`: "clear" empties the buffer and answers an empty
        list; any other action is unknown and changes nothing. */
    method HandleAction(action: string) returns (r: ActionReply)
      modifies handler
      ensures action == "clear" ==> handler.logs == [] && r == Cleared(true, [])
      ensures action != "clear" ==>
        handler.logs == old(handler.logs) && r == UnknownAction("Unknown action: " + action)
    {
      if action == "clear" {
        handler.logs := [];
        return Cleared(true, []);
      }
      r := UnknownAction("Unknown action: " + action);
    }
  }
}

=== FILE: logging_setup.dfy ===
/** The command-line verbosity of the bot and the console log level it
    selects (src/utils/logging.py). Creating the handlers and the log file
    is I/O and not part of this model. */
module LoggingSetup {
  import opened Wrappers

  /** Python's `logging` level numbers. */
  const Debug := 10
  const Info := 20
  const Warning := 30

  /** The verbosity a flag sets, if the argument is a verbosity flag. */
  function FlagLevel(arg: string): (r: Option<nat>)
    ensures r.Some? <==> arg in {"-v", "-vv", "-vvv"}
    ensures r.Some? ==> 1 <= r.value <= 3 && r.value == |arg| - 1
  {
    if arg == "-v" then Some(1)
    else if arg == "-vv" then Some(2)
    else if arg == "-vvv" then Some(3)
    else None
  }

  /** The verbosity the arguments ask for: that of the last flag, 0 when
      there is none. */
  function Verbosity(args: seq<string>): (r: nat)
    ensures r <= 3
    decreases |args|
  {
    if args == [] then 0
    else
      match FlagLevel(args[|args| - 1])
      case Some(v) => v
      case None => Verbosity(args[..|args| - 1])
  }

  /** Without a flag the verbosity is 0. */
  lemma {:induction false} NoFlagQuiet(args: seq<string>)
    requires forall a :: a in args ==> FlagLevel(a).None?
    ensures Verbosity(args) == 0
    decreases |args|
  {
    if args != [] {
      assert args[|args| - 1] in args;
      NoFlagQuiet(args[..|args| - 1]);
    }
  }

  /** The last flag wins: arguments after it that are not flags change
      nothing. */
  lemma {:induction false} LastFlagWins(args: seq<string>, k: nat)
    requires k < |args| && FlagLevel(args[k]).Some?
    requires forall j :: k < j < |args| ==> FlagLevel(args[j]).None?
    ensures Verbosity(args) == FlagLevel(args[k]).value
    decreases |args|
  {
    if k < |args| - 1 {
      var init := args[..|args| - 1];
      assert init[k] == args[k];
      LastFlagWins(init, k);
    }
  }

  /** `parse_verbosity` */
  method ParseVerbosity(args: seq<string>) returns (verbosity: nat)
    ensures verbosity == Verbosity(args)
  {
    verbosity := 0;
    var i := 0;
    while i < |args|
      invariant 0 <= i <= |args|
      invariant verbosity == Verbosity(args[..i])
    {
      assert args[..i + 1][..i] == args[..i];
      var arg := args[i];
      if arg == "-v" {
        verbosity := 1;
      } else if arg == "-vv" {
        verbosity := 2;
      } else if arg == "-vvv" {
        verbosity := 3;
      }
      i := i + 1;
    }
    assert args[..i] == args;
  }

  /** The console handler's level: WARNING at 0, INFO at 1, DEBUG above. */
  function ConsoleLevel(verbosity: int): (level: int)
    ensures verbosity == 0 ==> level == Warning
    ensures verbosity == 1 ==> level == Info
    ensures verbosity != 0 && verbosity != 1 ==> level == Debug
  {
    if verbosity == 0 then Warning
    else if verbosity == 1 then Info
    else Debug
  }

  /** More verbosity never shows fewer records. */
  lemma ConsoleLevelMonotone(v: nat, w: nat)
    requires v <= w
    ensures ConsoleLevel(w) <= ConsoleLevel(v)
  {
  }
}

=== FILE: markdown_formatter.dfy ===
/** Message splitting for Telegram's length limit and the empty-input guard
    of the Markdown-to-HTML conversion (src/telegram/markdown_formatter.py). */
module MarkdownFormatter {
  import opened Wrappers
  import opened Strs

  const TelegramMaxLength: int := 4096

  /** `markdown_to_telegram_html`: None or "" comes back unchanged; other
      text goes through the regular-expression pipeline, kept abstract. */
  function MarkdownToTelegramHtml(text: Option<string>, pipeline: string -> string): (r: Option<string>)
    ensures text == None ==> r == None
    ensures text == Some("") ==> r == Some("")
    ensures text.Some? && text.value != "" ==> r == Some(pipeline(text.value))
  {
    if text.None? || text.value == "" then text else Some(pipeline(text.value))
  }

  /** `c` is one of the boundary strings the splitter looks for. */
  predicate EndsAtBoundary(chunk: string) {
    EndsWith(chunk, "\n") || EndsWith(chunk, ". ") || EndsWith(chunk, "! ") ||
    EndsWith(chunk, "? ") || EndsWith(chunk, " ")
  }

  /** The boundary search of `split_message_for_telegram`: after the last
      newline in the window if it lies beyond `max_length // 2`; else after
      the last ". ", "! " or "? " (tried in that order) beyond that mark; else
      after the last space beyond it; else at `max_length`. */
  function BoundarySplit(rem: string, max_length: nat): (k: nat)
    requires 1 <= max_length < |rem|
    ensures 1 <= k <= max_length
    ensures k < max_length ==> k > max_length / 2 && EndsAtBoundary(rem[..k])
  {
    var half := max_length / 2;
    var nl := RFind(rem, "\n", 0, max_length);
    if nl > half then
      assert rem[..nl + 1][nl..] == rem[nl..nl + 1];
      nl + 1
    else SentenceOrSpaceSplit(rem, max_length)
  }

  /** A newline past the half mark wins: the split comes right after the
      last newline in the window. */
  lemma BoundarySplitPrefersNewline(rem: string, max_length: nat, i: nat)
    requires 1 <= max_length < |rem|
    requires max_length / 2 < i && i + 1 <= max_length && OccursAt(rem, "\n", i)
    ensures var k := BoundarySplit(rem, max_length);
      rem[k - 1] == '\n' && forall j :: k <= j < max_length ==> !OccursAt(rem, "\n", j)
  {
    var nl := RFind(rem, "\n", 0, max_length);
    assert nl >= i;
    assert rem[nl..nl + 1] == [rem[nl]];
  }

  /** The sentence ends tried in turn. */
  const SentenceEnds: seq<string> := [". ", "! ", "? "]

  /** The split just after the last `p` that starts beyond
      `max_length // 2` and ends within `max_length`, if there is one. */
  function AfterLast(rem: string, p: string, max_length: nat): (r: Option<nat>)
    requires 1 <= max_length < |rem|
    ensures r.Some? ==> max_length / 2 + |p| < r.value <= max_length && EndsWith(rem[..r.value], p)
    ensures r.None? <==> RFind(rem, p, 0, max_length) <= max_length / 2
    ensures r.Some? ==> r.value == RFind(rem, p, 0, max_length) + |p|
  {
    var pos := RFind(rem, p, 0, max_length);
    if pos > max_length / 2 then
      assert rem[..pos + |p|][pos..] == rem[pos..pos + |p|];
      Some(pos + |p|)
    else None
  }

  /** The loop over the sentence ends: the first of `ends` found beyond
      the half mark gives the split. */
  function SentenceSplit(rem: string, max_length: nat, ends: seq<string>): (r: Option<nat>)
    requires 1 <= max_length < |rem|
    ensures r.Some? ==>
      max_length / 2 < r.value <= max_length && exists p :: p in ends && EndsWith(rem[..r.value], p)
    ensures r.None? <==> forall p :: p in ends ==> RFind(rem, p, 0, max_length) <= max_length / 2
  {
    if ends == [] then None
    else
      match AfterLast(rem, ends[0], max_length)
      case Some(k) => Some(k)
      case None =>
        var r := SentenceSplit(rem, max_length, ends[1..]);
        assert forall p :: p in ends <==> p == ends[0] || p in ends[1..];
        r
  }

  /** The sentence and space fall-backs of the boundary search. */
  function SentenceOrSpaceSplit(rem: string, max_length: nat): (k: nat)
    requires 1 <= max_length < |rem|
    ensures 1 <= k <= max_length
    ensures k < max_length ==> k > max_length / 2 && EndsAtBoundary(rem[..k])
  {
    match SentenceSplit(rem, max_length, SentenceEnds)
    case Some(k) =>
      assert forall p :: p in SentenceEnds ==> p == ". " || p == "! " || p == "? ";
      k
    case None =>
      match AfterLast(rem, " ", max_length)
      case Some(k) => k
      case None => max_length
  }

  /** The tag check AS WRITTEN: when the last '<' before the boundary has no
      '>' after it, the split moves back to that '<', even when it is the
      first character. */
  function SplitPointAsWritten(rem: string, max_length: nat): (k: nat)
    requires 1 <= max_length < |rem|
    ensures k <= BoundarySplit(rem, max_length)
  {
    var b := BoundarySplit(rem, max_length);
    var lastOpen := RFind(rem, "<", 0, b);
    if lastOpen != -1 && Find(rem, ">", lastOpen, b) == -1 then lastOpen else b
  }

  /** A remainder that opens with a '<' and holds no other '<' and no '>'
      in the first `max_length` characters gets split point 0 as written:
      the chunk appended is empty and the remainder is unchanged, so the
      loop repeats the same step forever. */
  lemma AsWrittenStalls(rem: string, max_length: nat)
    requires 1 <= max_length < |rem|
    requires rem[0] == '<'
    requires forall j :: 0 < j < max_length ==> rem[j] != '<' && rem[j] != '>'
    ensures SplitPointAsWritten(rem, max_length) == 0
    ensures rem[..SplitPointAsWritten(rem, max_length)] == "" && rem[SplitPointAsWritten(rem, max_length)..] == rem
  {
    var b := BoundarySplit(rem, max_length);
    assert OccursAt(rem, "<", 0);
    forall j | 0 < j && j + 1 <= b ensures !OccursAt(rem, "<", j) {
      assert rem[j..j + 1] == [rem[j]];
    }
    var lastOpen := RFind(rem, "<", 0, b);
    assert lastOpen == 0;
    forall j | 0 <= j && j + 1 <= b ensures !OccursAt(rem, ">", j) {
      assert rem[j..j + 1] == [rem[j]];
    }
  }

  /** The input that shows it, at the default limit: "<" followed by 4096
      letters. */
  lemma AsWrittenStallsAtDefaultLimit(rem: string)
    requires |rem| == 4097 && rem[0] == '<'
    requires forall j :: 0 < j < |rem| ==> IsAlpha(rem[j])
    ensures SplitPointAsWritten(rem, TelegramMaxLength) == 0
  {
    AsWrittenStalls(rem, TelegramMaxLength);
  }

  /** The corrected tag check: the split moves back to an unclosed '<' only
      when that leaves a non-empty chunk, so every step makes progress. */
  function SplitPoint(rem: string, max_length: nat): (k: nat)
    requires 1 <= max_length < |rem|
    ensures 1 <= k <= BoundarySplit(rem, max_length) <= max_length
  {
    var b := BoundarySplit(rem, max_length);
    var lastOpen := RFind(rem, "<", 0, b);
    if lastOpen > 0 && Find(rem, ">", lastOpen, b) == -1 then lastOpen else b
  }

  /** The correction changes only the stalling case: wherever the split
      point as written is positive the two agree, and where it is 0 the
      corrected split keeps the boundary split. */
  lemma SplitPointAgrees(rem: string, max_length: nat)
    requires 1 <= max_length < |rem|
    ensures SplitPointAsWritten(rem, max_length) > 0 ==> SplitPoint(rem, max_length) == SplitPointAsWritten(rem, max_length)
    ensures SplitPointAsWritten(rem, max_length) == 0 ==> SplitPoint(rem, max_length) == BoundarySplit(rem, max_length)
  {
  }

  /** When the corrected split moves back, it lands on a '<' with no '<'
      and no '>' between it and the boundary split. */
  lemma SplitPointTag(rem: string, max_length: nat)
    requires 1 <= max_length < |rem|
    ensures var k, b := SplitPoint(rem, max_length), BoundarySplit(rem, max_length);
      k < b ==> rem[k] == '<' && forall j :: k < j < b ==> rem[j] != '<' && rem[j] != '>'
  {
    var b := BoundarySplit(rem, max_length);
    var lastOpen := RFind(rem, "<", 0, b);
    if lastOpen > 0 && Find(rem, ">", lastOpen, b) == -1 {
      UnclosedTag(rem, lastOpen, b);
    }
  }

  /** A '<' at `lo` with no later '<' and no '>' from it up to `b`,
      read character by character. */
  lemma UnclosedTag(rem: string, lo: nat, b: nat)
    requires lo < b <= |rem|
    requires OccursAt(rem, "<", lo)
    requires forall i :: lo < i && i + 1 <= b ==> !OccursAt(rem, "<", i)
    requires forall i :: lo <= i && i + 1 <= b ==> !OccursAt(rem, ">", i)
    ensures rem[lo] == '<'
    ensures forall j :: lo < j < b ==> rem[j] != '<' && rem[j] != '>'
  {
    assert rem[lo..lo + 1] == [rem[lo]];
    forall j | lo < j < b ensures rem[j] != '<' && rem[j] != '>' {
      assert !OccursAt(rem, "<", j) && !OccursAt(rem, ">", j);
      assert rem[j..j + 1] == [rem[j]];
    }
  }

  /** The chunks the corrected loop produces from a remainder. */
  function Chunks(rem: string, max_length: nat): (cs: seq<string>)
    requires max_length >= 1
    decreases |rem|
  {
    if |rem| <= max_length then [rem]
    else
      var k := SplitPoint(rem, max_length);
      [rem[..k]] + Chunks(rem[k..], max_length)
  }

  /** Joining the chunks gives back the text; every chunk fits the limit;
      and no chunk is empty unless the text itself is. */
  lemma {:induction false} ChunksReassemble(rem: string, max_length: nat)
    requires max_length >= 1
    ensures Concat(Chunks(rem, max_length)) == rem
    ensures forall i :: 0 <= i < |Chunks(rem, max_length)| ==> |Chunks(rem, max_length)[i]| <= max_length
    ensures rem != "" ==> forall i :: 0 <= i < |Chunks(rem, max_length)| ==> Chunks(rem, max_length)[i] != ""
    decreases |rem|
  {
    if |rem| > max_length {
      var k := SplitPoint(rem, max_length);
      var rest := Chunks(rem[k..], max_length);
      ChunksReassemble(rem[k..], max_length);
      var cs := Chunks(rem, max_length);
      assert cs == [rem[..k]] + rest;
      assert cs[1..] == rest;
      assert rem[..k] + rem[k..] == rem;
      forall i | 0 <= i < |cs| ensures |cs[i]| <= max_length && cs[i] != "" {
        if i > 0 { assert cs[i] == rest[i - 1]; }
      }
    }
  }

  /** One step of the loop: a remainder over the limit gives its first
      chunk, and the chunks of what follows it. */
  lemma ChunksStep(rem: string, max_length: nat)
    requires 1 <= max_length < |rem|
    ensures var k := SplitPoint(rem, max_length);
      Chunks(rem, max_length) == [rem[..k]] + Chunks(rem[k..], max_length)
  {
  }

  /** `split_message_for_telegram` with the corrected tag check. Text that
      fits comes back as the single chunk; longer text is cut chunk by
      chunk from the front until the remainder fits, and the remainder is
      the last chunk. */
  method SplitMessageForTelegram(text: string, max_length: nat) returns (chunks: seq<string>)
    requires max_length >= 1
    ensures chunks == Chunks(text, max_length)
    ensures |text| <= max_length ==> chunks == [text]
    ensures Concat(chunks) == text
    ensures forall i :: 0 <= i < |chunks| ==> |chunks[i]| <= max_length
    ensures text != "" ==> forall i :: 0 <= i < |chunks| ==> chunks[i] != ""
  {
    if |text| <= max_length {
      chunks := [text];
    } else {
      chunks := [];
      var remaining := text;
      while |remaining| > max_length
        invariant chunks + Chunks(remaining, max_length) == Chunks(text, max_length)
        decreases |remaining|
      {
        var split_point := SplitPoint(remaining, max_length);
        var chunk := remaining[..split_point];
        ChunksStep(remaining, max_length);
        AppendAssoc(chunks, [chunk], Chunks(remaining[split_point..], max_length));
        chunks := chunks + [chunk];
        remaining := remaining[split_point..];
      }
      chunks := chunks + [remaining];
    }
    ChunksReassemble(text, max_length);
  }
}

=== FILE: message_extractor.dfy ===
/** Inbound Telegram message validation (src/telegram/message_extractor.py):
    field extraction from an update, the chat and user allow-lists, and
    command detection. The update dictionary is modelled by the keys the
    extractor reads. For the message, its chat and its sender an absent key
    and a JSON null differ: an absent one reads as an empty dictionary (or,
    for the message, ends the extraction), while a null one makes the next
    `.get` raise AttributeError. For the ids, the text, the message id and
    the username the two are alike: both read as None. */
module MessageExtractor {
  import opened Wrappers
  import opened Strs

  /** A dictionary-valued key: absent, present with a JSON null, or
      present with a value. */
  datatype Field<T> = Absent | Null | Present(value: T)

  datatype Chat = Chat(id: Option<int>)
  datatype Sender = Sender(id: Option<int>, username: Option<string>)
  datatype TelegramMessage = TelegramMessage(
    chat: Field<Chat>,
    from: Field<Sender>,
    text: Option<string>,
    message_id: Option<int>)
  datatype Update = Update(message: Field<TelegramMessage>)

  datatype ExtractedMessage = ExtractedMessage(
    chat_id: int,
    user_id: int,
    message_text: string,
    message_id: Option<int>,
    username: Option<string>,
    is_command: bool)

  /** `is_allowed_conversation`: an empty allow-list admits every chat. */
  predicate IsAllowedConversation(allowed_chat_ids: set<int>, chat_id: int) {
    allowed_chat_ids == {} || chat_id in allowed_chat_ids
  }

  /** `is_allowed_user`: an empty allow-list admits every user. */
  predicate IsAllowedUser(allowed_user_ids: set<int>, user_id: int) {
    allowed_user_ids == {} || user_id in allowed_user_ids
  }

  /** `message.get("chat", {}).get("id")`, falsy when missing: an absent
      chat reads as `{}`, so its id is missing too. */
  function ChatId(m: TelegramMessage): int {
    if m.chat.Present? then m.chat.value.id.GetOr(0) else 0
  }

  function UserId(m: TelegramMessage): int {
    if m.from.Present? then m.from.value.id.GetOr(0) else 0
  }

  function Username(m: TelegramMessage): Option<string> {
    if m.from.Present? then m.from.value.username else None
  }

  /** A null message, or a null chat or sender inside a message: the
      following `.get` is called on None. */
  predicate RaisesOnNull(update: Update) {
    update.message.Null? ||
    (update.message.Present? && (update.message.value.chat.Null? || update.message.value.from.Null?))
  }

  const NullFieldError := "AttributeError"

  /** `MessageExtractor.extract`: `Success(None)` where the source returns
      None, `Failure` where it raises. */
  function Extract(allowed_chat_ids: set<int>, allowed_user_ids: set<int>, update: Update)
    : (r: Result<Option<ExtractedMessage>, string>)
    ensures r.Failure? <==> RaisesOnNull(update)
    ensures r.Failure? ==> r.error == NullFieldError
    ensures update.message.Absent? ==> r == Success(None)
    ensures r.Success? && r.value.Some? ==>
      var m := update.message.value;
      update.message.Present? &&
      r.value.value.message_text == m.text.GetOr("") && r.value.value.message_text != "" &&
      r.value.value.chat_id == ChatId(m) && r.value.value.chat_id != 0 &&
      r.value.value.user_id == UserId(m) && r.value.value.user_id != 0 &&
      r.value.value.message_id == m.message_id && r.value.value.username == Username(m) &&
      IsAllowedConversation(allowed_chat_ids, r.value.value.chat_id) &&
      IsAllowedUser(allowed_user_ids, r.value.value.user_id) &&
      (r.value.value.is_command <==> StartsWith(r.value.value.message_text, "/"))
    ensures update.message.Present? && !RaisesOnNull(update) ==>
      var m := update.message.value;
      r.Success? &&
      (r.value.Some? <==> m.text.GetOr("") != "" && ChatId(m) != 0 && UserId(m) != 0 &&
                          IsAllowedConversation(allowed_chat_ids, ChatId(m)) &&
                          IsAllowedUser(allowed_user_ids, UserId(m)))
  {
    match update.message
    case Absent => Success(None)
    case Null => Failure(NullFieldError)
    case Present(m) =>
      if m.chat.Null? || m.from.Null? then Failure(NullFieldError)
      else
        var text := m.text.GetOr("");
        var chat_id := ChatId(m);
        var user_id := UserId(m);
        if text == "" || chat_id == 0 || user_id == 0 then Success(None)
        else if !IsAllowedConversation(allowed_chat_ids, chat_id) then Success(None)
        else if allowed_user_ids != {} && !IsAllowedUser(allowed_user_ids, user_id) then Success(None)
        else Success(Some(ExtractedMessage(chat_id, user_id, text, m.message_id, Username(m), StartsWith(text, "/"))))
  }
}

=== FILE: notion_client.dfy ===
/** The content-extraction side of the Notion client (src/notion/client.py).
    API objects are records with an optional field per key the client reads;
    the paginated endpoints are sequences of result pages, and an id the
    API rejects is an id missing from the `BlockApi` map. */
module NotionClient {
  import opened Wrappers
  import opened Strs
  import opened OrderedMaps

  /** A rich-text element; only `plain_text` is read. */
  datatype RichText = RichText(plain_text: Option<string>)

  function TextOf(t: RichText): string {
    t.plain_text.GetOr("")
  }

  /** `"".join(t.get("plain_text", "") for t in ts)` */
  function PlainText(ts: seq<RichText>): string {
    Concat(MapSeq(ts, TextOf))
  }

  // ---------------------------------------------------------------------
  // Page titles

  /** A page property: its "type" and its "title" array. */
  datatype Property = Property(ptype: Option<string>, title: Option<seq<RichText>>)

  /** A page object: its "properties" dictionary, in key order. */
  datatype PageObject = PageObject(properties: Option<seq<(string, Property)>>)

  const TitleType := "title"
  const Untitled := "Untitled"
  const TitleNames: seq<string> := ["title", "Title", "Name", "name"]

  /** A property of type "title" with a non-empty title array. */
  predicate HasTitle(p: Property) {
    p.ptype == Some(TitleType) && p.title.GetOr([]) != []
  }

  predicate NamedTitle(props: seq<(string, Property)>, name: string) {
    Get(props, name).Some? && HasTitle(Get(props, name).value)
  }

  /** The loop over the preferred property names. */
  function ByName(props: seq<(string, Property)>, names: seq<string>): Option<string> {
    if names == [] then None
    else if NamedTitle(props, names[0]) then Some(PlainText(Get(props, names[0]).value.title.value))
    else ByName(props, names[1..])
  }

  /** `names[k]` is the first of the names that is a title property. */
  ghost predicate FirstNamed(props: seq<(string, Property)>, names: seq<string>, k: int) {
    0 <= k < |names| && NamedTitle(props, names[k]) &&
    forall j :: 0 <= j < k ==> !NamedTitle(props, names[j])
  }

  /** The preferred loop finds a title exactly when one of the names is a
      title property, and then it is the text of the first such name. */
  lemma {:induction false} ByNameFirst(props: seq<(string, Property)>, names: seq<string>)
    ensures ByName(props, names).Some? <==> exists k :: 0 <= k < |names| && NamedTitle(props, names[k])
    ensures forall k :: FirstNamed(props, names, k) ==>
      ByName(props, names) == Some(PlainText(Get(props, names[k]).value.title.value))
  {
    if names != [] {
      ByNameFirst(props, names[1..]);
      forall k | 0 <= k < |names| && NamedTitle(props, names[k]) ensures ByName(props, names).Some? {
        if k > 0 && !NamedTitle(props, names[0]) {
          assert NamedTitle(props, names[1..][k - 1]);
        }
      }
      forall k | FirstNamed(props, names, k)
        ensures ByName(props, names) == Some(PlainText(Get(props, names[k]).value.title.value))
      {
        if k > 0 {
          assert FirstNamed(props, names[1..], k - 1) by {
            forall j | 0 <= j < k - 1 ensures !NamedTitle(props, names[1..][j]) {
              assert names[1..][j] == names[j + 1];
            }
          }
        }
      }
      if ByName(props, names).Some? && !NamedTitle(props, names[0]) {
        var k :| 0 <= k < |names[1..]| && NamedTitle(props, names[1..][k]);
        assert names[k + 1] == names[1..][k];
      }
    }
  }

  /** The fallback loop over all property values, in order. */
  function AnyTitle(props: seq<(string, Property)>): Option<string> {
    if props == [] then None
    else if HasTitle(props[0].1) then Some(PlainText(props[0].1.title.value))
    else AnyTitle(props[1..])
  }

  /** `props[i]` is the first property that is a non-empty title. */
  ghost predicate FirstTitle(props: seq<(string, Property)>, i: int) {
    0 <= i < |props| && HasTitle(props[i].1) &&
    forall j :: 0 <= j < i ==> !HasTitle(props[j].1)
  }

  /** The fallback loop finds a title exactly when some property is a
      non-empty title, and then it is the text of the first such property. */
  lemma {:induction false} AnyTitleFirst(props: seq<(string, Property)>)
    ensures AnyTitle(props).Some? <==> exists i :: 0 <= i < |props| && HasTitle(props[i].1)
    ensures forall i :: FirstTitle(props, i) ==> AnyTitle(props) == Some(PlainText(props[i].1.title.value))
  {
    if props != [] {
      AnyTitleFirst(props[1..]);
      forall i | 0 <= i < |props| && HasTitle(props[i].1) ensures AnyTitle(props).Some? {
        if i > 0 && !HasTitle(props[0].1) {
          assert HasTitle(props[1..][i - 1].1);
        }
      }
      forall i | FirstTitle(props, i) ensures AnyTitle(props) == Some(PlainText(props[i].1.title.value)) {
        if i > 0 {
          assert FirstTitle(props[1..], i - 1) by {
            forall j | 0 <= j < i - 1 ensures !HasTitle(props[1..][j].1) {
              assert props[1..][j] == props[j + 1];
            }
          }
        }
      }
      if AnyTitle(props).Some? && !HasTitle(props[0].1) {
        var i :| 0 <= i < |props[1..]| && HasTitle(props[1..][i].1);
        assert props[i + 1] == props[1..][i];
      }
    }
  }

  /** `get_page_title`: the first of "title", "Title", "Name", "name" that is
      a non-empty title property; failing that the first non-empty title
      property of any name; failing that "Untitled". */
  function PageTitle(page: PageObject): (r: string)
    ensures var props := page.properties.GetOr([]);
      forall k :: FirstNamed(props, TitleNames, k) ==> r == PlainText(Get(props, TitleNames[k]).value.title.value)
    ensures var props := page.properties.GetOr([]);
      (forall k :: 0 <= k < |TitleNames| ==> !NamedTitle(props, TitleNames[k])) ==>
      forall i :: FirstTitle(props, i) ==> r == PlainText(props[i].1.title.value)
    ensures var props := page.properties.GetOr([]);
      (forall i :: 0 <= i < |props| ==> !HasTitle(props[i].1)) ==> r == Untitled
  {
    var props := page.properties.GetOr([]);
    ByNameFirst(props, TitleNames);
    AnyTitleFirst(props);
    match ByName(props, TitleNames)
    case Some(t) => t
    case None => AnyTitle(props).GetOr(Untitled)
  }

  /** A name the preferred loop finds is itself a title property of the
      dictionary, so the fallback loop could only differ in which one. */
  lemma NamedTitleIsTitleProperty(props: seq<(string, Property)>, name: string)
    requires NamedTitle(props, name)
    ensures exists i :: 0 <= i < |props| && props[i].0 == name && HasTitle(props[i].1)
  {
    var i :| 0 <= i < |props| && props[i] == (name, Get(props, name).value);
  }

  // ---------------------------------------------------------------------
  // Database titles

  datatype DatabaseObject = DatabaseObject(title: Option<seq<RichText>>)

  const UntitledDatabase := "Untitled Database"

  /** `get_database_title` */
  function DatabaseTitle(db: DatabaseObject): (r: string)
    ensures db.title.GetOr([]) == [] ==> r == UntitledDatabase
    ensures db.title.GetOr([]) != [] ==> r == PlainText(db.title.value)
  {
    if db.title.GetOr([]) != [] then PlainText(db.title.value) else UntitledDatabase
  }

  // ---------------------------------------------------------------------
  // Blocks

  /** The dictionary stored under a block's type key. A block without that
      key reads as the empty dictionary, every field absent. */
  datatype BlockData = BlockData(
    rich_text: Option<seq<RichText>>,
    language: Option<string>,
    title: Option<string>,
    caption: Option<seq<RichText>>,
    expression: Option<string>,
    url: Option<string>)

  /** A block as the API returns it. */
  datatype RawBlock = RawBlock(id: string, btype: string, data: BlockData, has_children: bool)

  /** `NotionBlock` (src/notion/models.py) */
  datatype NotionBlock = NotionBlock(block_id: string, block_type: string, content: string, has_children: bool)

  const CodeFence := "```"
  const PagePrefix := "[Page: "
  const DatabasePrefix := "[Database: "
  const ImagePrefix := "[Image: "
  const ImageBare := "[Image]"
  const EquationPrefix := "[Equation: "
  const TableOfContents := "[Table of Contents]"
  const Divider := "---"
  const BookmarkPrefix := "[Bookmark: "

  function CodeText(d: BlockData): string {
    CodeFence + d.language.GetOr("") + "\n" + PlainText(d.rich_text.GetOr([])) + "\n" + CodeFence
  }

  /** `_extract_block_content`. Code blocks are handled before the generic
      rich-text case; the second `code` branch further down the source can
      never be reached and is not repeated here. */
  function ExtractBlockContent(b: RawBlock): (r: string)
    ensures b.btype == "code" ==> r == CodeText(b.data)
    ensures b.btype != "code" && b.data.rich_text.Some? ==> r == PlainText(b.data.rich_text.value)
    ensures b.btype == "child_page" && b.data.rich_text.None? ==> r == PagePrefix + b.data.title.GetOr("") + "]"
    ensures b.btype == "image" && b.data.rich_text.None? ==>
      var cap := PlainText(b.data.caption.GetOr([]));
      r == if cap != "" then ImagePrefix + cap + "]" else ImageBare
  {
    var d := b.data;
    if b.btype == "code" then CodeText(d)
    else if d.rich_text.Some? then PlainText(d.rich_text.value)
    else if b.btype == "child_page" then PagePrefix + d.title.GetOr("") + "]"
    else if b.btype == "child_database" then DatabasePrefix + d.title.GetOr("") + "]"
    else if b.btype == "image" then
      var cap := PlainText(d.caption.GetOr([]));
      if cap != "" then ImagePrefix + cap + "]" else ImageBare
    else if b.btype == "equation" then EquationPrefix + d.expression.GetOr("") + "]"
    else if b.btype == "table_of_contents" then TableOfContents
    else if b.btype == "divider" then Divider
    else if b.btype == "bookmark" then BookmarkPrefix + d.url.GetOr("") + "]"
    else ""
  }

  /** The block types the extractor knows. */
  predicate KnownType(t: string) {
    t in {"code", "child_page", "child_database", "image", "equation", "table_of_contents", "divider", "bookmark"}
  }

  /** Without rich text, a known block type always has some content, so
      `get_page_content` keeps a line for it, while an unknown type has
      none and contributes no line. */
  lemma ContentNonEmptyIffKnown(b: RawBlock)
    requires b.data.rich_text.None?
    ensures ExtractBlockContent(b) != "" <==> KnownType(b.btype)
  {
  }

  function ToBlock(b: RawBlock): NotionBlock {
    NotionBlock(b.id, b.btype, ExtractBlockContent(b), b.has_children)
  }

  // ---------------------------------------------------------------------
  // Pagination

  /** One response of a paginated endpoint. */
  datatype ResultPage<T> = ResultPage(results: seq<T>, has_more: bool)

  /** The results a cursor loop collects from the responses the API gives
      in turn: every page's results in order, up to and including the first
      page without `has_more`. */
  function Fetched<T>(responses: seq<ResultPage<T>>): (r: seq<T>)
    ensures responses != [] ==> |responses[0].results| <= |r| && r[..|responses[0].results|] == responses[0].results
    ensures responses != [] && !responses[0].has_more ==> r == responses[0].results
  {
    if responses == [] then []
    else responses[0].results + (if responses[0].has_more then Fetched(responses[1..]) else [])
  }

  /** The loop stops at the first page without `has_more`: whatever the API
      would answer afterwards is never read. */
  lemma {:induction false} FetchedStops<T>(responses: seq<ResultPage<T>>, k: nat, later: seq<ResultPage<T>>)
    requires k < |responses| && !responses[k].has_more
    ensures Fetched(responses[..k + 1] + later) == Fetched(responses[..k + 1])
  {
    if k > 0 {
      var a := responses[..k + 1] + later;
      var b := responses[..k + 1];
      assert a[0] == b[0];
      assert a[1..] == responses[1..][..k] + later;
      assert b[1..] == responses[1..][..k];
      FetchedStops(responses[1..], k - 1, later);
    }
  }

  /** While every page has more, the results are all pages' results
      concatenated in order. */
  lemma {:induction false} FetchedConcat<T>(responses: seq<ResultPage<T>>, k: nat)
    requires k < |responses|
    requires forall j :: 0 <= j < k ==> responses[j].has_more
    ensures Fetched(responses) == Fetched(responses[..k]) + Fetched(responses[k..])
  {
    if k > 0 {
      assert responses[..k][0] == responses[0];
      assert responses[..k][1..] == responses[1..][..k - 1];
      assert responses[k..] == responses[1..][k - 1..];
      FetchedConcat(responses[1..], k - 1);
    } else {
      assert responses[k..] == responses;
    }
  }

  /** The block-list endpoint: for each block id the API accepts, the
      responses it gives to the cursor loop. */
  type BlockApi = map<string, seq<ResultPage<RawBlock>>>

  /** What `get_blocks` returns, or the id whose listing raised. */
  function FetchBlocks(api: BlockApi, id: string): (r: Result<seq<NotionBlock>, string>)
    ensures r.Failure? <==> id !in api
  {
    if id in api then Success(MapSeq(Fetched(api[id]), ToBlock)) else Failure(id)
  }

  /** The cursor loop over already received responses. */
  method CollectPages<T>(responses: seq<ResultPage<T>>) returns (items: seq<T>)
    ensures items == Fetched(responses)
  {
    items := [];
    var i := 0;
    var more := true;
    while more && i < |responses|
      invariant 0 <= i <= |responses|
      invariant Fetched(responses) == items + (if more then Fetched(responses[i..]) else [])
      decreases |responses| - i
    {
      assert responses[i..][1..] == responses[i + 1..];
      items := items + responses[i].results;
      more := responses[i].has_more;
      i := i + 1;
    }
  }

  /** `get_blocks`: every block of every page of the listing, converted in
      order. */
  method GetBlocks(api: BlockApi, id: string) returns (r: Result<seq<NotionBlock>, string>)
    ensures r == FetchBlocks(api, id)
  {
    if id !in api {
      return Failure(id);
    }
    var raw := CollectPages(api[id]);
    var blocks := ConvertBlocks(raw, ToBlock);
    return Success(blocks);
  }

  /** The conversion loop of `get_blocks`: one block per raw block, in
      order. The conversion is passed in, so that the loop's proof does not
      depend on what it computes. */
  method ConvertBlocks(raw: seq<RawBlock>, convert: RawBlock -> NotionBlock) returns (blocks: seq<NotionBlock>)
    ensures blocks == MapSeq(raw, convert)
  {
    blocks := [];
    var i := 0;
    while i < |raw|
      invariant 0 <= i <= |raw|
      invariant blocks == MapSeq(raw[..i], convert)
    {
      MapSeqSnoc(raw[..i], raw[i], convert);
      assert raw[..i + 1] == raw[..i] + [raw[i]];
      blocks := blocks + [convert(raw[i])];
      i := i + 1;
    }
    assert raw[..i] == raw;
  }

  /** `query_database`: the entries of every page of the query, in order. */
  method QueryDatabase(responses: seq<ResultPage<PageObject>>) returns (pages: seq<PageObject>)
    ensures pages == Fetched(responses)
  {
    pages := CollectPages(responses);
  }

  // ---------------------------------------------------------------------
  // Child pages

  predicate IsChildBlock(b: NotionBlock) {
    b.block_type == "child_page" || b.block_type == "child_database"
  }

  /** The ids of the child page and child database blocks, in block order. */
  function ChildIds(blocks: seq<NotionBlock>): (r: seq<string>)
    ensures |r| <= |blocks|
  {
    if blocks == [] then []
    else (if IsChildBlock(blocks[0]) then [blocks[0].block_id] else []) + ChildIds(blocks[1..])
  }

  /** Exactly the ids of the child page and child database blocks are
      listed. */
  lemma {:induction false} ChildIdsMembers(blocks: seq<NotionBlock>)
    ensures forall x :: x in ChildIds(blocks) <==>
      exists i :: 0 <= i < |blocks| && IsChildBlock(blocks[i]) && blocks[i].block_id == x
  {
    if blocks != [] {
      ChildIdsMembers(blocks[1..]);
      assert forall i :: 1 <= i < |blocks| ==> blocks[i] == blocks[1..][i - 1];
      forall x | x in ChildIds(blocks)
        ensures exists i :: 0 <= i < |blocks| && IsChildBlock(blocks[i]) && blocks[i].block_id == x
      {
        if !(IsChildBlock(blocks[0]) && x == blocks[0].block_id) {
          assert x in ChildIds(blocks[1..]);
          var i :| 0 <= i < |blocks[1..]| && IsChildBlock(blocks[1..][i]) && blocks[1..][i].block_id == x;
          assert blocks[i + 1] == blocks[1..][i];
        }
      }
    }
  }

  /** The order of the result follows the order of the blocks. */
  lemma {:induction false} ChildIdsAppend(a: seq<NotionBlock>, b: seq<NotionBlock>)
    ensures ChildIds(a + b) == ChildIds(a) + ChildIds(b)
  {
    if a != [] {
      assert (a + b)[1..] == a[1..] + b;
      ChildIdsAppend(a[1..], b);
    } else {
      assert a + b == b;
    }
  }

  /** `get_child_pages` */
  method GetChildPages(api: BlockApi, pageId: string) returns (r: Result<seq<string>, string>)
    ensures FetchBlocks(api, pageId).Failure? ==> r == Failure(pageId)
    ensures FetchBlocks(api, pageId).Success? ==> r == Success(ChildIds(FetchBlocks(api, pageId).value))
  {
    var fetched := GetBlocks(api, pageId);
    if fetched.Failure? {
      return Failure(pageId);
    }
    var ids := CollectChildIds(fetched.value);
    return Success(ids);
  }

  /** The loop of `get_child_pages` over the fetched blocks. */
  method CollectChildIds(blocks: seq<NotionBlock>) returns (ids: seq<string>)
    ensures ids == ChildIds(blocks)
  {
    ids := [];
    var i := 0;
    while i < |blocks|
      invariant 0 <= i <= |blocks|
      invariant ids == ChildIds(blocks[..i])
    {
      ChildIdsAppend(blocks[..i], [blocks[i]]);
      assert blocks[..i + 1] == blocks[..i] + [blocks[i]];
      assert ChildIds([blocks[i]]) == if IsChildBlock(blocks[i]) then [blocks[i].block_id] else [];
      if blocks[i].block_type == "child_page" {
        ids := ids + [blocks[i].block_id];
      } else if blocks[i].block_type == "child_database" {
        ids := ids + [blocks[i].block_id];
      }
      i := i + 1;
    }
    assert blocks[..i] == blocks;
  }

  // ---------------------------------------------------------------------
  // Page content

  const MaxContentDepth := 10

  function Indent(depth: nat): string {
    Repeat(' ', 2 * depth)
  }

  /** `l` is a content line written at `depth`: two spaces per level, then
      non-empty block content. */
  predicate LineAt(l: string, depth: nat) {
    2 * depth < |l| && l[..2 * depth] == Indent(depth)
  }

  function Measure(depth: nat): nat {
    if depth > MaxContentDepth then 0 else MaxContentDepth + 1 - depth
  }

  /** `process_blocks(id, depth)`: the lines it appends, or the id whose
      listing raised (which aborts `get_page_content`). */
  function BlockLines(api: BlockApi, id: string, depth: nat, includeChildren: bool): (r: Result<seq<string>, string>)
    ensures depth > MaxContentDepth ==> r == Success([])
    decreases Measure(depth), 1
  {
    if depth > MaxContentDepth then Success([])
    else
      match FetchBlocks(api, id)
      case Failure(e) => Failure(e)
      case Success(blocks) => LinesOf(api, blocks, depth, includeChildren)
  }

  /** The loop of `process_blocks` over the fetched blocks: the block's own
      line when its content is non-empty, then its children's lines. */
  function LinesOf(api: BlockApi, blocks: seq<NotionBlock>, depth: nat, includeChildren: bool): Result<seq<string>, string>
    requires depth <= MaxContentDepth
    decreases Measure(depth), 0, |blocks|
  {
    if blocks == [] then Success([])
    else
      var nested := Nested(api, blocks[0], depth, includeChildren);
      if nested.Failure? then Failure(nested.error)
      else
        var rest := LinesOf(api, blocks[1..], depth, includeChildren);
        if rest.Failure? then rest else Success(OwnLine(blocks[0], depth) + nested.value + rest.value)
  }

  /** A block's own line: its content indented for its depth, or nothing
      when the content is empty. */
  function OwnLine(b: NotionBlock, depth: nat): seq<string> {
    if b.content != "" then [Indent(depth) + b.content] else []
  }

  /** The lines of a block's children, when they are wanted and exist. */
  function Nested(api: BlockApi, b: NotionBlock, depth: nat, includeChildren: bool): Result<seq<string>, string>
    requires depth <= MaxContentDepth
    decreases Measure(depth), 0, 0
  {
    if includeChildren && b.has_children then BlockLines(api, b.block_id, depth + 1, includeChildren)
    else Success([])
  }

  ghost predicate AllIndented(lines: seq<string>, depth: nat) {
    forall l :: l in lines ==> exists d :: depth <= d <= MaxContentDepth && LineAt(l, d)
  }

  /** Every line belongs to a depth between the starting one and 10: it is
      indented by two spaces per level and its content is not empty, and
      nothing is fetched below depth 10. */
  lemma {:induction false} BlockLinesIndented(api: BlockApi, id: string, depth: nat, includeChildren: bool)
    ensures var r := BlockLines(api, id, depth, includeChildren);
      r.Success? ==> AllIndented(r.value, depth)
    decreases Measure(depth), 1
  {
    if depth <= MaxContentDepth && id in api {
      LinesOfIndented(api, FetchBlocks(api, id).value, depth, includeChildren);
    }
  }

  lemma {:induction false} LinesOfIndented(api: BlockApi, blocks: seq<NotionBlock>, depth: nat, includeChildren: bool)
    requires depth <= MaxContentDepth
    ensures var r := LinesOf(api, blocks, depth, includeChildren);
      r.Success? ==> AllIndented(r.value, depth)
    decreases Measure(depth), 0, |blocks|
  {
    if blocks != [] {
      var b := blocks[0];
      OwnLineIndented(b, depth);
      var nested := Nested(api, b, depth, includeChildren);
      if includeChildren && b.has_children {
        BlockLinesIndented(api, b.block_id, depth + 1, includeChildren);
        if nested.Success? {
          AllIndentedDeeper(nested.value, depth);
        }
      }
      LinesOfIndented(api, blocks[1..], depth, includeChildren);
      var r := LinesOf(api, blocks, depth, includeChildren);
      if r.Success? {
        var rest := LinesOf(api, blocks[1..], depth, includeChildren);
        AllIndentedJoin(OwnLine(b, depth), nested.value, rest.value, depth);
      }
    }
  }

  lemma OwnLineIndented(b: NotionBlock, depth: nat)
    requires depth <= MaxContentDepth
    ensures AllIndented(OwnLine(b, depth), depth)
  {
    if b.content != "" {
      assert (Indent(depth) + b.content)[..2 * depth] == Indent(depth);
      assert LineAt(Indent(depth) + b.content, depth);
    }
  }

  lemma AllIndentedDeeper(lines: seq<string>, depth: nat)
    requires AllIndented(lines, depth + 1)
    ensures AllIndented(lines, depth)
  {
    forall l | l in lines ensures exists d :: depth <= d <= MaxContentDepth && LineAt(l, d) {
      var d :| depth + 1 <= d <= MaxContentDepth && LineAt(l, d);
    }
  }

  lemma AllIndentedJoin(a: seq<string>, b: seq<string>, c: seq<string>, depth: nat)
    requires AllIndented(a, depth) && AllIndented(b, depth) && AllIndented(c, depth)
    ensures AllIndented(a + b + c, depth)
  {
    forall l | l in a + b + c ensures exists d :: depth <= d <= MaxContentDepth && LineAt(l, d) {
      assert l in a || l in b || l in c;
    }
  }

  /** Without children, the lines are the non-empty contents of the page's
      own blocks, each indented for depth 0, in block order. */
  lemma {:induction false} TopLevelLines(api: BlockApi, blocks: seq<NotionBlock>)
    ensures var r := LinesOf(api, blocks, 0, false);
      r.Success? &&
      |r.value| <= |blocks| &&
      forall l :: l in r.value <==> SomeContent(blocks, l)
  {
    if blocks != [] {
      TopLevelLines(api, blocks[1..]);
      var b := blocks[0];
      var own: seq<string> := if b.content != "" then [b.content] else [];
      var rest := LinesOf(api, blocks[1..], 0, false).value;
      assert Indent(0) + b.content == b.content;
      assert OwnLine(b, 0) == own;
      assert Nested(api, b, 0, false) == Success([]);
      assert LinesOf(api, blocks, 0, false).value == own + [] + rest;
      assert own + [] + rest == own + rest;
      forall l ensures l in own + rest <==> SomeContent(blocks, l) {
        SomeContentCons(blocks, l);
      }
    }
  }

  /** `l` is the non-empty content of one of the blocks. */
  ghost predicate SomeContent(blocks: seq<NotionBlock>, l: string) {
    exists i :: 0 <= i < |blocks| && blocks[i].content != "" && l == blocks[i].content
  }

  lemma SomeContentCons(blocks: seq<NotionBlock>, l: string)
    requires blocks != []
    ensures SomeContent(blocks, l) <==>
      (blocks[0].content != "" && l == blocks[0].content) || SomeContent(blocks[1..], l)
  {
    if SomeContent(blocks[1..], l) {
      var j :| 0 <= j < |blocks[1..]| && blocks[1..][j].content != "" && l == blocks[1..][j].content;
      assert blocks[j + 1] == blocks[1..][j];
    }
    if SomeContent(blocks, l) {
      var i :| 0 <= i < |blocks| && blocks[i].content != "" && l == blocks[i].content;
      if i > 0 {
        assert blocks[1..][i - 1] == blocks[i];
      }
    }
  }

  /** `"\n".join(content_parts)` once `process_blocks(page_id)` returns. */
  function PageContent(api: BlockApi, pageId: string, includeChildren: bool): (r: Result<string, string>)
    ensures r.Success? <==> BlockLines(api, pageId, 0, includeChildren).Success?
    ensures r.Success? ==> r.value == Join(BlockLines(api, pageId, 0, includeChildren).value, "\n")
  {
    match BlockLines(api, pageId, 0, includeChildren)
    case Failure(e) => Failure(e)
    case Success(lines) => Success(Join(lines, "\n"))
  }

  /** `get_page_content`: `process_blocks` appends to the shared list. */
  method GetPageContent(api: BlockApi, pageId: string, includeChildren: bool) returns (r: Result<string, string>)
    ensures r == PageContent(api, pageId, includeChildren)
  {
    var parts := ProcessBlocks(api, pageId, 0, includeChildren, []);
    match parts
    case Failure(e) => return Failure(e);
    case Success(lines) =>
      assert [] + BlockLines(api, pageId, 0, includeChildren).value == BlockLines(api, pageId, 0, includeChildren).value;
      return Success(Join(lines, "\n"));
  }

  /** `parts` followed by the lines of `r`, or the failure of `r`. */
  function Prepend(parts: seq<string>, r: Result<seq<string>, string>): Result<seq<string>, string> {
    if r.Failure? then Failure(r.error) else Success(parts + r.value)
  }

  /** One step of the loop of `process_blocks`. */
  lemma LinesOfStep(api: BlockApi, blocks: seq<NotionBlock>, depth: nat, includeChildren: bool, acc: seq<string>)
    requires depth <= MaxContentDepth && blocks != []
    ensures Nested(api, blocks[0], depth, includeChildren).Failure? ==>
      Prepend(acc, LinesOf(api, blocks, depth, includeChildren)) ==
      Failure(Nested(api, blocks[0], depth, includeChildren).error)
    ensures Nested(api, blocks[0], depth, includeChildren).Success? ==>
      Prepend(acc, LinesOf(api, blocks, depth, includeChildren)) ==
      Prepend(acc + OwnLine(blocks[0], depth) + Nested(api, blocks[0], depth, includeChildren).value,
              LinesOf(api, blocks[1..], depth, includeChildren))
  {
    var own := OwnLine(blocks[0], depth);
    var nested := Nested(api, blocks[0], depth, includeChildren);
    var rest := LinesOf(api, blocks[1..], depth, includeChildren);
    if nested.Success? && rest.Success? {
      assert acc + (own + nested.value + rest.value) == acc + own + nested.value + rest.value;
    }
  }

  /** `process_blocks`, appending to `parts`; a raising listing aborts the
      whole extraction. */
  method ProcessBlocks(api: BlockApi, id: string, depth: nat, includeChildren: bool, parts: seq<string>)
    returns (r: Result<seq<string>, string>)
    ensures r == Prepend(parts, BlockLines(api, id, depth, includeChildren))
    decreases Measure(depth), 2
  {
    if depth > MaxContentDepth {
      assert parts + [] == parts;
      return Success(parts);
    }
    var fetched := GetBlocks(api, id);
    if fetched.Failure? {
      return Failure(fetched.error);
    }
    assert BlockLines(api, id, depth, includeChildren) == LinesOf(api, fetched.value, depth, includeChildren);
    r := ProcessBlockList(api, fetched.value, depth, includeChildren, parts);
  }

  /** The loop of `process_blocks` over the fetched blocks. */
  method ProcessBlockList(api: BlockApi, blocks: seq<NotionBlock>, depth: nat, includeChildren: bool, parts: seq<string>)
    returns (r: Result<seq<string>, string>)
    requires depth <= MaxContentDepth
    ensures r == Prepend(parts, LinesOf(api, blocks, depth, includeChildren))
    decreases Measure(depth), 1
  {
    var acc := parts;
    var i := 0;
    while i < |blocks|
      invariant 0 <= i <= |blocks|
      invariant Prepend(acc, LinesOf(api, blocks[i..], depth, includeChildren)) ==
                Prepend(parts, LinesOf(api, blocks, depth, includeChildren))
    {
      LinesOfStep(api, blocks[i..], depth, includeChildren, acc);
      assert blocks[i..][1..] == blocks[i + 1..];
      var step := ProcessBlock(api, blocks[i], depth, includeChildren, acc);
      if step.Failure? {
        return Failure(step.error);
      }
      acc := step.value;
      i := i + 1;
    }
    assert blocks[i..] == [];
    assert LinesOf(api, blocks[i..], depth, includeChildren) == Success([]);
    assert acc + [] == acc;
    return Success(acc);
  }

  /** One block of the loop: its own line, then its children's lines. */
  method ProcessBlock(api: BlockApi, b: NotionBlock, depth: nat, includeChildren: bool, acc: seq<string>)
    returns (r: Result<seq<string>, string>)
    requires depth <= MaxContentDepth
    ensures Nested(api, b, depth, includeChildren).Failure? ==>
      r == Failure(Nested(api, b, depth, includeChildren).error)
    ensures Nested(api, b, depth, includeChildren).Success? ==>
      r == Success(acc + OwnLine(b, depth) + Nested(api, b, depth, includeChildren).value)
    decreases Measure(depth), 0
  {
    var lines := acc;
    if b.content != "" {
      lines := lines + [Indent(depth) + b.content];
    }
    assert lines == acc + OwnLine(b, depth);
    if includeChildren && b.has_children {
      var nested := ProcessBlocks(api, b.block_id, depth + 1, includeChildren, []);
      assert Nested(api, b, depth, includeChildren) == BlockLines(api, b.block_id, depth + 1, includeChildren);
      if nested.Failure? {
        return Failure(nested.error);
      }
      assert Nested(api, b, depth, includeChildren).Success?;
      assert [] + Nested(api, b, depth, includeChildren).value == nested.value;
      assert Nested(api, b, depth, includeChildren).value == nested.value;
      return Success(lines + nested.value);
    } else {
      assert lines + [] == lines;
      return Success(lines);
    }
  }
}

=== FILE: notion_indexer.dfy ===
/** The Notion indexer (src/notion/indexer.py): every page the traversal
    yields is summarised by the LLM and stored in the vector store unless its
    content hash is unchanged; afterwards a per-workspace summary and an
    overall summary are composed for the prompt injector.

    Page content, page metadata, the content hash and the LLM are inputs:
    `IndexEnv` holds what the Notion client answers for each page and the
    two functions. The vector store is a map from page id to its stored
    entry. */
module NotionIndexer {
  import opened Wrappers
  import opened Strs
  import opened NotionTraversal

  /** `NotionPage` (src/notion/models.py); the timestamp is kept as the text
      the page metadata gives. */
  datatype NotionPage = NotionPage(
    page_id: string,
    title: string,
    path: string,
    summary: string,
    last_edited_time: string,
    content_hash: string,
    parent_id: Option<string>,
    workspace: Option<string>)

  /** `IndexingStats` (src/notion/models.py) */
  datatype IndexingStats = IndexingStats(
    pages_indexed: nat,
    pages_skipped: nat,
    pages_failed: nat,
    pages_deleted: nat,
    errors: seq<string>,
    indexed_pages: seq<NotionPage>)

  /** The vector store entry of a page: the searchable document and the
      `content_hash` of its metadata, if any. */
  datatype StoredEntry = StoredEntry(document: string, content_hash: Option<string>)

  /** What indexing a page needs from the outside world: the page content
      (an id missing from the map makes `get_page_content` raise), the
      `last_edited_time` of the page metadata (missing: `get_page` or the
      timestamp parse raises), the content hash, and the LLM, which sees the
      title, path and (truncated) content and answers with a text or raises
      (`None`). */
  datatype IndexEnv = IndexEnv(
    content: map<string, string>,
    edited: map<string, string>,
    hash: string -> string,
    summarize: (string, string, string) -> Option<string>)

  const MaxContentLength := 8000
  const Ellipsis := "..."
  const PageAboutPrefix := "Page about "

  /** Content longer than 8000 characters is cut to its first 8000 and
      marked with "...". */
  function Truncate(content: string): (r: string)
    ensures |content| <= MaxContentLength ==> r == content
    ensures |content| > MaxContentLength ==> r == content[..MaxContentLength] + Ellipsis
    ensures |r| <= MaxContentLength + 3
  {
    if |content| > MaxContentLength then content[..MaxContentLength] + Ellipsis else content
  }

  /** `generate_summary`: the stripped reply, or "Page about {title}" when
      the reply is empty or the call raised. */
  function GenerateSummary(summarize: (string, string, string) -> Option<string>,
                           title: string, path: string, content: string): (r: string)
    ensures var reply := summarize(title, path, Truncate(content));
      (reply.None? || reply.value == "") ==> r == PageAboutPrefix + title
    ensures var reply := summarize(title, path, Truncate(content));
      reply.Some? && reply.value != "" ==> r == Strip(reply.value)
  {
    match summarize(title, path, Truncate(content))
    case None => PageAboutPrefix + title
    case Some(text) => if text != "" then Strip(text) else PageAboutPrefix + title
  }

  /** `_should_reindex`: no stored entry, or a stored hash that differs. */
  predicate ShouldReindex(store: map<string, StoredEntry>, id: string, hash: string) {
    id !in store || store[id].content_hash != Some(hash)
  }

  /** The document `_store_page` embeds: title, path and summary, one per
      line. */
  function Document(p: NotionPage): string {
    p.title + "\n" + p.path + "\n" + p.summary
  }

  /** `_store_page`: the old entry is replaced by the page's document and
      hash. */
  function StorePage(store: map<string, StoredEntry>, p: NotionPage): (r: map<string, StoredEntry>)
    ensures r.Keys == store.Keys + {p.page_id}
    ensures forall id :: id in store && id != p.page_id ==> r[id] == store[id]
  {
    store[p.page_id := StoredEntry(Document(p), Some(p.content_hash))]
  }

  /** A page just stored is not reindexed while its content keeps the same
      hash, and a change of hash makes it due again. */
  lemma StoredPageIsCurrent(store: map<string, StoredEntry>, p: NotionPage, hash: string)
    ensures !ShouldReindex(StorePage(store, p), p.page_id, p.content_hash)
    ensures hash != p.content_hash ==> ShouldReindex(StorePage(store, p), p.page_id, hash)
  {
  }

  /** `index_page`: the indexed page, `None` for an unchanged page, or the
      error that aborted it. */
  function IndexPageResult(env: IndexEnv, store: map<string, StoredEntry>, id: string, title: string,
                           path: string, workspace: string, force: bool): (r: Result<Option<NotionPage>, string>)
    ensures id !in env.content ==> r.Failure?
    ensures id in env.content && !force && !ShouldReindex(store, id, env.hash(env.content[id])) ==> r == Success(None)
    ensures r.Success? && r.value.Some? ==>
      var p := r.value.value;
      p.page_id == id && p.title == title && p.path == path && p.workspace == Some(workspace) &&
      p.content_hash == env.hash(env.content[id]) &&
      p.summary == GenerateSummary(env.summarize, title, path, env.content[id])
    ensures r == Success(None) ==> !force
  {
    if id !in env.content then Failure(id)
    else
      var content := env.content[id];
      var hash := env.hash(content);
      if !force && !ShouldReindex(store, id, hash) then Success(None)
      else if id !in env.edited then Failure(id)
      else
        var summary := GenerateSummary(env.summarize, title, path, content);
        Success(Some(NotionPage(id, title, path, summary, env.edited[id], hash, None, Some(workspace))))
  }

  const EmptyWorkspaceText := "Empty workspace with no indexed pages."
  const WorkspaceFallbackPrefix := "A Notion workspace containing "
  const WorkspaceFallbackSuffix := " pages."
  const MaxDescribedPages := 50
  const PreviewLength := 100
  const MaxTopics := 10
  const TopicSeparator := " > "

  /** The summary shown for a page: its first 100 characters and "..." when
      it is longer. */
  function Preview(summary: string): (r: string)
    ensures |summary| <= PreviewLength ==> r == summary
    ensures |summary| > PreviewLength ==> r == summary[..PreviewLength] + Ellipsis
  {
    if |summary| > PreviewLength then summary[..PreviewLength] + Ellipsis else summary
  }

  /** One line of the workspace prompt: "- {path}: {preview}". */
  function Describe(p: NotionPage): string {
    "- " + p.path + ": " + Preview(p.summary)
  }

  /** `generate_workspace_summary`'s result. */
  datatype WorkspaceSummary = WorkspaceSummary(name: string, page_count: nat, topics: seq<string>, summary: string)

  /** The first " > " segment of a path. */
  function FirstSegment(path: string): (r: string)
    ensures !Contains(r, TopicSeparator)
    ensures StartsWith(path, r)
    ensures r == path || StartsWith(path[|r|..], TopicSeparator)
  {
    SplitJoin(path, TopicSeparator);
    var parts := Split(path, TopicSeparator);
    assert parts == [parts[0]] + parts[1..];
    if |parts| > 1 then
      JoinCons(parts[0], parts[1..], TopicSeparator);
      parts[0]
    else parts[0]
  }

  /** All the topics of a page list: the non-empty first segments. */
  function TopicSet(pages: seq<NotionPage>): (r: set<string>)
    ensures forall t :: t in r <==> exists i :: 0 <= i < |pages| && FirstSegment(pages[i].path) == t && t != ""
  {
    set i | 0 <= i < |pages| && FirstSegment(pages[i].path) != "" :: FirstSegment(pages[i].path)
  }

  lemma TopicSetSnoc(pages: seq<NotionPage>, p: NotionPage)
    ensures TopicSet(pages + [p]) == TopicSet(pages) + (if FirstSegment(p.path) != "" then {FirstSegment(p.path)} else {})
  {
    var a := pages + [p];
    forall t ensures t in TopicSet(a) <==> t in TopicSet(pages) || (FirstSegment(p.path) != "" && t == FirstSegment(p.path)) {
      if t in TopicSet(a) {
        var i :| 0 <= i < |a| && FirstSegment(a[i].path) == t && t != "";
        if i < |pages| { assert a[i] == pages[i]; }
      }
      if t in TopicSet(pages) {
        var i :| 0 <= i < |pages| && FirstSegment(pages[i].path) == t && t != "";
        assert a[i] == pages[i];
      }
      if FirstSegment(p.path) != "" && t == FirstSegment(p.path) {
        assert a[|pages|] == p;
      }
    }
  }

  /** `_extract_topics`: the set of topics, listed in the set's own order
      (which the model leaves open) and cut to 10. */
  method ExtractTopics(pages: seq<NotionPage>) returns (topics: seq<string>)
    ensures forall i, j :: 0 <= i < j < |topics| ==> topics[i] != topics[j]
    ensures forall t :: t in topics ==> t in TopicSet(pages)
    ensures |topics| == if |TopicSet(pages)| < MaxTopics then |TopicSet(pages)| else MaxTopics
  {
    var found := CollectTopics(pages);
    topics := ListTopics(found);
  }

  /** The loop of `_extract_topics` over the pages: the set of their
      non-empty first segments. */
  method CollectTopics(pages: seq<NotionPage>) returns (found: set<string>)
    ensures found == TopicSet(pages)
  {
    found := {};
    var i := 0;
    while i < |pages|
      invariant 0 <= i <= |pages|
      invariant found == TopicSet(pages[..i])
    {
      TopicSetSnoc(pages[..i], pages[i]);
      assert pages[..i + 1] == pages[..i] + [pages[i]];
      var first := FirstSegment(pages[i].path);
      if first != "" {
        found := found + {first};
      }
      i := i + 1;
    }
    assert pages[..i] == pages;
  }

  /** `list(topics)[:10]`: distinct members of the set, as many as it has
      up to 10, in an order the model leaves open. */
  method ListTopics(found: set<string>) returns (topics: seq<string>)
    ensures forall i, j :: 0 <= i < j < |topics| ==> topics[i] != topics[j]
    ensures forall t :: t in topics ==> t in found
    ensures |topics| == if |found| < MaxTopics then |found| else MaxTopics
  {
    topics := [];
    var remaining := found;
    while remaining != {} && |topics| < MaxTopics
      invariant remaining <= found
      invariant forall t :: t in topics ==> t in found && t !in remaining
      invariant forall i, j :: 0 <= i < j < |topics| ==> topics[i] != topics[j]
      invariant |topics| + |remaining| == |found|
      invariant |topics| <= MaxTopics
      decreases |remaining|
    {
      var t :| t in remaining;
      topics := topics + [t];
      remaining := remaining - {t};
    }
  }

  /** The text `generate_workspace_summary` falls back on when the LLM
      raises. */
  function FallbackSummary(count: nat): string {
    WorkspaceFallbackPrefix + NatToString(count) + WorkspaceFallbackSuffix
  }

  /** The summary the workspace LLM call yields: the stripped reply (an
      empty reply stays empty), or the fallback when it raised. */
  function WorkspaceReply(reply: Option<string>, count: nat): (r: string)
    ensures reply.None? ==> r == FallbackSummary(count)
    ensures reply.Some? ==> r == Strip(reply.value)
  {
    match reply
    case None => FallbackSummary(count)
    case Some(text) => if text != "" then Strip(text) else ""
  }

  /** `generate_workspace_summary`. The LLM sees the workspace name, the
      page count and the description lines of at most the first 50 pages,
      and answers with a text or raises (`None`). */
  method GenerateWorkspaceSummary(pages: seq<NotionPage>, name: string,
                                  summarize: (string, nat, string) -> Option<string>)
    returns (r: WorkspaceSummary)
    ensures pages == [] ==> r == WorkspaceSummary(name, 0, [], EmptyWorkspaceText)
    ensures pages != [] ==> r.name == name && r.page_count == |pages|
    ensures pages != [] ==>
      r.summary == WorkspaceReply(summarize(name, |pages|, Join(MapSeq(Take(pages, MaxDescribedPages), Describe), "\n")), |pages|)
    ensures pages != [] ==> forall t :: t in r.topics ==> t in TopicSet(pages)
    ensures pages != [] ==> |r.topics| == if |TopicSet(pages)| < MaxTopics then |TopicSet(pages)| else MaxTopics
  {
    if pages == [] {
      return WorkspaceSummary(name, 0, [], EmptyWorkspaceText);
    }
    var descriptions := AppendEach([], Take(pages, MaxDescribedPages), Describe);
    assert descriptions == MapSeq(Take(pages, MaxDescribedPages), Describe);
    var pagesText := Join(descriptions, "\n");
    var summary := WorkspaceReply(summarize(name, |pages|, pagesText), |pages|);
    var topics := ExtractTopics(pages);
    r := WorkspaceSummary(name, |pages|, topics, summary);
  }

  // ---------------------------------------------------------------------
  // The overall summary of `save_workspace_info`

  const NoWorkspacesText := "No Notion workspaces have been indexed yet."

  function TotalPages(workspaces: seq<WorkspaceSummary>): nat {
    if workspaces == [] then 0 else workspaces[0].page_count + TotalPages(workspaces[1..])
  }

  /** The non-empty workspace summaries, in order. */
  function NonEmptySummaries(workspaces: seq<WorkspaceSummary>): (r: seq<string>)
    ensures forall s :: s in r <==> s != "" && exists i :: 0 <= i < |workspaces| && workspaces[i].summary == s
    ensures |r| <= |workspaces|
  {
    if workspaces == [] then []
    else
      var rest := NonEmptySummaries(workspaces[1..]);
      assert forall i :: 1 <= i < |workspaces| ==> workspaces[i] == workspaces[1..][i - 1];
      (if workspaces[0].summary != "" then [workspaces[0].summary] else []) + rest
  }

  function OverallHeader(total: nat, count: nat): string {
    "Your Notion workspace contains " + NatToString(total) + " indexed pages across " +
    NatToString(count) + " workspace(s). "
  }

  /** The overall summary: the page total and the workspace count, then the
      non-empty summaries joined by spaces; a fixed sentence when there is
      no workspace. */
  function OverallSummary(workspaces: seq<WorkspaceSummary>): (r: string)
    ensures workspaces == [] ==> r == NoWorkspacesText
    ensures workspaces != [] ==>
      var header := OverallHeader(TotalPages(workspaces), |workspaces|);
      StartsWith(r, header) && r[|header|..] == Join(NonEmptySummaries(workspaces), " ")
  {
    if workspaces == [] then NoWorkspacesText
    else
      var header := OverallHeader(TotalPages(workspaces), |workspaces|);
      var r := header + Join(NonEmptySummaries(workspaces), " ");
      assert r[..|header|] == header;
      r
  }

  // ---------------------------------------------------------------------
  // The indexer object

  /** The page id is that of one of the first `i` traversed pages. */
  ghost predicate IndexedBefore(items: seq<NotionTraversal.Yield>, i: int, id: string) {
    exists j :: 0 <= j < i && j < |items| && items[j].page_id == id
  }

  lemma IndexedBeforeGrows(items: seq<NotionTraversal.Yield>, i: int)
    ensures forall id :: IndexedBefore(items, i, id) ==> IndexedBefore(items, i + 1, id)
  {
  }

  /** The counts of `index_workspace` after `n` pages. */
  ghost predicate Counted(stats: IndexingStats, n: int, force: bool) {
    stats.pages_indexed + stats.pages_skipped + stats.pages_failed == n &&
    |stats.errors| == stats.pages_failed &&
    |stats.indexed_pages| == stats.pages_indexed &&
    stats.pages_deleted == 0 &&
    (force ==> stats.pages_skipped == 0)
  }

  class NotionIndexer {
    const env: IndexEnv
    /** The vector store's entries by page id. */
    var store: map<string, StoredEntry>
    /** The number of LLM calls made so far. */
    var llm_calls: nat

    constructor(env: IndexEnv, store: map<string, StoredEntry>)
      ensures this.env == env && this.store == store && llm_calls == 0
    {
      this.env := env;
      this.store := store;
      llm_calls := 0;
    }

    /** `index_page`: an unchanged page is reported as `None` before any LLM
        call; an indexed page is stored. */
    method IndexPage(id: string, title: string, path: string, workspace: string, force: bool)
      returns (r: Result<Option<NotionPage>, string>)
      modifies this
      ensures r == IndexPageResult(env, old(store), id, title, path, workspace, force)
      ensures r.Success? && r.value.Some? ==> store == StorePage(old(store), r.value.value)
      ensures !(r.Success? && r.value.Some?) ==> store == old(store)
      ensures r.Success? && r.value.None? ==> llm_calls == old(llm_calls)
    {
      if id !in env.content {
        return Failure(id);
      }
      var content := env.content[id];
      var hash := env.hash(content);
      if !force && !ShouldReindex(store, id, hash) {
        return Success(None);
      }
      if id !in env.edited {
        return Failure(id);
      }
      var summary := GenerateSummary(env.summarize, title, path, content);
      llm_calls := llm_calls + 1;
      var page := NotionPage(id, title, path, summary, env.edited[id], hash, None, Some(workspace));
      store := StorePage(store, page);
      return Success(Some(page));
    }

    /** `index_workspace`: one outcome per traversed page, counted as
        indexed, skipped (unchanged) or failed, with one error line per
        failure. Every page indexed is in the store with its hash, so it is
        not due for reindexing. */
    method IndexWorkspace(ws: Workspace, cfg: TraversalConfig, name: string, force: bool)
      returns (stats: IndexingStats)
      modifies this
      ensures stats.pages_indexed + stats.pages_skipped + stats.pages_failed == |Traversal(ws, cfg).yielded|
      ensures |stats.errors| == stats.pages_failed
      ensures |stats.indexed_pages| == stats.pages_indexed
      ensures stats.pages_deleted == 0
      ensures force ==> stats.pages_skipped == 0
      ensures forall p :: p in stats.indexed_pages ==>
        p.workspace == Some(name) && !ShouldReindex(store, p.page_id, p.content_hash)
    {
      var traverser := new WorkspaceTraverser(ws, cfg);
      traverser.Traverse();
      TraverseYieldsDistinct(ws, cfg);
      stats := IndexAll(traverser.output, name, force);
    }

    /** The loop of `index_workspace` over the traversed pages, whose ids
        are distinct. */
    method IndexAll(items: seq<Yield>, name: string, force: bool) returns (stats: IndexingStats)
      requires forall i, j :: 0 <= i < j < |items| ==> items[i].page_id != items[j].page_id
      modifies this
      ensures stats.pages_indexed + stats.pages_skipped + stats.pages_failed == |items|
      ensures |stats.errors| == stats.pages_failed
      ensures |stats.indexed_pages| == stats.pages_indexed
      ensures stats.pages_deleted == 0
      ensures force ==> stats.pages_skipped == 0
      ensures forall p :: p in stats.indexed_pages ==>
        p.workspace == Some(name) && !ShouldReindex(store, p.page_id, p.content_hash)
    {
      stats := IndexingStats(0, 0, 0, 0, [], []);
      var i := 0;
      while i < |items|
        invariant 0 <= i <= |items|
        invariant Counted(stats, i, force) && IndexedKept(stats.indexed_pages, items, i, name)
      {
        stats := IndexOne(items, i, name, force, stats);
        i := i + 1;
      }
    }

    /** Every page indexed so far is in the store with its hash and comes
        from one of the first `i` traversed pages. */
    ghost predicate IndexedKept(indexed: seq<NotionPage>, items: seq<Yield>, i: int, name: string)
      reads this
    {
      forall p :: p in indexed ==>
        p.workspace == Some(name) && !ShouldReindex(store, p.page_id, p.content_hash) &&
        IndexedBefore(items, i, p.page_id)
    }

    /** The body of the loop of `index_workspace`: the `i`-th page is
        indexed, skipped or counted as failed with its error line. */
    method IndexOne(items: seq<Yield>, i: nat, name: string, force: bool, stats: IndexingStats)
      returns (next: IndexingStats)
      requires i < |items|
      requires forall a, b :: 0 <= a < b < |items| ==> items[a].page_id != items[b].page_id
      requires Counted(stats, i, force) && IndexedKept(stats.indexed_pages, items, i, name)
      modifies this
      ensures Counted(next, i + 1, force) && IndexedKept(next.indexed_pages, items, i + 1, name)
    {
      var item := items[i];
      var r := IndexPage(item.page_id, item.title, item.path, name, force);
      IndexedBeforeGrows(items, i);
      match r {
        case Failure(e) =>
          next := stats.(pages_failed := stats.pages_failed + 1,
                         errors := stats.errors + [item.path + ": " + e]);
        case Success(None) =>
          next := stats.(pages_skipped := stats.pages_skipped + 1);
        case Success(Some(page)) =>
          forall p | p in stats.indexed_pages
            ensures !ShouldReindex(store, p.page_id, p.content_hash)
          {
            var j :| 0 <= j < i && j < |items| && items[j].page_id == p.page_id;
            assert p.page_id != page.page_id;
          }
          assert IndexedBefore(items, i + 1, page.page_id);
          next := stats.(pages_indexed := stats.pages_indexed + 1,
                         indexed_pages := stats.indexed_pages + [page]);
      }
    }
  }
}

=== FILE: notion_intelligence.dfy ===
/** The Notion intelligence engine (src/agent/specialists/notion_intelligence.py
    and the records of src/agent/specialists/notion_models.py): a question is
    expanded into search queries, the hits of the page index are merged,
    re-ranked by the LLM, the best pages are read, and an answer is
    synthesised with citations. Every failure on the way falls back to a
    plain search.

    The LLM is an input: each of its four uses is a function from what the
    prompt is built of to the reply. A reply either raises, cannot be
    parsed, or parses; the JSON extraction of the synthesis metadata is an
    input as well. The scores are reals; the records' pydantic bounds
    (`relevance_score` and `confidence` between 0 and 1) are checked where
    the records are built, and a violation raises as it does in Python. */
module NotionIntelligence {
  import opened Wrappers
  import opened Strs
  import opened PyValues
  import opened Sorting
  import opened NotionSearch

  datatype SearchScope = Precise | Exploratory | Comprehensive

  datatype SearchStrategy = SearchStrategy(
    primary_queries: seq<string>,
    fallback_queries: Option<seq<string>>,
    expected_content_type: string,
    reasoning: string)

  datatype RawSearchResult = RawSearchResult(
    page_id: string,
    title: string,
    path: string,
    summary: string,
    vector_score: real)

  datatype RankedResult = RankedResult(
    page_id: string,
    title: string,
    path: string,
    summary: string,
    vector_score: real,
    relevance_score: real,
    relevance_reasoning: string,
    content: Option<string>)

  datatype Citation = Citation(page_id: string, title: string, path: string, excerpt: string)

  datatype SynthesizedAnswer = SynthesizedAnswer(
    answer: string,
    confidence: real,
    citations: seq<Citation>,
    gaps_identified: Option<string>,
    follow_up_suggestions: seq<string>,
    pages_analyzed: int)

  /** `NotionIntelligenceConfig`; the pydantic bounds on the three counts
      are stated by `ValidConfig`. */
  datatype IntelligenceConfig = IntelligenceConfig(
    enabled: bool,
    query_expansion: bool,
    llm_reranking: bool,
    answer_synthesis: bool,
    max_queries: int,
    rerank_top_n: int,
    fetch_top_n: int)

  const DefaultConfig := IntelligenceConfig(true, true, true, true, 3, 10, 3)

  predicate ValidConfig(c: IntelligenceConfig) {
    1 <= c.max_queries <= 5 && 1 <= c.rerank_top_n <= 20 && 1 <= c.fetch_top_n <= 10
  }

  /** A reply of the LLM that is to be parsed as JSON. */
  datatype LlmReply<T> = Raised | Unparsed | Parsed(value: T)

  /** One entry of the re-ranking reply; `page_id` is required (an entry
      without one makes the whole reply unparsed). */
  datatype RankingItem = RankingItem(page_id: string, relevance_score: Option<real>, relevance_reasoning: Option<string>)

  /** The LLM's four uses. A synthesis reply is its text, or `None` when the
      call raises. */
  datatype Llm = Llm(
    analyze: (string, Option<string>, SearchScope) -> LlmReply<SearchStrategy>,
    rerank: (string, seq<RawSearchResult>) -> LlmReply<seq<RankingItem>>,
    synthesize: (string, seq<RankedResult>) -> Option<string>,
    no_results: (string, seq<string>) -> Option<string>,
    extract_json: string -> Option<Value>)

  /** Which LLM call was made. */
  datatype LlmCall = IntentCall | RerankCall | SynthesisCall | NoResultsCall

  function Min(a: int, b: int): int {
    if a < b then a else b
  }

  /** Python's `s[:n]` for any integer `n`: a negative `n` drops that many
      elements from the end. */
  function SlicePrefix<T>(s: seq<T>, n: int): (r: seq<T>)
    ensures 0 <= n ==> r == Take(s, n)
    ensures n < 0 ==> r == s[..if |s| + n < 0 then 0 else |s| + n]
  {
    if n >= 0 then Take(s, n) else s[..if |s| + n < 0 then 0 else |s| + n]
  }

  lemma SlicePrefixLength<T>(s: seq<T>, n: int)
    ensures |SlicePrefix(s, n)| <= |s|
    ensures 0 <= n ==> |SlicePrefix(s, n)| <= n
  {
  }

  // ---------------------------------------------------------------------
  // _execute_searches

  const UntitledText := "Untitled"
  const MinPrimaryResults := 3
  const MaxFallbackQueries := 2

  /** A hit as a raw result: missing metadata falls back to "Untitled" for
      the title, "" for the other texts and 0.0 for the score. */
  function ToRaw(h: SearchHit): RawSearchResult {
    RawSearchResult(h.page_id.GetOr(""), h.title.GetOr(UntitledText), h.path.GetOr(""),
                    h.summary.GetOr(""), h.distance.GetOr(0.0))
  }

  function IdSet(rs: seq<RawSearchResult>): (r: set<string>)
    ensures forall i :: 0 <= i < |rs| ==> rs[i].page_id in r
    ensures forall id :: id in r ==> exists i :: 0 <= i < |rs| && rs[i].page_id == id
  {
    set i | 0 <= i < |rs| :: rs[i].page_id
  }

  lemma IdSetSnoc(rs: seq<RawSearchResult>, x: RawSearchResult)
    ensures IdSet(rs + [x]) == IdSet(rs) + {x.page_id}
  {
    var a := rs + [x];
    forall id | id in IdSet(a) ensures id in IdSet(rs) + {x.page_id} {
      var i :| 0 <= i < |a| && a[i].page_id == id;
      if i < |rs| { assert a[i] == rs[i]; }
    }
    assert a[|rs|] == x;
    forall id | id in IdSet(rs) ensures id in IdSet(a) {
      var i :| 0 <= i < |rs| && rs[i].page_id == id;
      assert a[i] == rs[i];
    }
  }

  /** The hit is kept: it has a page id not seen so far. */
  predicate IsNew(acc: seq<RawSearchResult>, h: SearchHit) {
    h.page_id.GetOr("") != "" && h.page_id.GetOr("") !in IdSet(acc)
  }

  /** One step of the inner loop: the hit is appended when it is new. */
  function AddHit(acc: seq<RawSearchResult>, h: SearchHit): seq<RawSearchResult> {
    if IsNew(acc, h) then acc + [ToRaw(h)] else acc
  }

  /** The inner loop of `_execute_searches`: every hit with a page id not
      seen so far is appended. */
  function AddHits(acc: seq<RawSearchResult>, hits: seq<SearchHit>): (r: seq<RawSearchResult>)
    decreases |hits|
  {
    if hits == [] then acc
    else AddHits(AddHit(acc, hits[0]), hits[1..])
  }

  /** Page ids are present and never repeated. */
  predicate UniqueIds(rs: seq<RawSearchResult>) {
    (forall i :: 0 <= i < |rs| ==> rs[i].page_id != "") &&
    (forall i, j :: 0 <= i < j < |rs| ==> rs[i].page_id != rs[j].page_id)
  }

  /** A sequence that extends another holds all of its page ids. */
  lemma IdSetPrefix(p: seq<RawSearchResult>, r: seq<RawSearchResult>)
    requires |p| <= |r| && r[..|p|] == p
    ensures IdSet(p) <= IdSet(r)
  {
    forall id | id in IdSet(p) ensures id in IdSet(r) {
      var i :| 0 <= i < |p| && p[i].page_id == id;
      assert r[i] == p[i];
    }
  }

  /** One hit keeps the ids unique, keeps what was there in front, adds at
      most the hit itself, and leaves its page id (if any) present. */
  lemma AddHitProperties(acc: seq<RawSearchResult>, h: SearchHit)
    requires UniqueIds(acc)
    ensures UniqueIds(AddHit(acc, h))
    ensures |acc| <= |AddHit(acc, h)| <= |acc| + 1 && AddHit(acc, h)[..|acc|] == acc
    ensures |AddHit(acc, h)| == |acc| + 1 ==> AddHit(acc, h)[|acc|] == ToRaw(h)
    ensures h.page_id.GetOr("") != "" ==> h.page_id.value in IdSet(AddHit(acc, h))
  {
    var next := AddHit(acc, h);
    if IsNew(acc, h) {
      IdSetSnoc(acc, ToRaw(h));
      forall i, j | 0 <= i < j < |next| ensures next[i].page_id != next[j].page_id {
        if j == |acc| {
          assert next[i] == acc[i];
        }
      }
    }
  }

  /** The result was built from one of the hits. */
  ghost predicate FromHit(x: RawSearchResult, hits: seq<SearchHit>) {
    exists h :: h in hits && x == ToRaw(h)
  }

  /** Adding hits keeps what was there in front and keeps the ids unique;
      every new result comes from a hit, and every hit with a page id is
      present afterwards. */
  lemma AddHitsProperties(acc: seq<RawSearchResult>, hits: seq<SearchHit>)
    requires UniqueIds(acc)
    ensures UniqueIds(AddHits(acc, hits))
    ensures |acc| <= |AddHits(acc, hits)| && AddHits(acc, hits)[..|acc|] == acc
    ensures forall k :: |acc| <= k < |AddHits(acc, hits)| ==> FromHit(AddHits(acc, hits)[k], hits)
    ensures forall h :: h in hits && h.page_id.GetOr("") != "" ==> h.page_id.value in IdSet(AddHits(acc, hits))
  {
    AddHitsPrefix(acc, hits);
    AddHitsFromHits(acc, hits);
    AddHitsCovers(acc, hits);
  }

  lemma {:induction false} AddHitsPrefix(acc: seq<RawSearchResult>, hits: seq<SearchHit>)
    requires UniqueIds(acc)
    ensures UniqueIds(AddHits(acc, hits))
    ensures |acc| <= |AddHits(acc, hits)| && AddHits(acc, hits)[..|acc|] == acc
    decreases |hits|
  {
    if hits != [] {
      var next := AddHit(acc, hits[0]);
      AddHitProperties(acc, hits[0]);
      AddHitsPrefix(next, hits[1..]);
      var r := AddHits(acc, hits);
      assert r == AddHits(next, hits[1..]);
      assert r[..|acc|] == next[..|acc|];
    }
  }

  lemma {:induction false} AddHitsFromHits(acc: seq<RawSearchResult>, hits: seq<SearchHit>)
    requires UniqueIds(acc)
    ensures forall k :: |acc| <= k < |AddHits(acc, hits)| ==> FromHit(AddHits(acc, hits)[k], hits)
    decreases |hits|
  {
    if hits != [] {
      var h := hits[0];
      var next := AddHit(acc, h);
      AddHitProperties(acc, h);
      AddHitsPrefix(next, hits[1..]);
      AddHitsFromHits(next, hits[1..]);
      var r := AddHits(acc, hits);
      assert r == AddHits(next, hits[1..]);
      forall k | |acc| <= k < |r| ensures FromHit(r[k], hits) {
        if k < |next| {
          assert r[k] == r[..|next|][k] == next[k] == ToRaw(h);
        } else {
          assert FromHit(r[k], hits[1..]);
          var x :| x in hits[1..] && r[k] == ToRaw(x);
          assert x in hits;
        }
      }
    }
  }

  lemma {:induction false} AddHitsCovers(acc: seq<RawSearchResult>, hits: seq<SearchHit>)
    requires UniqueIds(acc)
    ensures forall h :: h in hits && h.page_id.GetOr("") != "" ==> h.page_id.value in IdSet(AddHits(acc, hits))
    decreases |hits|
  {
    if hits != [] {
      var h := hits[0];
      var next := AddHit(acc, h);
      AddHitProperties(acc, h);
      AddHitsPrefix(next, hits[1..]);
      AddHitsCovers(next, hits[1..]);
      var r := AddHits(acc, hits);
      assert r == AddHits(next, hits[1..]);
      IdSetPrefix(next, r);
      forall x | x in hits && x.page_id.GetOr("") != "" ensures x.page_id.value in IdSet(r) {
        if x != h {
          assert x in hits[1..];
        }
      }
    }
  }

  /** The query loops of `_execute_searches`: a query whose search raises is
      skipped. */
  function RunQueries(index: Index, acc: seq<RawSearchResult>, queries: seq<string>, n: int): (r: seq<RawSearchResult>)
    decreases |queries|
  {
    if queries == [] then acc
    else
      var found := index(queries[0], n);
      RunQueries(index, if found.Some? then AddHits(acc, found.value) else acc, queries[1..], n)
  }

  lemma {:induction false} RunQueriesProperties(index: Index, acc: seq<RawSearchResult>, queries: seq<string>, n: int)
    requires UniqueIds(acc)
    ensures UniqueIds(RunQueries(index, acc, queries, n))
    ensures |acc| <= |RunQueries(index, acc, queries, n)| && RunQueries(index, acc, queries, n)[..|acc|] == acc
    ensures forall q, h :: q in queries && index(q, n).Some? && h in index(q, n).value && h.page_id.GetOr("") != "" ==>
      h.page_id.value in IdSet(RunQueries(index, acc, queries, n))
    decreases |queries|
  {
    if queries != [] {
      var found := index(queries[0], n);
      var next := if found.Some? then AddHits(acc, found.value) else acc;
      if found.Some? { AddHitsProperties(acc, found.value); }
      RunQueriesProperties(index, next, queries[1..], n);
      var r := RunQueries(index, acc, queries, n);
      assert r == RunQueries(index, next, queries[1..], n);
      assert r[..|acc|] == next[..|acc|];
      forall q, h | q in queries && index(q, n).Some? && h in index(q, n).value && h.page_id.GetOr("") != ""
        ensures h.page_id.value in IdSet(r)
      {
        if q == queries[0] {
          var i :| 0 <= i < |next| && next[i].page_id == h.page_id.value;
          assert r[i] == next[i];
        } else {
          assert q in queries[1..];
        }
      }
    }
  }

  /** The fallback queries run only when the primary ones found fewer than
      three pages and there are fallback queries. */
  predicate RunsFallback(primaryResults: seq<RawSearchResult>, strategy: SearchStrategy) {
    |primaryResults| < MinPrimaryResults && strategy.fallback_queries.Some? && strategy.fallback_queries.value != []
  }

  /** `_execute_searches`: the first `max_queries` primary queries, then up
      to two fallback queries when needed. */
  function Searches(index: Index, max_queries: int, strategy: SearchStrategy, n: int): seq<RawSearchResult> {
    var primary := RunQueries(index, [], SlicePrefix(strategy.primary_queries, max_queries), n);
    if RunsFallback(primary, strategy) then
      RunQueries(index, primary, Take(strategy.fallback_queries.value, MaxFallbackQueries), n)
    else primary
  }

  /** The merged results have distinct, present page ids; the primary
      results come first and in the order found; every page a primary query
      found is among them. */
  lemma SearchesProperties(index: Index, max_queries: int, strategy: SearchStrategy, n: int)
    ensures UniqueIds(Searches(index, max_queries, strategy, n))
    ensures var primary := RunQueries(index, [], SlicePrefix(strategy.primary_queries, max_queries), n);
      |primary| <= |Searches(index, max_queries, strategy, n)| &&
      Searches(index, max_queries, strategy, n)[..|primary|] == primary
    ensures forall q, h ::
      (q in SlicePrefix(strategy.primary_queries, max_queries) && index(q, n).Some? &&
       h in index(q, n).value && h.page_id.GetOr("") != "") ==>
      h.page_id.value in IdSet(Searches(index, max_queries, strategy, n))
  {
    var primary := RunQueries(index, [], SlicePrefix(strategy.primary_queries, max_queries), n);
    RunQueriesProperties(index, [], SlicePrefix(strategy.primary_queries, max_queries), n);
    if RunsFallback(primary, strategy) {
      var fallback := Take(strategy.fallback_queries.value, MaxFallbackQueries);
      RunQueriesProperties(index, primary, fallback, n);
      var r := RunQueries(index, primary, fallback, n);
      forall id | id in IdSet(primary) ensures id in IdSet(r) {
        var i :| 0 <= i < |primary| && primary[i].page_id == id;
        assert r[i] == primary[i];
      }
    }
  }

  // ---------------------------------------------------------------------
  // _rerank_results

  const VectorRankReason := "Ranked by vector similarity"
  const LlmDefaultReason := "Relevance from vector score"
  const FallbackRankReason := "Fallback: using vector similarity"

  predicate ValidScore(x: real) {
    0.0 <= x <= 1.0
  }

  /** A ranked result built from a raw one; pydantic refuses a relevance
      outside [0, 1]. */
  function Rank(r: RawSearchResult, relevance: real, reasoning: string): Option<RankedResult> {
    if ValidScore(relevance) then
      Some(RankedResult(r.page_id, r.title, r.path, r.summary, r.vector_score, relevance, reasoning, None))
    else None
  }

  /** The ranked results with the vector score as relevance; `None` when a
      vector score is outside [0, 1]. */
  function VectorRanked(raw: seq<RawSearchResult>, reasoning: string): (r: Option<seq<RankedResult>>)
    ensures r.Some? <==> forall i :: 0 <= i < |raw| ==> ValidScore(raw[i].vector_score)
    ensures r.Some? ==> (|r.value| == |raw| &&
      forall i :: 0 <= i < |raw| ==> r.value[i] == Rank(raw[i], raw[i].vector_score, reasoning).value)
  {
    if raw == [] then Some([])
    else
      var rest := VectorRanked(raw[1..], reasoning);
      assert forall i :: 1 <= i < |raw| ==> raw[i] == raw[1..][i - 1];
      match Rank(raw[0], raw[0].vector_score, reasoning)
      case None => None
      case Some(x) => if rest.None? then None else Some([x] + rest.value)
  }

  /** `ranking_map.get(page_id)`: the dict comprehension keeps the last
      entry for a page id. */
  function RankingFor(items: seq<RankingItem>, id: string): (r: Option<RankingItem>)
    ensures r.Some? ==> r.value in items && r.value.page_id == id
    ensures r.None? ==> forall x :: x in items ==> x.page_id != id
    ensures r.Some? ==> forall k :: 0 <= k < |items| && items[k].page_id == id ==> items[k] == r.value || exists j :: k < j < |items| && items[j] == r.value
  {
    if items == [] then None
    else if items[|items| - 1].page_id == id then Some(items[|items| - 1])
    else
      var r := RankingFor(items[..|items| - 1], id);
      assert forall k :: 0 <= k < |items| - 1 ==> items[k] == items[..|items| - 1][k];
      r
  }

  /** The relevance the LLM gave a result, or its vector score when the
      reply did not score it. */
  function Relevance(items: seq<RankingItem>, r: RawSearchResult): real {
    match RankingFor(items, r.page_id)
    case Some(item) => item.relevance_score.GetOr(r.vector_score)
    case None => r.vector_score
  }

  function Reasoning(items: seq<RankingItem>, r: RawSearchResult): string {
    match RankingFor(items, r.page_id)
    case Some(item) => item.relevance_reasoning.GetOr(LlmDefaultReason)
    case None => LlmDefaultReason
  }

  /** The loop of `_rerank_results` over a parsed reply; `None` when a
      relevance is refused, which the surrounding `try` catches. */
  function LlmRanked(raw: seq<RawSearchResult>, items: seq<RankingItem>): (r: Option<seq<RankedResult>>)
    ensures r.Some? ==> (|r.value| == |raw| &&
      forall i :: 0 <= i < |raw| ==>
        Rank(raw[i], Relevance(items, raw[i]), Reasoning(items, raw[i])).Some? &&
        r.value[i] == Rank(raw[i], Relevance(items, raw[i]), Reasoning(items, raw[i])).value)
    ensures r.None? ==> exists i :: 0 <= i < |raw| && !ValidScore(Relevance(items, raw[i]))
  {
    if raw == [] then Some([])
    else
      var rest := LlmRanked(raw[1..], items);
      assert forall i :: 1 <= i < |raw| ==> raw[i] == raw[1..][i - 1];
      match Rank(raw[0], Relevance(items, raw[0]), Reasoning(items, raw[0]))
      case None => None
      case Some(x) => if rest.None? then None else Some([x] + rest.value)
  }

  /** `_rerank_results`: `None` when the LLM call raises (or the fallback
      itself is refused), which `process_query` catches. */
  function Rerank(raw: seq<RawSearchResult>, reply: LlmReply<seq<RankingItem>>): Option<seq<RankedResult>> {
    match reply
    case Raised => None
    case Unparsed => VectorRanked(raw, FallbackRankReason)
    case Parsed(items) =>
      var ranked := LlmRanked(raw, items);
      if ranked.Some? then ranked else VectorRanked(raw, FallbackRankReason)
  }

  /** One result per input, in input order, with the LLM's relevance where
      it gave one and the vector score otherwise; an unparsable reply
      scores every result by its vector score. */
  lemma RerankProperties(raw: seq<RawSearchResult>, reply: LlmReply<seq<RankingItem>>)
    ensures var r := Rerank(raw, reply);
      r.Some? ==> (|r.value| == |raw| &&
        forall i :: 0 <= i < |raw| ==> r.value[i].page_id == raw[i].page_id && r.value[i].vector_score == raw[i].vector_score)
    ensures reply.Unparsed? && Rerank(raw, reply).Some? ==>
      forall i :: 0 <= i < |raw| ==> Rerank(raw, reply).value[i].relevance_score == raw[i].vector_score
    ensures reply.Parsed? && Rerank(raw, reply).Some? ==>
      forall i :: 0 <= i < |raw| && RankingFor(reply.value, raw[i].page_id).None? ==>
        Rerank(raw, reply).value[i].relevance_score == raw[i].vector_score
    ensures reply.Unparsed? ==> (Rerank(raw, reply).Some? <==> forall i :: 0 <= i < |raw| ==> ValidScore(raw[i].vector_score))
  {
    match reply {
      case Raised =>
      case Unparsed =>
      case Parsed(items) =>
        var ranked := LlmRanked(raw, items);
        if ranked.Some? {
          forall i | 0 <= i < |raw| && RankingFor(items, raw[i].page_id).None?
            ensures ranked.value[i].relevance_score == raw[i].vector_score
          {
            assert Relevance(items, raw[i]) == raw[i].vector_score;
          }
        }
    }
  }

  // ---------------------------------------------------------------------
  // Ordering and the pages to read

  function NegRelevance(r: RankedResult): real {
    -r.relevance_score
  }

  /** The ranked results sorted by relevance, highest first (a stable
      sort), cut to the pages to read. */
  function Shortlist(ranked: seq<RankedResult>, n: int): (r: seq<RankedResult>)
    ensures forall i, j :: 0 <= i < j < |r| ==> r[i].relevance_score >= r[j].relevance_score
    ensures |r| <= |ranked| && (0 <= n ==> |r| <= n)
    ensures 0 <= n ==> |r| == Min(n, |ranked|)
    ensures forall x :: x in r ==> x in ranked
  {
    var sorted := SortBy(ranked, NegRelevance);
    var r := SlicePrefix(sorted, n);
    SortedPrefix(ranked, sorted, r);
    r
  }

  /** A prefix of the sorted results is ordered by relevance and holds
      only ranked results. */
  lemma SortedPrefix(ranked: seq<RankedResult>, sorted: seq<RankedResult>, r: seq<RankedResult>)
    requires SortedBy(sorted, NegRelevance) && multiset(sorted) == multiset(ranked)
    requires |r| <= |sorted| && r == sorted[..|r|]
    ensures forall i, j :: 0 <= i < j < |r| ==> r[i].relevance_score >= r[j].relevance_score
    ensures forall x :: x in r ==> x in ranked
  {
    forall i, j | 0 <= i < j < |r| ensures r[i].relevance_score >= r[j].relevance_score {
      assert r[i] == sorted[i] && r[j] == sorted[j];
      assert NegRelevance(sorted[i]) <= NegRelevance(sorted[j]);
    }
    forall x | x in r ensures x in ranked {
      assert x in sorted;
      assert x in multiset(sorted);
    }
  }

  /** The pages read are the most relevant: no ranked result left out of
      the shortlist is more relevant than one in it. */
  lemma ShortlistMostRelevant(ranked: seq<RankedResult>, n: int)
    ensures forall x, y :: x in Shortlist(ranked, n) && y in ranked && y !in Shortlist(ranked, n) ==>
      x.relevance_score >= y.relevance_score
  {
    var sorted := SortBy(ranked, NegRelevance);
    var r := Shortlist(ranked, n);
    assert r == SlicePrefix(sorted, n);
    assert r == sorted[..|r|];
    forall x, y | x in r && y in ranked && y !in r
      ensures x.relevance_score >= y.relevance_score
    {
      assert y in multiset(sorted);
      var k :| 0 <= k < |sorted| && sorted[k] == y;
      var i :| 0 <= i < |r| && r[i] == x;
      assert |r| <= k;
      assert sorted[i] == x;
      assert NegRelevance(sorted[i]) <= NegRelevance(sorted[k]);
    }
  }

  // ---------------------------------------------------------------------
  // _parse_synthesis_response

  const MetadataMarker := "---METADATA---"
  const DefaultConfidence: real := 0.7

  /** The metadata dictionary before and after `update`. */
  datatype Metadata = Metadata(confidence: Value, citations: Value, gaps_identified: Value, follow_up_suggestions: Value)

  const DefaultMetadata := Metadata(PFloat(DefaultConfidence), PList([]), PNone, PList([]))

  /** `metadata.update(json_data)` for the keys the answer reads. */
  function UpdateMetadata(m: Metadata, entries: seq<(string, Value)>): Metadata {
    Metadata(
      Lookup(entries, "confidence").GetOr(m.confidence),
      Lookup(entries, "citations").GetOr(m.citations),
      Lookup(entries, "gaps_identified").GetOr(m.gaps_identified),
      Lookup(entries, "follow_up_suggestions").GetOr(m.follow_up_suggestions))
  }

  /** The metadata after the marker, when it extracts to a JSON object. */
  function MetadataOf(parts: seq<string>, extract_json: string -> Option<Value>): Metadata {
    if |parts| > 1 then
      match extract_json(parts[1])
      case Some(PDict(entries)) => UpdateMetadata(DefaultMetadata, entries)
      case _ => DefaultMetadata
    else DefaultMetadata
  }

  /** A `str` field read with `c.get(key, "")`; any other type is refused
      by pydantic. */
  function StrField(entries: seq<(string, Value)>, key: string): Option<string> {
    match Lookup(entries, key)
    case None => Some("")
    case Some(PStr(s)) => Some(s)
    case Some(_) => None
  }

  function CitationOf(entries: seq<(string, Value)>): Option<Citation> {
    var id := StrField(entries, "page_id");
    var title := StrField(entries, "title");
    var path := StrField(entries, "path");
    var excerpt := StrField(entries, "excerpt");
    if id.Some? && title.Some? && path.Some? && excerpt.Some? then
      Some(Citation(id.value, title.value, path.value, excerpt.value))
    else None
  }

  function DictCount(items: seq<Value>): nat {
    if items == [] then 0 else (if items[0].PDict? then 1 else 0) + DictCount(items[1..])
  }

  /** The citation loop over a list: entries that are not objects are
      dropped; `None` when an object has a field of the wrong type. */
  function CitationList(items: seq<Value>): (r: Option<seq<Citation>>)
    ensures r.Some? ==> |r.value| == DictCount(items)
    ensures (forall i :: 0 <= i < |items| ==> !items[i].PDict?) ==> r == Some([])
  {
    if items == [] then Some([])
    else
      var rest := CitationList(items[1..]);
      assert forall i :: 1 <= i < |items| ==> items[i] == items[1..][i - 1];
      if rest.None? then None
      else match items[0]
        case PDict(entries) =>
          var c := CitationOf(entries);
          if c.Some? then Some([c.value] + rest.value) else None
        case _ => rest
  }

  /** Iterating the "citations" value: a list is read entry by entry; a
      string or an object iterates over texts, none of them an object;
      anything else is not iterable and raises. */
  function Citations(v: Value): Option<seq<Citation>> {
    match v
    case PList(items) => CitationList(items)
    case PStr(_) => Some([])
    case PDict(_) => Some([])
    case _ => None
  }

  predicate AllDigits(s: string) {
    forall i :: 0 <= i < |s| ==> '0' <= s[i] <= '9'
  }

  /** The value of a string of decimal digits. */
  function DigitsValue(s: string): nat
    requires AllDigits(s)
    decreases |s|
  {
    if s == "" then 0 else DigitsValue(s[..|s| - 1]) * 10 + (s[|s| - 1] as int - '0' as int)
  }

  function Pow10(n: nat): (r: nat)
    ensures r >= 1
  {
    if n == 0 then 1 else 10 * Pow10(n - 1)
  }

  /** The text before the first '.', and the text after it when there is
      one. */
  function SplitAtDot(s: string): (r: (string, Option<string>))
    ensures r.1.None? ==> r.0 == s
    ensures r.1.Some? ==> s == r.0 + "." + r.1.value && '.' !in r.0
  {
    if s == "" then ("", None)
    else if s[0] == '.' then ("", Some(s[1..]))
    else
      var rest := SplitAtDot(s[1..]);
      ([s[0]] + rest.0, rest.1)
  }

  /** A number string in plain decimal notation: digits, optionally a '.'
      and more digits, with at least one digit in all. */
  function DecimalValue(s: string): (r: Option<real>)
    ensures r.Some? ==> r.value >= 0.0
  {
    var (whole, fraction) := SplitAtDot(s);
    if !AllDigits(whole) then None
    else match fraction
      case None => if whole == "" then None else Some(DigitsValue(whole) as real)
      case Some(f) =>
        if !AllDigits(f) || whole + f == "" then None
        else Some(DigitsValue(whole) as real + DigitsValue(f) as real / Pow10(|f|) as real)
  }

  /** The `confidence` field, coerced as pydantic's lax mode does: a number
      within [0, 1] (a bool counts as 0 or 1), or a numeric string whose
      value lies there; anything else is refused. */
  function Confidence(v: Value): (r: Option<real>)
    ensures r.Some? ==> ValidScore(r.value)
    ensures v.PFloat? ==> (r.Some? <==> ValidScore(v.r)) && (r.Some? ==> r.value == v.r)
  {
    match v
    case PFloat(x) => if ValidScore(x) then Some(x) else None
    case PInt(i) => if 0 <= i <= 1 then Some(i as real) else None
    case PBool(b) => Some(if b then 1.0 else 0.0)
    case PStr(s) =>
      var x := DecimalValue(s);
      if x.Some? && ValidScore(x.value) then x else None
    case _ => None
  }

  /** A numeric string within the range is coerced to its value. */
  lemma NumericStringConfidence()
    ensures Confidence(PStr("0.8")) == Some(0.8)
  {
    SplitPointEight();
    assert DigitsValue("8") == 8 by { assert "8"[..0] == ""; }
    assert DigitsValue("0") == 0 by { assert "0"[..0] == ""; }
    assert DecimalValue("0.8") == Some(0.8);
  }

  lemma SplitPointEight()
    ensures SplitAtDot("0.8") == ("0", Some("8"))
  {
    assert "0.8"[0] == '0' && "0.8"[1..] == ".8";
    assert SplitAtDot(".8") == ("", Some("8"));
    assert ['0'] + "" == "0";
  }

  /** A numeric string outside [0, 1], or text that is not a number, is
      refused. */
  lemma NonScoreStringRefused()
    ensures Confidence(PStr("2")) == None
    ensures Confidence(PStr("high")) == None
  {
    assert SplitAtDot("2") == ("2", None) by { assert "2"[1..] == ""; }
    assert DigitsValue("2") == 2 by { assert "2"[..0] == ""; }
    var r := SplitAtDot("high");
    assert r.0[0] == 'h';
  }

  function Gaps(v: Value): Option<Option<string>> {
    match v
    case PNone => Some(None)
    case PStr(s) => Some(Some(s))
    case _ => None
  }

  function AllStrings(items: seq<Value>): (r: Option<seq<string>>)
    ensures r.Some? ==> |r.value| == |items|
  {
    if items == [] then Some([])
    else
      var rest := AllStrings(items[1..]);
      if items[0].PStr? && rest.Some? then Some([items[0].s] + rest.value) else None
  }

  function FollowUps(v: Value): Option<seq<string>> {
    if v.PList? then AllStrings(v.items) else None
  }

  /** `_parse_synthesis_response`; a `Failure` is the validation error
      pydantic raises (the float spellings `Confidence` leaves out aside). */
  function ParseSynthesis(text: string, pages: int, extract_json: string -> Option<Value>): (r: Result<SynthesizedAnswer, string>)
    ensures r.Success? ==> r.value.answer == Strip(Split(text, MetadataMarker)[0]) && r.value.pages_analyzed == pages
    ensures r.Success? ==> ValidScore(r.value.confidence)
    ensures r.Success? && MetadataOf(Split(text, MetadataMarker), extract_json).citations.PList? ==>
      |r.value.citations| == DictCount(MetadataOf(Split(text, MetadataMarker), extract_json).citations.items)
  {
    var parts := Split(text, MetadataMarker);
    var m := MetadataOf(parts, extract_json);
    var citations := Citations(m.citations);
    var confidence := Confidence(m.confidence);
    var gaps := Gaps(m.gaps_identified);
    var follow := FollowUps(m.follow_up_suggestions);
    if citations.Some? && confidence.Some? && gaps.Some? && follow.Some? then
      Success(SynthesizedAnswer(Strip(parts[0]), confidence.value, citations.value, gaps.value, follow.value, pages))
    else Failure("validation error")
  }

  /** Without the marker the whole text, stripped, is the answer, with
      confidence 0.7 and no citations. */
  lemma ParseWithoutMarker(text: string, pages: int, extract_json: string -> Option<Value>)
    requires !Contains(text, MetadataMarker)
    ensures ParseSynthesis(text, pages, extract_json) == Success(SynthesizedAnswer(Strip(text), DefaultConfidence, [], None, [], pages))
  {
    SplitWithout(text, MetadataMarker);
    var parts := Split(text, MetadataMarker);
    assert MetadataOf(parts, extract_json) == DefaultMetadata;
    assert Citations(PList([])) == Some([]);
    assert Confidence(PFloat(DefaultConfidence)) == Some(DefaultConfidence);
    assert FollowUps(PList([])) == Some([]);
  }

  /** Entries of the citation list that are not objects are dropped. */
  lemma NonObjectCitationsDropped(items: seq<Value>)
    requires forall i :: 0 <= i < |items| ==> !items[i].PDict?
    ensures Citations(PList(items)) == Some([])
  {
  }

  // ---------------------------------------------------------------------
  // _format_raw_results and _simple_search_fallback

  const NoResultsText := "No results found."
  const RawHeader := "Here's what I found in your Notion workspace:\n"
  const RawConfidence: real := 0.6
  const ExcerptLength := 200
  const RawContentLength := 1000
  const Ellipsis := "..."

  function CitationFor(r: RankedResult): Citation {
    Citation(r.page_id, r.title, r.path, Take(r.summary, ExcerptLength))
  }

  /** The parts of the `n`-th result (counted from 1): its heading, its path,
      and its content cut to 1000 characters or else its summary. */
  function RawParts(n: nat, r: RankedResult): (parts: seq<string>)
    ensures |parts| == if r.content.GetOr("") != "" || r.summary != "" then 3 else 2
    ensures parts[..2] == ["\n### " + NatToString(n) + ". " + r.title, "Path: " + r.path]
  {
    ["\n### " + NatToString(n) + ". " + r.title, "Path: " + r.path] +
    (if r.content.GetOr("") != "" then ["\n" + Take(r.content.value, RawContentLength) + Ellipsis]
     else if r.summary != "" then ["\nSummary: " + r.summary]
     else [])
  }

  function AllRawParts(results: seq<RankedResult>): seq<string>
    decreases |results|
  {
    if results == [] then [] else AllRawParts(results[..|results| - 1]) + RawParts(|results|, results[|results| - 1])
  }

  /** The answer `_format_raw_results` builds. */
  function RawAnswer(results: seq<RankedResult>): SynthesizedAnswer {
    if results == [] then SynthesizedAnswer(NoResultsText, 0.0, [], None, [], 0)
    else
      SynthesizedAnswer(Join([RawHeader] + AllRawParts(results), "\n"), RawConfidence,
        seq(|results|, i requires 0 <= i < |results| => CitationFor(results[i])), None, [], |results|)
  }

  /** `_format_raw_results`: the results listed in order with one citation
      each, confidence 0.6; "No results found." with confidence 0 for none. */
  method FormatRawResults(results: seq<RankedResult>) returns (a: SynthesizedAnswer)
    ensures results == [] ==> a == SynthesizedAnswer(NoResultsText, 0.0, [], None, [], 0)
    ensures results != [] ==> a.answer == Join([RawHeader] + AllRawParts(results), "\n")
    ensures results != [] ==> a.confidence == RawConfidence && a.pages_analyzed == |results|
    ensures |a.citations| == |results| && forall i :: 0 <= i < |results| ==> a.citations[i] == CitationFor(results[i])
    ensures a == RawAnswer(results)
  {
    if results == [] {
      return SynthesizedAnswer(NoResultsText, 0.0, [], None, [], 0);
    }
    var parts, citations := FormatRawList(results);
    assert citations == seq(|results|, i requires 0 <= i < |results| => CitationFor(results[i]));
    a := SynthesizedAnswer(Join([RawHeader] + parts, "\n"), RawConfidence, citations, None, [], |results|);
  }

  /** The loop of `_format_raw_results`: the lines of every result, in
      order, and one citation per result. */
  method FormatRawList(results: seq<RankedResult>) returns (parts: seq<string>, citations: seq<Citation>)
    ensures parts == AllRawParts(results)
    ensures |citations| == |results| && forall i :: 0 <= i < |results| ==> citations[i] == CitationFor(results[i])
  {
    parts, citations := [], [];
    var i := 0;
    while i < |results|
      invariant 0 <= i <= |results|
      invariant parts == AllRawParts(results[..i])
      invariant |citations| == i && forall k :: 0 <= k < i ==> citations[k] == CitationFor(results[k])
    {
      var lines, citation := FormatRawResult(i + 1, results[i]);
      AllRawPartsStep(results, i);
      parts := parts + lines;
      citations := citations + [citation];
      i := i + 1;
    }
    assert results[..i] == results;
  }

  lemma AllRawPartsStep(results: seq<RankedResult>, i: nat)
    requires i < |results|
    ensures AllRawParts(results[..i + 1]) == AllRawParts(results[..i]) + RawParts(i + 1, results[i])
  {
    assert results[..i + 1][..i] == results[..i];
  }

  /** The body of the loop of `_format_raw_results`: the lines and the
      citation of the `n`-th result. */
  method FormatRawResult(n: nat, r: RankedResult) returns (lines: seq<string>, citation: Citation)
    ensures lines == RawParts(n, r)
    ensures citation == CitationFor(r)
  {
    lines := ["\n### " + NatToString(n) + ". " + r.title, "Path: " + r.path];
    if r.content.GetOr("") != "" {
      lines := lines + ["\n" + Take(r.content.value, RawContentLength) + Ellipsis];
    } else if r.summary != "" {
      lines := lines + ["\nSummary: " + r.summary];
    }
    citation := Citation(r.page_id, r.title, r.path, if r.summary != "" then Take(r.summary, ExcerptLength) else "");
  }

  const FallbackIntro := "Found relevant content in your Notion workspace:\n"
  const NothingFoundPrefix := "I couldn't find any relevant pages in your Notion workspace for: '"
  const SearchErrorText := "I encountered an error while searching your Notion workspace: "
  const FallbackConfidence: real := 0.7
  const FallbackContentLength := 1500

  function OtherMatchLine(h: SearchHit): string {
    var title := h.title.GetOr(UntitledText);
    "- " + title + " (" + h.path.GetOr("") + ")"
  }

  /** The answer text of the plain search: the best hit's title, path,
      summary and content, then up to three other matches. */
  function FallbackParts(hits: seq<SearchHit>, content: string): (parts: seq<string>)
    requires hits != []
    ensures |parts| >= 3 && parts[0] == FallbackIntro
    ensures |hits| > 1 ==> "\n\nOther matches:" in parts
  {
    var best := hits[0];
    ([FallbackIntro, "**" + best.title.GetOr(UntitledText) + "**", "Path: " + best.path.GetOr("")] +
     (if best.summary.GetOr("") != "" then ["\nSummary: " + best.summary.value] else []) +
     (if content != "" then ["\nContent:\n" + Take(content, FallbackContentLength) + Ellipsis] else [])) +
    (if |hits| > 1 then ["\n\nOther matches:"] + MapSeq(hits[1..Min(4, |hits|)], OtherMatchLine) else [])
  }

  /** `_simple_search_fallback`: the best hit of a plain search, with its
      content when it can be read. */
  function SimpleSearchFallback(index: Index, src: PageSource, question: string, max_results: int): (a: SynthesizedAnswer)
    ensures index(question, max_results).None? ==> a.confidence == 0.0 && a.citations == [] && a.pages_analyzed == 0
    ensures index(question, max_results) == Some([]) ==>
      a.confidence == 0.0 && a.citations == [] && a.pages_analyzed == 0 && StartsWith(a.answer, NothingFoundPrefix + question)
    ensures index(question, max_results).Some? && index(question, max_results).value != [] ==>
      a.confidence == FallbackConfidence && a.pages_analyzed == 1 && |a.citations| == 1 &&
      a.citations[0].page_id == index(question, max_results).value[0].page_id.GetOr("") &&
      StartsWith(a.answer, FallbackIntro)
  {
    match index(question, max_results)
    case None => SynthesizedAnswer(SearchErrorText, 0.0, [], Some("Search failed"), [], 0)
    case Some(hits) =>
      if hits == [] then
        SynthesizedAnswer(NothingFoundPrefix + question + "'", 0.0, [], Some("No matching content found"), [], 0)
      else
        var best := hits[0];
        var pageId := best.page_id.GetOr("");
        var page := if pageId != "" then FetchPageContent(src, pageId) else None;
        var content := if page.Some? then page.value.content else "";
        var parts := FallbackParts(hits, content);
        var citation := Citation(pageId, best.title.GetOr(UntitledText), best.path.GetOr(""), Take(best.summary.GetOr(""), ExcerptLength));
        SynthesizedAnswer(Join(parts, "\n"), FallbackConfidence, [citation], None, [], 1)
  }

  // ---------------------------------------------------------------------
  // _fetch_relevant_content

  /** A result with the content of its page when the page can be read,
      unchanged otherwise. */
  function Enrich(src: PageSource, r: RankedResult): RankedResult {
    var page := FetchPageContent(src, r.page_id);
    if page.Some? then r.(content := Some(page.value.content)) else r
  }

  /** The results in order, each enriched: only the content of a result
      can change, and it becomes the page's content when the page is read. */
  function Enriched(src: PageSource, ranked: seq<RankedResult>): (r: seq<RankedResult>)
    ensures |r| == |ranked|
    ensures forall i :: 0 <= i < |ranked| ==> r[i] == ranked[i].(content := r[i].content)
    ensures forall i :: 0 <= i < |ranked| && FetchPageContent(src, ranked[i].page_id).Some? ==>
      r[i].content == Some(FetchPageContent(src, ranked[i].page_id).value.content)
  {
    seq(|ranked|, i requires 0 <= i < |ranked| => Enrich(src, ranked[i]))
  }

  // ---------------------------------------------------------------------
  // The engine

  const NoWorkspaceSummary := "No workspace summary available."
  const DirectReasoning := "Direct search using user question"
  const FallbackReasoning := "Fallback: using question as search query"
  const GeneralContent := "general content"

  function DirectStrategy(question: string, reasoning: string): SearchStrategy {
    SearchStrategy([question], None, GeneralContent, reasoning)
  }

  class NotionIntelligenceEngine {
    const llm: Llm
    const tool: NotionSearchTool
    const workspace_context: string
    const config: IntelligenceConfig

    /** An empty workspace context is replaced by a fixed sentence; a missing
        configuration by the defaults. */
    constructor(llm: Llm, tool: NotionSearchTool, workspace_context: string, config: Option<IntelligenceConfig>)
      ensures this.llm == llm && this.tool == tool
      ensures this.workspace_context == if workspace_context != "" then workspace_context else NoWorkspaceSummary
      ensures this.config == config.GetOr(DefaultConfig)
    {
      this.llm := llm;
      this.tool := tool;
      this.workspace_context := if workspace_context != "" then workspace_context else NoWorkspaceSummary;
      this.config := config.GetOr(DefaultConfig);
    }

    /** The inner loop of `_execute_searches` over one query's hits, with
        `seen_ids` kept as the set of the ids gathered. */
    method AddHitsLoop(all: seq<RawSearchResult>, seen: set<string>, hits: seq<SearchHit>)
      returns (all': seq<RawSearchResult>, seen': set<string>)
      requires seen == IdSet(all)
      ensures all' == AddHits(all, hits) && seen' == IdSet(all')
    {
      all', seen' := all, seen;
      var j := 0;
      while j < |hits|
        invariant 0 <= j <= |hits|
        invariant seen' == IdSet(all')
        invariant AddHits(all', hits[j..]) == AddHits(all, hits)
      {
        assert hits[j..][1..] == hits[j + 1..];
        var h := hits[j];
        var pageId := h.page_id.GetOr("");
        if pageId != "" && pageId !in seen' {
          IdSetSnoc(all', ToRaw(h));
          all' := all' + [ToRaw(h)];
          seen' := seen' + {pageId};
        }
        j := j + 1;
      }
    }

    /** One query loop of `_execute_searches`; a query whose search raises
        is skipped. `issued` counts the searches made. */
    method RunQueriesLoop(all: seq<RawSearchResult>, seen: set<string>, queries: seq<string>, n: int)
      returns (all': seq<RawSearchResult>, seen': set<string>, issued: nat)
      requires seen == IdSet(all)
      ensures all' == RunQueries(tool.index, all, queries, n) && seen' == IdSet(all')
      ensures issued == |queries|
    {
      all', seen' := all, seen;
      var k := 0;
      while k < |queries|
        invariant 0 <= k <= |queries|
        invariant seen' == IdSet(all')
        invariant RunQueries(tool.index, all', queries[k..], n) == RunQueries(tool.index, all, queries, n)
      {
        assert queries[k..][1..] == queries[k + 1..];
        var found := tool.SearchIndex(queries[k], n);
        if found.Some? {
          all', seen' := AddHitsLoop(all', seen', found.value);
        }
        k := k + 1;
      }
      issued := |queries|;
    }

    /** `_execute_searches`. At most `max_queries` primary searches and two
        fallback searches are made, the fallback ones only when the primary
        ones found fewer than three pages. */
    method ExecuteSearches(strategy: SearchStrategy, max_results_per_query: int)
      returns (results: seq<RawSearchResult>, issued: nat)
      ensures results == Searches(tool.index, config.max_queries, strategy, max_results_per_query)
      ensures UniqueIds(results)
      ensures config.max_queries >= 0 ==> issued <= config.max_queries + MaxFallbackQueries
      ensures issued > |SlicePrefix(strategy.primary_queries, config.max_queries)| ==>
        RunsFallback(RunQueries(tool.index, [], SlicePrefix(strategy.primary_queries, config.max_queries), max_results_per_query), strategy)
    {
      SearchesProperties(tool.index, config.max_queries, strategy, max_results_per_query);
      SlicePrefixLength(strategy.primary_queries, config.max_queries);
      var primary := SlicePrefix(strategy.primary_queries, config.max_queries);
      var all, seen, n1 := RunQueriesLoop([], {}, primary, max_results_per_query);
      issued := n1;
      if |all| < MinPrimaryResults && strategy.fallback_queries.Some? && strategy.fallback_queries.value != [] {
        var n2;
        all, seen, n2 := RunQueriesLoop(all, seen, Take(strategy.fallback_queries.value, MaxFallbackQueries), max_results_per_query);
        issued := issued + n2;
      }
      results := all;
    }

    /** `_fetch_relevant_content`: each result in order, with the content of
        its page when the page can be read and unchanged otherwise. */
    method FetchRelevantContent(ranked: seq<RankedResult>) returns (enriched: seq<RankedResult>)
      ensures |enriched| == |ranked|
      ensures forall i :: 0 <= i < |ranked| ==>
        var page := FetchPageContent(tool.source, ranked[i].page_id);
        enriched[i] == if page.Some? then ranked[i].(content := Some(page.value.content)) else ranked[i]
      ensures enriched == Enriched(tool.source, ranked)
    {
      enriched := [];
      var i := 0;
      while i < |ranked|
        invariant 0 <= i <= |ranked|
        invariant |enriched| == i
        invariant forall k :: 0 <= k < i ==>
          var page := FetchPageContent(tool.source, ranked[k].page_id);
          enriched[k] == if page.Some? then ranked[k].(content := Some(page.value.content)) else ranked[k]
      {
        var result := ranked[i];
        var page := FetchPageContent(tool.source, result.page_id);
        if page.Some? {
          result := result.(content := Some(page.value.content));
        }
        enriched := enriched + [result];
        i := i + 1;
      }
      assert forall k :: 0 <= k < |ranked| ==> enriched[k] == Enrich(tool.source, ranked[k]);
    }

    /** The search strategy of `process_query`: the LLM's when query
        expansion is on (the question itself when the reply does not parse),
        the question itself otherwise; `None` when the LLM call raises. */
    function Plan(question: string, hint: Option<string>, scope: SearchScope): (r: Option<SearchStrategy>)
      ensures !config.query_expansion ==> r == Some(DirectStrategy(question, DirectReasoning))
      ensures config.query_expansion ==> (r.None? <==> llm.analyze(question, hint, scope).Raised?)
      ensures r.Some? ==> r.value.primary_queries != [] || llm.analyze(question, hint, scope).Parsed?
    {
      if !config.query_expansion then Some(DirectStrategy(question, DirectReasoning))
      else
        match llm.analyze(question, hint, scope)
        case Raised => None
        case Unparsed => Some(DirectStrategy(question, FallbackReasoning))
        case Parsed(s) => Some(s)
    }

    /** The pages the searches of that strategy find. */
    function Found(question: string, hint: Option<string>, scope: SearchScope): seq<RawSearchResult> {
      match Plan(question, hint, scope)
      case None => []
      case Some(s) => Searches(tool.index, config.max_queries, s, config.rerank_top_n)
    }

    /** The plain search every failure falls back on. */
    function Fallback(question: string, max_pages: int): SynthesizedAnswer {
      SimpleSearchFallback(tool.index, tool.source, question, max_pages)
    }

    /** The ranking of the pages found: the LLM's when re-ranking is on and
        more than one page was found, the vector scores otherwise. */
    function Ranking(question: string, raw: seq<RawSearchResult>): Option<seq<RankedResult>> {
      if config.llm_reranking && |raw| > 1 then Rerank(raw, llm.rerank(question, raw))
      else VectorRanked(raw, VectorRankReason)
    }

    /** The pages read for an answer: the shortlist of at most
        min(fetch_top_n, max_pages_to_analyze) most relevant ones. */
    function PagesRead(ranked: seq<RankedResult>, max_pages: int): seq<RankedResult> {
      Shortlist(ranked, Min(config.fetch_top_n, max_pages))
    }

    /** `_synthesize_answer`: the LLM's reply about the pages read, parsed,
        or the plain search when the call raises or the reply is refused. */
    function SynthesisAnswer(question: string, enriched: seq<RankedResult>, max_pages: int): SynthesizedAnswer {
      var reply := llm.synthesize(question, enriched);
      var parsed := if reply.Some? then ParseSynthesis(reply.value, |enriched|, llm.extract_json) else Failure("raised");
      if parsed.Success? then parsed.value else Fallback(question, max_pages)
    }

    /** The answer once the pages are ranked: synthesised from the pages
        read, or those pages listed raw when synthesis is off. */
    function ShortlistAnswer(question: string, ranked: seq<RankedResult>, max_pages: int): SynthesizedAnswer {
      var enriched := Enriched(tool.source, PagesRead(ranked, max_pages));
      if config.answer_synthesis then SynthesisAnswer(question, enriched, max_pages) else RawAnswer(enriched)
    }

    /** The answer once pages are found; the plain search when the ranking
        fails. */
    function FoundAnswer(question: string, raw: seq<RawSearchResult>, max_pages: int): SynthesizedAnswer {
      match Ranking(question, raw)
      case None => Fallback(question, max_pages)
      case Some(ranked) => ShortlistAnswer(question, ranked, max_pages)
    }

    /** `_handle_no_results`: the LLM's reply to the no-results prompt,
        parsed, or the plain search. */
    function NoResultsAnswer(question: string, strategy: SearchStrategy, max_pages: int): SynthesizedAnswer {
      var reply := llm.no_results(question, strategy.primary_queries);
      var parsed := if reply.Some? then ParseSynthesis(reply.value, 0, llm.extract_json) else Failure("raised");
      if parsed.Success? then parsed.value else Fallback(question, max_pages)
    }

    /** The answer of `process_query`. */
    function Answer(question: string, hint: Option<string>, scope: SearchScope, max_pages: int): SynthesizedAnswer {
      if !config.enabled then Fallback(question, max_pages)
      else
        match Plan(question, hint, scope)
        case None => Fallback(question, max_pages)
        case Some(strategy) =>
          if Found(question, hint, scope) == [] then NoResultsAnswer(question, strategy, max_pages)
          else FoundAnswer(question, Found(question, hint, scope), max_pages)
    }

    /** The LLM calls made once pages are found: the re-rank call when it
        is enabled and more than one page was found, then the synthesis
        call when the ranking succeeded and synthesis is enabled. */
    function FoundCalls(question: string, raw: seq<RawSearchResult>): seq<LlmCall> {
      (if config.llm_reranking && |raw| > 1 then [RerankCall] else []) +
      (if Ranking(question, raw).Some? && config.answer_synthesis then [SynthesisCall] else [])
    }

    /** The number of pages read once pages are found. */
    function FoundFetched(question: string, raw: seq<RawSearchResult>, max_pages: int): nat {
      match Ranking(question, raw)
      case None => 0
      case Some(ranked) => |PagesRead(ranked, max_pages)|
    }

    /** The LLM calls after the intent analysis: none when it raised, the
        no-results call when nothing was found, else those of the found
        pages. */
    function SearchCalls(question: string, hint: Option<string>, scope: SearchScope): seq<LlmCall> {
      if Plan(question, hint, scope).None? then []
      else if Found(question, hint, scope) == [] then [NoResultsCall]
      else FoundCalls(question, Found(question, hint, scope))
    }

    /** The LLM calls of `process_query`, in order. */
    function Calls(question: string, hint: Option<string>, scope: SearchScope): seq<LlmCall> {
      if !config.enabled then []
      else (if config.query_expansion then [IntentCall] else []) + SearchCalls(question, hint, scope)
    }

    /** The number of pages `process_query` reads. */
    function Fetched(question: string, hint: Option<string>, scope: SearchScope, max_pages: int): nat {
      if config.enabled && Found(question, hint, scope) != [] then FoundFetched(question, Found(question, hint, scope), max_pages)
      else 0
    }

    /** The LLM calls of `process_query`: none for a disabled engine; the
        intent call exactly when query expansion is on; re-ranking only when
        enabled and more than one page was found; synthesis only when
        enabled; the no-results call exactly when the searches found
        nothing; at most three. */
    lemma CallsProperties(question: string, hint: Option<string>, scope: SearchScope)
      ensures var calls := Calls(question, hint, scope);
        (!config.enabled ==> calls == []) && |calls| <= 3 &&
        (IntentCall in calls <==> config.enabled && config.query_expansion) &&
        (RerankCall in calls ==> config.llm_reranking && |Found(question, hint, scope)| > 1) &&
        (SynthesisCall in calls ==> config.answer_synthesis) &&
        (NoResultsCall in calls <==> config.enabled && Plan(question, hint, scope).Some? && Found(question, hint, scope) == [])
      ensures config.enabled && config.query_expansion && llm.analyze(question, hint, scope).Raised? ==>
        Calls(question, hint, scope) == [IntentCall]
    {
      if config.enabled && Plan(question, hint, scope).Some? && Found(question, hint, scope) != [] {
        var raw := Found(question, hint, scope);
        assert IntentCall !in FoundCalls(question, raw) && NoResultsCall !in FoundCalls(question, raw);
      }
    }

    /** The pages `process_query` reads: none for a disabled engine, at most
        min(fetch_top_n, max_pages_to_analyze) and never more than were
        found. */
    lemma FetchedBounded(question: string, hint: Option<string>, scope: SearchScope, max_pages: int)
      ensures var fetched := Fetched(question, hint, scope, max_pages);
        (!config.enabled ==> fetched == 0) &&
        fetched <= |Found(question, hint, scope)| &&
        (Min(config.fetch_top_n, max_pages) >= 0 ==> fetched <= Min(config.fetch_top_n, max_pages))
    {
      var raw := Found(question, hint, scope);
      if config.enabled && raw != [] {
        var ranking := Ranking(question, raw);
        if ranking.Some? {
          assert |ranking.value| == |raw| by {
            if config.llm_reranking && |raw| > 1 {
              RerankProperties(raw, llm.rerank(question, raw));
            }
          }
        }
      }
    }

    /** The answer of a disabled engine, and of one whose intent call
        raises, is the plain search. */
    lemma AnswerFallback(question: string, hint: Option<string>, scope: SearchScope, max_pages: int)
      ensures !config.enabled ==> Answer(question, hint, scope, max_pages) == Fallback(question, max_pages)
      ensures config.query_expansion && llm.analyze(question, hint, scope).Raised? ==>
        Answer(question, hint, scope, max_pages) == Fallback(question, max_pages)
    {
    }

    /** The answer speaks of the pages read: unless it is the plain search,
        it counts them; listed raw, it cites exactly them, in relevance
        order. */
    lemma ShortlistAnswerPages(question: string, ranked: seq<RankedResult>, max_pages: int)
      ensures var top := PagesRead(ranked, max_pages);
        var a := ShortlistAnswer(question, ranked, max_pages);
        a == Fallback(question, max_pages) || a.pages_analyzed == |top|
      ensures var top := PagesRead(ranked, max_pages);
        var a := ShortlistAnswer(question, ranked, max_pages);
        !config.answer_synthesis ==>
          |a.citations| == |top| && forall i :: 0 <= i < |top| ==> a.citations[i] == CitationFor(top[i])
    {
      var top := PagesRead(ranked, max_pages);
      var enriched := Enriched(tool.source, top);
      if !config.answer_synthesis {
        assert ShortlistAnswer(question, ranked, max_pages) == RawAnswer(enriched);
        forall i | 0 <= i < |top| ensures CitationFor(enriched[i]) == CitationFor(top[i]) {
          assert enriched[i] == top[i].(content := enriched[i].content);
        }
      }
    }

    /** `process_query`: the answer, the LLM calls in order and the number
        of pages read for the answer (`fetched`) are those of `Answer`,
        `Calls` and `Fetched`. */
    method ProcessQuery(question: string, hint: Option<string>, scope: SearchScope, max_pages: int)
      returns (answer: SynthesizedAnswer, calls: seq<LlmCall>, fetched: nat)
      ensures answer == Answer(question, hint, scope, max_pages)
      ensures calls == Calls(question, hint, scope)
      ensures fetched == Fetched(question, hint, scope, max_pages)
    {
      calls := [];
      fetched := 0;
      if !config.enabled {
        answer := Fallback(question, max_pages);
        return;
      }
      var plan := PlanStrategy(question, hint, scope);
      if config.query_expansion {
        calls := [IntentCall];
      }
      if plan.None? {
        answer := Fallback(question, max_pages);
        return;
      }
      var more;
      answer, more, fetched := SearchAndAnswer(question, hint, scope, plan.value, max_pages);
      calls := calls + more;
    }

    /** The steps of `process_query` after the strategy is planned: the
        searches, then the no-results answer or the answer from the pages
        found. */
    method SearchAndAnswer(question: string, hint: Option<string>, scope: SearchScope, strategy: SearchStrategy, max_pages: int)
      returns (answer: SynthesizedAnswer, calls: seq<LlmCall>, fetched: nat)
      requires config.enabled && Plan(question, hint, scope) == Some(strategy)
      ensures answer == Answer(question, hint, scope, max_pages)
      ensures calls == SearchCalls(question, hint, scope)
      ensures fetched == Fetched(question, hint, scope, max_pages)
    {
      var raw, _ := ExecuteSearches(strategy, config.rerank_top_n);
      assert raw == Found(question, hint, scope);
      if raw == [] {
        answer := AnswerNoResults(question, strategy, max_pages);
        return answer, [NoResultsCall], 0;
      }
      answer, calls, fetched := AnswerFound(question, raw, max_pages);
    }

    /** The strategy step of `process_query`: the direct strategy when
        query expansion is off, else the LLM's intent analysis, with the
        direct fallback when its reply cannot be parsed and none when the
        call raised. */
    method PlanStrategy(question: string, hint: Option<string>, scope: SearchScope)
      returns (plan: Option<SearchStrategy>)
      ensures plan == Plan(question, hint, scope)
      ensures !config.query_expansion ==> plan == Some(DirectStrategy(question, DirectReasoning))
      ensures plan.None? ==> config.query_expansion && llm.analyze(question, hint, scope).Raised?
    {
      if !config.query_expansion {
        return Some(DirectStrategy(question, DirectReasoning));
      }
      match llm.analyze(question, hint, scope) {
        case Raised => plan := None;
        case Unparsed => plan := Some(DirectStrategy(question, FallbackReasoning));
        case Parsed(s) => plan := Some(s);
      }
    }

    /** The answer when no page was found: the LLM's reply to the no-results
        prompt, parsed, or the plain search when it raised or cannot be
        parsed. */
    method AnswerNoResults(question: string, strategy: SearchStrategy, max_pages: int)
      returns (answer: SynthesizedAnswer)
      ensures var reply := llm.no_results(question, strategy.primary_queries);
        var parsed := if reply.Some? then ParseSynthesis(reply.value, 0, llm.extract_json) else Failure("raised");
        answer == if parsed.Success? then parsed.value else Fallback(question, max_pages)
      ensures answer == NoResultsAnswer(question, strategy, max_pages)
    {
      var reply := llm.no_results(question, strategy.primary_queries);
      var parsed := if reply.Some? then ParseSynthesis(reply.value, 0, llm.extract_json) else Failure("raised");
      answer := if parsed.Success? then parsed.value else Fallback(question, max_pages);
    }

    /** The steps of `process_query` after pages were found: re-ranking
        (by the LLM only when it is enabled and more than one page was
        found), the shortlist of the most relevant pages, which are read,
        and the answer. */
    method AnswerFound(question: string, raw: seq<RawSearchResult>, max_pages: int)
      returns (answer: SynthesizedAnswer, calls: seq<LlmCall>, fetched: nat)
      ensures answer == FoundAnswer(question, raw, max_pages)
      ensures calls == FoundCalls(question, raw)
      ensures fetched == FoundFetched(question, raw, max_pages)
    {
      var ranked, rerankCalls := RankFound(question, raw);
      if ranked.None? {
        return Fallback(question, max_pages), rerankCalls, 0;
      }
      var more;
      answer, more, fetched := AnswerShortlist(question, ranked.value, max_pages);
      calls := rerankCalls + more;
    }

    /** Re-ranking: by the LLM only when it is enabled and more than one
        page was found, else by the vector scores; one ranked result per
        page found, or none when the ranking fails. */
    method RankFound(question: string, raw: seq<RawSearchResult>)
      returns (ranked: Option<seq<RankedResult>>, calls: seq<LlmCall>)
      ensures calls == if config.llm_reranking && |raw| > 1 then [RerankCall] else []
      ensures ranked.Some? ==> |ranked.value| == |raw|
      ensures ranked == Ranking(question, raw)
    {
      if config.llm_reranking && |raw| > 1 {
        RerankProperties(raw, llm.rerank(question, raw));
        return Rerank(raw, llm.rerank(question, raw)), [RerankCall];
      }
      return VectorRanked(raw, VectorRankReason), [];
    }

    /** The shortlist of the most relevant pages is read, and the answer is
        synthesised by the LLM when that is enabled, else listed raw. */
    method AnswerShortlist(question: string, ranked: seq<RankedResult>, max_pages: int)
      returns (answer: SynthesizedAnswer, calls: seq<LlmCall>, fetched: nat)
      ensures calls == if config.answer_synthesis then [SynthesisCall] else []
      ensures fetched <= |ranked|
      ensures Min(config.fetch_top_n, max_pages) >= 0 ==> fetched <= Min(config.fetch_top_n, max_pages)
      ensures fetched == |PagesRead(ranked, max_pages)|
      ensures answer == ShortlistAnswer(question, ranked, max_pages)
    {
      var top := PagesRead(ranked, max_pages);
      var enriched := FetchRelevantContent(top);
      fetched := |top|;
      if config.answer_synthesis {
        calls := [SynthesisCall];
        var reply := llm.synthesize(question, enriched);
        var parsed := if reply.Some? then ParseSynthesis(reply.value, |enriched|, llm.extract_json) else Failure("raised");
        answer := if parsed.Success? then parsed.value else Fallback(question, max_pages);
      } else {
        calls := [];
        answer := FormatRawResults(enriched);
      }
    }
  }
}

=== FILE: notion_prompt_injector.dfy ===
/** The Notion prompt injector (src/notion/prompt_injector.py): turns the
    workspace summary written by the indexer into a section of the system
    prompt. The file read is a parameter: None when the file does not exist,
    a Failure when it cannot be read or parsed, else the parsed data, with
    absent keys as None. */
module NotionPromptInjector {
  import opened Wrappers
  import opened Strs
  import PromptInjection

  const InjectorName: string := "notion"
  const InjectorPriority: int := 50
  const DefaultInfoPath: string := "data/notion/info.json"
  const Heading: string := "## Notion Workspace Context"
  const WorkspacesHeading: string := "**Indexed Workspaces:**"
  const NoTopicsText: string := "various topics"
  const MaxTopicsShown: nat := 5
  const UnknownName: string := "Unknown"
  const Bullet: string := "- "
  const NameSeparator: string := ": "
  const PagesCovering: string := " pages covering "
  const TopicSeparator: string := ", "

  datatype WorkspaceInfo = WorkspaceInfo(name: Option<string>, page_count: Option<int>, topics: Option<seq<string>>)
  datatype InfoData = InfoData(summary: Option<string>, workspaces: Option<seq<WorkspaceInfo>>)

  /** The first five topics comma-separated, or "various topics". */
  function TopicText(topics: seq<string>): (r: string)
    ensures topics == [] ==> r == NoTopicsText
    ensures topics != [] ==> StartsWith(r, topics[0])
    ensures topics != [] ==> r == Join(topics[..if |topics| < MaxTopicsShown then |topics| else MaxTopicsShown], TopicSeparator)
  {
    if topics == [] then NoTopicsText else Join(Take(topics, MaxTopicsShown), TopicSeparator)
  }

  function WorkspaceLine(ws: WorkspaceInfo): string {
    Bullet + ws.name.GetOr(UnknownName) + NameSeparator + IntToString(ws.page_count.GetOr(0)) +
    PagesCovering + TopicText(ws.topics.GetOr([]))
  }

  /** A workspace line reads "- {name}: {page_count} pages covering
      {topics}", with "Unknown" and 0 standing in for a missing name and
      count. */
  lemma WorkspaceLineShape(ws: WorkspaceInfo)
    ensures StartsWith(WorkspaceLine(ws), Bullet + ws.name.GetOr(UnknownName) + NameSeparator + IntToString(ws.page_count.GetOr(0)))
    ensures EndsWith(WorkspaceLine(ws), PagesCovering + TopicText(ws.topics.GetOr([])))
  {
    var head := Bullet + ws.name.GetOr(UnknownName) + NameSeparator + IntToString(ws.page_count.GetOr(0));
    var tail := PagesCovering + TopicText(ws.topics.GetOr([]));
    assert WorkspaceLine(ws) == head + tail;
    assert (head + tail)[..|head|] == head;
    assert (head + tail)[|head|..] == tail;
  }

  function WorkspaceLines(wss: seq<WorkspaceInfo>): seq<string> {
    MapSeq(wss, WorkspaceLine)
  }

  /** The lines of the section: the heading and a blank line, the summary and
      a blank line when there is a summary, then the workspace list when
      there are workspaces. */
  function SectionLines(summary: string, workspaces: seq<WorkspaceInfo>): (r: seq<string>)
    ensures |r| == 2 + |SummaryLines(summary)| + |WorkspaceBlock(workspaces)|
    ensures r[0] == Heading && r[1] == ""
    ensures r[2..2 + |SummaryLines(summary)|] == SummaryLines(summary)
    ensures r[2 + |SummaryLines(summary)|..] == WorkspaceBlock(workspaces)
  {
    var head := [Heading, ""];
    var r := head + SummaryLines(summary) + WorkspaceBlock(workspaces);
    assert r[..2] == head;
    r
  }

  /** The summary and a blank line, or nothing without a summary. */
  function SummaryLines(summary: string): (r: seq<string>)
    ensures summary == "" ==> r == []
    ensures summary != "" ==> |r| == 2 && r[0] == summary && r[1] == ""
  {
    if summary != "" then [summary, ""] else []
  }

  /** The workspace heading and one line per workspace, or nothing without
      workspaces. */
  function WorkspaceBlock(workspaces: seq<WorkspaceInfo>): (r: seq<string>)
    ensures workspaces == [] ==> r == []
    ensures workspaces != [] ==> |r| == 1 + |workspaces|
  {
    if workspaces != [] then [WorkspacesHeading] + WorkspaceLines(workspaces) else []
  }

  /** What `get_context` returns for a given outcome of reading the file. */
  function ContextText(info: Option<Result<InfoData, string>>): (r: Option<string>)
    ensures info.None? || info.value.Failure? ==> r.None?
    ensures info.Some? && info.value.Success? ==>
      (r.None? <==> info.value.value.summary.GetOr("") == "" && info.value.value.workspaces.GetOr([]) == [])
    ensures r.Some? ==> StartsWith(r.value, Heading)
  {
    if info.None? || info.value.Failure? then None
    else
      var summary := info.value.value.summary.GetOr("");
      var workspaces := info.value.value.workspaces.GetOr([]);
      if summary == "" && workspaces == [] then None
      else Some(Join(SectionLines(summary, workspaces), "\n"))
  }

  /** `NotionPromptInjector.get_context`, building the lines one by one. */
  method GetContext(info: Option<Result<InfoData, string>>) returns (r: Option<string>)
    ensures r == ContextText(info)
  {
    if info.None? {
      return None;
    }
    if info.value.Failure? {
      return None;
    }
    var summary := info.value.value.summary.GetOr("");
    var workspaces := info.value.value.workspaces.GetOr([]);
    if summary == "" && workspaces == [] {
      return None;
    }
    var lines := [Heading];
    lines := lines + [""];
    if summary != "" {
      lines := lines + [summary];
      lines := lines + [""];
    }
    ghost var head := lines;
    assert head == [Heading, ""] + SummaryLines(summary);
    if workspaces != [] {
      lines := lines + [WorkspacesHeading];
      lines := AppendEach(lines, workspaces, WorkspaceLine);
      AppendAssoc(head, [WorkspacesHeading], WorkspaceLines(workspaces));
    }
    assert lines == SectionLines(summary, workspaces);
    r := Some(Join(lines, "\n"));
  }

  /** `NotionPromptInjector(info_path)`: named "notion" with priority 50,
      reading data/notion/info.json unless told otherwise. */
  function MakeInjector(info_path: Option<string>, info: Option<Result<InfoData, string>>): (r: (PromptInjection.Injector, string))
    ensures r.0.name == InjectorName && r.0.priority == InjectorPriority
    ensures r.1 == if info_path.GetOr("") == "" then DefaultInfoPath else info_path.value
    ensures r.0.context == PromptInjection.Returned(ContextText(info))
  {
    (PromptInjection.Injector(InjectorName, InjectorPriority, PromptInjection.Returned(ContextText(info))),
     if info_path.GetOr("") == "" then DefaultInfoPath else info_path.value)
  }
}

=== FILE: notion_reader.dfy ===
/** The `notion_read` tool (src/tools/notion_reader.py): it reads a page and
    its top-level blocks straight from the Notion API and renders the
    paragraphs and the first two heading levels as text. The page-id
    normalisation is shared with the writer.

    The Notion API is an input: the pages it can retrieve (with the plain
    texts of their "title" property) and the blocks it lists for them; an
    id missing from either map makes the call raise. */
module NotionReader {
  import opened Wrappers
  import opened Strs
  import opened PyValues
  import opened ToolResults

  const UrlPrefix := "http"
  const MissingPageIdError := "Missing required parameter: page_id"
  const PageIdTypeError := "page_id must be a string"
  const ReadFailurePrefix := "Failed to read Notion page: "
  const ReadSuccessPrefix := "Successfully read Notion page "

  /** `s.replace("-", "")` */
  function RemoveHyphens(s: string): (r: string)
    ensures '-' !in r
    ensures forall c :: c in r ==> c in s
    ensures '-' !in s ==> r == s
  {
    if s == [] then []
    else (if s[0] == '-' then [] else [s[0]]) + RemoveHyphens(s[1..])
  }

  lemma NoCharNoContains(s: string, c: char)
    requires !Contains(s, [c])
    ensures c !in s
  {
    if c in s {
      var i :| 0 <= i < |s| && s[i] == c;
      assert OccursAt(s, [c], i);
    }
  }

  /** The last "/" segment of a URL, cut at its first "?", with the hyphens
      removed; an id that does not start with "http" is kept as it is. */
  function NormalizePageId(id: string): (r: string)
    ensures !StartsWith(id, UrlPrefix) ==> r == id
    ensures StartsWith(id, UrlPrefix) ==> '-' !in r && '/' !in r && '?' !in r
    ensures StartsWith(id, UrlPrefix) ==>
      r == RemoveHyphens(Split(Split(id, "/")[|Split(id, "/")| - 1], "?")[0])
  {
    if !StartsWith(id, UrlPrefix) then id
    else
      var parts := Split(id, "/");
      var last := parts[|parts| - 1];
      SplitJoin(id, "/");
      NoCharNoContains(last, '/');
      var pieces := Split(last, "?");
      SplitJoin(last, "?");
      NoCharNoContains(pieces[0], '?');
      assert Join(pieces, "?") == last;
      assert forall c :: c in pieces[0] ==> c in last by {
        assert StartsWith(last, pieces[0]);
        forall c | c in pieces[0] ensures c in last {
          var i :| 0 <= i < |pieces[0]| && pieces[0][i] == c;
          assert last[i] == c;
        }
      }
      RemoveHyphens(pieces[0])
  }

  /** A top-level block as the reader sees it: its type, and for the three
      types it renders, the plain texts of its rich text (`None` for an
      entry without one). */
  datatype ReaderBlock = ReaderBlock(btype: Option<string>, rich_text: seq<Option<string>>)

  /** What the API answers: the title texts of each page ("title" property
      absent: `None`) and the blocks of each page. */
  datatype ReaderApi = ReaderApi(
    titles: map<string, Option<seq<Option<string>>>>,
    blocks: map<string, seq<ReaderBlock>>)

  datatype ReadData = ReadData(page_id: string, title: string, content: string)

  function PlainTexts(ts: seq<Option<string>>): (r: seq<string>)
    ensures |r| == |ts|
    ensures forall i :: 0 <= i < |ts| ==> r[i] == ts[i].GetOr("")
  {
    if ts == [] then [] else [ts[0].GetOr("")] + PlainTexts(ts[1..])
  }

  /** The line of one block: the texts joined by a space, after "# " for a
      first-level heading and "## " for a second-level one; other types and
      empty rich text give no line. */
  function BlockLine(b: ReaderBlock): (r: Option<string>)
    ensures r.Some? <==> b.rich_text != [] && b.btype in {Some("paragraph"), Some("heading_1"), Some("heading_2")}
    ensures r.Some? && b.btype == Some("paragraph") ==> r.value == Join(PlainTexts(b.rich_text), " ")
    ensures r.Some? && b.btype == Some("heading_1") ==> r.value == "# " + Join(PlainTexts(b.rich_text), " ")
    ensures r.Some? && b.btype == Some("heading_2") ==> r.value == "## " + Join(PlainTexts(b.rich_text), " ")
  {
    if b.rich_text == [] then None
    else if b.btype == Some("paragraph") then Some(Join(PlainTexts(b.rich_text), " "))
    else if b.btype == Some("heading_1") then Some("# " + Join(PlainTexts(b.rich_text), " "))
    else if b.btype == Some("heading_2") then Some("## " + Join(PlainTexts(b.rich_text), " "))
    else None
  }

  /** The lines of the blocks, in block order. */
  function ContentLines(blocks: seq<ReaderBlock>): (r: seq<string>)
    ensures |r| <= |blocks|
    decreases |blocks|
  {
    if blocks == [] then []
    else
      var last := BlockLine(blocks[|blocks| - 1]);
      ContentLines(blocks[..|blocks| - 1]) + (if last.Some? then [last.value] else [])
  }

  /** Each line comes from a block, and a block whose type is not rendered
      adds nothing. */
  lemma {:induction false} ContentLinesFromBlocks(blocks: seq<ReaderBlock>)
    ensures forall l :: l in ContentLines(blocks) ==> exists b :: b in blocks && BlockLine(b) == Some(l)
    ensures (forall b :: b in blocks ==> BlockLine(b).None?) ==> ContentLines(blocks) == []
    decreases |blocks|
  {
    if blocks != [] {
      var init := blocks[..|blocks| - 1];
      ContentLinesFromBlocks(init);
      forall l | l in ContentLines(blocks) ensures exists b :: b in blocks && BlockLine(b) == Some(l) {
        if l in ContentLines(init) {
          var b :| b in init && BlockLine(b) == Some(l);
          assert b in blocks;
        } else {
          assert BlockLine(blocks[|blocks| - 1]) == Some(l);
        }
      }
      if forall b :: b in blocks ==> BlockLine(b).None? {
        assert forall b :: b in init ==> b in blocks;
        assert BlockLine(blocks[|blocks| - 1]).None?;
      }
    }
  }

  /** The page title: the first title text; "" without a title property;
      an empty title list raises (`None`). */
  function PageTitle(title: Option<seq<Option<string>>>): Option<string> {
    match title
    case None => Some("")
    case Some(ts) => if ts == [] then None else Some(ts[0].GetOr(""))
  }

  class NotionReaderTool {
    const api: ReaderApi

    constructor(api: ReaderApi)
      ensures this.api == api
    {
      this.api := api;
    }

    /** The loop over the blocks. */
    method ExtractContent(blocks: seq<ReaderBlock>) returns (content: seq<string>)
      ensures content == ContentLines(blocks)
    {
      content := [];
      var i := 0;
      while i < |blocks|
        invariant 0 <= i <= |blocks|
        invariant content == ContentLines(blocks[..i])
      {
        assert blocks[..i + 1][..i] == blocks[..i];
        var b := blocks[i];
        if b.btype == Some("paragraph") {
          if b.rich_text != [] {
            content := content + [Join(PlainTexts(b.rich_text), " ")];
          }
        } else if b.btype == Some("heading_1") {
          if b.rich_text != [] {
            content := content + ["# " + Join(PlainTexts(b.rich_text), " ")];
          }
        } else if b.btype == Some("heading_2") {
          if b.rich_text != [] {
            content := content + ["## " + Join(PlainTexts(b.rich_text), " ")];
          }
        }
        i := i + 1;
      }
      assert blocks[..i] == blocks;
    }

    /** `execute`: a missing or non-string `page_id` fails before any API
        call (`called` is false); otherwise the normalised id is read. */
    method Execute(page_id: Option<Value>) returns (r: ToolResult<ReadData>, called: bool)
      ensures page_id.None? ==> r == ErrorResult(MissingPageIdError) && !called
      ensures page_id.Some? && !page_id.value.PStr? ==> r == ErrorResult(PageIdTypeError) && !called
      ensures page_id.Some? && page_id.value.PStr? ==> called
      ensures r.success ==>
        page_id.Some? && page_id.value.PStr? &&
        var id := NormalizePageId(page_id.value.s);
        id in api.titles && id in api.blocks && r.data.Some? && r.data.value.page_id == id &&
        r.data.value.content == Join(ContentLines(api.blocks[id]), "\n")
      ensures (page_id.Some? && page_id.value.PStr? &&
               NormalizePageId(page_id.value.s) !in api.titles) ==> !r.success
      ensures page_id.Some? && page_id.value.PStr? ==>
        var id := NormalizePageId(page_id.value.s);
        if id in api.titles && id in api.blocks && PageTitle(api.titles[id]).Some? then
          r == Ok(ReadData(id, PageTitle(api.titles[id]).value, Join(ContentLines(api.blocks[id]), "\n")),
                  Some(ReadSuccessPrefix + id))
        else
          r == ErrorResult(ReadFailurePrefix)
    {
      if page_id.None? {
        return ErrorResult(MissingPageIdError), false;
      }
      if !page_id.value.PStr? {
        return ErrorResult(PageIdTypeError), false;
      }
      var id := page_id.value.s;
      if StartsWith(id, UrlPrefix) {
        id := NormalizePageId(id);
      }
      called := true;
      if id !in api.titles || id !in api.blocks {
        return ErrorResult(ReadFailurePrefix), true;
      }
      var content := ExtractContent(api.blocks[id]);
      var title := PageTitle(api.titles[id]);
      if title.None? {
        return ErrorResult(ReadFailurePrefix), true;
      }
      r := Ok(ReadData(id, title.value, Join(content, "\n")), Some(ReadSuccessPrefix + id));
    }
  }
}

=== FILE: notion_search.dfy ===
/** The `notion_search` tool (src/tools/notion_search.py): it searches the
    page index, or reads one page through the Notion client, and formats
    what it found for the chat.

    A vector-store hit carries the metadata the indexer stored; a key the
    hit lacks (or a hit without metadata) is `None`. The index search and
    the Notion client are inputs: the index answers a query and a result
    count with its hits, or raises (`None`); the client knows the title and
    the content of the pages it can fetch. */
module NotionSearch {
  import opened Wrappers
  import opened Strs
  import opened PyValues
  import opened ToolResults

  datatype SearchHit = SearchHit(
    page_id: Option<string>,
    title: Option<string>,
    path: Option<string>,
    summary: Option<string>,
    distance: Option<real>)

  /** The metadata the index holds for one page, as `get_by_id` finds it. */
  datatype StoredMeta = StoredMeta(path: Option<string>, summary: Option<string>)

  /** What `_fetch_page_content` reads: the page title and content from the
      Notion client (a page missing from either map makes the client raise)
      and the stored metadata of the index. */
  datatype PageSource = PageSource(
    titles: map<string, string>,
    contents: map<string, string>,
    stored: map<string, StoredMeta>)

  /** The page dictionary `_fetch_page_content` returns. */
  datatype PageData = PageData(page_id: string, title: string, path: string, summary: string, content: string)

  /** The `data` of a successful call: one page, the hits, or the best page
      with the other hits. */
  datatype SearchData =
    | PageOnly(page: PageData)
    | Hits(results: seq<SearchHit>, count: nat)
    | PageAndMatches(best: PageData, other_matches: seq<SearchHit>)

  const UntitledText := "Untitled"
  const MissingArgumentsError := "Either 'query' or 'page_id' parameter is required"
  const NoMatchesText := "No matching pages found in Notion."
  const FetchFailurePrefix := "Failed to fetch page "
  const SearchFailurePrefix := "Search failed: "

  /** `_fetch_page_content`: the client's title and content; the path and
      summary come from the index, the path falling back to the title and
      the summary to "". */
  function FetchPageContent(src: PageSource, id: string): (r: Option<PageData>)
    ensures r.Some? <==> id in src.titles && id in src.contents
    ensures r.Some? ==> r.value.page_id == id && r.value.title == src.titles[id] && r.value.content == src.contents[id]
    ensures r.Some? && id !in src.stored ==> r.value.path == r.value.title && r.value.summary == ""
    ensures r.Some? && id in src.stored ==>
      r.value.path == src.stored[id].path.GetOr(r.value.title) && r.value.summary == src.stored[id].summary.GetOr("")
  {
    if id !in src.titles || id !in src.contents then None
    else
      var title := src.titles[id];
      var path := if id in src.stored then src.stored[id].path.GetOr(title) else title;
      var summary := if id in src.stored then src.stored[id].summary.GetOr("") else "";
      Some(PageData(id, title, path, summary, src.contents[id]))
  }

  // ---------------------------------------------------------------------
  // Formatting

  function SearchHeader(count: nat): string {
    "Found " + NatToString(count) + " matching page(s):\n"
  }

  /** The lines of the `n`-th hit (counted from 1): the path in bold (the
      title when there is no path, "Untitled" when neither), the summary
      when it is not empty, the page id, and a blank line. */
  function HitLines(n: nat, hit: SearchHit): (r: seq<string>)
    ensures |r| == if hit.summary.GetOr("") != "" then 4 else 3
    ensures var title := hit.title.GetOr(UntitledText);
      r[0] == NatToString(n) + ". **" + hit.path.GetOr(title) + "**"
    ensures hit.summary.GetOr("") != "" ==> r[1] == "   " + hit.summary.value
    ensures r[|r| - 2] == "   Page ID: " + hit.page_id.GetOr("") && r[|r| - 1] == ""
  {
    var title := hit.title.GetOr(UntitledText);
    var path := hit.path.GetOr(title);
    var summary := hit.summary.GetOr("");
    [NatToString(n) + ". **" + path + "**"] +
    (if summary != "" then ["   " + summary] else []) +
    ["   Page ID: " + hit.page_id.GetOr(""), ""]
  }

  /** The lines of the hits, numbered from 1. */
  function ResultsLines(hits: seq<SearchHit>): (r: seq<string>)
    ensures hits == [] ==> r == []
    decreases |hits|
  {
    if hits == [] then [] else ResultsLines(hits[..|hits| - 1]) + HitLines(|hits|, hits[|hits| - 1])
  }

  /** Every hit contributes at least three lines; the hits with a summary
      contribute four. */
  lemma {:induction false} ResultsLinesCount(hits: seq<SearchHit>)
    ensures 3 * |hits| <= |ResultsLines(hits)| <= 4 * |hits|
    decreases |hits|
  {
    if hits != [] {
      ResultsLinesCount(hits[..|hits| - 1]);
    }
  }

  /** The appends of one iteration of `_format_search_results`. */
  method AppendHitLines(lines: seq<string>, n: nat, hit: SearchHit) returns (out: seq<string>)
    ensures out == lines + HitLines(n, hit)
  {
    var title := hit.title.GetOr(UntitledText);
    var path := hit.path.GetOr(title);
    var summary := hit.summary.GetOr("");
    out := lines + [NatToString(n) + ". **" + path + "**"];
    if summary != "" {
      out := out + ["   " + summary];
    }
    out := out + ["   Page ID: " + hit.page_id.GetOr("")];
    out := out + [""];
  }

  /** `_format_search_results`: the header, then the lines of every hit
      numbered from 1, joined by newlines. */
  method FormatSearchResults(results: seq<SearchHit>) returns (text: string)
    ensures text == Join([SearchHeader(|results|)] + ResultsLines(results), "\n")
    ensures StartsWith(text, SearchHeader(|results|))
  {
    var lines := [SearchHeader(|results|)];
    var i := 0;
    while i < |results|
      invariant 0 <= i <= |results|
      invariant lines == [SearchHeader(|results|)] + ResultsLines(results[..i])
    {
      assert results[..i + 1][..i] == results[..i];
      assert ResultsLines(results[..i + 1]) == ResultsLines(results[..i]) + HitLines(i + 1, results[i]);
      lines := AppendHitLines(lines, i + 1, results[i]);
      i := i + 1;
    }
    assert results[..i] == results;
    text := Join(lines, "\n");
  }

  /** The lines of `_format_page_content`. */
  function PageLines(page: PageData): (r: seq<string>)
    ensures |r| == if page.summary != "" then 8 else 5
    ensures r[..3] == ["# " + page.title, "Path: " + page.path, ""]
    ensures page.summary != "" ==> r[3..6] == ["**Summary:**", page.summary, ""]
    ensures r[|r| - 2..] == ["**Content:**", page.content]
  {
    var head := ["# " + page.title, "Path: " + page.path, ""];
    var summary: seq<string> := if page.summary != "" then ["**Summary:**", page.summary, ""] else [];
    var tail := ["**Content:**", page.content];
    assert |head| == 3 && |tail| == 2;
    assert |summary| == if page.summary != "" then 3 else 0;
    head + summary + tail
  }

  /** `_format_page_content`: a heading with the title, the path, the
      summary section when there is a summary, and the content. */
  method FormatPageContent(page: PageData) returns (text: string)
    ensures text == Join(PageLines(page), "\n")
    ensures StartsWith(text, "# " + page.title)
  {
    var lines := ["# " + page.title, "Path: " + page.path, ""];
    if page.summary != "" {
      lines := lines + ["**Summary:**", page.summary, ""];
    }
    lines := lines + ["**Content:**", page.content];
    assert lines == PageLines(page);
    text := Join(lines, "\n");
  }

  // ---------------------------------------------------------------------
  // execute

  /** What the vector index answers: the hits for a query and a count, or
      `None` when the search raises. */
  type Index = (string, int) -> Option<seq<SearchHit>>

  class NotionSearchTool {
    const source: PageSource
    const index: Index
    const default_results: int

    constructor(source: PageSource, index: Index, default_results: int)
      ensures this.source == source && this.index == index && this.default_results == default_results
    {
      this.source := source;
      this.index := index;
      this.default_results := default_results;
    }

    /** `_search_index`: the index asked for `max_results` hits. */
    function SearchIndex(query: string, max_results: int): Option<seq<SearchHit>> {
      index(query, max_results)
    }

    /** `execute`. A truthy `page_id` wins: that page is fetched and the
        index is never asked. Without one a query is required; no hits is a
        success with count 0; `read_page` fetches the best hit and falls
        back to the hits when that fails. */
    method Execute(query: Option<string>, read_page: Option<Value>, page_id: Option<string>,
                   max_results: Option<int>)
      returns (r: ToolResult<SearchData>, searched: bool)
      ensures page_id.GetOr("") != "" ==> !searched
      ensures page_id.GetOr("") != "" ==>
        match FetchPageContent(source, page_id.value)
        case Some(page) => r.success && r.data == Some(PageOnly(page))
        case None => !r.success && r.error.Some? && StartsWith(r.error.value, FetchFailurePrefix + page_id.value)
      ensures page_id.GetOr("") == "" && query.GetOr("") == "" ==>
        !searched && r == ErrorResult(MissingArgumentsError)
      ensures searched <==> page_id.GetOr("") == "" && query.GetOr("") != ""
      ensures searched && index(query.value, max_results.GetOr(default_results)) == Some([]) ==>
        r == Ok(Hits([], 0), Some(NoMatchesText))
      ensures searched && index(query.value, max_results.GetOr(default_results)).None? ==>
        !r.success && r.error == Some(SearchFailurePrefix)
      ensures searched && r.success && r.data.Some? && r.data.value.Hits? ==>
        var hits := index(query.value, max_results.GetOr(default_results));
        hits.Some? && r.data.value.results == hits.value && r.data.value.count == |hits.value|
      ensures r.success && r.data.Some? && r.data.value.PageAndMatches? ==>
        var hits := index(query.value, max_results.GetOr(default_results));
        searched && hits.Some? && hits.value != [] && read_page.Some? && Truthy(read_page.value) &&
        hits.value[0].page_id.Some? &&
        FetchPageContent(source, hits.value[0].page_id.value) == Some(r.data.value.best) &&
        r.data.value.other_matches == hits.value[1..]
      ensures page_id.GetOr("") != "" && FetchPageContent(source, page_id.value).Some? ==>
        var page := FetchPageContent(source, page_id.value).value;
        r == Ok(PageOnly(page), Some(Join(PageLines(page), "\n")))
      ensures searched ==>
        var hits := index(query.value, max_results.GetOr(default_results));
        hits.Some? && hits.value != [] ==>
          var best := hits.value[0].page_id;
          var page := if best.Some? then FetchPageContent(source, best.value) else None;
          if read_page.Some? && Truthy(read_page.value) && page.Some? then
            r == Ok(PageAndMatches(page.value, hits.value[1..]), Some(Join(PageLines(page.value), "\n")))
          else
            r == Ok(Hits(hits.value, |hits.value|), Some(Join([SearchHeader(|hits.value|)] + ResultsLines(hits.value), "\n")))
    {
      searched := false;
      if page_id.GetOr("") != "" {
        var page := FetchPageContent(source, page_id.value);
        if page.None? {
          return ErrorResult(FetchFailurePrefix + page_id.value + ": "), false;
        }
        var message := FormatPageContent(page.value);
        return Ok(PageOnly(page.value), Some(message)), false;
      }
      if query.GetOr("") == "" {
        return ErrorResult(MissingArgumentsError), false;
      }
      searched := true;
      var found := SearchIndex(query.value, max_results.GetOr(default_results));
      if found.None? {
        return ErrorResult(SearchFailurePrefix), true;
      }
      var hits := found.value;
      if hits == [] {
        return Ok(Hits([], 0), Some(NoMatchesText)), true;
      }
      r := ReportHits(hits, read_page);
    }

    /** The part of `execute` once the index has found hits: with a truthy
        `read_page` the best hit's page and the other hits, the hits alone
        when that page cannot be fetched or `read_page` is falsy. */
    method ReportHits(hits: seq<SearchHit>, read_page: Option<Value>) returns (r: ToolResult<SearchData>)
      requires hits != []
      ensures
        var best := hits[0].page_id;
        var page := if best.Some? then FetchPageContent(source, best.value) else None;
        if read_page.Some? && Truthy(read_page.value) && page.Some? then
          r == Ok(PageAndMatches(page.value, hits[1..]), Some(Join(PageLines(page.value), "\n")))
        else
          r == Ok(Hits(hits, |hits|), Some(Join([SearchHeader(|hits|)] + ResultsLines(hits), "\n")))
    {
      if read_page.Some? && Truthy(read_page.value) {
        var best := hits[0];
        var page := if best.page_id.Some? then FetchPageContent(source, best.page_id.value) else None;
        if page.Some? {
          var message := FormatPageContent(page.value);
          var others := if |hits| > 1 then hits[1..] else [];
          assert others == hits[1..];
          return Ok(PageAndMatches(page.value, others), Some(message));
        }
      }
      var message := FormatSearchResults(hits);
      r := Ok(Hits(hits, |hits|), Some(message));
    }
  }
}

=== FILE: notion_specialist.dfy ===
/** The Notion specialist (src/agent/specialists/notion_specialist.py): a
    structured query from the dispatcher goes to the intelligence engine,
    anything else to the base specialist's own LLM agent, which is not part
    of this model and appears as the message it would be handed.

    `json.loads` is an input (the parsed message, `None` when it is not
    JSON). The text fields of a query are read as strings; a value of any
    other type counts as absent. */
module NotionSpecialist {
  import opened Wrappers
  import opened Strs
  import opened PyValues
  import opened AgentBase
  import opened NotionIntelligence

  const SpecialistName := "notion_specialist"
  const NoQueryText := "No search query provided. Please specify what you're looking for."
  const DefaultMaxPages := 5
  const TimeFilterPrefix := "Time filter: "
  const NoContextText := "No workspace summary available. Use the search tool to explore."

  /** How a message was handled: by the intelligence engine, or by the base
      specialist with the given message. */
  datatype Outcome = Answered(result: AgentResult) | BaseProcessing(message: string)

  /** `_parse_notion_query`: the parsed JSON, when it is an object with a
      "user_question" or a "search_term" key. */
  function ParseNotionQuery(parsed: Option<Value>): (r: Option<seq<(string, Value)>>)
    ensures r.Some? <==> (parsed.Some? && parsed.value.PDict? &&
      (Lookup(parsed.value.entries, "user_question").Some? || Lookup(parsed.value.entries, "search_term").Some?))
    ensures r.Some? ==> r.value == parsed.value.entries
  {
    match parsed
    case Some(PDict(entries)) =>
      if Lookup(entries, "user_question").Some? || Lookup(entries, "search_term").Some? then Some(entries) else None
    case _ => None
  }

  /** A text field: its string, or "" when absent or not a string. */
  function Text(params: seq<(string, Value)>, key: string): string {
    match Lookup(params, key)
    case Some(PStr(s)) => s
    case _ => ""
  }

  /** `user_question or search_term`: the first non-empty of the two. */
  function UserQuestion(params: seq<(string, Value)>): (r: string)
    ensures Text(params, "user_question") != "" ==> r == Text(params, "user_question")
    ensures Text(params, "user_question") == "" ==> r == Text(params, "search_term")
  {
    var q := Text(params, "user_question");
    if q != "" then q else Text(params, "search_term")
  }

  /** The question handed to the base specialist after a failure:
      "user_question" when the key is present (even if empty), else
      "search_term". */
  function FallbackQuestion(params: seq<(string, Value)>): string {
    if Lookup(params, "user_question").Some? then Text(params, "user_question") else Text(params, "search_term")
  }

  /** `SearchScope(scope_str)`, with any unknown value as PRECISE. */
  function ParseScope(v: Option<Value>): (r: SearchScope)
    ensures v == Some(PStr("exploratory")) ==> r == Exploratory
    ensures v == Some(PStr("comprehensive")) ==> r == Comprehensive
    ensures v != Some(PStr("exploratory")) && v != Some(PStr("comprehensive")) ==> r == Precise
  {
    match v
    case Some(PStr(s)) =>
      if s == "exploratory" then Exploratory
      else if s == "comprehensive" then Comprehensive
      else Precise
    case _ => Precise
  }

  /** The time filter: "time_context", else "date_range". */
  function TimeFilter(params: seq<(string, Value)>): string {
    var t := Text(params, "time_context");
    if t != "" then t else Text(params, "date_range")
  }

  /** The hint after adding the time filter. */
  function MergeHint(hint: string, time: string): (r: string)
    ensures time == "" ==> r == hint
    ensures time != "" && hint == "" ==> r == TimeFilterPrefix + time
    ensures time != "" && hint != "" ==> r == hint + ". " + TimeFilterPrefix + time
  {
    if time != "" && hint == "" then TimeFilterPrefix + time
    else if time != "" && hint != "" then hint + ". " + TimeFilterPrefix + time
    else hint
  }

  /** The hint handed to the engine: the merged hint, or none when it is
      empty. */
  function EngineHint(params: seq<(string, Value)>): Option<string> {
    var hint := MergeHint(Text(params, "context_hint"), TimeFilter(params));
    if hint != "" then Some(hint) else None
  }

  /** `max_pages_to_analyze`, 5 when absent; a value that is not an int
      also reads as 5. */
  function MaxPages(params: seq<(string, Value)>): int {
    match Lookup(params, "max_pages_to_analyze")
    case None => DefaultMaxPages
    case Some(v) => AsInt(v).GetOr(DefaultMaxPages)
  }

  /** The `structured_data` of an answer. */
  function CitationValue(c: Citation): Value {
    PDict([("page_id", PStr(c.page_id)), ("title", PStr(c.title)), ("path", PStr(c.path)), ("excerpt", PStr(c.excerpt))])
  }

  function StructuredData(a: SynthesizedAnswer): seq<(string, Value)> {
    [("confidence", PFloat(a.confidence)),
     ("citations", PList(MapSeq(a.citations, CitationValue))),
     ("gaps_identified", if a.gaps_identified.Some? then PStr(a.gaps_identified.value) else PNone),
     ("follow_up_suggestions", PList(MapSeq(a.follow_up_suggestions, (s: string) => PStr(s)))),
     ("pages_analyzed", PInt(a.pages_analyzed))]
  }

  /** A truthy "trace" in the context metadata. */
  predicate HasTrace(context: AgentContext) {
    var t := Lookup(context.metadata, "trace");
    t.Some? && Truthy(t.value)
  }

  /** The default sentence that replaces an empty workspace context in the
      system prompt. */
  function NotionContextText(notion_context: string): (r: string)
    ensures r != ""
    ensures notion_context != "" ==> r == notion_context
  {
    if notion_context != "" then notion_context else NoContextText
  }

  /** The engine answers: the query has a question. */
  predicate EngineUsed(params: seq<(string, Value)>) {
    UserQuestion(params) != ""
  }

  /** As written, the engine answers only when there is also no trace. */
  predicate EngineUsedAsWritten(params: seq<(string, Value)>, context: AgentContext) {
    UserQuestion(params) != "" && !HasTrace(context)
  }

  class NotionSpecialistAgent {
    const engine: NotionIntelligenceEngine?
    const notion_context: string

    /** The engine exists only when the tool is a `NotionSearchTool`. */
    constructor(engine: NotionIntelligenceEngine?, notion_context: string)
      ensures this.engine == engine && this.notion_context == notion_context
    {
      this.engine := engine;
      this.notion_context := notion_context;
    }

    /** `_process_with_intelligence` as written: with a trace in the
        metadata it calls `set_trace`, which the engine does not have; the
        AttributeError is caught and the query goes to base processing. */
    method ProcessWithIntelligenceAsWritten(params: seq<(string, Value)>, context: AgentContext)
      returns (r: Outcome)
      requires engine != null
      ensures UserQuestion(params) != "" && HasTrace(context) ==> r == BaseProcessing(FallbackQuestion(params))
      ensures (r.Answered? && r.result.success) <==> EngineUsedAsWritten(params, context)
    {
      var question := UserQuestion(params);
      if question == "" {
        return Answered(AgentResult(false, NoQueryText, None, SpecialistName, context.trace_id, []));
      }
      if HasTrace(context) {
        return BaseProcessing(FallbackQuestion(params));
      }
      r := ProcessWithIntelligence(params, context);
    }

    /** `_process_with_intelligence`, with the trace left with the context:
        an empty question fails without calling the engine; otherwise the
        engine answers with the merged hint, the scope and the page limit. */
    method ProcessWithIntelligence(params: seq<(string, Value)>, context: AgentContext)
      returns (r: Outcome)
      requires engine != null
      ensures UserQuestion(params) == "" ==>
        r == Answered(AgentResult(false, NoQueryText, None, SpecialistName, context.trace_id, []))
      ensures UserQuestion(params) != "" ==> r.Answered? && r.result.trace_id == context.trace_id
      ensures (r.Answered? && r.result.success) <==> EngineUsed(params)
      ensures !engine.config.enabled && UserQuestion(params) != "" ==>
        r.result.response_text == engine.Fallback(UserQuestion(params), MaxPages(params)).answer
      ensures UserQuestion(params) != "" ==>
        var answer := engine.Answer(UserQuestion(params), EngineHint(params), ParseScope(Lookup(params, "search_scope")), MaxPages(params));
        r.result.response_text == answer.answer && r.result.structured_data == Some(StructuredData(answer))
    {
      var question := UserQuestion(params);
      if question == "" {
        return Answered(AgentResult(false, NoQueryText, None, SpecialistName, context.trace_id, []));
      }
      var hint := Text(params, "context_hint");
      var time := TimeFilter(params);
      var maxPages := MaxPages(params);
      var scope := ParseScope(Lookup(params, "search_scope"));
      hint := MergeHint(hint, time);
      var answer, _, _ := engine.ProcessQuery(question, if hint != "" then Some(hint) else None, scope, maxPages);
      r := Answered(AgentResult(true, answer.answer, Some(StructuredData(answer)), SpecialistName, context.trace_id, []));
    }

    /** `process`: a structured query goes to the engine when there is one;
        anything else goes to base processing unchanged. */
    method Process(message: string, parsed: Option<Value>, context: AgentContext) returns (r: Outcome)
      ensures ParseNotionQuery(parsed).None? || engine == null ==> r == BaseProcessing(message)
      ensures ParseNotionQuery(parsed).Some? && engine != null ==> r.Answered?
      ensures ParseNotionQuery(parsed).Some? && engine != null && UserQuestion(ParseNotionQuery(parsed).value) != "" ==>
        var params := ParseNotionQuery(parsed).value;
        r.result.response_text ==
          engine.Answer(UserQuestion(params), EngineHint(params), ParseScope(Lookup(params, "search_scope")), MaxPages(params)).answer
    {
      var params := ParseNotionQuery(parsed);
      if params.Some? && engine != null {
        r := ProcessWithIntelligence(params.value, context);
      } else {
        r := BaseProcessing(message);
      }
    }
  }

  /** The trace finding: a query with a question and a trace in the
      metadata never reaches the engine as written, and does in the
      corrected method. */
  lemma TraceSkipsEngine(context: AgentContext)
    requires context.metadata == [("trace", PStr("t"))]
    ensures var params := [("user_question", PStr("q"))];
      !EngineUsedAsWritten(params, context) && EngineUsed(params)
  {
    var params := [("user_question", PStr("q"))];
    assert Lookup(params, "user_question") == Some(PStr("q"));
    assert Lookup(context.metadata, "trace") == Some(PStr("t"));
  }
}

=== FILE: notion_traversal.dfy ===
/** The workspace walk that feeds the Notion indexer (src/notion/traversal.py).
    The Notion API is a fixed `Workspace` value: which pages can be fetched and
    their titles, which pages can list their children, and which ids are
    databases with their query results. The recursive generator is modelled by
    spec functions that thread the traverser's state (the visited set, the
    pages yielded so far and the progress counters), and by a class whose
    recursive methods are proved to compute them. */
module NotionTraversal {
  import opened Strs

  /** A database as the API shows it: its title, the query results in order
      (entry id and title), and whether the query ran to the end or raised
      after these entries. */
  datatype DatabaseInfo = DatabaseInfo(title: string, entries: seq<(string, string)>, complete: bool)

  /** What the client answers. An id missing from `pages` makes `get_page`
      raise, one missing from `children` makes `get_child_pages` raise, and
      `is_database` holds exactly for the keys of `databases`. */
  datatype Workspace = Workspace(
    pages: map<string, string>,
    children: map<string, seq<string>>,
    databases: map<string, DatabaseInfo>)

  /** The fields of `NotionWorkspaceConfig` the traversal reads. */
  datatype TraversalConfig = TraversalConfig(
    root_page_ids: seq<string>,
    database_ids: seq<string>,
    exclude: set<string>,
    max_depth: int)

  /** `TraversalProgress` (src/notion/models.py). */
  datatype Progress = Progress(
    total_pages_found: int,
    pages_processed: int,
    pages_skipped: int,
    current_page_title: string,
    current_depth: int)

  const InitialProgress := Progress(0, 0, 0, "", 0)

  /** One generator item: page id, title and breadcrumb path. */
  datatype Yield = Yield(page_id: string, title: string, path: string)

  /** The traverser's state and everything yielded so far. */
  datatype State = State(visited: set<string>, yielded: seq<Yield>, progress: Progress)

  const PathSeparator := " > "

  /** `_build_path`: the title alone under an empty parent path, otherwise
      the parent path, " > " and the title. */
  function BuildPath(parent: string, title: string): (r: string)
    ensures parent == "" ==> r == title
    ensures parent != "" ==> r == parent + PathSeparator + title
    ensures parent != "" ==> StartsWith(r, parent + PathSeparator) && r[|parent| + 3..] == title
  {
    if parent != "" then parent + PathSeparator + title else title
  }

  /** The breadcrumb of a database: its title in square brackets. */
  function DatabasePath(parent: string, title: string): (r: string)
    ensures r != ""
    ensures parent == "" ==> r == "[" + title + "]"
  {
    BuildPath(parent, "[" + title + "]")
  }

  /** The ids whose expansion recurses: the pages that can list children and
      the databases. Every recursive step marks one of them visited. */
  function Universe(ws: Workspace): set<string> {
    ws.children.Keys + ws.databases.Keys
  }

  lemma MeasureMono(u: set<string>, v: set<string>, w: set<string>)
    requires v <= w
    ensures |u - w| <= |u - v|
  {
    assert u - w <= u - v;
    SubsetCard(u - w, u - v);
  }

  lemma MeasureDrops(u: set<string>, v: set<string>, w: set<string>, x: string)
    requires v + {x} <= w && x in u && x !in v
    ensures |u - w| < |u - v|
  {
    assert u - w <= (u - v) - {x};
    SubsetCard(u - w, (u - v) - {x});
  }

  lemma {:induction false} SubsetCard(a: set<string>, b: set<string>)
    requires a <= b
    ensures |a| <= |b|
    decreases |b|
  {
    if a != {} {
      var x :| x in a;
      SubsetCard(a - {x}, b - {x});
    }
  }

  function Skip(s: State): State {
    s.(progress := s.progress.(pages_skipped := s.progress.pages_skipped + 1))
  }

  /** The yield of a page and the two progress updates around it. */
  function YieldPage(s: State, id: string, title: string, path: string, depth: int): State {
    s.(yielded := s.yielded + [Yield(id, title, path)],
       progress := s.progress.(total_pages_found := s.progress.total_pages_found + 1,
                               pages_processed := s.progress.pages_processed + 1,
                               current_page_title := title,
                               current_depth := depth))
  }

  /** The yield of a database entry: like a page, but `current_depth` is left
      as it was. */
  function YieldEntry(s: State, id: string, title: string, path: string): State {
    s.(yielded := s.yielded + [Yield(id, title, path)],
       progress := s.progress.(total_pages_found := s.progress.total_pages_found + 1,
                               pages_processed := s.progress.pages_processed + 1,
                               current_page_title := title))
  }

  /** `_traverse_page`, with the database check made before the id is marked
      visited (see `PageAsWritten` for the order the source uses). A page
      beyond `max_depth`, or already visited, leaves the state alone; an
      excluded one is counted as skipped; a page that cannot be fetched is
      counted as skipped; otherwise the page is yielded and its children are
      walked one level deeper, and a failing child listing is counted as
      skipped after the yield. */
  function Page(ws: Workspace, cfg: TraversalConfig, s: State, id: string, depth: int, parent: string): (r: State)
    ensures s.visited <= r.visited
    ensures depth > cfg.max_depth || id in s.visited ==> r == s
    ensures depth <= cfg.max_depth && id !in s.visited && id in cfg.exclude ==> r == Skip(s)
    decreases |Universe(ws) - s.visited|, 3
  {
    if depth > cfg.max_depth then s
    else if id in s.visited then s
    else if id in cfg.exclude then Skip(s)
    else if id in ws.databases then Database(ws, cfg, s, id, parent)
    else
      var s1 := s.(visited := s.visited + {id});
      if id !in ws.pages then Skip(s1)
      else
        var title := ws.pages[id];
        var path := BuildPath(parent, title);
        var s2 := YieldPage(s1, id, title, path, depth);
        if id !in ws.children then Skip(s2)
        else
          MeasureDrops(Universe(ws), s.visited, s2.visited, id);
          Children(ws, cfg, s2, ws.children[id], depth + 1, path)
  }

  /** The loop `for child_id in ...: yield from self._traverse_page(...)`. */
  function Children(ws: Workspace, cfg: TraversalConfig, s: State, ids: seq<string>, depth: int, parent: string): (r: State)
    ensures s.visited <= r.visited
    decreases |Universe(ws) - s.visited|, 4, |ids|
  {
    if ids == [] then s
    else
      var s1 := Page(ws, cfg, s, ids[0], depth, parent);
      MeasureMono(Universe(ws), s.visited, s1.visited);
      Children(ws, cfg, s1, ids[1..], depth, parent)
  }

  /** `_traverse_database`: an already visited database is left alone;
      otherwise it is marked visited, and a database that cannot be fetched is
      counted as skipped. Its entries are walked under the path of the
      bracketed database title. */
  function Database(ws: Workspace, cfg: TraversalConfig, s: State, id: string, parent: string): (r: State)
    ensures s.visited <= r.visited
    ensures id in s.visited ==> r == s
    decreases |Universe(ws) - s.visited|, 2
  {
    if id in s.visited then s
    else
      var s1 := s.(visited := s.visited + {id});
      if id !in ws.databases then Skip(s1)
      else
        var db := ws.databases[id];
        MeasureDrops(Universe(ws), s.visited, s1.visited, id);
        Entries(ws, cfg, s1, db.entries, db.complete, DatabasePath(parent, db.title))
  }

  /** The loop over the query results. An excluded entry is counted as
      skipped, a visited one is passed over; any other is yielded and its
      child pages are walked from depth 1. A failing child listing, or a
      query that raises after its last entry, ends the database with one
      skip. */
  function Entries(ws: Workspace, cfg: TraversalConfig, s: State, entries: seq<(string, string)>,
                   complete: bool, dbPath: string): (r: State)
    ensures s.visited <= r.visited
    decreases |Universe(ws) - s.visited|, 5, |entries|
  {
    if entries == [] then (if complete then s else Skip(s))
    else
      var (eid, title) := entries[0];
      if eid in cfg.exclude then Entries(ws, cfg, Skip(s), entries[1..], complete, dbPath)
      else if eid in s.visited then Entries(ws, cfg, s, entries[1..], complete, dbPath)
      else
        var path := BuildPath(dbPath, title);
        var s1 := YieldEntry(s.(visited := s.visited + {eid}), eid, title, path);
        if eid !in ws.children then Skip(s1)
        else
          MeasureDrops(Universe(ws), s.visited, s1.visited, eid);
          var s2 := Children(ws, cfg, s1, ws.children[eid], 1, path);
          MeasureMono(Universe(ws), s.visited, s2.visited);
          Entries(ws, cfg, s2, entries[1..], complete, dbPath)
  }

  /** The root-page loop of `traverse`: excluded roots are passed over
      without being counted. */
  function Roots(ws: Workspace, cfg: TraversalConfig, s: State, ids: seq<string>): (r: State)
    ensures s.visited <= r.visited
    decreases |ids|
  {
    if ids == [] then s
    else
      var s1 := if ids[0] in cfg.exclude then s else Page(ws, cfg, s, ids[0], 0, "");
      Roots(ws, cfg, s1, ids[1..])
  }

  /** The database loop of `traverse`. */
  function Databases(ws: Workspace, cfg: TraversalConfig, s: State, ids: seq<string>): (r: State)
    ensures s.visited <= r.visited
    decreases |ids|
  {
    if ids == [] then s
    else
      var s1 := if ids[0] in cfg.exclude then s else Database(ws, cfg, s, ids[0], "");
      Databases(ws, cfg, s1, ids[1..])
  }

  const Initial := State({}, [], InitialProgress)

  /** `traverse`: a fresh visited set and fresh counters, the roots, then the
      configured databases. */
  function Traversal(ws: Workspace, cfg: TraversalConfig): State {
    Databases(ws, cfg, Roots(ws, cfg, Initial, cfg.root_page_ids), cfg.database_ids)
  }

  // ---------------------------------------------------------------------
  // What a traversal step yields

  /** From `s` to `r` the visited set only grows, the earlier yields stay,
      and every new yield is a fresh, non-excluded id, now visited, that no
      other new yield repeats. */
  ghost predicate Grows(cfg: TraversalConfig, s: State, r: State) {
    s.visited <= r.visited &&
    |s.yielded| <= |r.yielded| && r.yielded[..|s.yielded|] == s.yielded &&
    (forall i :: |s.yielded| <= i < |r.yielded| ==>
       r.yielded[i].page_id in r.visited && r.yielded[i].page_id !in s.visited &&
       r.yielded[i].page_id !in cfg.exclude) &&
    (forall i, j :: |s.yielded| <= i < j < |r.yielded| ==> r.yielded[i].page_id != r.yielded[j].page_id)
  }

  lemma GrowsTrans(cfg: TraversalConfig, s: State, t: State, u: State)
    requires Grows(cfg, s, t) && Grows(cfg, t, u)
    ensures Grows(cfg, s, u)
  {
    assert u.yielded[..|t.yielded|][..|s.yielded|] == u.yielded[..|s.yielded|];
    forall i | |s.yielded| <= i < |u.yielded|
      ensures u.yielded[i].page_id in u.visited && u.yielded[i].page_id !in s.visited
    {
      if i < |t.yielded| {
        assert u.yielded[i] == t.yielded[i];
      }
    }
    forall i, j | |s.yielded| <= i < j < |u.yielded|
      ensures u.yielded[i].page_id != u.yielded[j].page_id
    {
      if j < |t.yielded| {
        assert u.yielded[i] == t.yielded[i] && u.yielded[j] == t.yielded[j];
      } else if i < |t.yielded| {
        assert u.yielded[i] == t.yielded[i];
      }
    }
  }

  lemma GrowsRefl(cfg: TraversalConfig, s: State)
    ensures Grows(cfg, s, s)
  {
    assert s.yielded[..|s.yielded|] == s.yielded;
  }

  lemma GrowsVisit(cfg: TraversalConfig, s: State, id: string)
    ensures Grows(cfg, s, s.(visited := s.visited + {id}))
  {
    assert s.yielded[..|s.yielded|] == s.yielded;
  }

  lemma GrowsSkip(cfg: TraversalConfig, s: State, t: State)
    requires Grows(cfg, s, t)
    ensures Grows(cfg, s, Skip(t))
  {
  }

  lemma GrowsYield(cfg: TraversalConfig, s: State, t: State, id: string, title: string, path: string, depth: int, entry: bool)
    requires id !in s.visited && id !in cfg.exclude
    requires t == s.(visited := s.visited + {id})
    ensures Grows(cfg, s, if entry then YieldEntry(t, id, title, path) else YieldPage(t, id, title, path, depth))
  {
    var r := if entry then YieldEntry(t, id, title, path) else YieldPage(t, id, title, path, depth);
    assert r.yielded[..|s.yielded|] == s.yielded;
    assert r.yielded[|s.yielded|].page_id == id;
  }

  lemma {:induction false} PageGrows(ws: Workspace, cfg: TraversalConfig, s: State, id: string, depth: int, parent: string)
    ensures Grows(cfg, s, Page(ws, cfg, s, id, depth, parent))
    decreases |Universe(ws) - s.visited|, 3
  {
    if depth > cfg.max_depth || id in s.visited {
      GrowsRefl(cfg, s);
    } else if id in cfg.exclude {
      GrowsRefl(cfg, s);
      GrowsSkip(cfg, s, s);
    } else if id in ws.databases {
      DatabaseGrows(ws, cfg, s, id, parent);
    } else {
      var s1 := s.(visited := s.visited + {id});
      if id !in ws.pages {
        GrowsVisit(cfg, s, id);
        GrowsSkip(cfg, s, s1);
      } else {
        var title := ws.pages[id];
        var path := BuildPath(parent, title);
        var s2 := YieldPage(s1, id, title, path, depth);
        GrowsYield(cfg, s, s1, id, title, path, depth, false);
        if id !in ws.children {
          GrowsSkip(cfg, s, s2);
        } else {
          MeasureDrops(Universe(ws), s.visited, s2.visited, id);
          ChildrenGrows(ws, cfg, s2, ws.children[id], depth + 1, path);
          GrowsTrans(cfg, s, s2, Children(ws, cfg, s2, ws.children[id], depth + 1, path));
        }
      }
    }
  }

  lemma {:induction false} ChildrenGrows(ws: Workspace, cfg: TraversalConfig, s: State, ids: seq<string>, depth: int, parent: string)
    ensures Grows(cfg, s, Children(ws, cfg, s, ids, depth, parent))
    decreases |Universe(ws) - s.visited|, 4, |ids|
  {
    if ids == [] {
      GrowsRefl(cfg, s);
    } else {
      var s1 := Page(ws, cfg, s, ids[0], depth, parent);
      PageGrows(ws, cfg, s, ids[0], depth, parent);
      MeasureMono(Universe(ws), s.visited, s1.visited);
      ChildrenGrows(ws, cfg, s1, ids[1..], depth, parent);
      GrowsTrans(cfg, s, s1, Children(ws, cfg, s1, ids[1..], depth, parent));
    }
  }

  lemma {:induction false} DatabaseGrows(ws: Workspace, cfg: TraversalConfig, s: State, id: string, parent: string)
    ensures Grows(cfg, s, Database(ws, cfg, s, id, parent))
    decreases |Universe(ws) - s.visited|, 2
  {
    if id in s.visited {
      GrowsRefl(cfg, s);
    } else {
      var s1 := s.(visited := s.visited + {id});
      GrowsVisit(cfg, s, id);
      if id !in ws.databases {
        GrowsSkip(cfg, s, s1);
      } else {
        var db := ws.databases[id];
        MeasureDrops(Universe(ws), s.visited, s1.visited, id);
        EntriesGrows(ws, cfg, s1, db.entries, db.complete, DatabasePath(parent, db.title));
        GrowsTrans(cfg, s, s1, Entries(ws, cfg, s1, db.entries, db.complete, DatabasePath(parent, db.title)));
      }
    }
  }

  lemma {:induction false} EntriesGrows(ws: Workspace, cfg: TraversalConfig, s: State, entries: seq<(string, string)>,
                                        complete: bool, dbPath: string)
    ensures Grows(cfg, s, Entries(ws, cfg, s, entries, complete, dbPath))
    decreases |Universe(ws) - s.visited|, 5, |entries|
  {
    GrowsRefl(cfg, s);
    if entries == [] {
      GrowsSkip(cfg, s, s);
    } else {
      var (eid, title) := entries[0];
      if eid in cfg.exclude {
        GrowsSkip(cfg, s, s);
        EntriesGrows(ws, cfg, Skip(s), entries[1..], complete, dbPath);
        GrowsTrans(cfg, s, Skip(s), Entries(ws, cfg, Skip(s), entries[1..], complete, dbPath));
      } else if eid in s.visited {
        EntriesGrows(ws, cfg, s, entries[1..], complete, dbPath);
      } else {
        var path := BuildPath(dbPath, title);
        var t := s.(visited := s.visited + {eid});
        var s1 := YieldEntry(t, eid, title, path);
        GrowsYield(cfg, s, t, eid, title, path, 0, true);
        if eid !in ws.children {
          GrowsSkip(cfg, s, s1);
        } else {
          MeasureDrops(Universe(ws), s.visited, s1.visited, eid);
          var s2 := Children(ws, cfg, s1, ws.children[eid], 1, path);
          ChildrenGrows(ws, cfg, s1, ws.children[eid], 1, path);
          GrowsTrans(cfg, s, s1, s2);
          MeasureMono(Universe(ws), s.visited, s2.visited);
          EntriesGrows(ws, cfg, s2, entries[1..], complete, dbPath);
          GrowsTrans(cfg, s, s2, Entries(ws, cfg, s2, entries[1..], complete, dbPath));
        }
      }
    }
  }

  lemma {:induction false} RootsGrows(ws: Workspace, cfg: TraversalConfig, s: State, ids: seq<string>)
    ensures Grows(cfg, s, Roots(ws, cfg, s, ids))
    decreases |ids|
  {
    if ids == [] {
      GrowsRefl(cfg, s);
    } else {
      var s1 := if ids[0] in cfg.exclude then s else Page(ws, cfg, s, ids[0], 0, "");
      if ids[0] in cfg.exclude { GrowsRefl(cfg, s); } else { PageGrows(ws, cfg, s, ids[0], 0, ""); }
      RootsGrows(ws, cfg, s1, ids[1..]);
      GrowsTrans(cfg, s, s1, Roots(ws, cfg, s1, ids[1..]));
    }
  }

  lemma {:induction false} DatabasesGrows(ws: Workspace, cfg: TraversalConfig, s: State, ids: seq<string>)
    ensures Grows(cfg, s, Databases(ws, cfg, s, ids))
    decreases |ids|
  {
    if ids == [] {
      GrowsRefl(cfg, s);
    } else {
      var s1 := if ids[0] in cfg.exclude then s else Database(ws, cfg, s, ids[0], "");
      if ids[0] in cfg.exclude { GrowsRefl(cfg, s); } else { DatabaseGrows(ws, cfg, s, ids[0], ""); }
      DatabasesGrows(ws, cfg, s1, ids[1..]);
      GrowsTrans(cfg, s, s1, Databases(ws, cfg, s1, ids[1..]));
    }
  }

  /** A whole traversal yields no id twice and never an excluded id, whether
      it is a root, a child page or a database entry. */
  lemma TraverseYieldsDistinct(ws: Workspace, cfg: TraversalConfig)
    ensures var ys := Traversal(ws, cfg).yielded;
      (forall i, j :: 0 <= i < j < |ys| ==> ys[i].page_id != ys[j].page_id) &&
      (forall i :: 0 <= i < |ys| ==> ys[i].page_id !in cfg.exclude)
  {
    var s1 := Roots(ws, cfg, Initial, cfg.root_page_ids);
    RootsGrows(ws, cfg, Initial, cfg.root_page_ids);
    DatabasesGrows(ws, cfg, s1, cfg.database_ids);
    GrowsTrans(cfg, Initial, s1, Traversal(ws, cfg));
  }

  // ---------------------------------------------------------------------
  // Breadcrumb paths

  /** `p` lies below the breadcrumb `parent`: it extends `parent` by one
      separator and more, or `parent` is the empty root path. */
  predicate Under(parent: string, p: string) {
    parent == "" || StartsWith(p, parent + PathSeparator)
  }

  ghost predicate PathsUnder(s: State, r: State, parent: string) {
    forall i :: |s.yielded| <= i < |r.yielded| ==> Under(parent, r.yielded[i].path)
  }

  lemma UnderTrans(a: string, b: string, c: string)
    requires b != "" && Under(a, b) && Under(b, c)
    ensures Under(a, c)
  {
    if a != "" {
      assert c[..|a| + 3] == b[..|a| + 3];
    }
  }

  lemma PathsTrans(cfg: TraversalConfig, s: State, t: State, u: State, p: string)
    requires Grows(cfg, s, t) && Grows(cfg, t, u)
    requires PathsUnder(s, t, p) && PathsUnder(t, u, p)
    ensures PathsUnder(s, u, p)
  {
    forall i | |s.yielded| <= i < |t.yielded|
      ensures Under(p, u.yielded[i].path)
    {
      assert u.yielded[i] == u.yielded[..|t.yielded|][i];
    }
  }

  lemma PathsWeaken(s: State, r: State, q: string, p: string)
    requires q != "" && Under(p, q) && PathsUnder(s, r, q)
    ensures PathsUnder(s, r, p)
  {
    forall i | |s.yielded| <= i < |r.yielded|
      ensures Under(p, r.yielded[i].path)
    {
      UnderTrans(p, q, r.yielded[i].path);
    }
  }

  lemma {:induction false} PagePaths(ws: Workspace, cfg: TraversalConfig, s: State, id: string, depth: int, parent: string)
    ensures PathsUnder(s, Page(ws, cfg, s, id, depth, parent), parent)
    decreases |Universe(ws) - s.visited|, 3
  {
    if depth > cfg.max_depth || id in s.visited || id in cfg.exclude {
    } else if id in ws.databases {
      DatabasePaths(ws, cfg, s, id, parent);
    } else if id in ws.pages {
      var s1 := s.(visited := s.visited + {id});
      var title := ws.pages[id];
      var path := BuildPath(parent, title);
      var s2 := YieldPage(s1, id, title, path, depth);
      if id in ws.children {
        MeasureDrops(Universe(ws), s.visited, s2.visited, id);
        var r := Children(ws, cfg, s2, ws.children[id], depth + 1, path);
        ChildrenPaths(ws, cfg, s2, ws.children[id], depth + 1, path);
        if parent != "" {
          PathsWeaken(s2, r, path, parent);
        }
        GrowsYield(cfg, s, s1, id, title, path, depth, false);
        ChildrenGrows(ws, cfg, s2, ws.children[id], depth + 1, path);
        PathsTrans(cfg, s, s2, r, parent);
      }
    }
  }

  lemma {:induction false} ChildrenPaths(ws: Workspace, cfg: TraversalConfig, s: State, ids: seq<string>, depth: int, parent: string)
    ensures PathsUnder(s, Children(ws, cfg, s, ids, depth, parent), parent)
    decreases |Universe(ws) - s.visited|, 4, |ids|
  {
    if ids != [] {
      var s1 := Page(ws, cfg, s, ids[0], depth, parent);
      PagePaths(ws, cfg, s, ids[0], depth, parent);
      PageGrows(ws, cfg, s, ids[0], depth, parent);
      MeasureMono(Universe(ws), s.visited, s1.visited);
      ChildrenPaths(ws, cfg, s1, ids[1..], depth, parent);
      ChildrenGrows(ws, cfg, s1, ids[1..], depth, parent);
      PathsTrans(cfg, s, s1, Children(ws, cfg, s1, ids[1..], depth, parent), parent);
    }
  }

  /** Everything a database yields lies below its bracketed title, and so
      below the path it was reached from. */
  lemma {:induction false} DatabasePaths(ws: Workspace, cfg: TraversalConfig, s: State, id: string, parent: string)
    ensures PathsUnder(s, Database(ws, cfg, s, id, parent), parent)
    ensures id !in s.visited && id in ws.databases ==>
      PathsUnder(s, Database(ws, cfg, s, id, parent), DatabasePath(parent, ws.databases[id].title))
    decreases |Universe(ws) - s.visited|, 2
  {
    if id !in s.visited && id in ws.databases {
      var s1 := s.(visited := s.visited + {id});
      var db := ws.databases[id];
      var dbPath := DatabasePath(parent, db.title);
      MeasureDrops(Universe(ws), s.visited, s1.visited, id);
      EntriesPaths(ws, cfg, s1, db.entries, db.complete, dbPath);
      PathsWeaken(s1, Database(ws, cfg, s, id, parent), dbPath, parent);
    }
  }

  lemma {:induction false} EntriesPaths(ws: Workspace, cfg: TraversalConfig, s: State, entries: seq<(string, string)>,
                                        complete: bool, dbPath: string)
    requires dbPath != ""
    ensures PathsUnder(s, Entries(ws, cfg, s, entries, complete, dbPath), dbPath)
    decreases |Universe(ws) - s.visited|, 5, |entries|
  {
    if entries != [] {
      var (eid, title) := entries[0];
      if eid in cfg.exclude {
        EntriesPaths(ws, cfg, Skip(s), entries[1..], complete, dbPath);
      } else if eid in s.visited {
        EntriesPaths(ws, cfg, s, entries[1..], complete, dbPath);
      } else if eid in ws.children {
        var path := BuildPath(dbPath, title);
        var t := s.(visited := s.visited + {eid});
        var s1 := YieldEntry(t, eid, title, path);
        MeasureDrops(Universe(ws), s.visited, s1.visited, eid);
        var s2 := Children(ws, cfg, s1, ws.children[eid], 1, path);
        ChildrenPaths(ws, cfg, s1, ws.children[eid], 1, path);
        PathsWeaken(s1, s2, path, dbPath);
        GrowsYield(cfg, s, t, eid, title, path, 0, true);
        ChildrenGrows(ws, cfg, s1, ws.children[eid], 1, path);
        PathsTrans(cfg, s, s1, s2, dbPath);
        MeasureMono(Universe(ws), s.visited, s2.visited);
        var r := Entries(ws, cfg, s2, entries[1..], complete, dbPath);
        EntriesPaths(ws, cfg, s2, entries[1..], complete, dbPath);
        GrowsTrans(cfg, s, s1, s2);
        EntriesGrows(ws, cfg, s2, entries[1..], complete, dbPath);
        PathsTrans(cfg, s, s2, r, dbPath);
      }
    }
  }

  /** A fetched page is yielded before any of its descendants, with the path
      built from its parent's path and its title, and everything yielded
      after it in its subtree lies below that path. */
  lemma PageYieldedFirst(ws: Workspace, cfg: TraversalConfig, s: State, id: string, depth: int, parent: string)
    requires depth <= cfg.max_depth && id !in s.visited && id !in cfg.exclude
    requires id !in ws.databases && id in ws.pages
    ensures var r := Page(ws, cfg, s, id, depth, parent);
      var path := BuildPath(parent, ws.pages[id]);
      |r.yielded| > |s.yielded| &&
      r.yielded[|s.yielded|] == Yield(id, ws.pages[id], path) &&
      forall i :: |s.yielded| < i < |r.yielded| ==> Under(path, r.yielded[i].path)
  {
    var s1 := s.(visited := s.visited + {id});
    var title := ws.pages[id];
    var path := BuildPath(parent, title);
    var s2 := YieldPage(s1, id, title, path, depth);
    if id in ws.children {
      MeasureDrops(Universe(ws), s.visited, s2.visited, id);
      var r := Children(ws, cfg, s2, ws.children[id], depth + 1, path);
      ChildrenPaths(ws, cfg, s2, ws.children[id], depth + 1, path);
      ChildrenGrows(ws, cfg, s2, ws.children[id], depth + 1, path);
      assert r.yielded[|s.yielded|] == r.yielded[..|s2.yielded|][|s.yielded|];
    }
  }

  // ---------------------------------------------------------------------
  // Databases reached through a page

  /** `_traverse_page` in the order the source uses: the id is marked
      visited before the database check, so the call to `_traverse_database`
      finds it visited and returns at once. Pages that are not databases are
      walked as in `Page`. */
  function PageAsWritten(ws: Workspace, cfg: TraversalConfig, s: State, id: string, depth: int, parent: string): (r: State)
    ensures id !in ws.databases ==> r == Page(ws, cfg, s, id, depth, parent)
  {
    if depth > cfg.max_depth then s
    else if id in s.visited then s
    else if id in cfg.exclude then Skip(s)
    else
      var s1 := s.(visited := s.visited + {id});
      if id in ws.databases then Database(ws, cfg, s1, id, parent)
      else Page(ws, cfg, s, id, depth, parent)
  }

  /** As written, a database met as a child page, or listed as a root page,
      yields nothing and is not even counted as skipped; its id is only
      marked visited, so the configured database loop skips it as well. */
  lemma AsWrittenDatabaseYieldsNothing(ws: Workspace, cfg: TraversalConfig, s: State, id: string, depth: int, parent: string)
    requires depth <= cfg.max_depth && id !in s.visited && id !in cfg.exclude
    requires id in ws.databases
    ensures PageAsWritten(ws, cfg, s, id, depth, parent) == s.(visited := s.visited + {id})
  {
  }

  /** With the check made first, a database met as a page is walked like a
      configured database: its first entry, when it is new and not excluded,
      is the first thing yielded, below the bracketed database title. */
  lemma PageExpandsDatabase(ws: Workspace, cfg: TraversalConfig, s: State, id: string, depth: int, parent: string)
    requires depth <= cfg.max_depth && id !in s.visited && id !in cfg.exclude
    requires id in ws.databases
    requires var es := ws.databases[id].entries;
      |es| > 0 && es[0].0 !in cfg.exclude && es[0].0 !in s.visited && es[0].0 != id
    ensures var r := Page(ws, cfg, s, id, depth, parent);
      var db := ws.databases[id];
      r == Database(ws, cfg, s, id, parent) &&
      |r.yielded| > |s.yielded| &&
      r.yielded[|s.yielded|] == Yield(db.entries[0].0, db.entries[0].1,
                                        BuildPath(DatabasePath(parent, db.title), db.entries[0].1))
  {
    var db := ws.databases[id];
    var s1 := s.(visited := s.visited + {id});
    var (eid, title) := db.entries[0];
    var dbPath := DatabasePath(parent, db.title);
    var path := BuildPath(dbPath, title);
    var t := s1.(visited := s1.visited + {eid});
    var e1 := YieldEntry(t, eid, title, path);
    if eid in ws.children {
      MeasureDrops(Universe(ws), s.visited, s1.visited, id);
      MeasureDrops(Universe(ws), s1.visited, e1.visited, eid);
      var s2 := Children(ws, cfg, e1, ws.children[eid], 1, path);
      ChildrenGrows(ws, cfg, e1, ws.children[eid], 1, path);
      MeasureMono(Universe(ws), s1.visited, s2.visited);
      var r := Entries(ws, cfg, s2, db.entries[1..], db.complete, dbPath);
      EntriesGrows(ws, cfg, s2, db.entries[1..], db.complete, dbPath);
      GrowsTrans(cfg, e1, s2, r);
      assert r.yielded[|s.yielded|] == r.yielded[..|e1.yielded|][|s.yielded|];
    }
  }

  /** A root page "R" whose only child is a database "D" with one entry
      "E": the source's order loses "E", the corrected order yields it. */
  lemma ChildDatabaseExample()
    ensures var ws := Workspace(map["R" := "Root", "E" := "Entry"], map["R" := ["D"], "E" := []],
                                map["D" := DatabaseInfo("Tasks", [("E", "Entry")], true)]);
      var cfg := TraversalConfig(["R"], [], {}, 10);
      var s := YieldPage(Initial.(visited := {"R"}), "R", "Root", "Root", 0);
      PageAsWritten(ws, cfg, s, "D", 1, "Root").yielded == [Yield("R", "Root", "Root")] &&
      Page(ws, cfg, s, "D", 1, "Root").yielded ==
        [Yield("R", "Root", "Root"), Yield("E", "Entry", "Root > [Tasks] > Entry")]
  {
    var ws := Workspace(map["R" := "Root", "E" := "Entry"], map["R" := ["D"], "E" := []],
                        map["D" := DatabaseInfo("Tasks", [("E", "Entry")], true)]);
    var cfg := TraversalConfig(["R"], [], {}, 10);
    var s := YieldPage(Initial.(visited := {"R"}), "R", "Root", "Root", 0);
    var dbPath := DatabasePath("Root", "Tasks");
    assert dbPath == "Root > [Tasks]";
    var s1 := s.(visited := s.visited + {"D"});
    var e1 := YieldEntry(s1.(visited := s1.visited + {"E"}), "E", "Entry", BuildPath(dbPath, "Entry"));
    assert Children(ws, cfg, e1, [], 1, BuildPath(dbPath, "Entry")) == e1;
    assert Entries(ws, cfg, e1, [], true, dbPath) == e1;
    assert Entries(ws, cfg, s1, [("E", "Entry")], true, dbPath) == e1;
    assert Page(ws, cfg, s, "D", 1, "Root") == e1;
    assert BuildPath(dbPath, "Entry") == "Root > [Tasks] > Entry";
    assert s.yielded == [Yield("R", "Root", "Root")];
  }

  // ---------------------------------------------------------------------
  // The traverser object

  /** `WorkspaceTraverser`: the visited set and the progress record are
      fields that every step updates; `output` is what the generator has
      handed to its consumer. */
  class WorkspaceTraverser {
    const ws: Workspace
    const config: TraversalConfig
    var visited: set<string>
    var output: seq<Yield>
    var progress: Progress

    function Snapshot(): State
      reads this
    {
      State(visited, output, progress)
    }

    constructor(ws: Workspace, config: TraversalConfig)
      ensures this.ws == ws && this.config == config
      ensures Snapshot() == Initial
    {
      this.ws := ws;
      this.config := config;
      visited := {};
      output := [];
      progress := InitialProgress;
    }

    method CountSkipped()
      modifies this
      ensures Snapshot() == Skip(old(Snapshot()))
    {
      progress := progress.(pages_skipped := progress.pages_skipped + 1);
    }

    /** `traverse`: whatever earlier calls left behind, the result depends
        on the workspace and the configuration alone. */
    method Traverse()
      modifies this
      ensures Snapshot() == Traversal(ws, config)
    {
      visited := {};
      output := [];
      progress := InitialProgress;
      var roots := config.root_page_ids;
      var i := 0;
      while i < |roots|
        invariant 0 <= i <= |roots|
        invariant Roots(ws, config, Snapshot(), roots[i..]) == Roots(ws, config, Initial, roots)
      {
        assert roots[i..][1..] == roots[i + 1..];
        if roots[i] !in config.exclude {
          TraversePage(roots[i], 0, "");
        }
        i := i + 1;
      }
      var dbs := config.database_ids;
      ghost var afterRoots := Snapshot();
      var k := 0;
      while k < |dbs|
        invariant 0 <= k <= |dbs|
        invariant Databases(ws, config, Snapshot(), dbs[k..]) == Databases(ws, config, afterRoots, dbs)
      {
        assert dbs[k..][1..] == dbs[k + 1..];
        if dbs[k] !in config.exclude {
          TraverseDatabase(dbs[k], "");
        }
        k := k + 1;
      }
    }

    /** The yield of a page and the progress updates around it. */
    method EmitPage(id: string, title: string, path: string, depth: int)
      modifies this
      ensures Snapshot() == YieldPage(old(Snapshot()), id, title, path, depth)
    {
      progress := progress.(total_pages_found := progress.total_pages_found + 1,
                            current_page_title := title, current_depth := depth);
      output := output + [Yield(id, title, path)];
      progress := progress.(pages_processed := progress.pages_processed + 1);
    }

    /** The yield of a database entry and the progress updates around it. */
    method EmitEntry(id: string, title: string, path: string)
      modifies this
      ensures Snapshot() == YieldEntry(old(Snapshot()), id, title, path)
    {
      progress := progress.(total_pages_found := progress.total_pages_found + 1,
                            current_page_title := title);
      output := output + [Yield(id, title, path)];
      progress := progress.(pages_processed := progress.pages_processed + 1);
    }

    /** `_traverse_page`, with the database check first. */
    method TraversePage(id: string, depth: int, parent: string)
      modifies this
      ensures Snapshot() == Page(ws, config, old(Snapshot()), id, depth, parent)
      decreases |Universe(ws) - visited|, 3
    {
      ghost var s0 := Snapshot();
      if depth > config.max_depth || id in visited {
        return;
      }
      if id in config.exclude {
        CountSkipped();
        return;
      }
      if id in ws.databases {
        TraverseDatabase(id, parent);
        return;
      }
      visited := visited + {id};
      if id !in ws.pages {
        CountSkipped();
        return;
      }
      var title := ws.pages[id];
      var path := BuildPath(parent, title);
      EmitPage(id, title, path, depth);
      if id !in ws.children {
        CountSkipped();
        return;
      }
      ghost var s2 := Snapshot();
      assert Page(ws, config, s0, id, depth, parent) == Children(ws, config, s2, ws.children[id], depth + 1, path);
      MeasureDrops(Universe(ws), s0.visited, visited, id);
      TraverseChildren(ws.children[id], depth + 1, path);
    }

    /** The loop over a page's children, shared by pages and database
        entries. */
    method TraverseChildren(ids: seq<string>, depth: int, parent: string)
      modifies this
      ensures Snapshot() == Children(ws, config, old(Snapshot()), ids, depth, parent)
      decreases |Universe(ws) - visited|, 4
    {
      var i := 0;
      while i < |ids|
        invariant 0 <= i <= |ids|
        invariant old(visited) <= visited
        invariant Children(ws, config, Snapshot(), ids[i..], depth, parent) ==
                  Children(ws, config, old(Snapshot()), ids, depth, parent)
      {
        assert ids[i..][1..] == ids[i + 1..];
        MeasureMono(Universe(ws), old(visited), visited);
        TraversePage(ids[i], depth, parent);
        i := i + 1;
      }
    }

    /** `_traverse_database` */
    method TraverseDatabase(id: string, parent: string)
      modifies this
      ensures Snapshot() == Database(ws, config, old(Snapshot()), id, parent)
      decreases |Universe(ws) - visited|, 2
    {
      if id in visited {
        return;
      }
      visited := visited + {id};
      if id !in ws.databases {
        CountSkipped();
        return;
      }
      var db := ws.databases[id];
      var dbPath := DatabasePath(parent, db.title);
      ghost var target := Entries(ws, config, Snapshot(), db.entries, db.complete, dbPath);
      var i := 0;
      var failed := false;
      while i < |db.entries| && !failed
        invariant 0 <= i <= |db.entries|
        invariant old(visited) + {id} <= visited
        invariant !failed ==> Entries(ws, config, Snapshot(), db.entries[i..], db.complete, dbPath) == target
        invariant failed ==> Snapshot() == target
      {
        assert db.entries[i..][1..] == db.entries[i + 1..];
        var (eid, title) := db.entries[i];
        if eid in config.exclude {
          CountSkipped();
        } else if eid !in visited {
          visited := visited + {eid};
          var path := BuildPath(dbPath, title);
          EmitEntry(eid, title, path);
          if eid !in ws.children {
            CountSkipped();
            failed := true;
          } else {
            MeasureDrops(Universe(ws), old(visited), visited, id);
            TraverseChildren(ws.children[eid], 1, path);
          }
        }
        i := i + 1;
      }
      if !failed && !db.complete {
        CountSkipped();
      }
    }
  }
}

=== FILE: notion_writer.dfy ===
/** The `notion_write` tool (src/tools/notion_writer.py): it creates a page
    under a parent page, titled as asked, and appends the content as one
    paragraph block per blank-line-separated paragraph.

    The Notion API is an input: `create` answers the new page id for a
    parent id and a title, or raises (`None`); `append` succeeds or raises
    (`false`). The append call the tool makes is returned for inspection. */
module NotionWriter {
  import opened Wrappers
  import opened Strs
  import opened PyValues
  import opened ToolResults
  import opened NotionReader

  const MissingParentError := "Missing required parameter: parent_id"
  const MissingTitleError := "Missing required parameter: title"
  const WriteFailurePrefix := "Failed to write to Notion: "
  const ParagraphSeparator := "\n\n"

  datatype WriteData = WriteData(page_id: string, title: Value, created: bool)

  datatype WriterApi = WriterApi(
    create: (string, Value) -> Option<string>,
    append: (string, seq<string>) -> bool)

  /** The paragraphs that are not blank, verbatim and in order. */
  function Paragraphs(parts: seq<string>): (r: seq<string>)
    ensures |r| <= |parts|
    ensures forall p :: p in r ==> p in parts && Strip(p) != ""
    decreases |parts|
  {
    if parts == [] then []
    else
      var last := parts[|parts| - 1];
      Paragraphs(parts[..|parts| - 1]) + (if Strip(last) != "" then [last] else [])
  }

  /** Every non-blank piece is kept: nothing but blank pieces is dropped. */
  lemma {:induction false} ParagraphsKeepText(parts: seq<string>)
    ensures forall p :: p in parts && Strip(p) != "" ==> p in Paragraphs(parts)
    decreases |parts|
  {
    if parts != [] {
      var init := parts[..|parts| - 1];
      ParagraphsKeepText(init);
      forall p | p in parts && Strip(p) != "" ensures p in Paragraphs(parts) {
        if p != parts[|parts| - 1] {
          var i :| 0 <= i < |parts| && parts[i] == p;
          assert init[i] == p;
        }
      }
    }
  }

  /** Content made of blank space only gives no paragraph. */
  lemma {:induction false} BlankContentHasNoParagraphs(parts: seq<string>)
    requires forall p :: p in parts ==> Strip(p) == ""
    ensures Paragraphs(parts) == []
    decreases |parts|
  {
    if parts != [] {
      BlankContentHasNoParagraphs(parts[..|parts| - 1]);
    }
  }

  /** `f"Successfully created Notion page '{title}'"` for a string title. */
  function SuccessMessage(title: Value): string {
    if title.PStr? then "Successfully created Notion page '" + title.s + "'"
    else "Successfully created Notion page"
  }

  /** The `content` argument: its text when it is a string, "" when absent. */
  function ContentText(content: Option<Value>): Value {
    content.GetOr(PStr(""))
  }

  class NotionWriterTool {
    const api: WriterApi

    constructor(api: WriterApi)
      ensures this.api == api
    {
      this.api := api;
    }

    /** The paragraph loop. */
    method BuildChildren(parts: seq<string>) returns (children: seq<string>)
      ensures children == Paragraphs(parts)
    {
      children := [];
      var i := 0;
      while i < |parts|
        invariant 0 <= i <= |parts|
        invariant children == Paragraphs(parts[..i])
      {
        assert parts[..i + 1][..i] == parts[..i];
        if Strip(parts[i]) != "" {
          children := children + [parts[i]];
        }
        i := i + 1;
      }
      assert parts[..i] == parts;
    }

    /** `execute`. A missing parent, then a missing title, fails before any
        API call; a parent id that is not a string raises out of the tool
        (`Failure`). Otherwise the page is created under the normalised
        parent and the paragraphs of the content are appended, the append
        being skipped when there is none. */
    method Execute(parent_id: Option<Value>, title: Option<Value>, content: Option<Value>)
      returns (r: Result<ToolResult<WriteData>, string>, created: Option<(string, Value)>, appended: Option<(string, seq<string>)>)
      ensures parent_id.None? ==> r == Success(ErrorResult(MissingParentError)) && created.None?
      ensures parent_id.Some? && title.None? ==> r == Success(ErrorResult(MissingTitleError)) && created.None?
      ensures parent_id.Some? && title.Some? && !parent_id.value.PStr? ==> r.Failure? && created.None?
      ensures created.Some? ==>
        parent_id.Some? && parent_id.value.PStr? && title.Some? &&
        created.value == (NormalizePageId(parent_id.value.s), title.value)
      ensures appended.Some? ==>
        created.Some? && ContentText(content).PStr? &&
        api.create(created.value.0, created.value.1).Some? &&
        appended.value == (api.create(created.value.0, created.value.1).value,
                           Paragraphs(Split(ContentText(content).s, ParagraphSeparator))) &&
        appended.value.1 != []
      ensures created.Some? && api.create(created.value.0, created.value.1).Some? && ContentText(content) == PStr("") ==>
        appended.None?
      ensures (created.Some? && api.create(created.value.0, created.value.1).Some? &&
               ContentText(content).PStr? &&
               forall p :: p in Split(ContentText(content).s, ParagraphSeparator) ==> Strip(p) == "") ==>
        appended.None?
      ensures appended.Some? && !api.append(appended.value.0, appended.value.1) ==>
        r.Success? && !r.value.success && r.value.error == Some(WriteFailurePrefix)
      ensures r.Success? && r.value.success ==>
        created.Some? && api.create(created.value.0, created.value.1).Some? &&
        r.value.data == Some(WriteData(api.create(created.value.0, created.value.1).value, title.value, true)) &&
        r.value.message == Some(SuccessMessage(title.value))
      ensures (r.Success? && r.value.success && ContentText(content).PStr? &&
               Paragraphs(Split(ContentText(content).s, ParagraphSeparator)) != []) ==>
        appended.Some?
      ensures parent_id.Some? && parent_id.value.PStr? && title.Some? ==>
        created == Some((NormalizePageId(parent_id.value.s), title.value))
      ensures created.Some? && api.create(created.value.0, created.value.1).None? ==>
        r == Success(ErrorResult(WriteFailurePrefix)) && appended.None?
      ensures created.Some? && api.create(created.value.0, created.value.1).Some? ==>
        var body := ContentText(content);
        if Truthy(body) && !body.PStr? then
          r == Success(ErrorResult(WriteFailurePrefix)) && appended.None?
        else if appended.None? || api.append(appended.value.0, appended.value.1) then
          r == Success(Ok(WriteData(api.create(created.value.0, created.value.1).value, title.value, true),
                          Some(SuccessMessage(title.value))))
        else
          r == Success(ErrorResult(WriteFailurePrefix))
    {
      created, appended := None, None;
      if parent_id.None? {
        return Success(ErrorResult(MissingParentError)), None, None;
      }
      if title.None? {
        return Success(ErrorResult(MissingTitleError)), None, None;
      }
      if !parent_id.value.PStr? {
        return Failure("AttributeError"), None, None;
      }
      var parent := parent_id.value.s;
      if StartsWith(parent, UrlPrefix) {
        parent := NormalizePageId(parent);
      }
      created := Some((parent, title.value));
      var pageId := api.create(parent, title.value);
      if pageId.None? {
        return Success(ErrorResult(WriteFailurePrefix)), created, None;
      }
      r, appended := WriteContent(pageId.value, title.value, ContentText(content));
    }

    /** The part of `execute` after the page exists: the content's
        paragraphs are appended to the new page, unless there is none. */
    method WriteContent(pageId: string, title: Value, body: Value)
      returns (r: Result<ToolResult<WriteData>, string>, appended: Option<(string, seq<string>)>)
      ensures r.Success?
      ensures appended.Some? ==>
        body.PStr? && appended.value == (pageId, Paragraphs(Split(body.s, ParagraphSeparator))) &&
        appended.value.1 != []
      ensures body == PStr("") ==> appended.None?
      ensures (body.PStr? && forall p :: p in Split(body.s, ParagraphSeparator) ==> Strip(p) == "") ==>
        appended.None?
      ensures appended.Some? && !api.append(appended.value.0, appended.value.1) ==>
        !r.value.success && r.value.error == Some(WriteFailurePrefix)
      ensures r.value.success ==>
        r.value.data == Some(WriteData(pageId, title, true)) &&
        r.value.message == Some(SuccessMessage(title))
      ensures (r.value.success && body.PStr? && Paragraphs(Split(body.s, ParagraphSeparator)) != []) ==>
        appended.Some?
      ensures if Truthy(body) && !body.PStr? then
          r == Success(ErrorResult(WriteFailurePrefix)) && appended.None?
        else if appended.None? || api.append(appended.value.0, appended.value.1) then
          r == Success(Ok(WriteData(pageId, title, true), Some(SuccessMessage(title))))
        else
          r == Success(ErrorResult(WriteFailurePrefix))
    {
      appended := None;
      if Truthy(body) {
        if !body.PStr? {
          return Success(ErrorResult(WriteFailurePrefix)), None;
        }
        var parts := Split(body.s, ParagraphSeparator);
        var children := BuildChildren(parts);
        if forall p :: p in parts ==> Strip(p) == "" {
          BlankContentHasNoParagraphs(parts);
        }
        if children != [] {
          appended := Some((pageId, children));
          if !api.append(pageId, children) {
            return Success(ErrorResult(WriteFailurePrefix)), appended;
          }
        }
      }
      r := Success(Ok(WriteData(pageId, title, true), Some(SuccessMessage(title))));
    }
  }
}

=== FILE: ordered_maps.dfy ===
/** Python's insertion-ordered `dict`, as a list of key/value entries: the
    registries of agents, tools and web subsections are such dictionaries. */
module OrderedMaps {
  import opened Wrappers

  /** `list(d.keys())` */
  function Keys<K, V>(d: seq<(K, V)>): (r: seq<K>)
    ensures |r| == |d|
    ensures forall i :: 0 <= i < |d| ==> r[i] == d[i].0
  {
    if d == [] then [] else [d[0].0] + Keys(d[1..])
  }

  /** `list(d.values())` */
  function Values<K, V>(d: seq<(K, V)>): (r: seq<V>)
    ensures |r| == |d|
    ensures forall i :: 0 <= i < |d| ==> r[i] == d[i].1
  {
    if d == [] then [] else [d[0].1] + Values(d[1..])
  }

  predicate DistinctKeys<K(==), V>(d: seq<(K, V)>) {
    forall i, j :: 0 <= i < j < |d| ==> d[i].0 != d[j].0
  }

  /** `k in d` */
  predicate HasKey<K(==), V>(d: seq<(K, V)>, k: K) {
    exists i :: 0 <= i < |d| && d[i].0 == k
  }

  /** `d.get(k)` */
  function Get<K(==), V>(d: seq<(K, V)>, k: K): (r: Option<V>)
    ensures r.None? <==> !HasKey(d, k)
    ensures r.Some? ==> exists i :: 0 <= i < |d| && d[i] == (k, r.value)
  {
    if d == [] then None
    else if d[0].0 == k then Some(d[0].1)
    else
      var r := Get(d[1..], k);
      assert forall i :: 1 <= i < |d| ==> d[i] == d[1..][i - 1];
      assert r.None? ==> forall i :: 0 <= i < |d[1..]| ==> d[1..][i].0 != k;
      r
  }

  /** `d[k] = v`: a present key keeps its position, a new one goes last. */
  function Put<K(==), V>(d: seq<(K, V)>, k: K, v: V): (r: seq<(K, V)>)
    ensures HasKey(d, k) ==> Keys(r) == Keys(d)
    ensures !HasKey(d, k) ==> r == d + [(k, v)]
  {
    if d == [] then [(k, v)]
    else if d[0].0 == k then [(k, v)] + d[1..]
    else
      assert HasKey(d, k) <==> HasKey(d[1..], k) by {
        assert forall i :: 1 <= i < |d| ==> d[i] == d[1..][i - 1];
      }
      [d[0]] + Put(d[1..], k, v)
  }

  /** `del d[k]`, or nothing when the key is absent. */
  function Remove<K(==), V>(d: seq<(K, V)>, k: K): (r: seq<(K, V)>)
    ensures |r| <= |d|
    ensures forall i :: 0 <= i < |r| ==> r[i] in d && r[i].0 != k
  {
    if d == [] then []
    else if d[0].0 == k then Remove(d[1..], k)
    else [d[0]] + Remove(d[1..], k)
  }

  /** After `d[k] = v`, looking up `k` gives `v` and every other key keeps
      its value. */
  lemma {:induction false} PutGet<K, V>(d: seq<(K, V)>, k: K, v: V, other: K)
    ensures Get(Put(d, k, v), k) == Some(v)
    ensures other != k ==> Get(Put(d, k, v), other) == Get(d, other)
  {
    if d != [] && d[0].0 != k {
      PutGet(d[1..], k, v, other);
      assert Put(d, k, v)[1..] == Put(d[1..], k, v);
    }
  }

  /** `d[k] = v` adds `k` to the keys and no other key. */
  lemma PutHasKey<K, V>(d: seq<(K, V)>, k: K, v: V, n: K)
    ensures HasKey(Put(d, k, v), n) <==> HasKey(d, n) || n == k
  {
    PutGet(d, k, v, n);
  }

  /** Overwriting leaves the number of entries unchanged, adding a new key
      grows it by one, and keys stay distinct. */
  lemma {:induction false} PutSize<K, V>(d: seq<(K, V)>, k: K, v: V)
    requires DistinctKeys(d)
    ensures |Put(d, k, v)| == if HasKey(d, k) then |d| else |d| + 1
    ensures DistinctKeys(Put(d, k, v))
  {
    var r := Put(d, k, v);
    if HasKey(d, k) {
      assert |Keys(r)| == |Keys(d)|;
      forall i, j | 0 <= i < j < |r| ensures r[i].0 != r[j].0 {
        assert Keys(r)[i] == Keys(d)[i] && Keys(r)[j] == Keys(d)[j];
      }
    }
  }

  /** After `del d[k]` the key is gone, every other key keeps its value and,
      when `k` was present once, exactly one entry went. */
  lemma {:induction false} RemoveGet<K, V>(d: seq<(K, V)>, k: K, other: K)
    requires DistinctKeys(d)
    ensures Get(Remove(d, k), k).None?
    ensures other != k ==> Get(Remove(d, k), other) == Get(d, other)
    ensures |Remove(d, k)| == if HasKey(d, k) then |d| - 1 else |d|
    ensures DistinctKeys(Remove(d, k))
  {
    if d != [] {
      assert DistinctKeys(d[1..]) by {
        assert forall i :: 0 <= i < |d[1..]| ==> d[1..][i] == d[i + 1];
      }
      RemoveGet(d[1..], k, other);
      assert HasKey(d, k) <==> d[0].0 == k || HasKey(d[1..], k) by {
        assert forall i :: 1 <= i < |d| ==> d[i] == d[1..][i - 1];
      }
      if d[0].0 == k {
        assert !HasKey(d[1..], k);
      } else {
        var r := Remove(d, k);
        assert r == [d[0]] + Remove(d[1..], k);
        forall i, j | 0 <= i < j < |r| ensures r[i].0 != r[j].0 {
          if i == 0 {
            assert r[j] in d[1..];
          }
        }
      }
    }
  }
}

=== FILE: prompt_injection.dfy ===
/** The prompt-injection registry (src/agent/prompt_injection.py): injectors
    contribute text to the system prompt, lower priority first, and those
    with nothing to say or that fail are skipped. What an injector's
    `get_context` gives is part of the injector value: text, None, or an
    exception. */
module PromptInjection {
  import opened Wrappers
  import opened Strs
  import Sorting

  const DefaultPriority: int := 100
  const ContextSeparator: string := "\n\n"

  datatype ContextOutcome = Returned(text: Option<string>) | Raised(error: string)

  datatype Injector = Injector(name: string, priority: int, context: ContextOutcome)

  /** `BasePromptInjector.__init__`: the priority defaults to 100. */
  function NewInjector(name: string, priority: Option<int>, context: ContextOutcome): (i: Injector)
    ensures priority.None? ==> i.priority == DefaultPriority
    ensures priority.Some? ==> i.priority == priority.value
    ensures i.name == name && i.context == context
  {
    Injector(name, priority.GetOr(DefaultPriority), context)
  }

  function Priority(i: Injector): real {
    i.priority as real
  }

  /** `sorted(self._injectors, key=lambda x: x.get_priority())` */
  function Ordered(injectors: seq<Injector>): seq<Injector> {
    Sorting.SortBy(injectors, Priority)
  }

  /** A returned text that is not None and not empty. */
  predicate Contributes(i: Injector) {
    i.context.Returned? && i.context.text.Some? && i.context.text.value != ""
  }

  /** The texts of the contributing injectors, in order. */
  function Contributions(injectors: seq<Injector>): (r: seq<string>)
    ensures |r| <= |injectors|
  {
    if injectors == [] then []
    else
      var rest := Contributions(injectors[1..]);
      if Contributes(injectors[0]) then [injectors[0].context.text.value] + rest else rest
  }

  /** Some contributing injector of the list returned `t`. */
  ghost predicate ContributedBy(injectors: seq<Injector>, t: string) {
    exists j :: 0 <= j < |injectors| && Contributes(injectors[j]) && injectors[j].context.text.value == t
  }

  /** Every text of a contributing injector is collected, nothing else is,
      and no collected text is empty. */
  lemma {:induction false} ContributionsExact(injectors: seq<Injector>)
    ensures forall k :: 0 <= k < |Contributions(injectors)| ==> Contributions(injectors)[k] != ""
    ensures forall j :: 0 <= j < |injectors| && Contributes(injectors[j]) ==>
      injectors[j].context.text.value in Contributions(injectors)
    ensures forall k :: 0 <= k < |Contributions(injectors)| ==> ContributedBy(injectors, Contributions(injectors)[k])
  {
    if injectors != [] {
      var r := Contributions(injectors);
      var tail := injectors[1..];
      var rest := Contributions(tail);
      ContributionsExact(tail);
      var own := if Contributes(injectors[0]) then [injectors[0].context.text.value] else [];
      assert r == own + rest;
      var off := |own|;
      forall j | 1 <= j < |injectors| && Contributes(injectors[j])
        ensures injectors[j].context.text.value in r
      {
        assert injectors[j] == tail[j - 1];
      }
      forall k | 0 <= k < |r| ensures r[k] != "" && ContributedBy(injectors, r[k]) {
        if k >= off {
          assert r[k] == rest[k - off];
          assert ContributedBy(tail, rest[k - off]);
          var j :| 0 <= j < |tail| && Contributes(tail[j]) && tail[j].context.text.value == rest[k - off];
          assert injectors[j + 1] == tail[j];
        } else {
          assert Contributes(injectors[0]);
        }
      }
    }
  }

  lemma {:induction false} ContributionsSnoc(s: seq<Injector>, x: Injector)
    ensures Contributions(s + [x]) == Contributions(s) + (if Contributes(x) then [x.context.text.value] else [])
  {
    if s != [] {
      assert (s + [x])[1..] == s[1..] + [x];
      ContributionsSnoc(s[1..], x);
    }
  }

  /** Collection visits the injectors by ascending priority, and injectors of
      equal priority in registration order. */
  lemma CollectionOrder(injectors: seq<Injector>, p: int)
    ensures Sorting.SortedBy(Ordered(injectors), Priority)
    ensures multiset(Ordered(injectors)) == multiset(injectors)
    ensures Sorting.WithKey(Ordered(injectors), Priority, p as real) == Sorting.WithKey(injectors, Priority, p as real)
  {
    Sorting.SortStable(injectors, Priority, p as real);
  }

  class PromptInjectionRegistry {
    var injectors: seq<Injector>

    constructor()
      ensures injectors == []
    {
      injectors := [];
    }

    /** `register` appends exactly one injector. */
    method Register(injector: Injector)
      modifies this
      ensures injectors == old(injectors) + [injector]
    {
      injectors := injectors + [injector];
    }

    /** `collect_all_context`: the contributions in priority order, separated
        by blank lines; the empty string when nothing contributes. */
    method CollectAllContext() returns (text: string)
      ensures text == Join(Contributions(Ordered(injectors)), ContextSeparator)
      ensures text == "" <==> Contributions(Ordered(injectors)) == []
      ensures injectors == [] ==> text == ""
    {
      var sorted := Ordered(injectors);
      var contexts := CollectContributions(sorted);
      ContributionsExact(sorted);
      text := if contexts != [] then Join(contexts, ContextSeparator) else "";
    }

    /** The loop of `collect_all_context`: a raising injector is skipped and
        the loop goes on. */
    static method CollectContributions(sorted: seq<Injector>) returns (contexts: seq<string>)
      ensures contexts == Contributions(sorted)
    {
      contexts := [];
      var i := 0;
      while i < |sorted|
        invariant 0 <= i <= |sorted|
        invariant contexts == Contributions(sorted[..i])
      {
        ContributionsSnoc(sorted[..i], sorted[i]);
        assert sorted[..i + 1] == sorted[..i] + [sorted[i]];
        match sorted[i].context {
          case Raised(_) =>
          case Returned(t) =>
            if t.Some? && t.value != "" {
              contexts := contexts + [t.value];
            }
        }
        i := i + 1;
      }
      assert sorted[..i] == sorted;
    }

    /** `get_injectors` hands out the list as a value, so nothing done to it
        afterwards reaches the registry. */
    function GetInjectors(): (copy: seq<Injector>)
      reads this
      ensures copy == injectors
    {
      injectors
    }

    /** `clear` */
    method Clear()
      modifies this
      ensures injectors == []
    {
      injectors := [];
    }
  }
}

=== FILE: py_value.dfy ===
/** Dynamically typed Python values as they arrive in tool keyword
    arguments, JSON documents and configuration dictionaries. A dict keeps
    its insertion order, as Python's does. */
module PyValues {
  import opened Wrappers

  datatype Value =
    | PNone
    | PBool(b: bool)
    | PInt(i: int)
    | PFloat(r: real)
    | PStr(s: string)
    | PList(items: seq<Value>)
    | PDict(entries: seq<(string, Value)>)

  /** Python truthiness */
  predicate Truthy(v: Value) {
    match v
    case PNone => false
    case PBool(b) => b
    case PInt(i) => i != 0
    case PFloat(r) => r != 0.0
    case PStr(s) => s != ""
    case PList(items) => items != []
    case PDict(entries) => entries != []
  }

  /** `d.get(key)` on a list of entries: the value of the first entry with
      that key. */
  function Lookup(entries: seq<(string, Value)>, key: string): (r: Option<Value>)
    ensures r.Some? <==> exists i :: 0 <= i < |entries| && entries[i].0 == key
    ensures r.Some? ==> r.value in (set i | 0 <= i < |entries| :: entries[i].1)
  {
    if entries == [] then None
    else if entries[0].0 == key then Some(entries[0].1)
    else
      var r := Lookup(entries[1..], key);
      assert forall i :: 1 <= i < |entries| ==> entries[i] == entries[1..][i - 1];
      r
  }

  /** `isinstance(v, int)`: Python's `bool` is a subclass of `int`, so
      True and False pass as 1 and 0. */
  function AsInt(v: Value): (r: Option<int>)
    ensures v.PInt? ==> r == Some(v.i)
    ensures v.PBool? ==> r == Some(if v.b then 1 else 0)
    ensures !v.PInt? && !v.PBool? ==> r == None
  {
    match v
    case PInt(i) => Some(i)
    case PBool(b) => Some(if b then 1 else 0)
    case _ => None
  }
}

=== FILE: sorting.dfy ===
/** Python's `sorted(xs, key=...)`: a stable sort on a numeric key. A
    descending sort (`reverse=True`, which Python also keeps stable) is the
    ascending sort on the negated key. */
module Sorting {
  import Strs

  predicate SortedBy<T>(s: seq<T>, key: T -> real) {
    forall i, j :: 0 <= i < j < |s| ==> key(s[i]) <= key(s[j])
  }

  /** The elements whose key is `k`, in their original order. */
  function WithKey<T>(s: seq<T>, key: T -> real, k: real): (r: seq<T>)
    ensures |r| <= |s|
    ensures forall i :: 0 <= i < |r| ==> key(r[i]) == k
  {
    if s == [] then []
    else (if key(s[0]) == k then [s[0]] else []) + WithKey(s[1..], key, k)
  }

  /** Inserts `x` after every element whose key is not larger than its own. */
  function Insert<T>(x: T, s: seq<T>, key: T -> real): (r: seq<T>)
    ensures |r| == |s| + 1
    ensures multiset(r) == multiset(s) + multiset{x}
  {
    if s == [] then [x]
    else if key(x) < key(s[0]) then [x] + s
    else
      assert s == [s[0]] + s[1..];
      [s[0]] + Insert(x, s[1..], key)
  }

  /** Inserting into a list ordered by key keeps it ordered. */
  lemma {:induction false} InsertSorted<T>(x: T, s: seq<T>, key: T -> real)
    requires SortedBy(s, key)
    ensures SortedBy(Insert(x, s, key), key)
  {
    if s != [] && key(x) >= key(s[0]) {
      var rest := Insert(x, s[1..], key);
      InsertSorted(x, s[1..], key);
      InsertBounded(x, s[1..], key, key(s[0]));
      ConsSorted(s[0], rest, key);
    } else if s != [] {
      assert s == [s[0]] + s[1..];
      ConsSorted(x, s, key);
    }
  }

  /** A head no larger than any key of an ordered tail keeps the list
      ordered. */
  lemma ConsSorted<T>(h: T, t: seq<T>, key: T -> real)
    requires SortedBy(t, key) && forall i :: 0 <= i < |t| ==> key(h) <= key(t[i])
    ensures SortedBy([h] + t, key)
  {
    var r := [h] + t;
    forall i, j | 0 <= i < j < |r| ensures key(r[i]) <= key(r[j]) {
      assert r[j] == t[j - 1];
      if i > 0 { assert r[i] == t[i - 1]; }
    }
  }

  /** A bound below every key of the list and below that of `x` stays
      below every key once `x` is inserted. */
  lemma {:induction false} InsertBounded<T>(x: T, s: seq<T>, key: T -> real, b: real)
    requires b <= key(x) && forall i :: 0 <= i < |s| ==> b <= key(s[i])
    ensures forall i :: 0 <= i < |Insert(x, s, key)| ==> b <= key(Insert(x, s, key)[i])
  {
    if s != [] && key(x) >= key(s[0]) {
      InsertBounded(x, s[1..], key, b);
      var rest := Insert(x, s[1..], key);
      assert Insert(x, s, key) == [s[0]] + rest;
    }
  }

  /** `sorted(s, key=key)` */
  function SortBy<T>(s: seq<T>, key: T -> real): (r: seq<T>)
    ensures SortedBy(r, key)
    ensures |r| == |s|
    ensures multiset(r) == multiset(s)
  {
    if s == [] then []
    else
      assert s == s[..|s| - 1] + [s[|s| - 1]];
      InsertSorted(s[|s| - 1], SortBy(s[..|s| - 1], key), key);
      Insert(s[|s| - 1], SortBy(s[..|s| - 1], key), key)
  }

  lemma {:induction false} NoneWithKey<T>(s: seq<T>, key: T -> real, k: real)
    requires SortedBy(s, key)
    requires s != [] && k < key(s[0])
    ensures WithKey(s, key, k) == []
  {
    if |s| > 1 {
      NoneWithKey(s[1..], key, k);
    }
  }

  lemma {:induction false} WithKeyAppend<T>(s: seq<T>, t: seq<T>, key: T -> real, k: real)
    ensures WithKey(s + t, key, k) == WithKey(s, key, k) + WithKey(t, key, k)
  {
    if s != [] {
      assert (s + t)[1..] == s[1..] + t;
      WithKeyAppend(s[1..], t, key, k);
    } else {
      assert s + t == t;
    }
  }

  /** Inserting keeps the relative order of every group of equal keys and
      puts the new element last in its group. */
  lemma {:induction false} InsertStable<T>(x: T, s: seq<T>, key: T -> real, k: real)
    requires SortedBy(s, key)
    ensures WithKey(Insert(x, s, key), key, k) == WithKey(s, key, k) + WithKey([x], key, k)
  {
    var single := WithKey([x], key, k);
    assert single == if key(x) == k then [x] else [];
    if s == [] {
    } else if key(x) < key(s[0]) {
      assert ([x] + s)[1..] == s;
      assert WithKey([x] + s, key, k) == single + WithKey(s, key, k);
      if key(x) == k {
        NoneWithKey(s, key, k);
      }
    } else {
      var rest := Insert(x, s[1..], key);
      var head := if key(s[0]) == k then [s[0]] else [];
      assert Insert(x, s, key) == [s[0]] + rest;
      assert ([s[0]] + rest)[1..] == rest;
      assert WithKey([s[0]] + rest, key, k) == head + WithKey(rest, key, k);
      assert WithKey(s, key, k) == head + WithKey(s[1..], key, k);
      InsertStable(x, s[1..], key, k);
      Strs.AppendAssoc(head, WithKey(s[1..], key, k), single);
    }
  }

  /** The sort is stable: for every key, the elements carrying it come out in
      their original order. */
  lemma {:induction false} SortStable<T>(s: seq<T>, key: T -> real, k: real)
    ensures WithKey(SortBy(s, key), key, k) == WithKey(s, key, k)
  {
    if s != [] {
      var init, last := s[..|s| - 1], s[|s| - 1];
      assert s == init + [last];
      var sorted := SortBy(init, key);
      assert SortBy(s, key) == Insert(last, sorted, key);
      SortStable(init, key, k);
      InsertStable(last, sorted, key, k);
      WithKeyAppend(init, [last], key, k);
    }
  }
}

=== FILE: strs.dfy ===
/** String and sequence operations of Python's `str` and `list` that the
    modelled code relies on, written out with their meaning as contracts.
    Characters are Dafny `char`s; case and character classes are ASCII. */
module Strs {

  /** `sep.join(parts)` */
  function Join(parts: seq<string>, sep: string): (r: string)
    ensures parts == [] ==> r == ""
    ensures |parts| == 1 ==> r == parts[0]
    ensures |parts| > 0 ==> StartsWith(r, parts[0])
  {
    if |parts| == 0 then ""
    else if |parts| == 1 then parts[0]
    else parts[0] + sep + Join(parts[1..], sep)
  }

  lemma JoinCons(x: string, rest: seq<string>, sep: string)
    requires rest != []
    ensures Join([x] + rest, sep) == x + sep + Join(rest, sep)
  {
    assert ([x] + rest)[1..] == rest;
  }

  /** Joining n parts with a separator costs the parts plus n - 1 separators. */
  lemma {:induction false} JoinLength(parts: seq<string>, sep: string)
    requires parts != []
    ensures |Join(parts, sep)| == TotalLength(parts) + (|parts| - 1) * |sep|
  {
    if |parts| > 1 {
      JoinLength(parts[1..], sep);
    }
  }

  function TotalLength(parts: seq<string>): nat {
    if parts == [] then 0 else |parts[0]| + TotalLength(parts[1..])
  }

  /** `"".join(parts)` */
  function Concat(parts: seq<string>): (r: string)
    ensures |r| == TotalLength(parts)
  {
    if parts == [] then "" else parts[0] + Concat(parts[1..])
  }

  lemma {:induction false} ConcatAppend(parts: seq<string>, last: string)
    ensures Concat(parts + [last]) == Concat(parts) + last
  {
    if parts != [] {
      assert (parts + [last])[1..] == parts[1..] + [last];
      ConcatAppend(parts[1..], last);
    }
  }

  /** `s.startswith(p)` */
  predicate StartsWith(s: string, p: string) {
    |p| <= |s| && s[..|p|] == p
  }

  /** `s.endswith(p)` */
  predicate EndsWith(s: string, p: string) {
    |p| <= |s| && s[|s| - |p|..] == p
  }

  /** `p` occurs in `s` at index `i`. */
  predicate OccursAt(s: string, p: string, i: int) {
    0 <= i && i + |p| <= |s| && s[i..i + |p|] == p
  }

  /** `p in s` */
  predicate Contains(s: string, p: string) {
    exists i | 0 <= i <= |s| - |p| :: OccursAt(s, p, i)
  }

  /** `s.rfind(p, lo, hi)` for a window inside `s`: the last occurrence of
      `p` lying wholly inside `s[lo..hi]`, or -1. */
  function RFind(s: string, p: string, lo: nat, hi: nat): (r: int)
    requires lo <= hi <= |s|
    ensures r == -1 || (lo <= r && r + |p| <= hi && OccursAt(s, p, r))
    ensures forall i :: r < i && lo <= i && i + |p| <= hi ==> !OccursAt(s, p, i)
    decreases hi
  {
    if hi - lo < |p| then -1
    else if s[hi - |p|..hi] == p then hi - |p|
    else RFind(s, p, lo, hi - 1)
  }

  /** `s.find(p, lo, hi)` for a window inside `s`: the first occurrence of
      `p` lying wholly inside `s[lo..hi]`, or -1. */
  function Find(s: string, p: string, lo: nat, hi: nat): (r: int)
    requires lo <= hi <= |s|
    ensures r == -1 || (lo <= r && r + |p| <= hi && OccursAt(s, p, r))
    ensures forall i :: lo <= i && (r == -1 || i < r) && i + |p| <= hi ==> !OccursAt(s, p, i)
    decreases hi - lo
  {
    if hi - lo < |p| then -1
    else if s[lo..lo + |p|] == p then lo
    else Find(s, p, lo + 1, hi)
  }

  lemma FindNone(s: string, p: string)
    requires Find(s, p, 0, |s|) == -1
    ensures !Contains(s, p)
  {
    assert forall i :: 0 <= i <= |s| - |p| ==> !OccursAt(s, p, i);
  }

  /** `s.split(sep)` for a non-empty separator. */
  function Split(s: string, sep: string): (r: seq<string>)
    requires sep != []
    ensures r != []
    decreases |s|
  {
    var i := Find(s, sep, 0, |s|);
    if i < 0 then [s] else [s[..i]] + Split(s[i + |sep|..], sep)
  }

  /** A text without the separator splits into itself alone. */
  lemma SplitWithout(s: string, sep: string)
    requires sep != [] && !Contains(s, sep)
    ensures Split(s, sep) == [s]
  {
  }

  /** Splitting and re-joining on the same separator gives back the text,
      and no piece still holds the separator. */
  lemma SplitJoin(s: string, sep: string)
    requires sep != []
    ensures Join(Split(s, sep), sep) == s
    ensures forall k :: 0 <= k < |Split(s, sep)| ==> !Contains(Split(s, sep)[k], sep)
  {
    SplitJoinBack(s, sep);
    SplitPiecesClean(s, sep);
  }

  lemma {:induction false} SplitJoinBack(s: string, sep: string)
    requires sep != []
    ensures Join(Split(s, sep), sep) == s
    decreases |s|
  {
    var i := Find(s, sep, 0, |s|);
    if i >= 0 {
      var rest := s[i + |sep|..];
      SplitJoinBack(rest, sep);
      JoinCons(s[..i], Split(rest, sep), sep);
      assert s == s[..i] + sep + rest;
    }
  }

  /** The text before the first separator holds no separator. */
  lemma SplitFirstClean(s: string, sep: string)
    requires sep != []
    ensures !Contains(Split(s, sep)[0], sep)
  {
    var i := Find(s, sep, 0, |s|);
    if i < 0 {
      FindNone(s, sep);
    } else {
      var head := s[..i];
      assert Split(s, sep)[0] == head;
      forall j | 0 <= j <= i - |sep| ensures !OccursAt(head, sep, j) {
        assert !OccursAt(s, sep, j);
        assert head[j..j + |sep|] == s[j..j + |sep|];
      }
    }
  }

  lemma {:induction false} SplitPiecesClean(s: string, sep: string)
    requires sep != []
    ensures forall k :: 0 <= k < |Split(s, sep)| ==> !Contains(Split(s, sep)[k], sep)
    decreases |s|
  {
    var i := Find(s, sep, 0, |s|);
    var r := Split(s, sep);
    SplitFirstClean(s, sep);
    if i >= 0 {
      var rest := s[i + |sep|..];
      SplitPiecesClean(rest, sep);
      assert r == [s[..i]] + Split(rest, sep);
      forall k | 0 < k < |r| ensures !Contains(r[k], sep) {
        assert r[k] == Split(rest, sep)[k - 1];
      }
    }
  }

  /** `s[:n]` for n >= 0 */
  function Take<T>(s: seq<T>, n: nat): (r: seq<T>)
    ensures |r| == if n < |s| then n else |s|
    ensures r == s[..|r|]
  {
    if n < |s| then s[..n] else s
  }

  /** `list(reversed(s))` */
  function Reverse<T>(s: seq<T>): (r: seq<T>)
    ensures |r| == |s|
    ensures forall i :: 0 <= i < |s| ==> r[i] == s[|s| - 1 - i]
  {
    if s == [] then [] else Reverse(s[1..]) + [s[0]]
  }

  lemma ReverseReverse<T>(s: seq<T>)
    ensures Reverse(Reverse(s)) == s
  {
    var r := Reverse(Reverse(s));
    assert forall i :: 0 <= i < |s| ==> r[i] == s[i];
  }

  /** `[f(x) for x in s]` */
  function MapSeq<T, U>(s: seq<T>, f: T -> U): (r: seq<U>)
    ensures |r| == |s|
    ensures forall i :: 0 <= i < |s| ==> r[i] == f(s[i])
  {
    if s == [] then [] else [f(s[0])] + MapSeq(s[1..], f)
  }

  lemma MapSeqSnoc<T, U>(s: seq<T>, x: T, f: T -> U)
    ensures MapSeq(s + [x], f) == MapSeq(s, f) + [f(x)]
  {
    var a := MapSeq(s + [x], f);
    var b := MapSeq(s, f) + [f(x)];
    forall k | 0 <= k < |a| ensures a[k] == b[k] {
      assert (s + [x])[k] == if k < |s| then s[k] else x;
    }
  }

  lemma {:induction false} MapSeqAppend<T, U>(a: seq<T>, b: seq<T>, f: T -> U)
    ensures MapSeq(a + b, f) == MapSeq(a, f) + MapSeq(b, f)
  {
    var l := MapSeq(a + b, f);
    var r := MapSeq(a, f) + MapSeq(b, f);
    forall k | 0 <= k < |l| ensures l[k] == r[k] {
      assert (a + b)[k] == if k < |a| then a[k] else b[k - |a|];
    }
  }

  /** A loop appending one formatted line per item:
      `for x in items: lines.append(format(x))`. */
  method AppendEach<T>(lines: seq<string>, items: seq<T>, format: T -> string) returns (out: seq<string>)
    ensures out == lines + MapSeq(items, format)
  {
    out := lines;
    var i := 0;
    while i < |items|
      invariant 0 <= i <= |items|
      invariant out == lines + MapSeq(items[..i], format)
    {
      MapSeqSnoc(items[..i], items[i], format);
      assert items[..i + 1] == items[..i] + [items[i]];
      out := out + [format(items[i])];
      i := i + 1;
    }
    assert items[..i] == items;
  }

  lemma AppendAssoc<T>(a: seq<T>, b: seq<T>, c: seq<T>)
    ensures a + b + c == a + (b + c)
  {
  }

  /** `c * n` for a one-character string */
  function Repeat(c: char, n: nat): (r: string)
    ensures |r| == n
    ensures forall i :: 0 <= i < n ==> r[i] == c
  {
    if n == 0 then "" else [c] + Repeat(c, n - 1)
  }

  predicate IsUpper(c: char) { 'A' <= c <= 'Z' }
  predicate IsLower(c: char) { 'a' <= c <= 'z' }
  predicate IsAlpha(c: char) { IsUpper(c) || IsLower(c) }

  /** `str.isalpha()` over ASCII: non-empty and every character a letter */
  predicate AllAlpha(s: string) {
    s != [] && forall i :: 0 <= i < |s| ==> IsAlpha(s[i])
  }

  function LowerChar(c: char): (r: char)
    ensures IsUpper(c) ==> IsLower(r)
    ensures !IsUpper(c) ==> r == c
  {
    if IsUpper(c) then (c as int - 'A' as int + 'a' as int) as char else c
  }

  /** `s.lower()` over ASCII */
  function Lower(s: string): (r: string)
    ensures |r| == |s|
    ensures forall i :: 0 <= i < |s| ==> r[i] == LowerChar(s[i])
  {
    if s == [] then "" else [LowerChar(s[0])] + Lower(s[1..])
  }

  /** Python's `str.isspace`, the white space `str.strip()` removes: the
      control characters 9-13 and 28-31, the space, NEL, the no-break
      space and the Unicode space separators and line and paragraph
      separators. */
  predicate IsSpace(c: char) {
    c == ' ' || ('\t' <= c <= '\r') || ('\U{1C}' <= c <= '\U{1F}') ||
    c == '\U{85}' || c == '\U{A0}' || c == '\U{1680}' || ('\U{2000}' <= c <= '\U{200A}') ||
    c == '\U{2028}' || c == '\U{2029}' || c == '\U{202F}' || c == '\U{205F}' || c == '\U{3000}'
  }

  function StripLeft(s: string): (r: string)
    ensures r == [] || !IsSpace(r[0])
    ensures exists k :: 0 <= k <= |s| && r == s[k..]
  {
    if s != [] && IsSpace(s[0]) then
      var r := StripLeft(s[1..]);
      var k :| 0 <= k <= |s[1..]| && r == s[1..][k..];
      assert r == s[k + 1..];
      r
    else
      assert s == s[0..];
      s
  }

  function StripRight(s: string): (r: string)
    ensures r == [] || !IsSpace(r[|r| - 1])
    ensures |r| <= |s| && r == s[..|r|]
  {
    if s != [] && IsSpace(s[|s| - 1]) then StripRight(s[..|s| - 1]) else s
  }

  /** `s.strip()` */
  function Strip(s: string): (r: string)
    ensures r == [] || (!IsSpace(r[0]) && !IsSpace(r[|r| - 1]))
  {
    StripRight(StripLeft(s))
  }

  /** A string is blank (`not s.strip()`) exactly when every character is
      white space. */
  lemma {:induction false} StripEmptyIffBlank(s: string)
    ensures Strip(s) == [] <==> forall i :: 0 <= i < |s| ==> IsSpace(s[i])
    decreases |s|
  {
    var l := StripLeft(s);
    StripLeftBlank(s);
    StripRightBlank(l);
  }

  lemma {:induction false} StripLeftBlank(s: string)
    ensures StripLeft(s) == [] <==> forall i :: 0 <= i < |s| ==> IsSpace(s[i])
    decreases |s|
  {
    if s != [] && IsSpace(s[0]) {
      StripLeftBlank(s[1..]);
      assert forall i :: 1 <= i < |s| ==> s[i] == s[1..][i - 1];
    }
  }

  lemma {:induction false} StripRightBlank(s: string)
    ensures StripRight(s) == [] <==> forall i :: 0 <= i < |s| ==> IsSpace(s[i])
    decreases |s|
  {
    if s != [] && IsSpace(s[|s| - 1]) {
      StripRightBlank(s[..|s| - 1]);
      assert forall i :: 0 <= i < |s| - 1 ==> s[i] == s[..|s| - 1][i];
    }
  }

  function DigitChar(d: nat): (c: char)
    requires d < 10
    ensures '0' <= c <= '9'
  {
    "0123456789"[d]
  }

  /** `str(n)` for a natural number */
  function NatToString(n: nat): (r: string)
    ensures r != []
    ensures forall i :: 0 <= i < |r| ==> '0' <= r[i] <= '9'
    ensures n < 10 ==> |r| == 1
  {
    if n < 10 then [DigitChar(n)] else NatToString(n / 10) + [DigitChar(n % 10)]
  }

  /** `str(i)` for an integer */
  function IntToString(i: int): (r: string)
    ensures r != []
    ensures (i < 0) == (r[0] == '-')
  {
    if i < 0 then "-" + NatToString(-i) else NatToString(i)
  }
}

=== FILE: svg_generator.dfy ===
/** The sequence-diagram generator of the debug UI
    (src/debug/svg_generator.py): the actors become vertical lanes, in
    order of first appearance after "telegram" and "dispatcher", and every
    trace event becomes an arrow between two lanes with a short label.

    The model keeps the diagram's layout decisions (the actors, the size,
    each arrow's lanes, row, marker and label) and leaves out the SVG text
    itself (styles, floating-point coordinates, HTML escaping). A missing
    key of an event reads as its default before it reaches the model. */
module SvgGenerator {
  import opened Wrappers
  import opened DebugTrace

  const DefaultActors: seq<string> := ["telegram", "dispatcher"]
  const LabelLimit: nat := 40
  const Ellipsis := "..."
  const DefaultMarker := "arrowhead"

  /** `actor and actor not in seen`: a new, non-empty actor joins the end. */
  function AddActor(actors: seq<string>, a: string): (r: seq<string>)
    ensures a != "" && a !in actors ==> r == actors + [a]
    ensures a == "" || a in actors ==> r == actors
  {
    if a != "" && a !in actors then actors + [a] else actors
  }

  /** The actors of the events, in order of first appearance (source before
      target within one event), after the two default actors. */
  function Actors(events: seq<SvgEvent>): seq<string>
    decreases |events|
  {
    if events == [] then DefaultActors
    else
      var e := events[|events| - 1];
      AddActor(AddActor(Actors(events[..|events| - 1]), e.source), e.target)
  }

  predicate Distinct(s: seq<string>) {
    forall i, j :: 0 <= i < j < |s| ==> s[i] != s[j]
  }

  /** The actors start with the two defaults. */
  lemma {:induction false} ActorsStartWithDefaults(events: seq<SvgEvent>)
    ensures |Actors(events)| >= 2 && Actors(events)[..2] == DefaultActors
    decreases |events|
  {
    if events != [] {
      var a0 := Actors(events[..|events| - 1]);
      ActorsStartWithDefaults(events[..|events| - 1]);
      var a1 := AddActor(a0, events[|events| - 1].source);
      assert a1[..2] == a0[..2];
      assert AddActor(a1, events[|events| - 1].target)[..2] == a1[..2];
    }
  }

  /** No actor appears twice, and none is empty. */
  lemma {:induction false} ActorsDistinct(events: seq<SvgEvent>)
    ensures Distinct(Actors(events))
    ensures "" !in Actors(events)
    decreases |events|
  {
    if events != [] {
      ActorsDistinct(events[..|events| - 1]);
    }
  }

  /** Every non-empty source and target is an actor. */
  lemma {:induction false} ActorsCoverEvents(events: seq<SvgEvent>)
    ensures forall e :: e in events && e.source != "" ==> e.source in Actors(events)
    ensures forall e :: e in events && e.target != "" ==> e.target in Actors(events)
    decreases |events|
  {
    if events != [] {
      var init := events[..|events| - 1];
      ActorsCoverEvents(init);
      assert events == init + [events[|events| - 1]];
    }
  }

  /** Every actor is a default one or the source or target of an event. */
  lemma {:induction false} ActorsFromEvents(events: seq<SvgEvent>)
    ensures forall a :: a in Actors(events) ==>
      (a in DefaultActors || exists e :: e in events && (a == e.source || a == e.target))
    decreases |events|
  {
    if events != [] {
      var init := events[..|events| - 1];
      var e := events[|events| - 1];
      ActorsFromEvents(init);
      var a0 := Actors(init);
      forall a | a in Actors(events)
        ensures a in DefaultActors || exists x :: x in events && (a == x.source || a == x.target)
      {
        if a in a0 {
          if a !in DefaultActors {
            var x :| x in init && (a == x.source || a == x.target);
            assert x in events;
          }
        } else {
          assert e in events;
        }
      }
    }
  }

  /** Later events never reorder the actors already found: the actors of a
      prefix of the events are a prefix of the actors of all of them. */
  lemma {:induction false} ActorsPrefix(events: seq<SvgEvent>, n: nat)
    requires n <= |events|
    ensures |Actors(events[..n])| <= |Actors(events)|
    ensures Actors(events[..n]) == Actors(events)[..|Actors(events[..n])|]
    decreases |events| - n
  {
    if n < |events| {
      var init := events[..|events| - 1];
      assert events[..n] == init[..n];
      ActorsPrefix(init, n);
    } else {
      assert events[..n] == events;
    }
  }

  /** `_extract_actors`: the defaults first, then each event's source and
      target when they are new. */
  method ExtractActors(events: seq<SvgEvent>) returns (actors: seq<string>)
    ensures actors == Actors(events)
  {
    var seen: set<string> := {};
    actors := [];
    var d := 0;
    while d < |DefaultActors|
      invariant 0 <= d <= |DefaultActors|
      invariant actors == DefaultActors[..d]
      invariant seen == set a | a in actors
    {
      if DefaultActors[d] !in seen {
        seen := seen + {DefaultActors[d]};
        actors := actors + [DefaultActors[d]];
      }
      d := d + 1;
    }
    var i := 0;
    while i < |events|
      invariant 0 <= i <= |events|
      invariant actors == Actors(events[..i])
      invariant seen == set a | a in actors
    {
      assert events[..i + 1][..i] == events[..i];
      var pair := [events[i].source, events[i].target];
      var k := 0;
      while k < 2
        invariant 0 <= k <= 2
        invariant seen == set a | a in actors
        invariant k == 0 ==> actors == Actors(events[..i])
        invariant k == 1 ==> actors == AddActor(Actors(events[..i]), pair[0])
        invariant k == 2 ==> actors == AddActor(AddActor(Actors(events[..i]), pair[0]), pair[1])
      {
        var actor := pair[k];
        if actor != "" && actor !in seen {
          seen := seen + {actor};
          actors := actors + [actor];
        }
        k := k + 1;
      }
      i := i + 1;
    }
    assert events[..i] == events;
  }

  /** `actors.index(a)`: the first position of `a`. */
  function IndexOf(actors: seq<string>, a: string): (r: Option<nat>)
    ensures r.None? <==> a !in actors
    ensures r.Some? ==> r.value < |actors| && actors[r.value] == a
    ensures r.Some? ==> forall j :: 0 <= j < r.value ==> actors[j] != a
  {
    if actors == [] then None
    else if actors[0] == a then Some(0)
    else
      match IndexOf(actors[1..], a)
      case None => None
      case Some(i) => Some(i + 1)
  }

  /** The lane of an arrow's source: an unknown source takes lane 0. */
  function SourceLane(actors: seq<string>, source: string): (r: nat)
    ensures source in actors ==> r < |actors| && actors[r] == source
    ensures source !in actors ==> r == 0
  {
    IndexOf(actors, source).GetOr(0)
  }

  /** The lane of an arrow's target: an unknown target takes the lane after
      the source's, or the last lane. */
  function TargetLane(actors: seq<string>, source_idx: nat, target: string): (r: int)
    ensures target in actors ==> 0 <= r < |actors| && actors[r] == target
    ensures target !in actors ==> r == if source_idx + 1 < |actors| - 1 then source_idx + 1 else |actors| - 1
  {
    match IndexOf(actors, target)
    case Some(i) => i
    case None => if source_idx + 1 < |actors| - 1 then source_idx + 1 else |actors| - 1
  }

  /** With at least one actor, both lanes of every arrow exist. */
  lemma LanesInRange(actors: seq<string>, source: string, target: string)
    requires actors != []
    ensures SourceLane(actors, source) < |actors|
    ensures 0 <= TargetLane(actors, SourceLane(actors, source), target) < |actors|
  {
  }

  /** The label of an arrow: a summary longer than 40 characters keeps its
      first 40 and gains "...". */
  function Label(summary: string): (r: string)
    ensures |summary| <= LabelLimit ==> r == summary
    ensures |summary| > LabelLimit ==>
      |r| == LabelLimit + |Ellipsis| && r[..LabelLimit] == summary[..LabelLimit] && r[LabelLimit..] == Ellipsis
    ensures |r| <= LabelLimit + |Ellipsis|
  {
    if |summary| > LabelLimit then summary[..LabelLimit] + Ellipsis else summary
  }

  /** The arrow marker of an event type; types without one use the plain
      "arrowhead". */
  function Marker(event_type: string): (r: string)
    ensures event_type !in {"request", "response", "tool_call", "delegation"} ==> r == DefaultMarker
    ensures event_type in {"request", "response", "tool_call", "delegation"} ==> r != DefaultMarker
    ensures event_type == "request" ==> r == "arrowhead-green"
    ensures event_type == "response" ==> r == "arrowhead-blue"
    ensures event_type == "tool_call" ==> r == "arrowhead-orange"
    ensures event_type == "delegation" ==> r == "arrowhead-purple"
  {
    if event_type == "request" then "arrowhead-green"
    else if event_type == "response" then "arrowhead-blue"
    else if event_type == "tool_call" then "arrowhead-orange"
    else if event_type == "delegation" then "arrowhead-purple"
    else DefaultMarker
  }

  /** The drawing parameters. */
  datatype Layout = Layout(width: int, row_height: int, margin: int)

  const DefaultLayout := Layout(900, 60, 40)

  /** The height of a diagram of `n` events: three spare rows and a margin
      above and below. */
  function Height(layout: Layout, n: nat): int {
    (n + 3) * layout.row_height + 2 * layout.margin
  }

  /** The lane width: the inner width shared by the actors, rounded down
      (Python's `//`), with no division by zero. */
  function LaneWidth(layout: Layout, actor_count: nat): (r: int)
    ensures var d := if actor_count > 0 then actor_count else 1;
      d * r <= layout.width - 2 * layout.margin < d * r + d
  {
    var d := if actor_count > 0 then actor_count else 1;
    (layout.width - 2 * layout.margin) / d
  }

  /** One arrow: its lanes, its row's height, its marker and its label. */
  datatype Arrow = Arrow(source_idx: nat, target_idx: int, y: int, marker: string, caption: string, duration: Option<real>)

  /** What `generate` draws. */
  datatype Diagram =
    | EmptyDiagram(width: int)
    | Diagram(width: int, height: int, lane_width: int, actors: seq<string>, arrows: seq<Arrow>,
              trace_prefix: string, event_count: nat)

  /** `_draw_event` for the event at row `index`. */
  function DrawEvent(layout: Layout, e: SvgEvent, index: nat, actors: seq<string>): (r: Arrow)
    ensures r.marker == Marker(e.etype) && r.caption == Label(e.summary)
    ensures r.y == layout.margin + 50 + (index + 1) * layout.row_height
    ensures r.source_idx == SourceLane(actors, e.source)
    ensures r.target_idx == TargetLane(actors, r.source_idx, e.target)
  {
    var s := SourceLane(actors, e.source);
    Arrow(s, TargetLane(actors, s, e.target), layout.margin + 50 + (index + 1) * layout.row_height,
          Marker(e.etype), Label(e.summary), e.duration_ms)
  }

  /** The first eight characters of the trace id, as the info box shows. */
  function TracePrefix(trace_id: string): (r: string)
    ensures |trace_id| <= 8 ==> r == trace_id
    ensures |trace_id| > 8 ==> r == trace_id[..8]
  {
    if |trace_id| <= 8 then trace_id else trace_id[..8]
  }

  /** The event loop of `generate`: one arrow per event, in order. */
  method DrawEvents(layout: Layout, events: seq<SvgEvent>, actors: seq<string>) returns (arrows: seq<Arrow>)
    requires actors != []
    ensures |arrows| == |events|
    ensures forall i :: 0 <= i < |events| ==>
      arrows[i] == DrawEvent(layout, events[i], i, actors) &&
      arrows[i].source_idx < |actors| && 0 <= arrows[i].target_idx < |actors|
  {
    arrows := [];
    var i := 0;
    while i < |events|
      invariant 0 <= i <= |events|
      invariant |arrows| == i
      invariant forall j :: 0 <= j < i ==>
        arrows[j] == DrawEvent(layout, events[j], j, actors) &&
        arrows[j].source_idx < |actors| && 0 <= arrows[j].target_idx < |actors|
    {
      LanesInRange(actors, events[i].source, events[i].target);
      arrows := arrows + [DrawEvent(layout, events[i], i, actors)];
      i := i + 1;
    }
  }

  /** `generate`: no events gives the placeholder; otherwise the size
      follows the event and actor counts, and there is one arrow per event,
      in order, between lanes that exist. */
  method Generate(layout: Layout, data: SvgData) returns (d: Diagram)
    ensures data.events == [] ==> d == EmptyDiagram(layout.width)
    ensures data.events != [] ==>
      d.Diagram? && d.actors == Actors(data.events) &&
      d.height == Height(layout, |data.events|) &&
      d.lane_width == LaneWidth(layout, |d.actors|) &&
      d.event_count == |data.events| && |d.arrows| == |data.events| &&
      d.trace_prefix == TracePrefix(data.trace_id)
    ensures data.events != [] ==> forall i :: 0 <= i < |data.events| ==>
      d.arrows[i] == DrawEvent(layout, data.events[i], i, d.actors) &&
      d.arrows[i].source_idx < |d.actors| && 0 <= d.arrows[i].target_idx < |d.actors|
  {
    var events := data.events;
    if events == [] {
      return EmptyDiagram(layout.width);
    }
    var actors := ExtractActors(events);
    ActorsStartWithDefaults(events);
    var height := Height(layout, |events|);
    var laneWidth := LaneWidth(layout, |actors|);
    var arrows := DrawEvents(layout, events, actors);
    d := Diagram(layout.width, height, laneWidth, actors, arrows, TracePrefix(data.trace_id), |events|);
  }
}

=== FILE: tool_registry.dfy ===
/** The registry of tools offered to the agent (src/tools/registry.py): an
    insertion-ordered dictionary from tool name to tool in which a later
    registration under the same name replaces the earlier one, and the
    configuration-driven choice of which tools to register. A tool is seen
    here only by its name; what each tool does is modelled in its own module. */
module ToolRegistry {
  import opened Wrappers
  import opened ConfigSchema
  import OrderedMaps

  datatype Tool = Tool(name: string)

  const ContextToolName: string := "get_conversation_history"
  const NotionSearchName: string := "notion_search"
  const CalendarReaderName: string := "calendar_reader"
  const CalendarWriterName: string := "calendar_writer"

  /** A Notion section with a non-empty API key. */
  predicate NotionSearchConfigured(tools: ToolsConfig) {
    tools.notion.Some? && tools.notion.value.api_key != ""
  }

  /** A calendar section with a credentials file, or with both service
      account fields. */
  predicate CalendarConfigured(tools: ToolsConfig) {
    tools.google_calendar.Some? &&
    var cal := tools.google_calendar.value;
    cal.credentials_path.GetOr("") != "" ||
    (cal.service_account_email.GetOr("") != "" && cal.service_account_key.GetOr("") != "")
  }

  /** The names `initialize_tools` registers, in registration order.
      `search_importable` stands for the vector-store imports succeeding;
      when they fail the Notion search tool is skipped. */
  function ConfiguredNames(tools: ToolsConfig, has_context_manager: bool, search_importable: bool): (r: seq<string>)
    ensures ContextToolName in r <==> has_context_manager
    ensures NotionSearchName in r <==> NotionSearchConfigured(tools) && search_importable
    ensures CalendarReaderName in r <==> CalendarConfigured(tools)
    ensures CalendarWriterName in r <==> CalendarConfigured(tools)
    ensures forall n :: n in r ==> n in {ContextToolName, NotionSearchName, CalendarReaderName, CalendarWriterName}
    ensures forall i, j :: 0 <= i < j < |r| ==> r[i] != r[j]
  {
    ContextNames(has_context_manager) + SearchNames(tools, search_importable) + CalendarNames(tools)
  }

  function ContextNames(has_context_manager: bool): seq<string> {
    if has_context_manager then [ContextToolName] else []
  }

  function SearchNames(tools: ToolsConfig, search_importable: bool): seq<string> {
    if NotionSearchConfigured(tools) && search_importable then [NotionSearchName] else []
  }

  function CalendarNames(tools: ToolsConfig): seq<string> {
    if CalendarConfigured(tools) then [CalendarReaderName, CalendarWriterName] else []
  }

  /** The registry after registering a tool under each name in turn. */
  function RegisterAll(d: seq<(string, Tool)>, names: seq<string>): seq<(string, Tool)>
    decreases |names|
  {
    if names == [] then d
    else
      var n := names[|names| - 1];
      OrderedMaps.Put(RegisterAll(d, names[..|names| - 1]), n, Tool(n))
  }

  lemma RegisterAllSnoc(d: seq<(string, Tool)>, names: seq<string>, n: string)
    ensures RegisterAll(d, names + [n]) == OrderedMaps.Put(RegisterAll(d, names), n, Tool(n))
  {
    assert (names + [n])[..|names|] == names;
  }

  /** Registering distinct names into an empty registry lists them in
      registration order, each with its own tool. */
  lemma {:induction false} RegisterAllFromEmpty(names: seq<string>)
    requires forall i, j :: 0 <= i < j < |names| ==> names[i] != names[j]
    ensures |RegisterAll([], names)| == |names|
    ensures OrderedMaps.Keys(RegisterAll([], names)) == names
    ensures forall i :: 0 <= i < |names| ==> RegisterAll([], names)[i].1 == Tool(names[i])
    decreases |names|
  {
    if names != [] {
      var init := names[..|names| - 1];
      var n := names[|names| - 1];
      RegisterAllFromEmpty(init);
      var d := RegisterAll([], init);
      assert !OrderedMaps.HasKey(d, n) by {
        forall i | 0 <= i < |d| ensures d[i].0 != n {
          assert d[i].0 == OrderedMaps.Keys(d)[i] == names[i];
        }
      }
      var r := RegisterAll([], names);
      assert r == d + [(n, Tool(n))];
      forall i | 0 <= i < |names| ensures r[i].0 == names[i] && r[i].1 == Tool(names[i]) {
        if i < |init| {
          assert r[i] == d[i] && names[i] == init[i];
          assert d[i].0 == OrderedMaps.Keys(d)[i];
        }
      }
      assert OrderedMaps.Keys(r) == names;
    }
  }

  /** On a fresh registry, `initialize_tools` leaves exactly the configured
      tools, in registration order; with no context manager and no tool
      configuration it registers nothing. */
  lemma InitializeFromEmpty(config: ToolsConfig, has_context_manager: bool, search_importable: bool)
    ensures OrderedMaps.Keys(RegisterAll([], ConfiguredNames(config, has_context_manager, search_importable)))
            == ConfiguredNames(config, has_context_manager, search_importable)
    ensures !has_context_manager && config.notion.None? && config.google_calendar.None? ==>
            RegisterAll([], ConfiguredNames(config, has_context_manager, search_importable)) == []
  {
    RegisterAllFromEmpty(ConfiguredNames(config, has_context_manager, search_importable));
  }

  class ToolRegistry {
    var tools: seq<(string, Tool)>

    /** Names are distinct and every tool is filed under its own name. */
    ghost predicate Valid()
      reads this
    {
      OrderedMaps.DistinctKeys(tools) &&
      forall i :: 0 <= i < |tools| ==> tools[i].1.name == tools[i].0
    }

    constructor()
      ensures Valid() && tools == []
    {
      tools := [];
    }

    predicate Contains(name: string)
      reads this
    {
      OrderedMaps.HasKey(tools, name)
    }

    /** `register_tool`: the tool is filed under its name, replacing any
        earlier tool of that name in place. */
    method RegisterTool(t: Tool)
      requires Valid()
      modifies this
      ensures Valid()
      ensures tools == OrderedMaps.Put(old(tools), t.name, t)
      ensures GetTool(t.name) == Some(t)
      ensures |tools| == if old(Contains(t.name)) then old(|tools|) else old(|tools|) + 1
    {
      ghost var before := tools;
      OrderedMaps.PutSize(before, t.name, t);
      forall n ensures OrderedMaps.Get(OrderedMaps.Put(before, t.name, t), n) == if n == t.name then Some(t) else OrderedMaps.Get(before, n) {
        OrderedMaps.PutGet(before, t.name, t, n);
      }
      tools := OrderedMaps.Put(tools, t.name, t);
      assert Valid() by {
        var r := tools;
        forall i | 0 <= i < |r| ensures r[i].1.name == r[i].0 {
          if r[i].0 == t.name {
            var g := OrderedMaps.Get(r, t.name);
            var j :| 0 <= j < |r| && r[j] == (t.name, g.value);
            assert i == j;
          } else {
            var g := OrderedMaps.Get(r, r[i].0);
            var j :| 0 <= j < |r| && r[j] == (r[i].0, g.value);
            assert i == j;
            var j' :| 0 <= j' < |before| && before[j'] == (r[i].0, g.value);
          }
        }
      }
    }

    /** `get_tool`: the tool registered under the name, or None. */
    function GetTool(name: string): (r: Option<Tool>)
      reads this
      ensures r.None? <==> !Contains(name)
    {
      OrderedMaps.Get(tools, name)
    }

    /** `get_all_tools`: one tool per registered name. */
    function GetAllTools(): (all: seq<Tool>)
      requires Valid()
      reads this
      ensures |all| == |tools|
      ensures forall i :: 0 <= i < |all| ==> Contains(all[i].name)
      ensures forall i, j :: 0 <= i < j < |all| ==> all[i].name != all[j].name
    {
      var all := OrderedMaps.Values(tools);
      assert forall i :: 0 <= i < |all| ==> all[i].name == tools[i].0;
      all
    }

    /** One registration step of `initialize_tools`. */
    method RegisterNamed(ghost start: seq<(string, Tool)>, ghost added: seq<string>, name: string)
      requires Valid() && tools == RegisterAll(start, added)
      modifies this
      ensures Valid() && tools == RegisterAll(start, added + [name])
    {
      RegisterTool(Tool(name));
      RegisterAllSnoc(start, added, name);
    }

    /** The conversation-history section of `initialize_tools`. */
    method RegisterContextTool(ghost start: seq<(string, Tool)>, has_context_manager: bool)
      requires Valid() && tools == start
      modifies this
      ensures Valid() && tools == RegisterAll(start, ContextNames(has_context_manager))
    {
      if has_context_manager {
        RegisterNamed(start, [], ContextToolName);
        assert [] + [ContextToolName] == ContextNames(has_context_manager);
      }
    }

    /** The Notion search section of `initialize_tools`. */
    method RegisterSearchTool(ghost start: seq<(string, Tool)>, ghost added: seq<string>,
                              config: ToolsConfig, search_importable: bool)
      requires Valid() && tools == RegisterAll(start, added)
      modifies this
      ensures Valid() && tools == RegisterAll(start, added + SearchNames(config, search_importable))
    {
      if NotionSearchConfigured(config) && search_importable {
        RegisterNamed(start, added, NotionSearchName);
      } else {
        assert added + SearchNames(config, search_importable) == added;
      }
    }

    /** The calendar section of `initialize_tools`: the reader, then the
        writer. */
    method RegisterCalendarTools(ghost start: seq<(string, Tool)>, ghost added: seq<string>, config: ToolsConfig)
      requires Valid() && tools == RegisterAll(start, added)
      modifies this
      ensures Valid() && tools == RegisterAll(start, added + CalendarNames(config))
    {
      if CalendarConfigured(config) {
        RegisterNamed(start, added, CalendarReaderName);
        RegisterNamed(start, added + [CalendarReaderName], CalendarWriterName);
        assert added + [CalendarReaderName] + [CalendarWriterName] == added + CalendarNames(config);
      } else {
        assert added + CalendarNames(config) == added;
      }
    }

    /** `initialize_tools`: registers the conversation-history tool when a
        context manager is given, the Notion search tool when Notion has an
        API key, and both calendar tools when calendar credentials are set,
        in that order. */
    method InitializeTools(config: ToolsConfig, has_context_manager: bool, search_importable: bool)
      requires Valid()
      modifies this
      ensures Valid()
      ensures tools == RegisterAll(old(tools), ConfiguredNames(config, has_context_manager, search_importable))
    {
      ghost var start := tools;
      RegisterContextTool(start, has_context_manager);
      RegisterSearchTool(start, ContextNames(has_context_manager), config, search_importable);
      RegisterCalendarTools(start, ContextNames(has_context_manager) + SearchNames(config, search_importable), config);
    }
  }
}

=== FILE: tool_result.dfy ===
/** The `ToolResult` record every tool returns (src/tools/base.py), with the
    tool-specific `data` payload as a type parameter. */
module ToolResults {
  import opened Wrappers

  datatype ToolResult<D> = ToolResult(
    success: bool,
    data: Option<D>,
    error: Option<string>,
    message: Option<string>)

  /** `ToolResult(success=False, data=None, error=e)` */
  function ErrorResult<D>(e: string): ToolResult<D> {
    ToolResult(false, None, Some(e), None)
  }

  /** `ToolResult(success=True, data=d, message=m)` */
  function Ok<D>(d: D, m: Option<string>): ToolResult<D> {
    ToolResult(true, Some(d), None, m)
  }
}

=== FILE: web_registry.dfy ===
/** The registry of debug-UI subsections (src/web/registry.py): subsections
    are kept by name in an insertion-ordered dictionary and listed by
    ascending priority. */
module WebRegistry {
  import opened Wrappers
  import opened Strs
  import OrderedMaps
  import Sorting

  /** What the registry needs of a subsection: its metadata. */
  datatype Subsection = Subsection(name: string, display_name: string, priority: int, icon: string)

  /** `get_metadata` (src/web/base.py) */
  datatype Metadata = Metadata(name: string, display_name: string, priority: int, icon: string)

  function MetadataOf(s: Subsection): (m: Metadata)
    ensures m.name == s.name && m.priority == s.priority
  {
    Metadata(s.name, s.display_name, s.priority, s.icon)
  }

  function Priority(s: Subsection): real {
    s.priority as real
  }

  /** `sorted(values, key=priority)`: ascending priority, ties in
      dictionary order. */
  function ByPriority(subsections: seq<Subsection>): (r: seq<Subsection>)
    ensures Sorting.SortedBy(r, Priority)
    ensures multiset(r) == multiset(subsections)
    ensures forall p: real :: Sorting.WithKey(r, Priority, p) == Sorting.WithKey(subsections, Priority, p)
  {
    var r := Sorting.SortBy(subsections, Priority);
    forall p: real ensures Sorting.WithKey(r, Priority, p) == Sorting.WithKey(subsections, Priority, p) {
      Sorting.SortStable(subsections, Priority, p);
    }
    r
  }

  class SubsectionRegistry {
    var subsections: seq<(string, Subsection)>

    /** Names are distinct and every entry sits under its own name. */
    ghost predicate Valid()
      reads this
    {
      OrderedMaps.DistinctKeys(subsections) &&
      forall i :: 0 <= i < |subsections| ==> subsections[i].1.name == subsections[i].0
    }

    constructor()
      ensures Valid() && subsections == []
    {
      subsections := [];
    }

    /** `register`: a new name goes last; an existing name keeps its place
        and its instance is replaced. */
    method Register(s: Subsection)
      requires Valid()
      modifies this
      ensures Valid()
      ensures subsections == OrderedMaps.Put(old(subsections), s.name, s)
      ensures |subsections| == if OrderedMaps.HasKey(old(subsections), s.name) then |old(subsections)| else |old(subsections)| + 1
      ensures Get(s.name) == Some(s)
      ensures forall n :: n != s.name ==> Get(n) == old(Get(n))
    {
      ghost var before := subsections;
      OrderedMaps.PutSize(subsections, s.name, s);
      subsections := OrderedMaps.Put(subsections, s.name, s);
      OrderedMaps.PutGet(before, s.name, s, s.name);
      forall n | n != s.name ensures OrderedMaps.Get(subsections, n) == OrderedMaps.Get(before, n) {
        OrderedMaps.PutGet(before, s.name, s, n);
      }
      forall i | 0 <= i < |subsections| ensures subsections[i].1.name == subsections[i].0 {
        var k := subsections[i].0;
        OrderedMaps.PutGet(before, s.name, s, k);
        assert OrderedMaps.HasKey(subsections, k);
        var g := OrderedMaps.Get(subsections, k);
        var j :| 0 <= j < |subsections| && subsections[j] == (k, g.value);
        assert i == j;
        if k != s.name {
          var m :| 0 <= m < |before| && before[m] == (k, g.value);
        }
      }
    }

    /** `get`: the instance registered last under the name, if any. */
    function Get(name: string): (r: Option<Subsection>)
      reads this
      ensures r.None? <==> !OrderedMaps.HasKey(subsections, name)
    {
      OrderedMaps.Get(subsections, name)
    }

    /** `get_all`: one instance per name, by ascending priority. */
    function GetAll(): (r: seq<Subsection>)
      reads this
      ensures |r| == |subsections|
      ensures Sorting.SortedBy(r, Priority)
      ensures multiset(r) == multiset(OrderedMaps.Values(subsections))
      ensures forall p: real :: Sorting.WithKey(r, Priority, p) == Sorting.WithKey(OrderedMaps.Values(subsections), Priority, p)
    {
      ByPriority(OrderedMaps.Values(subsections))
    }

    /** `get_metadata_list`: the metadata of each subsection, in `get_all`
        order. */
    function GetMetadataList(): (r: seq<Metadata>)
      reads this
      ensures |r| == |subsections|
      ensures forall i :: 0 <= i < |r| ==> r[i] == MetadataOf(GetAll()[i])
    {
      MapSeq(GetAll(), MetadataOf)
    }
  }
}

=== FILE: websocket_manager.dfy ===
/** The websocket connection manager of the debug web UI
    (src/web/websocket_manager.py): the set of open connections, and for
    each subsection the set of connections subscribed to its updates.

    A connection is identified by a number. Sending a message is an input
    (`delivers`: whether the send to a connection succeeds); the accept
    and close handshakes are not part of this model. */
module WebsocketManager {
  type Socket = nat

  /** Both tables at one moment. */
  datatype Tables = Tables(connections: set<Socket>, subscriptions: map<string, set<Socket>>)

  /** Every socket of `gone` removed from both tables; the subsections stay. */
  function RemoveAll(t: Tables, gone: set<Socket>): (r: Tables)
    ensures r.subscriptions.Keys == t.subscriptions.Keys
    ensures forall s :: s in gone ==> s !in r.connections
    ensures forall s, k :: s in gone && k in r.subscriptions ==> s !in r.subscriptions[k]
    ensures forall s :: s !in gone ==> (s in r.connections <==> s in t.connections)
    ensures forall s, k :: s !in gone && k in t.subscriptions ==>
      (s in r.subscriptions[k] <==> s in t.subscriptions[k])
  {
    Tables(t.connections - gone, map k | k in t.subscriptions :: t.subscriptions[k] - gone)
  }

  /** Removing sockets one after another removes them all. */
  lemma RemoveAllTwice(t: Tables, a: set<Socket>, b: set<Socket>)
    ensures RemoveAll(RemoveAll(t, a), b) == RemoveAll(t, a + b)
  {
    var l := RemoveAll(RemoveAll(t, a), b);
    var r := RemoveAll(t, a + b);
    assert l.connections == r.connections;
    assert l.subscriptions.Keys == r.subscriptions.Keys;
    forall k | k in l.subscriptions ensures l.subscriptions[k] == r.subscriptions[k] {
      assert RemoveAll(t, a).subscriptions[k] == t.subscriptions[k] - a;
    }
  }

  /** `subscribe`: the socket joins the subsection's set, created when the
      subsection has none. */
  function Subscribed(t: Tables, ws: Socket, name: string): (r: Tables)
    ensures r.connections == t.connections
    ensures r.subscriptions.Keys == t.subscriptions.Keys + {name}
    ensures ws in r.subscriptions[name]
    ensures forall s :: s != ws ==>
      (s in r.subscriptions[name] <==> name in t.subscriptions && s in t.subscriptions[name])
    ensures forall k :: k in t.subscriptions && k != name ==> r.subscriptions[k] == t.subscriptions[k]
  {
    var current := if name in t.subscriptions then t.subscriptions[name] else {};
    Tables(t.connections, t.subscriptions[name := current + {ws}])
  }

  /** Removing no socket changes nothing. */
  lemma RemoveNothing(t: Tables)
    ensures RemoveAll(t, {}) == t
  {
    var r := RemoveAll(t, {});
    assert r.subscriptions.Keys == t.subscriptions.Keys;
    forall k | k in r.subscriptions ensures r.subscriptions[k] == t.subscriptions[k] {
      assert r.subscriptions[k] == t.subscriptions[k] - {};
    }
    assert r.subscriptions == t.subscriptions;
  }

  /** The sockets listed in `s`. */
  function Members(s: seq<Socket>): (r: set<Socket>)
    ensures forall x :: x in r <==> x in s
  {
    set x | x in s
  }

  /** The sockets of `targets` to which a send fails. */
  function Failed(targets: set<Socket>, delivers: Socket -> bool): (r: set<Socket>)
    ensures r <= targets
    ensures forall s :: s in targets ==> (s in r <==> !delivers(s))
  {
    set s | s in targets && !delivers(s)
  }

  class ConnectionManager {
    var connections: set<Socket>
    var subscriptions: map<string, set<Socket>>

    ghost function State(): Tables
      reads this
    {
      Tables(connections, subscriptions)
    }

    constructor()
      ensures connections == {} && subscriptions == map[]
    {
      connections := {};
      subscriptions := map[];
    }

    /** `connect` */
    method Connect(ws: Socket)
      modifies this
      ensures connections == old(connections) + {ws}
      ensures subscriptions == old(subscriptions)
    {
      connections := connections + {ws};
    }

    /** `disconnect`: out of the connection set and out of every
        subscription set. */
    method Disconnect(ws: Socket)
      modifies this
      ensures State() == RemoveAll(old(State()), {ws})
    {
      connections := connections - {ws};
      var todo := subscriptions.Keys;
      while todo != {}
        invariant todo <= subscriptions.Keys == old(subscriptions).Keys
        invariant forall k :: k in subscriptions ==>
          subscriptions[k] == if k in todo then old(subscriptions)[k] else old(subscriptions)[k] - {ws}
        invariant connections == old(connections) - {ws}
        decreases |todo|
      {
        var k :| k in todo;
        subscriptions := subscriptions[k := subscriptions[k] - {ws}];
        todo := todo - {k};
      }
      assert subscriptions == RemoveAll(old(State()), {ws}).subscriptions;
    }

    /** `subscribe` */
    method Subscribe(ws: Socket, name: string)
      modifies this
      ensures State() == Subscribed(old(State()), ws, name)
    {
      if name !in subscriptions {
        subscriptions := subscriptions[name := {}];
      }
      subscriptions := subscriptions[name := subscriptions[name] + {ws}];
    }

    /** `unsubscribe`: an unknown subsection is left alone. */
    method Unsubscribe(ws: Socket, name: string)
      modifies this
      ensures connections == old(connections)
      ensures name !in old(subscriptions) ==> subscriptions == old(subscriptions)
      ensures name in old(subscriptions) ==>
        subscriptions == old(subscriptions)[name := old(subscriptions)[name] - {ws}]
    {
      if name in subscriptions {
        subscriptions := subscriptions[name := subscriptions[name] - {ws}];
      }
    }

    /** The send loop: every target is tried once, in no particular order,
        and the failures are collected. */
    method SendAll(targets: set<Socket>, delivers: Socket -> bool) returns (failed: seq<Socket>)
      ensures Members(failed) == Failed(targets, delivers)
    {
      failed := [];
      var todo := targets;
      while todo != {}
        invariant todo <= targets
        invariant forall s :: s in failed <==> s in Failed(targets - todo, delivers)
        decreases |todo|
      {
        var s :| s in todo;
        if !delivers(s) {
          failed := failed + [s];
        }
        todo := todo - {s};
      }
    }

    /** The clean-up loop: each failed socket is disconnected. */
    method DisconnectEach(gone: seq<Socket>)
      modifies this
      ensures State() == RemoveAll(old(State()), Members(gone))
    {
      var i := 0;
      RemoveNothing(State());
      assert Members(gone[..0]) == {};
      while i < |gone|
        invariant 0 <= i <= |gone|
        invariant State() == RemoveAll(old(State()), Members(gone[..i]))
      {
        Disconnect(gone[i]);
        RemoveAllTwice(old(State()), Members(gone[..i]), {gone[i]});
        assert Members(gone[..i + 1]) == Members(gone[..i]) + {gone[i]} by {
          assert gone[..i + 1] == gone[..i] + [gone[i]];
        }
        i := i + 1;
      }
      assert gone[..i] == gone;
    }

    /** `broadcast_to_subsection`: an unknown subsection sends nothing and
        changes nothing; otherwise exactly the subscribers the send fails
        for are disconnected. */
    method BroadcastToSubsection(name: string, delivers: Socket -> bool)
      modifies this
      ensures name !in old(subscriptions) ==> State() == old(State())
      ensures name in old(subscriptions) ==>
        State() == RemoveAll(old(State()), Failed(old(subscriptions)[name], delivers))
    {
      if name !in subscriptions {
        return;
      }
      var failed := SendAll(subscriptions[name], delivers);
      DisconnectEach(failed);
    }

    /** `broadcast_all`: exactly the connections the send fails for are
        disconnected. */
    method BroadcastAll(delivers: Socket -> bool)
      modifies this
      ensures State() == RemoveAll(old(State()), Failed(old(connections), delivers))
    {
      var failed := SendAll(connections, delivers);
      DisconnectEach(failed);
    }

    /** `disconnect_all`: both tables end empty. */
    method DisconnectAllConnections()
      modifies this
      ensures connections == {} && subscriptions == map[]
    {
      connections := {};
      subscriptions := map[];
    }

    /** `connection_count` */
    function ConnectionCount(): (n: nat)
      reads this
      ensures n == |connections|
    {
      |connections|
    }
  }
}

=== FILE: wrappers.dfy ===
/** Failure-compatible wrappers shared by every module of the model:
    `Option` for Python's `Optional[...]`/`None`, and `Result` for an
    operation that either returns a value or raises. */
module Wrappers {

  datatype Option<+T> = None | Some(value: T) {
    predicate IsFailure() { None? }

    function PropagateFailure<U>(): Option<U>
      requires None?
    {
      None
    }

    function Extract(): T
      requires Some?
    {
      value
    }

    /** `x if x is not None else default` */
    function GetOr(default: T): T {
      match this
      case Some(v) => v
      case None => default
    }
  }

  datatype Result<+T, +E> = Success(value: T) | Failure(error: E) {
    predicate IsFailure() { Failure? }

    function PropagateFailure<U>(): Result<U, E>
      requires Failure?
    {
      Failure(error)
    }

    function Extract(): T
      requires Success?
    {
      value
    }
  }
}
